=== FILE: README.md ===
# qudi-HiM core, modelled in Dafny

qudi-HiM drives the Hi-M and related fluorescence microscopes of a lab: logic
modules for regions of interest (ROIs), the probe positioning of the fluidics
stage, injection sequences, laser, filter-wheel, flow-control and configurator
settings, and the tasks that run multi-step experiment cycles, together with
hardware modules for valves, filter wheels, a piezo, an FPGA and a dummy
camera. This project models the deterministic logic of those modules as pure
Dafny functions over immutable datatypes. A hardware call becomes either an
emitted command in a returned list or a parameter carrying what the device
reports. Each operation is paired with lemmas stating what the source promises
about it.

Conventions used throughout:

- Python dictionaries are insertion-ordered association lists (module
  `Assoc`), so that `d[k] = v` keeps or appends keys as Python does; module
  `Dicts` adds deletion and the sorted list models over integer keys.
- Raised exceptions are `Result.Err` carrying the Python exception class
  (module `Wrappers`).
- Python's `int()`, `//`, `%`, `round` and `str.zfill` are written out in
  `Numeric` and `Text`.
- Floats are modelled as `real`.

One module per source file:

| module | file |
|---|---|
| `Roi` | logic/roi_logic.py |
| `Positioning` | logic/positioning_logic.py |
| `Injections` | logic/injections_logic.py |
| `LaserControl` | logic/lasercontrol_logic.py and logic/filterwheel_logic.py |
| `HiM` | logic/tasks/HiM_task_RAMM_Celesta.py |
| `Hubble` | logic/tasks/hubble_task_RAMM.py |
| `Timelapse` | logic/tasks/timelapse_task_RAMM.py |
| `Palm` | logic/tasks/roi_multicolor_scan_task_PALM.py |
| `ZStack` | the stack start formula shared by the tasks |
| `FlowControl` | logic/flowcontrol_logic.py |
| `ExperimentConfigurator` | logic/experiment_configurator_logic.py |
| `BasicGui` | gui/fluorescence_microscopy/basic_gui.py |
| `FitsMetadata` | logic/camera_logic.py |
| `NiFpga` | hardware/fpga/ni_fpga.py |
| `Valves` | hardware/valve/hamilton_valve.py and hardware/valve/valve_dummy.py |
| `FilterWheels` | hardware/wheels/thorlabs_fast_filter_wheel.py and hardware/wheels/dummy_filter_wheel.py |
| `CameraDummy` | hardware/camera/camera_dummy.py |
| `OdorCircuit` | gui/Fly_Arena_GUIs/odor_circuit/odor_circuit_arduino_gui.py |
| `LaserShutter` | logic/laser_shutter_logic.py |
| `Brightfield` | logic/brightfield_logic.py |
| `AutofocusCamera` | logic/autofocus_logic_camera.py |
| `NanoDrive` | hardware/motor/motor_mcl_nanodrive.py |

## Model

| member | source | states |
|---|---|---|
| Roi.Find | logic/roi_logic.py:290-292 | the index found holds the name and no earlier ROI has it; None exactly when the name is absent |
| Roi.Put | logic/roi_logic.py:280 | `self._rois[name] = roi` appends under a new name and overwrites in place under a known one |
| Roi.FindPut | logic/roi_logic.py:280 | after the assignment the ROI is found under its name, and the names are unchanged or gain that name at the end |
| Roi.Remove | logic/roi_logic.py:292 | after `del`, no ROI carries the deleted name and the list has not grown |
| Roi.SetPosition | logic/roi_logic.py:402-408 | a position of length other than 3 raises ValueError; otherwise it is stored component by component |
| Roi.NewRegionOfInterest | logic/roi_logic.py:352-394 | a ROI is built exactly for a 3-vector and a non-empty name; a bad position raises ValueError, an empty name AttributeError (the setter reads `_rois`, which a ROI lacks) |
| Roi.RoiDictRoundTrip | logic/roi_logic.py:410-421 | `from_dict(to_dict(roi))` gives the ROI back |
| Roi.NameNumberOfRoiName | logic/roi_logic.py:274-277 | `int(name.strip('ROI_'))` reads back the number the generic name 'ROI_' + zfill(3) was built from |
| Roi.ZFillIntEnds | logic/roi_logic.py:276 | a zero-padded numeral starts with a sign or digit and ends with a digit, so `strip('ROI_')` leaves it intact |
| Roi.RoiNameInjective | logic/roi_logic.py:275-277 | two numbers give the same generic name only if they are equal |
| Roi.GenericName | logic/roi_logic.py:266-277 | ValueError exactly when the list is non-empty and its last key holds no number |
| Roi.GenericNameSpec | logic/roi_logic.py:266-277 | an empty list names the ROI after int(first_digit); otherwise after the last key's number plus one, and ValueError when the last key holds no number |
| Roi.GenericNameNumber | logic/roi_logic.py:266-277 | the generic name reads back as int(first_digit) on an empty list, else as the last key's number plus one |
| Roi.GenericNamesFresh | logic/roi_logic.py:265-277 | a number above every existing one gives a name none of them has |
| Roi.LastNameNumber | logic/roi_logic.py:271-274 | on a list numbered in increasing order the last key reads back as the largest number |
| Roi.GenericNameNumbered | logic/roi_logic.py:266-277 | on a numbered list the new name is the one for the next number and is new |
| Roi.AddRoi | logic/roi_logic.py:252-280 | ValueError exactly when no generic name can be made; otherwise the ROI is found under the generic name with the given position, appended when the name is new and in place of the old one otherwise |
| Roi.AddRoiAppends | logic/roi_logic.py:279-280 | a ROI under a new name is appended at the end |
| Roi.NumberedAppend | logic/roi_logic.py:275-280 | appending a name numbered above the last keeps the list increasingly numbered |
| Roi.AddRoiFresh | logic/roi_logic.py:265-280 | adding keeps the list numbered with the next number appended and never reuses an existing name |
| Roi.NumberedUnique | logic/roi_logic.py:265-277 | increasingly numbered lists have distinct names |
| Roi.RemoveUniqueAt | logic/roi_logic.py:292 | with distinct names, deleting entry k's name removes exactly entry k and keeps the order |
| Roi.RemoveKeepsOthers | logic/roi_logic.py:292 | deleting never introduces a name |
| Roi.RemoveAbsent | logic/roi_logic.py:292 | removing an absent name changes nothing |
| Roi.RemoveNumbered | logic/roi_logic.py:282-292 | deleting entry k of a numbered list leaves a list numbered by the other numbers |
| Roi.NamesDrop | logic/roi_logic.py:282-292 | the names after dropping entry k are the names with entry k dropped |
| Roi.IncreasingDrop | logic/roi_logic.py:265-266 | dropping a number keeps the numbers increasing |
| Roi.DeletedNumberNotRefilled | logic/roi_logic.py:265-277 | after deleting a ROI that is not last, the next ROI never gets the deleted name |
| Roi.NumberedNameDiffers | logic/roi_logic.py:265-277 | entry k never carries another number's name |
| Roi.DeletingLastReusesName | logic/roi_logic.py:271-277 | deleting the last ROI hands its name to the next ROI added, since the name derives from the last key |
| Roi.GetRoiPosition | logic/roi_logic.py:215-224 | TypeError for a non-str name, KeyError for an unknown one, else the position stored under that name (the list origin is the constant zero vector) |
| Roi.DeleteRoi | logic/roi_logic.py:282-292 | TypeError for a non-str name, KeyError for an unknown one, else the named ROI is removed |
| Roi.DeleteRoiExact | logic/roi_logic.py:282-292 | with distinct names, deleting removes exactly that ROI and keeps the others in order |
| Roi.ListToDict | logic/roi_logic.py:312-320 | the dictionary keeps the list name and one entry per ROI |
| Roi.RoisToDicts | logic/roi_logic.py:320 | entry i is the dictionary of ROI i |
| Roi.BuildRois | logic/roi_logic.py:331-332 | when every ROI dictionary builds, there is one ROI per dictionary |
| Roi.ListDictRoundTrip | logic/roi_logic.py:312-342 | a named list with distinct non-empty ROI names is rebuilt exactly by `from_dict(to_dict(l))` |
| Roi.BuildRoisRoundTrip | logic/roi_logic.py:320-332 | the ROI dictionaries build back into the same ROIs |
| Roi.AddAllUnique | logic/roi_logic.py:120-122 | adding ROIs with new, distinct names appends them in order |
| Roi.SetActiveRoi | logic/roi_logic.py:884-898 | None or '' clears the active ROI, a known name becomes active, a wrong type or unknown name changes nothing; the list never changes |
| Roi.LogicAddRoi | logic/roi_logic.py:648-683 | on success the new ROI is active and its name was not in the list before; a ValueError of the name changes nothing; when the generic name exists, the list keeps its names with that ROI replaced, and KeyError is raised with the active ROI unchanged |
| Roi.LogicAddRoiNumbered | logic/roi_logic.py:648-683 | on a numbered list the add succeeds, appends under the next generic name, makes it active, and keeps the list numbered |
| Roi.LogicDeleteRoi | logic/roi_logic.py:718-746 | an empty list, or no name and no active ROI, leaves the state as it is |
| Roi.LogicDeleteActive | logic/roi_logic.py:737-741 | deleting the active ROI hands the active role to the first remaining ROI, or to none |
| Roi.LogicDeleteOther | logic/roi_logic.py:718-746 | deleting another ROI keeps the active one |
| Roi.LogicDeleteAllRoi | logic/roi_logic.py:869-881 | the list keeps its name, loses every ROI, and nothing is active |
| Roi.DeleteEach | logic/roi_logic.py:876-879 | deleting every listed name in turn empties the list |
| Roi.Row | logic/roi_logic.py:991-995 | row y has width points, x ascending on even rows and descending on odd ones |
| Roi.Rows | logic/roi_logic.py:981-995 | the grid has width * height points |
| Roi.SerpentineGridPoint | logic/roi_logic.py:991-995 | point k lies in row k / width, at column k % width on even rows and mirrored on odd rows |
| Roi.LastRowPoint | logic/roi_logic.py:991-995 | point x of the last row added sits at index width * h + x |
| Roi.SerpentineGridSize | logic/roi_logic.py:981-995 | width * height points, none when either is not positive (empty `range`) |
| Roi.SerpentineGridSortedByY | logic/roi_logic.py:994 | the returned points are ordered by y, as the sort by the second element leaves them |
| Roi.MosaicCenters | logic/roi_logic.py:962-975 | one centre per grid point, in the grid's order |
| Roi.Consecutive | logic/roi_logic.py:962-975 | consecutive numbers from the start |
| Roi.AddCentersNumbered | logic/roi_logic.py:962-979 | the centres are added in order under consecutive generic names from the next number, keeping the list numbered |
| Roi.AfterCentersNumbered | logic/roi_logic.py:962-979 | appending the new ROIs keeps the list numbered by the consecutive run |
| Roi.MosaicFromEmpty | logic/roi_logic.py:946-979 | a new mosaic is the serpentine centres added to an empty list named after the time stamp |
| Roi.NewMosaic | logic/roi_logic.py:946-979 | a new mosaic holds ROI_001 onward at the grid centres in serpentine order |
| Roi.NewMosaicActive | logic/roi_logic.py:946-979 | after a new mosaic the last ROI of the scan is active |
| Positioning.Columns | logic/positioning_logic.py:186-189 | the columns hold n * ny entries |
| Positioning.ColumnWithFirst | logic/positioning_logic.py:189 | picking first component x out of column c gives column c when x == c, nothing otherwise |
| Positioning.ParityColumnsWithFirst | logic/positioning_logic.py:186-187 | each parity list holds column x exactly when x has its parity and is in range |
| Positioning.AllColumnsWithFirst | logic/positioning_logic.py:188-189 | the entries with first component x in `list_even + list_odd` are column x |
| Positioning.SortedIsColumns | logic/positioning_logic.py:189 | the stable sort by x of `list_even + list_odd` is the columns in ascending x |
| Positioning.ColumnsAt | logic/positioning_logic.py:186-189 | entry i of column c is at index c * ny + i |
| Positioning.ColumnsPoint | logic/positioning_logic.py:186-189 | entry k lies in column k / ny, upward on even columns and downward on odd ones |
| Positioning.PolarCoords | logic/positioning_logic.py:202 | nphi * nr entries |
| Positioning.PolarPoint | logic/positioning_logic.py:202 | entry k is (k % nr, k / nr) |
| Positioning.NumberedMap | logic/positioning_logic.py:192-194 | the keys are exactly the probe numbers 1 to the list's length |
| Positioning.CartesianGridEntry | logic/positioning_logic.py:181-194 | probes 1..nx*ny exist; probe p is in column (p-1) / ny, y ascending on even and descending on odd columns |
| Positioning.PolarGridEntry | logic/positioning_logic.py:196-206 | probes 1..nr*nphi exist; probe p is ((p-1) % nr, (p-1) / nr) |
| Positioning.ProbePositions | logic/positioning_logic.py:231-244 | every probe of a known grid gets its sheared cartesian or polar position; an unknown grid gets none |
| Positioning.OriginOfGrid | logic/positioning_logic.py:234-242 | grid point (0, 0) sits at the origin |
| Positioning.FirstProbeAtOrigin | logic/positioning_logic.py:161-244 | probe 1 sits at the origin on both grids of any non-empty shape |
| Positioning.SetOrigin | logic/positioning_logic.py:161-168 | the origin is recorded and exactly the probes of a known grid get a position; the move state and the commands are unchanged |
| Positioning.StartMoveStage | logic/positioning_logic.py:266-315 | a position not of length 3 changes nothing; otherwise the stage first goes to the safety height and the z target is clamped to it |
| Positioning.StartMoveToTarget | logic/positioning_logic.py:317-366 | nothing without an origin; otherwise the moving, go-to-target and target flags are set first, an unknown probe then raises KeyError with them left set and nothing sent, and a known one starts the move with z target the origin's z |
| Positioning.XYStep | logic/positioning_logic.py:368-395 | the xy loop sends the z move only once x and y are within 0.005 of the target; otherwise nothing changes |
| Positioning.ZTestAsWrittenOneSided | logic/positioning_logic.py:429 | the written test reports "not reached" only above the target plus tolerance; the intended one on both sides |
| Positioning.ZBelowTargetCountsAsReached | logic/positioning_logic.py:429 | a stage 1 unit below its target counts as arrived for the written test and not for the intended one |
| Positioning.ZStepWith | logic/positioning_logic.py:413-448 | the z loop sends no command; once reached it ends the move and emits the signal of the method that started it |
| Positioning.ZStepAsWritten | logic/positioning_logic.py:413-448 | as written, a running move ends exactly when the stage is not more than 0.002 above the z target, however far below it is |
| Positioning.ZStep | logic/positioning_logic.py:413-448 | with the intended test a running move ends exactly when the stage is within 0.002 of the z target |
| Positioning.ZStepAsWrittenStopsEarly | logic/positioning_logic.py:429 | the written loop ends a move with the stage at 0 and the target at 1; the intended one keeps polling |
| Positioning.AbortMovement | logic/positioning_logic.py:450-463 | the stage is stopped and the moving, move_stage and go_to_target flags cleared |
| Positioning.StoppedStaysQuiet | logic/positioning_logic.py:368-448 | once stopped, the loops send no command and no signal, whatever the stage reports |
| Positioning.RunKeepsMoveLog | logic/positioning_logic.py:303-395 | the commands sent are always z to safety, then xy, then z after an xy reading within tolerance |
| Positioning.MoveStageOrder | logic/positioning_logic.py:303-315 | a move issues z to safety height first, xy next, and the final z only after x/y are within 0.005 |
| Positioning.AbortIsFinal | logic/positioning_logic.py:450-463 | after an abort, whatever the stage reports, nothing else is sent |
| Injections.AddEntryMirrors | logic/injections_logic.py:160-162 | after `d[key] = name` the list model is the dictionary sorted by key |
| Injections.AddEntry | logic/injections_logic.py:160-162 | the key reads the new name and every other key is unchanged |
| Injections.RowKey | logic/injections_logic.py:169-170 | the key shown in a row, a negative row counting from the end |
| Injections.DeleteEntry | logic/injections_logic.py:169-176 | an out-of-range row raises IndexError; otherwise that row's key is removed |
| Injections.DeleteEntryMirrors | logic/injections_logic.py:165-176 | on a mirrored listing deleting never raises KeyError, removes exactly the row's key and keeps the listing mirrored |
| Injections.Activate | logic/injections_logic.py:135-144 | activation leaves only the probe buffer on the probe valve and no probes or steps |
| Injections.AddBuffer | logic/injections_logic.py:154-163 | the valve now holds the name, replacing any earlier one; no other valve changes |
| Injections.DeleteBuffer | logic/injections_logic.py:165-176 | the probe valve's row is kept; any other row loses its valve |
| Injections.DeleteBufferRemoves | logic/injections_logic.py:170-176 | on a valid state, deleting a non-probe buffer row removes that valve |
| Injections.DeleteAllBuffers | logic/injections_logic.py:178-186 | exactly the probe buffer on the probe valve is left |
| Injections.AddProbe | logic/injections_logic.py:188-197 | the position now holds the probe name; no other position changes |
| Injections.DeleteProbe | logic/injections_logic.py:199-208 | no probe position is protected |
| Injections.DeleteAllProbes | logic/injections_logic.py:210-216 | no probe is left |
| Injections.AppendStep | logic/injections_logic.py:227-234 | the step is appended to the named procedure's list; any other procedure name changes nothing |
| Injections.AddInjectionStep | logic/injections_logic.py:219-234 | the named procedure's list gains exactly one step, at its end, carrying the product, volume and flow rate and no time; the other list, the buffers, the probes and the probe valve are unchanged; any other procedure name changes nothing (`else: pass`) |
| Injections.AddIncubationStep | logic/injections_logic.py:237-250 | the named procedure's list gains exactly one step, at its end, carrying only the time; the other list, the buffers, the probes and the probe valve are unchanged; any other procedure name changes nothing |
| Injections.AddedStepShape | logic/injections_logic.py:219-250 | injection steps carry a product and no time, incubation steps a time and no product |
| Injections.DeleteHybridizationStep | logic/injections_logic.py:253-258 | the row is removed from the hybridization list only |
| Injections.DeletePhotobleachingStep | logic/injections_logic.py:261-266 | the row is removed from the photobleaching list only |
| Injections.ClearSteps | logic/injections_logic.py:268-282 | the chosen list is emptied and the other kept |
| Injections.ApplyKeepsValid | logic/injections_logic.py:154-282 | every edit keeps the list models mirroring their dictionaries and the probe buffer present; only an out-of-range row raises, with IndexError |
| Injections.RunStart | logic/injections_logic.py:378-389 | start of the run of `\w` characters, ASCII or Unicode word characters, before a position |
| Injections.FirstTaggedColon | logic/injections_logic.py:378-389 | the first colon preceded by a `\w` character, ASCII or Unicode |
| Injections.ColonTag | logic/injections_logic.py:378-389 | `re.findall('\w+:', s)[0]`, when found, is at least one character and the colon |
| Injections.ColonTagShape | logic/injections_logic.py:378-389 | a found tag is a non-empty run of `\w` characters ending just before its colon, and there is one exactly when some colon follows a `\w` character |
| Injections.UnicodeLetterTags | logic/injections_logic.py:378 | `\w` on a string pattern accepts non-ASCII letters: "é:" is a tag exactly when 'é' is a Unicode word character |
| Injections.BufferName | logic/injections_logic.py:378-389 | the tag before the first tagged colon when there is one, the product otherwise; empty exactly when the product is empty |
| Injections.AnyBufferMatches | logic/injections_logic.py:391-392 | the pattern name[:-1] + '*' matches a buffer exactly when one starts with name[:-1]; an empty name raises the pattern error |
| Injections.CheckSteps | logic/injections_logic.py:379-396 | the loop raises only the regular-expression error, reading buffer names as literal text |
| Injections.CheckStepsSpec | logic/injections_logic.py:379-396 | for buffer names without regular-expression metacharacters, the loop accepts exactly when every step is accepted, and raises only for an empty product met before a rejected step |
| Injections.Consistency | logic/injections_logic.py:366-370 | the check passes only when there is a probe |
| Injections.ConsistencySpec | logic/injections_logic.py:360-418 | for buffer names without regular-expression metacharacters, the check passes exactly when there is a probe and every step of both lists names a buffer |
| Injections.LastCharacterIsOptional | logic/injections_logic.py:391-392 | a step asking for "Wash" passes when only "Wasabi" is defined |
| Injections.BeforeColon | logic/injections_logic.py:338-352 | `product.split(':')[0]` is everything before the first colon |
| Injections.BeforeColonOfTagged | logic/injections_logic.py:338-352 | 'name:valve' is saved as name |
| Injections.BeforeColonIdempotent | logic/injections_logic.py:338-352 | saving a saved product again changes nothing |
| Injections.SaveSteps | logic/injections_logic.py:338-352 | the saved steps are numbered from 1 and products lose their ':valve' suffix |
| Injections.SaveInjections | logic/injections_logic.py:324-358 | nothing is saved when the consistency check fails, its error propagates, otherwise the file holds both step lists |
| LaserControl.InitIntensityDict | logic/lasercontrol_logic.py:108-121 | one entry per laser, all set to the value |
| LaserControl.InitIntensityDictReads | logic/lasercontrol_logic.py:117-121 | every laser reads the value and no other key exists |
| LaserControl.Activate | logic/lasercontrol_logic.py:78-86 | activation leaves the output off and every intensity 0 |
| LaserControl.ResetIntensityDict | logic/lasercontrol_logic.py:123-132 | the same keys, all 0 |
| LaserControl.ResetIntensityDictReads | logic/lasercontrol_logic.py:130-131 | after a reset every key reads 0 and none is added |
| LaserControl.Writes | logic/lasercontrol_logic.py:171-180 | a DAQ writes intensity * range_max / 100 per laser, an FPGA the percentage itself; a laser without intensity raises KeyError after the writes to the lasers before it |
| LaserControl.ApplyVoltage | logic/lasercontrol_logic.py:163-182 | the output is marked on and every laser is written its stored intensity; a laser without one raises KeyError, keeping the flag and the writes already sent |
| LaserControl.ApplyVoltageCovered | logic/lasercontrol_logic.py:163-182 | with every laser covered the call never fails |
| LaserControl.ZeroWrites | logic/lasercontrol_logic.py:201-203 | a write of 0 for every laser channel |
| LaserControl.VoltageOff | logic/lasercontrol_logic.py:195-209 | the output is off, every channel gets 0, the intensities are kept |
| LaserControl.StopLaserOutput | logic/lasercontrol_logic.py:352-357 | the output always ends off with the intensities kept; the stop is signalled exactly when it was on, and otherwise nothing changes or is written |
| LaserControl.UpdateIntensityDict | logic/lasercontrol_logic.py:135-161 | a known laser reads the new value with the keys kept; an unknown identifier changes nothing |
| LaserControl.UpdateIntensityDictApplies | logic/lasercontrol_logic.py:151-155 | re-application happens exactly when the output is on and every other key keeps its value |
| LaserControl.UpdateIntensityDictAsWritten | logic/lasercontrol_logic.py:135-157 | as written, the key reads the new value whether or not it was known, every other key keeps its value, and nothing is written while the output is off |
| LaserControl.UpdateIntensityDictAsWrittenAddsKey | logic/lasercontrol_logic.py:151-157 | as written, an unknown identifier is added to the dictionary |
| LaserControl.UpdateIntensityDictAgrees | logic/lasercontrol_logic.py:151-157 | on a known laser the written and the corrected update agree |
| LaserControl.SetFilterPosition | logic/filterwheel_logic.py:69-85 | with lasers on the wheel is not commanded; otherwise the intensities are reset first and the new-setting signal fires only when the wheel returns 0 |
| LaserControl.FilterMovesOnlyDark | logic/filterwheel_logic.py:77-85 | whenever the wheel moves, the output is off and every intensity reads 0 |
| HiM.LaserCode | logic/tasks/HiM_task_RAMM_Celesta.py:773-790 | the laser at index i encodes as i + 1 (the later one for a repeated wavelength); an unknown source, the brightfield included, as 0 |
| HiM.FpgaChannels | logic/tasks/HiM_task_RAMM_Celesta.py:783-794 | one code per imaging line, then zeros up to the maximum number of lines |
| HiM.LastIntensity | logic/tasks/HiM_task_RAMM_Celesta.py:783-788 | the intensity of the last line naming the source, None when no line does |
| HiM.CelestaIntensities | logic/tasks/HiM_task_RAMM_Celesta.py:773-788 | the dictionary covers exactly the lasers; each reads the last line's intensity for it, else 0 |
| HiM.ChannelsMatchIntensities | logic/tasks/HiM_task_RAMM_Celesta.py:783-790 | a line has a non-zero code exactly when its source is in the intensity dictionary, with that line's or a later line's intensity |
| HiM.AxialCorrection | logic/tasks/HiM_task_RAMM_Celesta.py:822-841 | dz[0] = z_first - z_last and dz[n] = z[n] - z[n-1] |
| HiM.CorrectionsTrack | logic/tasks/HiM_task_RAMM_Celesta.py:822-841 | starting at the last ROI, the corrections of ROIs 0..k lead to ROI k |
| HiM.CorrectionsSumToZero | logic/tasks/HiM_task_RAMM_Celesta.py:829-838 | over a full cycle the corrections sum to 0 |
| HiM.SetValvesAndNeedle | logic/tasks/HiM_task_RAMM_Celesta.py:1018-1049 | fails exactly for an unknown product, with KeyError |
| HiM.NeedleCounters | logic/tasks/HiM_task_RAMM_Celesta.py:1035-1047 | the needle counters move only for the needle valve; the first use increments both without moving the needle |
| HiM.IncubationWaits | logic/tasks/HiM_task_RAMM_Celesta.py:1104-1130 | every wait but the last is 30 s, and the last is below 30 s; the abort flag is re-read before each chunk |
| HiM.TotalOfChunks | logic/tasks/HiM_task_RAMM_Celesta.py:1115-1125 | k chunks of 30 plus a rest total 30 * k + rest |
| HiM.IncubationTotal | logic/tasks/HiM_task_RAMM_Celesta.py:1115-1125 | without an abort the waits add up to t; an abort first seen before chunk k leaves 30 * min(k, t // 30) + t % 30, and one seen before the first chunk only t % 30 |
| HiM.AfterAutofocus | logic/tasks/HiM_task_RAMM_Celesta.py:1201-1210 | a success resets the failure counter and never aborts |
| HiM.FailuresAfterLast | logic/tasks/HiM_task_RAMM_Celesta.py:1201-1210 | the counter is 1 right after a failure and 0 otherwise |
| HiM.AbortOnSecondFailure | logic/tasks/HiM_task_RAMM_Celesta.py:1201-1210 | a failed search aborts exactly when the one before failed too |
| HiM.StripNumberedRoi | logic/tasks/HiM_task_RAMM_Celesta.py:907 | `strip('ROI_')` turns 'ROI_' + digits back into the digits |
| HiM.CompletePathOfNumberedRoi | logic/tasks/HiM_task_RAMM_Celesta.py:887-916 | for a ROI 'ROI_' + digits the file is directory/roi/probe/scan_{prefix}_{probe}_{digits}_ROI.{format} |
| ZStack.StartPosition | logic/tasks/HiM_task_RAMM_Celesta.py:796-820 | a centered stack starts num_planes // 2 steps below the current position; otherwise at it |
| ZStack.StartAndReturn | logic/tasks/hubble_task_RAMM.py:699-723 | the start position as above, and the current position to return to |
| ZStack.CenteredStack | logic/tasks/HiM_task_RAMM_Celesta.py:810-820 | the current position is plane planes // 2; equally many planes lie below and above for odd counts, one more below for even |
| ZStack.Positions | logic/tasks/hubble_task_RAMM.py:730-735 | the first position is the start and each next adds the step at its index |
| ZStack.PositionsAreSums | logic/tasks/hubble_task_RAMM.py:730-735 | the position after i steps is the start plus the sum of those steps |
| Hubble.SurfaceShifts | logic/tasks/hubble_task_RAMM.py:643-653 | dz[0] = 0 and dz[n] = z[n] - z[n-1] from the fitted surface |
| Hubble.AbsolutePositionsAsWritten | logic/tasks/hubble_task_RAMM.py:725-735 | as written: z[0] = current and z[n+1] = z[n] + dz[n]; IndexError for no ROI or too few shifts |
| Hubble.AbsolutePositions | logic/tasks/hubble_task_RAMM.py:725-735 | corrected: z[n+1] = z[n] + dz[n+1], the shift measured on arriving at ROI n+1 |
| Hubble.AbsolutePositionsFollowSurface | logic/tasks/hubble_task_RAMM.py:643-653 | with the fitted shifts every ROI is expected at the current focus plus its fitted height above the first ROI |
| Hubble.AbsolutePositionsAsWrittenLag | logic/tasks/hubble_task_RAMM.py:730-735 | as written ROI n is expected at the fitted height of ROI n - 1 |
| Hubble.AbsolutePositionsAsWrittenMissesSecondRoi | logic/tasks/hubble_task_RAMM.py:730-735 | with fitted foci 0.0 and 1.0 the written code expects the second ROI at 0.0, the corrected one at 1.0 |
| Hubble.SourceCode | logic/tasks/hubble_task_RAMM.py:364-368 | 'Brightfield' encodes as 0, any other source as its dictionary entry |
| Hubble.SourceCodes | logic/tasks/hubble_task_RAMM.py:362-368 | every source is encoded, KeyError at an unknown one |
| Hubble.EncodeSequence | logic/tasks/hubble_task_RAMM.py:358-377 | the wavelength and intensity lists hold the line entries, padded with zeros to five |
| Hubble.RoiChannels | logic/tasks/hubble_task_RAMM.py:459-460 | one frame list per channel |
| Hubble.SaveFrom | logic/tasks/hubble_task_RAMM.py:456-470 | one entry per ROI, each with one list per channel |
| Hubble.SaveHubbleData | logic/tasks/hubble_task_RAMM.py:451-470 | one entry per ROI |
| Hubble.SaveFromShift | logic/tasks/hubble_task_RAMM.py:456-470 | ROI k of the loop is ROI 0 of a loop started k blocks later |
| Hubble.SaveFromBlock | logic/tasks/hubble_task_RAMM.py:456-470 | ROI k takes the k-th block |
| Hubble.RoiChannelFrame | logic/tasks/hubble_task_RAMM.py:459-460 | on a complete block every channel holds planes frames and frame j of channel c is block frame c + j * lines |
| Hubble.RoiFramePartition | logic/tasks/hubble_task_RAMM.py:459-460 | each frame of a block lands in exactly one channel, channel i % lines at position i / lines |
| Hubble.SavedRoi | logic/tasks/hubble_task_RAMM.py:456-458 | on a full image ROI k takes frames k * planes * lines up to the next block |
| Hubble.SavedFrame | logic/tasks/hubble_task_RAMM.py:456-460 | ROI k, channel c, plane j is frame k * planes * lines + c + j * lines |
| Hubble.FileNameFields | logic/tasks/hubble_task_RAMM.py:433 | the file name splits into the ROI head, the channel numeral and the extension |
| Hubble.FileNamesDistinct | logic/tasks/hubble_task_RAMM.py:433-434 | two channels of one ROI never share a file name |
| Hubble.CompletePath | logic/tasks/hubble_task_RAMM.py:422-444 | the path ends with the file name hubble_{roi:03}_ch_{ch:03}.{fmt} right after a '/', and is the folder, '/' and the name when the folder does not end in '/' |
| Hubble.FolderLayout | logic/tasks/hubble_task_RAMM.py:434 | for a plain directory and ROI name the folder is directory/channel_{ch}/{roi} |
| Hubble.CompletePathLayout | logic/tasks/hubble_task_RAMM.py:433-443 | for a plain directory and ROI name the path is directory/channel_{ch}/{roi}/hubble_{roi:03}_ch_{ch:03}.{fmt} |
| Hubble.CompletePathsDistinct | logic/tasks/hubble_task_RAMM.py:433-443 | two channels of one ROI never share a path, for any directory and ROI name |
| Timelapse.ChannelBlocks | logic/tasks/timelapse_task_RAMM.py:296-299 | one block per channel |
| Timelapse.RoiBlocks | logic/tasks/timelapse_task_RAMM.py:294-312 | one entry per ROI, each with one block per channel |
| Timelapse.SaveTimelapseData | logic/tasks/timelapse_task_RAMM.py:294-312 | one entry per ROI |
| Timelapse.ChannelBlocksCover | logic/tasks/timelapse_task_RAMM.py:296-312 | on enough frames the channel blocks are consecutive and cover exactly the ROI's frames |
| Timelapse.RoiBlockAt | logic/tasks/timelapse_task_RAMM.py:294-312 | ROI k starts k * total planes frames after the start |
| Timelapse.RoiBlocksCover | logic/tasks/timelapse_task_RAMM.py:294-312 | the ROI blocks are consecutive and together are exactly the frames from the start on |
| Timelapse.JoinFrames | logic/tasks/timelapse_task_RAMM.py:294-312 | the frames of the first ROI followed by those of the rest |
| Timelapse.SaveCoversCycle | logic/tasks/timelapse_task_RAMM.py:118-119 | a full cycle's frames are saved exactly once, each (ROI, channel) holding its planes |
| Timelapse.SaveCallsAsWritten | logic/tasks/timelapse_task_RAMM.py:304-310 | as written, 'fits' is the only format that calls two writers, and the last writer is never fits |
| Timelapse.SaveCalls | logic/tasks/timelapse_task_RAMM.py:304-310 | corrected: exactly one writer per block: fits for 'fits', npy for 'npy', tiff for every other format |
| Timelapse.SaveCallsAgree | logic/tasks/timelapse_task_RAMM.py:304-310 | the two agree on every format but 'fits' |
| Timelapse.FitsAlsoSavedAsTiff | logic/tasks/timelapse_task_RAMM.py:304-310 | a fits block is also written as tiff to the same path |
| Timelapse.CompletePath | logic/tasks/timelapse_task_RAMM.py:493-504 | the path ends with the file name TL_{prefix}_roi_{roi:03}_ch_{ch:03}_step_{n:03}.{fmt} |
| Timelapse.FileNamesDistinct | logic/tasks/timelapse_task_RAMM.py:501 | in one ROI, different channels or steps never share a name |
| Timelapse.RunStep | logic/tasks/timelapse_task_RAMM.py:324-335 | each step moves the counter on by one |
| Timelapse.CyclesFromCount | logic/tasks/timelapse_task_RAMM.py:155-335 | from a counter on the task runs iterations - counter more cycles, or just the step started when the counter has reached the number of iterations; none when the guard (autofocus not initialised, or an abort already seen) stops the first step, and an abort seen at counter k cuts the run to the steps before k |
| Timelapse.CyclesRun | logic/tasks/timelapse_task_RAMM.py:106-158 | from counter 0 the task runs num_iterations cycles (one when that is below 1) with the autofocus initialised and no abort, none when the autofocus was not initialised, and min(num_iterations, k) when the abort is first seen by the step with counter k |
| Palm.ForbiddenLasers | logic/tasks/roi_multicolor_scan_task_PALM.py:373-377 | the forbidden labels are exactly laser{i+1} for each False entry |
| Palm.LasersAllowed | logic/tasks/roi_multicolor_scan_task_PALM.py:365-383 | KeyError without the filter entry; otherwise False exactly when a sequence label is forbidden |
| Palm.EmptySequenceAllowed | logic/tasks/roi_multicolor_scan_task_PALM.py:378-383 | an empty sequence is allowed behind any configured filter |
| Palm.RunTaskStep | logic/tasks/roi_multicolor_scan_task_PALM.py:134-260 | a failing laser or autofocus check skips the step and ends the task; otherwise the ROI at the counter is acquired and the task continues while ROIs remain, and a counter past the end of the list raises IndexError |
| Palm.AcquiredFrom | logic/tasks/roi_multicolor_scan_task_PALM.py:134-260 | a run of steps either counts its acquisitions or ends with IndexError; with a failing check it acquires nothing |
| Palm.AcquiredCount | logic/tasks/roi_multicolor_scan_task_PALM.py:134-260 | a passing task acquires every remaining ROI once and raises IndexError when none remains (an empty list), a failing one acquires none |
| FlowControl.Round3 | logic/flowcontrol_logic.py:451-453 | rounding to three decimals moves by at most 0.0005 |
| FlowControl.StartVolumeMeasurement | logic/flowcontrol_logic.py:420-441 | total and time are 0, measuring is set, reached is cleared exactly for a positive target |
| FlowControl.VolumeMeasurementLoop | logic/flowcontrol_logic.py:442-475 | total grows by flowrate * interval / 60 rounded, time by the interval; reached iff total ≥ target or not measuring, and then measuring ends and no step follows |
| FlowControl.StopVolumeMeasurement | logic/flowcontrol_logic.py:477-486 | measuring cleared, reached set, the count kept |
| FlowControl.StopEndsLoop | logic/flowcontrol_logic.py:461-473 | after a stop the running step schedules no other |
| FlowControl.LoopProgress | logic/flowcontrol_logic.py:451-453 | a flowrate adding at least 0.001 per step raises the count on the 0.001 grid by at least 0.001 |
| FlowControl.LoopStaysOnGrid | logic/flowcontrol_logic.py:451-453 | the rounded count stays on the 0.001 grid |
| FlowControl.InitPid | logic/flowcontrol_logic.py:358-368 | gains and sample time from the configuration, output limited to its pressure range |
| FlowControl.StartRegulation | logic/flowcontrol_logic.py:382-393 | regulating, with the target flow rate as setpoint |
| FlowControl.StopRegulation | logic/flowcontrol_logic.py:395-399 | stopping clears the regulating flag and keeps the PID settings |
| FlowControl.RegulationLifecycle | logic/flowcontrol_logic.py:382-419 | after a start the loop reschedules itself with the PID aiming at the target; after the stop it does not; a new start resumes it with the new target |
| FlowControl.StopRegulationEndsLoop | logic/flowcontrol_logic.py:395-399 | after a stop no regulation step follows |
| ExperimentConfigurator.InitDefaultConfig | logic/experiment_configurator_logic.py:182-210 | the mode is kept, all three imaging lists emptied and every key without a default unchanged |
| ExperimentConfigurator.DefaultKeysDistinct | logic/experiment_configurator_logic.py:188-209 | no default is assigned twice |
| ExperimentConfigurator.InitDefaultConfigReads | logic/experiment_configurator_logic.py:188-209 | after the defaults every default key reads its default value |
| ExperimentConfigurator.UpdateCheckbox | logic/experiment_configurator_logic.py:451-487 | state 2 stores True, 0 False, any other state leaves the dictionary as it is |
| ExperimentConfigurator.UpdateFilterPos | logic/experiment_configurator_logic.py:518-524 | the combobox index + 1 is stored |
| ExperimentConfigurator.FilterPosRoundTrip | logic/experiment_configurator_logic.py:518-524 | reading the stored position back and subtracting 1 gives the index |
| ExperimentConfigurator.WithItems | logic/experiment_configurator_logic.py:665-691 | the current mode's list is replaced and the 'imaging_sequence' entry set to it |
| ExperimentConfigurator.NewEntry | logic/experiment_configurator_logic.py:665-691 | the entry keeps the lightsource and intensity; it is a plain pair exactly in the standard mode, a RAMM step exactly in the RAMM timelapse and a PALM step exactly in the PALM timelapse; timelapse entries keep the plane count and z step, PALM entries the filter position |
| ExperimentConfigurator.AddEntry | logic/experiment_configurator_logic.py:665-691 | the entry goes last in the current list |
| ExperimentConfigurator.PythonIndex | logic/experiment_configurator_logic.py:694-714 | a negative index counts from the end |
| ExperimentConfigurator.DeleteEntry | logic/experiment_configurator_logic.py:694-714 | exactly the row at the index is removed; an out-of-range row raises IndexError |
| ExperimentConfigurator.DeleteUndoesAdd | logic/experiment_configurator_logic.py:665-714 | deleting the row just added restores the list |
| ExperimentConfigurator.DeleteImagingList | logic/experiment_configurator_logic.py:717-724 | all three lists emptied; the dictionary and the mode unchanged |
| ExperimentConfigurator.AddAfterDeleteImagingList | logic/experiment_configurator_logic.py:665-724 | after clearing, the next add starts a new list holding only that entry |
| ExperimentConfigurator.FindTask | logic/experiment_configurator_logic.py:233-368 | the first branch naming the experiment, as the `elif` chain picks it |
| ExperimentConfigurator.FindTaskAt | logic/experiment_configurator_logic.py:233-368 | the chain picks the first branch naming the experiment |
| ExperimentConfigurator.Entries | logic/experiment_configurator_logic.py:302 | the present keys with their values, in order |
| ExperimentConfigurator.Extract | logic/experiment_configurator_logic.py:370-372 | a missing key raises KeyError; otherwise every key with its value |
| ExperimentConfigurator.SaveConfig | logic/experiment_configurator_logic.py:212-379 | an unknown experiment raises TypeError exactly when no file name is given; a known one raises KeyError exactly when a branch key is missing, and is otherwise written to the path joined with the default or given name; 'experiment' is always added |
| ExperimentConfigurator.SaveConfigAsWritten | logic/experiment_configurator_logic.py:212-379 | as written, an unknown experiment raises TypeError exactly when no file name is given; a named copy of a branch that selects entries only by default writes just 'experiment'; every written file records the experiment |
| ExperimentConfigurator.SaveConfigEntries | logic/experiment_configurator_logic.py:366-374 | the written entries are exactly the branch's keys with the dictionary's values, and 'experiment' |
| ExperimentConfigurator.SaveConfigAgrees | logic/experiment_configurator_logic.py:304-322 | written and corrected saving agree except on a named copy of a branch that selects entries only under the default name |
| ExperimentConfigurator.NamedCopyIsEmpty | logic/experiment_configurator_logic.py:304-322 | as written, a named Airyscan confocal copy writes only 'experiment' |
| ExperimentConfigurator.ConfocalKeysOnlyByDefault | logic/experiment_configurator_logic.py:304-322 | the Airyscan confocal branch selects its five entries only under the default name |
| BasicGui.CalculateBlocks | gui/fluorescence_microscopy/basic_gui.py:740-756 | fails exactly for b == 0, with ZeroDivisionError |
| BasicGui.CalculateBlocksShape | gui/fluorescence_microscopy/basic_gui.py:749-756 | for N >= 0 and b > 0: N // b full blocks of b, plus one more holding the remainder when it is positive |
| BasicGui.CalculateBlocksCover | gui/fluorescence_microscopy/basic_gui.py:749-756 | the blocks add up to N |
| BasicGui.TotalOfFull | gui/fluorescence_microscopy/basic_gui.py:752-753 | k full blocks hold k * b images |
| BasicGui.Contains | gui/fluorescence_microscopy/basic_gui.py:86 | `key in item` raises TypeError exactly for a list element that is not iterable (a number, a boolean, None) |
| BasicGui.FirstWithKey | gui/fluorescence_microscopy/basic_gui.py:83-87 | the loop stops at the first element containing the key, a substring of a string, an element of a list or a key of a dictionary; it finds none when every element misses; it raises TypeError when a value that is not iterable comes first |
| BasicGui.FirstWithKeyAt | gui/fluorescence_microscopy/basic_gui.py:83-87 | an element that is the first not to miss ends the loop: TypeError when it is not iterable, found otherwise |
| BasicGui.Put | gui/fluorescence_microscopy/basic_gui.py:110-116 | the result is still a dictionary |
| BasicGui.Act | gui/fluorescence_microscopy/basic_gui.py:91-116 | TypeError only; a string or other value in place of the container raises exactly for 'set' and 'append'; a dictionary target always succeeds; a list target stays a list and never shrinks |
| BasicGui.ActOnList | gui/fluorescence_microscopy/basic_gui.py:93-106 | on a list, TypeError exactly when a value that is not iterable comes before any match, or when 'set' or 'append' meets a string or list element containing the key |
| BasicGui.UpdateMetadata | gui/fluorescence_microscopy/basic_gui.py:69-118 | fails only with TypeError, KeyError or IndexError |
| BasicGui.UpdateMetadataThroughList | gui/fluorescence_microscopy/basic_gui.py:81-87 | `{'a': [1, {'k': {}}]}` with the path a, k, x raises TypeError at the number; a string containing the key raises TypeError when indexed |
| BasicGui.UpdateMetadataSkipsString | gui/fluorescence_microscopy/basic_gui.py:81-87 | a string not containing the key is passed over and the dictionary after it is entered and updated |
| BasicGui.UpdateMetadataReads | gui/fluorescence_microscopy/basic_gui.py:107-116 | below a path of dictionaries 'set' stores the value and 'append' creates [value] or extends the list |
| FitsMetadata.Underscored | logic/camera_logic.py:1119 | the key keeps its length and holds no space |
| FitsMetadata.EntryCards | logic/camera_logic.py:1120-1128 | a scalar gives key[:8].upper() with (value, key); a list gives key[:7].upper() + str(i+1) with (v_i, key + str(i+1)) |
| FitsMetadata.CardKey | logic/camera_logic.py:1120-1128 | every card key is a header key, at most eight characters unless it numbers item ten or later |
| FitsMetadata.ItemKeyShape | logic/camera_logic.py:1121-1122 | item keys are header keys, at most eight characters for the first nine items |
| FitsMetadata.HeaderKeyAppend | logic/camera_logic.py:1121-1122 | a header key followed by a header key is one |
| FitsMetadata.UpperHeaderKey | logic/camera_logic.py:1119-1127 | upper-casing a key without spaces gives a header key |
| FitsMetadata.NumeralHeaderKey | logic/camera_logic.py:1122 | an item number is a header key |
| FitsMetadata.ConvertedKeyAssigned | logic/camera_logic.py:1118-1130 | every key of the converted dictionary was assigned by some card |
| FitsMetadata.ConvertToFitsMetadata | logic/camera_logic.py:1110-1130 | every output key is a header key |
| FitsMetadata.ConvertKeysShort | logic/camera_logic.py:1121-1126 | with lists of at most nine items every output key has at most eight characters |
| FitsMetadata.ConvertReads | logic/camera_logic.py:1118-1130 | an entry whose key is not reassigned later reads its card |
| FitsMetadata.TwoScalarsAssigned | logic/camera_logic.py:1126-1128 | two scalars give their two cards in order |
| FitsMetadata.ConvertCollision | logic/camera_logic.py:1126-1128 | two scalars sharing their first eight characters share one card: the later value is kept |
| NiFpga.ConvertValue | hardware/fpga/ni_fpga.py:196-200 | int(value / 100 * 32767) truncated, never above 32767 |
| NiFpga.ConvertValueMonotone | hardware/fpga/ni_fpga.py:196-200 | a larger percentage never gives a smaller register value |
| NiFpga.LaserIndex | hardware/fpga/ni_fpga.py:184-194 | the first of the four laser registers naming the channel; IndexError only when fewer than four are configured and none matches |
| NiFpga.ApplyVoltage | hardware/fpga/ni_fpga.py:170-194 | the first matching register gets the converted, clamped value, the others are unchanged and the update flag is set; IndexError as for LaserIndex |
| NiFpga.ApplyVoltageClamps | hardware/fpga/ni_fpga.py:182-183 | a negative voltage writes the same as 0 |
| NiFpga.GetDict | hardware/fpga/ni_fpga.py:206-229 | one entry laser{i+1} per configured laser; short lists raise IndexError |
| NiFpga.GetDictLabelsDistinct | hardware/fpga/ni_fpga.py:206-229 | the labels are distinct, so no entry overwrites another |
| Valves.GetValveDict | hardware/valve/hamilton_valve.py:125-146 | IndexError when a configuration list is shorter than the number of valves; otherwise one entry per daisychain ID |
| Valves.GetValveDictKeys | hardware/valve/hamilton_valve.py:137-146 | the dictionary holds exactly the configured IDs |
| Valves.GetValveDictReads | hardware/valve/hamilton_valve.py:137-146 | every ID reads the name and number of outputs of its last configured valve |
| Valves.GetValveDictDistinct | hardware/valve/hamilton_valve.py:137-146 | with distinct IDs, valve i is read under its own ID |
| Valves.MaxPosition | hardware/valve/hamilton_valve.py:184 | an unknown address raises; a known one gives its number of outputs |
| Valves.MoveCommand | hardware/valve/hamilton_valve.py:190-193 | the command is the address, 'LP1' backwards or 'LP0' forwards, the target, then 'R' and a carriage return |
| Valves.HamiltonSetPosition | hardware/valve/hamilton_valve.py:176-198 | an unknown address or a target above the outputs sends nothing; an address without an output count raises; otherwise the move command for the target, in the direction TurnBackwards chooses, ending in 'R' and a carriage return |
| Valves.TurnBackwardsIsShorter | hardware/valve/hamilton_valve.py:190-193 | the chosen direction is the shorter way round the valve, on ties the written rule |
| Valves.DummySetPosition | hardware/valve/valve_dummy.py:147-163 | the target is stored exactly when the address is known and the target does not exceed its outputs |
| Valves.DummyGetPosition | hardware/valve/valve_dummy.py:135-145 | None for an unknown address, KeyError for one never set, else the stored position |
| Valves.DummyReadsLastSet | hardware/valve/valve_dummy.py:135-163 | the dummy reads back the last position stored |
| Valves.DummyActivateFromReads | hardware/valve/valve_dummy.py:89-90 | with at least one output per valve, activation succeeds and every valve from i on reads 1 |
| Valves.DummyActivateReads | hardware/valve/valve_dummy.py:85-90 | after activation every configured valve reads 1 |
| Valves.DummyStatus | hardware/valve/valve_dummy.py:125-133 | every valve reports 'Y' |
| FilterWheels.PositionEntries | hardware/wheels/thorlabs_fast_filter_wheel.py:106-109 | position i + 1 is assigned angle -360 / n * i |
| FilterWheels.PositionEntriesReads | hardware/wheels/thorlabs_fast_filter_wheel.py:106-109 | position p in 1..n is found at the angle of p - 1 and no other key exists |
| FilterWheels.InitPositionDict | hardware/wheels/thorlabs_fast_filter_wheel.py:100-109 | the positions 1..n in order, p at the angle of p - 1 |
| FilterWheels.Swapped | hardware/wheels/thorlabs_fast_filter_wheel.py:145-147 | the inverse dictionary as its list of assignments |
| FilterWheels.SwappedReads | hardware/wheels/thorlabs_fast_filter_wheel.py:145-147 | the inverse holds an angle exactly when some entry has it, and then that entry's key |
| FilterWheels.GetPosition | hardware/wheels/thorlabs_fast_filter_wheel.py:142-152 | the position whose angle equals the rounded motor angle, or 0 when there is none |
| FilterWheels.GetPositionOfWheel | hardware/wheels/thorlabs_fast_filter_wheel.py:145-152 | on the wheel's dictionary the result is 0 or a position in 1..n at the rounded angle |
| FilterWheels.AngleInjective | hardware/wheels/thorlabs_fast_filter_wheel.py:106-109 | distinct positions sit at distinct angles |
| FilterWheels.GetPositionAtAngle | hardware/wheels/thorlabs_fast_filter_wheel.py:145-152 | when n divides 360, a motor at a position's angle reads that position |
| FilterWheels.SetPositionAsWritten | hardware/wheels/thorlabs_fast_filter_wheel.py:154-168 | as written, any target below n + 1 passes the guard and is looked up, a missing key raising KeyError; a larger one gives -1 |
| FilterWheels.SetPositionAsWrittenZero | hardware/wheels/thorlabs_fast_filter_wheel.py:161-168 | a target of 0 passes the guard and raises KeyError |
| FilterWheels.SetPosition | hardware/wheels/thorlabs_fast_filter_wheel.py:154-168 | corrected: a target in 1..n gives 0 and its angle; any other gives -1 without moving |
| FilterWheels.SetPositionOfWheel | hardware/wheels/thorlabs_fast_filter_wheel.py:161-168 | on the wheel's dictionary the written and corrected versions agree for every target from 1 up |
| FilterWheels.SetThenGetPosition | hardware/wheels/thorlabs_fast_filter_wheel.py:142-168 | setting a position and reading the angle back gives it again when n divides 360 |
| FilterWheels.DummySetPosition | hardware/wheels/dummy_filter_wheel.py:101-113 | a target in 1..n is stored and gives 0; any other gives -1 and keeps the position |
| FilterWheels.WheelsAgree | hardware/wheels/dummy_filter_wheel.py:107-113 | the dummy and the corrected Thorlabs wheel return the same code for every target |
| FilterWheels.FilterEntries | hardware/wheels/thorlabs_fast_filter_wheel.py:182-195 | one filter{i+1} entry per name with its name, position and lasers |
| FilterWheels.GetFilterDict | hardware/wheels/thorlabs_fast_filter_wheel.py:170-195 | shorter position or laser lists raise IndexError; otherwise the entries in order |
| FilterWheels.GetFilterDictReads | hardware/wheels/dummy_filter_wheel.py:127-140 | 'filter{p}' reads the p-th configured filter, exactly for p in 1..number of names |
| CameraDummy.GetSize | hardware/camera/camera_dummy.py:104-109 | (width, height) as (columns, rows) |
| CameraDummy.SetImage | hardware/camera/camera_dummy.py:152-167 | the size spans the inclusive ranges, in either order, and 0 is returned |
| CameraDummy.SetImageReadsBack | hardware/camera/camera_dummy.py:152-167 | the size reads back as (|hend - hstart| + 1, |vend - vstart| + 1), independent of the order of ends |
| CameraDummy.GetProgress | hardware/camera/camera_dummy.py:169-181 | the counter increments; on reaching n_frames it resets to 0, live ends and n_frames is returned |
| CameraDummy.PollsCount | hardware/camera/camera_dummy.py:169-181 | n_frames polls in live movie mode end the movie and return 1..n_frames; fewer leave live mode on |
| CameraDummy.StartSingleAcquisition | hardware/camera/camera_dummy.py:213-224 | refused in live mode; otherwise the image is taken and the camera is idle afterwards |
| CameraDummy.StartLiveAcquisition | hardware/camera/camera_dummy.py:226-236 | only a camera supporting live mode enters it |
| CameraDummy.StopAcquisition | hardware/camera/camera_dummy.py:238-245 | live mode and acquisition end |
| CameraDummy.StartMovieAcquisition | hardware/camera/camera_dummy.py:248-264 | only from the ready state; sets the frame number and enters live mode when supported |
| CameraDummy.FinishMovieAcquisition | hardware/camera/camera_dummy.py:266-275 | the flags are cleared and the number of frames goes back to 1 |
| CameraDummy.MovieLifecycle | hardware/camera/camera_dummy.py:248-275 | a movie started from ready runs n polls to the end, is ready again with the counter at 0, and finishing restores one frame |
| CameraDummy.SetFrameTransfer | hardware/camera/camera_dummy.py:378-395 | mode 1 turns frame transfer on, 0 off, both returning 0; any other mode returns -1 and changes nothing |
| CameraDummy.GetKineticTime | hardware/camera/camera_dummy.py:368-376 | exposure plus 0.123 with frame transfer, 0.7654321 without |
| CameraDummy.FrameTransferKineticTime | hardware/camera/camera_dummy.py:368-395 | switching frame transfer on shortens the kinetic time, off lengthens it, an invalid mode keeps it |
| OdorCircuit.OpenOdors | gui/Fly_Arena_GUIs/odor_circuit/odor_circuit_arduino_gui.py:398-410 | the odors whose two valves are open, in order |
| OdorCircuit.ScanPairs | gui/Fly_Arena_GUIs/odor_circuit/odor_circuit_arduino_gui.py:398-410 | the loop refuses at the first mismatched pair and otherwise counts the open ones |
| OdorCircuit.ScanPairsMeaning | gui/Fly_Arena_GUIs/odor_circuit/odor_circuit_arduino_gui.py:398-410 | with every valve present the loop refuses exactly when some pair is mismatched, and otherwise counts exactly the open odors |
| OdorCircuit.CheckValves | gui/Fly_Arena_GUIs/odor_circuit/odor_circuit_arduino_gui.py:389-426 | a mismatch or more than one open odor gives 0, one open odor 1, none the mixing valve's state; a missing valve raises KeyError |
| OdorCircuit.CheckValvesPermission | gui/Fly_Arena_GUIs/odor_circuit/odor_circuit_arduino_gui.py:411-426 | with no mismatch, permission is granted exactly for one open odor, or for none with the mixing valve open |
| OdorCircuit.Closing | gui/Fly_Arena_GUIs/odor_circuit/odor_circuit_arduino_gui.py:293-312 | every odor valve assigned '0' |
| OdorCircuit.Clear | gui/Fly_Arena_GUIs/odor_circuit/odor_circuit_arduino_gui.py:293-312 | every odor valve reads '0'; every other entry is unchanged |
| OdorCircuit.ClearedPairs | gui/Fly_Arena_GUIs/odor_circuit/odor_circuit_arduino_gui.py:293-312 | after `clear` both valves of every pair are present and closed |
| OdorCircuit.CheckValvesAllClosed | gui/Fly_Arena_GUIs/odor_circuit/odor_circuit_arduino_gui.py:421-426 | with every odor closed the mixing valve alone decides |
| OdorCircuit.CheckValvesAfterClear | gui/Fly_Arena_GUIs/odor_circuit/odor_circuit_arduino_gui.py:293-426 | after `clear` the permission is the mixing valve's state |
| OdorCircuit.NoneOpen | gui/Fly_Arena_GUIs/odor_circuit/odor_circuit_arduino_gui.py:398-410 | closed pairs are never open |
| LaserShutter.CloseShutter | logic/laser_shutter_logic.py:82-84 | a configured shutter gets one write, without a shutter none; every level written is 0 (closed) |
| LaserShutter.OpenShutter | logic/laser_shutter_logic.py:86-96 | 1 is written only with a shutter and no running acquisition; abort only with a shutter and a running acquisition |
| LaserShutter.CameraSecurity | logic/laser_shutter_logic.py:98-104 | before an acquisition the shutter is closed and then marked running; after it the mark is cleared |
| LaserShutter.ClosedWhileAcquiring | logic/laser_shutter_logic.py:86-104 | while an acquisition runs the last level written is 0 |
| LaserShutter.NoOpeningDuringAcquisition | logic/laser_shutter_logic.py:87-92 | during an acquisition an open request aborts and writes nothing |
| Brightfield.LedControl | logic/brightfield_logic.py:73-78 | the source is on and the intensity sent |
| Brightfield.LedOff | logic/brightfield_logic.py:80-84 | the source is off and 0 sent |
| Brightfield.LedOnMax | logic/brightfield_logic.py:87-90 | the source is on at the maximum, 99 |
| Brightfield.UpdateIntensity | logic/brightfield_logic.py:93-98 | forwarded only while the source is on |
| Brightfield.DarkWhenOff | logic/brightfield_logic.py:73-98 | while off the last value sent is 0 |
| Brightfield.UpdateWhileOffDropped | logic/brightfield_logic.py:93-98 | an update while off is dropped and not replayed on switching back on |
| AutofocusCamera.ThresholdImage | logic/autofocus_logic_camera.py:268-276 | the mask has the image's shape, pixel by pixel |
| AutofocusCamera.MaskPixelBelowMaskOn | logic/autofocus_logic_camera.py:273-276 | below 254 the two passes give the intended mask |
| AutofocusCamera.MaskPixelFromMaskOn | logic/autofocus_logic_camera.py:273-276 | from a threshold of 254 on, the two passes leave an empty mask |
| AutofocusCamera.MomentBounds | logic/autofocus_logic_camera.py:287-288 | for non-negative weights the moment lies between 0 and the last index times the total |
| AutofocusCamera.MaskPixel | logic/autofocus_logic_camera.py:268-276 | every mask pixel is 254 or 0, and 254 exactly when the pixel is above a threshold below 254 |
| AutofocusCamera.Weighted | logic/autofocus_logic_camera.py:284-285 | the weights meant by `im * mask`: the product of pixel and mask, without wrap-around |
| AutofocusCamera.RowSums | logic/autofocus_logic_camera.py:285 | one sum per row: the projection onto the Y axis |
| AutofocusCamera.ColSums | logic/autofocus_logic_camera.py:284 | one sum per column: the projection onto the X axis |
| AutofocusCamera.ColSumsSnoc | logic/autofocus_logic_camera.py:284 | adding a row adds it to the column sums |
| AutofocusCamera.ProjectionTotals | logic/autofocus_logic_camera.py:284-291 | both projections carry the same total, so the two division guards test the same quantity |
| AutofocusCamera.CentroidOfInside | logic/autofocus_logic_camera.py:278-292 | for non-negative weights the centroid is (0, 0) exactly when the weights sum to zero, and otherwise lies inside the image |
| AutofocusCamera.CentroidInside | logic/autofocus_logic_camera.py:278-292 | with the meant weights and a non-negative image and mask, the centroid is (0, 0) exactly when no weight survives, and otherwise lies inside the image |
| AutofocusCamera.WeightGrowsWithBrightness | logic/autofocus_logic_camera.py:284-285 | with the meant weights, a brighter pixel above the threshold weighs more |
| AutofocusCamera.Uint8Weight | logic/autofocus_logic_camera.py:268-276 | the as-written weight of an 8-bit pixel is itself 8-bit, because the mask copies the image's type (hardware/camera/thorlabs/thorlabs_DCx.py:366) |
| AutofocusCamera.Uint8WeightValue | logic/autofocus_logic_camera.py:284-285 | as written, an 8-bit pixel p above the threshold weighs 512 - 2p after wrap-around modulo 256, and a pixel at or below it weighs 0 |
| AutofocusCamera.Uint8BrighterWeighsLess | logic/autofocus_logic_camera.py:284-285 | as written, the brighter of two 8-bit pixels above the threshold weighs less: 151 weighs 210 and 255 weighs 2 |
| AutofocusCamera.WeightedAsWritten | logic/autofocus_logic_camera.py:284-285 | `im * mask` on an 8-bit image wraps pixel by pixel; `np.sum` adds in a wider type, so the projections do not wrap |
| AutofocusCamera.CentroidAsWrittenInside | logic/autofocus_logic_camera.py:278-292 | the written centroid on an 8-bit image is (0, 0) exactly when no pixel is above the threshold, and otherwise still lies inside the image |
| AutofocusCamera.WeightedMeanBounds | logic/autofocus_logic_camera.py:286-291 | the weighted mean index lies between the first and last index |
| AutofocusCamera.CheckSignal | logic/autofocus_logic_camera.py:132-143 | `autofocus_check_signal` sees the spot exactly when some pixel exceeds the threshold |
| AutofocusCamera.MaskSumSeesSpot | logic/autofocus_logic_camera.py:138-140 | the threshold image sums to 50 or more exactly when some pixel exceeds the threshold: one masked pixel already sums to 254 |
| AutofocusCamera.InitStabilization | logic/autofocus_logic_camera.py:145-153 | not stable, no iterations, a window of num_points_fit zeros |
| AutofocusCamera.CheckStabilization | logic/autofocus_logic_camera.py:188-198 | the flag is unchanged until the iterations exceed num_points_fit, then stable exactly when the slope's magnitude is below the threshold |
| AutofocusCamera.PushOutput | logic/autofocus_logic_camera.py:170-174 | each push counts one more iteration and, once the iterations exceed num_points_fit, decides stability by the slope |
| AutofocusCamera.PushKeepsWindow | logic/autofocus_logic_camera.py:172-174 | the window keeps its length: the older entries shifted by one, then the output |
| AutofocusCamera.PushesWindow | logic/autofocus_logic_camera.py:172-176 | after k pushes the window holds the last outputs read, padded by zeros in front |
| AutofocusCamera.TargetReached | logic/autofocus_logic_camera.py:177-178 | with stop-at-target the target is reached exactly when the signal is strictly within the tolerance of the setpoint |
| NanoDrive.GetConstraints | hardware/motor/motor_mcl_nanodrive.py:115-132 | the single axis 'Z' in micrometres with the configured range and step |
| NanoDrive.SubstringOfLabel | hardware/motor/motor_mcl_nanodrive.py:201-218 | an axis name matches 'Z' exactly when it is 'Z' or empty |
| NanoDrive.GetPosOf | hardware/motor/motor_mcl_nanodrive.py:201-218 | a list query gives the reading under 'Z' for every matching name |
| NanoDrive.GetPos | hardware/motor/motor_mcl_nanodrive.py:190-220 | with no axis list the position of 'Z'; None when the reading is negative |
| NanoDrive.GetPosOfError | hardware/motor/motor_mcl_nanodrive.py:201-218 | a list query gives no position for a negative reading, and the position for a valid one when the list names 'Z' |
| NanoDrive.GetPosError | hardware/motor/motor_mcl_nanodrive.py:190-220 | a negative reading is never a position, whatever the query |
| NanoDrive.Round4 | hardware/motor/motor_mcl_nanodrive.py:148-155 | rounding to four decimals moves by at most 0.00005 |
| NanoDrive.MoveRel | hardware/motor/motor_mcl_nanodrive.py:134-155 | a step within the maximum to a target in range is written, and the written value is the reading plus the step rounded to four decimals; a negative reading raises AttributeError; otherwise nothing is written |
| NanoDrive.MoveRelSafe | hardware/motor/motor_mcl_nanodrive.py:148-155 | a relative move never leaves the range, never jumps by more than the maximum step, writes the reading plus the rounded step and returns the device's answer, and is refused for another axis |
| NanoDrive.MoveAbs | hardware/motor/motor_mcl_nanodrive.py:157-180 | a target in range on 'Z' is written rounded; the reading is still taken and a negative one raises AttributeError |
| NanoDrive.MoveAbsSafe | hardware/motor/motor_mcl_nanodrive.py:173-180 | only positions in range are written, and exactly the rounded target whenever it is in range |

## Left out

- Hardware I/O: serial, DAQ, FPGA sessions, the camera SDK, the e-mail alert and the network upload. A command or a write becomes a value in a returned list; whatever a device reports is a parameter.
- The worker threads, timers, `sleep` and the Qt signals. A signal becomes a flag in the result; a loop scheduled by a timer becomes one step returning whether another is scheduled.
- Roi: `creation_time` is a string parameter; the camera image and its extent are not modelled.
- Positioning.ProbePositions: keeps the dictionary from probe number to position. The inverted dictionary (position to probe) of `map_xy_position_to_probe_number` is not built. Coinciding positions would merge there.
- Positioning: the grid shape (10 by 10, 3 by 36) is a parameter of the lemmas. Applying them to the literal shapes gives the source's 100 and 108 probes.
- Injections: loading from a file is left out, being YAML I/O.
- Injections.IsWordChar: the non-ASCII characters Python's `\w` accepts come from the Unicode database. They are the parameter wordExtra of the tag functions, not a table in the model.
- Injections.AnyBufferMatches: regular-expression matching is modelled only for the one pattern shape the check builds, name[:-1] followed by '*', and the characters of the name are read literally. A name holding metacharacters ('.', '(', '[', '+', …) is not interpreted: the source may match other buffers with it ('A.c' matches 'Abc') or raise re.error on an unbalanced bracket ('A(: Valve 1').
- Injections.CheckSteps: buffer names are treated as containing no regular-expression metacharacters, so a name on which the source's `re.compile` raises re.error is checked as a literal prefix instead.
- Injections.CheckStepsSpec: the accept and raise conditions are exact only for buffer names without regular-expression metacharacters; for other names the literal prefix test can differ from the source's match.
- Injections.ConsistencySpec: "names a buffer" is the literal prefix test; it equals the source's regular-expression match for names without metacharacters.
- HiM: `runTaskStep` itself is I/O sequencing; its decisions are modelled by the helpers above. The task runner and the PID controller are not modelled.
- HiM.SetValvesAndNeedle: `wait_for_idle` and the pump are left out; the commands are listed in order.
- Timelapse, Hubble: the file writers are named and not run; image data is a sequence of frames.
- FlowControl: the pressure and flow readings come from hardware, and the PID output is not computed. FlowControl.Round3 rounds half to even, as numpy does, on reals.
- ExperimentConfigurator: `load_config_file` (YAML I/O) and the per-field update slots that store a value unchanged are left out.
- ExperimentConfigurator.DeleteImagingList: `delete_imaging_list` and `init_default_config_dict` leave the dictionary's 'imaging_sequence' entry pointing at the list they replace. The model keeps that stale entry.
- BasicGui.FirstWithKey: list membership compares the key only with string elements, and dictionary keys are strings: a number is never equal to a key.
- Text.ParseInt: accepts an optionally signed run of decimal digits only. Python's `int()` also strips surrounding blanks and accepts '_' between digits, so `int('ROI_ 7'.strip('ROI_'))` in Roi.GenericName gives 7 where the model raises ValueError.
- Text.PathJoin: always joins with the POSIX separator '/', as on Linux; the Windows separator and drive letters are not modelled.
- FitsMetadata: `str.upper` is modelled on ASCII letters only.
- FitsMetadata.ConvertCollision: two keys equal in their first eight characters lose the earlier value. This is recorded as behaviour, not as a finding: FITS keys are limited to eight characters by design.
- Valves: the Hamilton `get_status` and the current-position read come from the device; the start position is a parameter of HamiltonSetPosition. The dummy's `wait_for_idle` does nothing and is left out.
- FilterWheels: the motor angle is a real. A wheel whose filter count does not divide 360 has non-integral angles, so `get_position` returns 0 at them.
- CameraDummy: the random image data and the sleeps are left out. Temperature, gain and the other pass-through getters are left out as well.
- AutofocusCamera: the PID controller, the `Poly.fit` slope and the camera image read by `read_detector_signal` are parameters.
- AutofocusCamera.CentroidInside: stated for the corrected weights; the written 8-bit weights have their own lemma, CentroidAsWrittenInside.
- AutofocusCamera.Weighted: the corrected centroid uses the unwrapped product. The 8-bit wrap-around of `im * mask` as written is modelled separately by WeightedAsWritten and CentroidAsWritten; see Findings.
- AutofocusCamera.MaskPixel: with a threshold of 254 or more the second pass zeroes the marked pixels. The threshold constant is 150, so this does not happen in use; it is recorded as a quirk.
- NanoDrive: repeated device reads within one call are modelled as a single reading. A refused move returns None, as the source does.
- NanoDrive.SubstringOfLabel: Python's `axis in 'Z'` is a substring test, so the empty axis name matches too.
- OdorCircuit.CheckValves: returns None when the mixing valve is neither '0' nor '1', as the fall-through in the source does.
- ZStack.StartPosition: the even and odd formulas are stated as one equation over num_planes // 2.

## Findings

| source | as written | input that shows it | evidently intended | confidence | as-written member | corrected member |
|---|---|---|---|---|---|---|
| logic/positioning_logic.py:429 | `abs(z_pos - target > 0.002)` takes abs of a boolean, so "not reached" holds only above the target | z stage at 0.0 with z target 1.0 | `abs(z_pos - target) > 0.002` | not executed | Positioning.ZStepAsWrittenStopsEarly | Positioning.ZStep |
| logic/tasks/timelapse_task_RAMM.py:304-310 | `if fits … if npy … else tiff` | file format 'fits' | one writer per format (`elif`) | not executed | Timelapse.FitsAlsoSavedAsTiff | Timelapse.SaveCalls |
| logic/experiment_configurator_logic.py:304-322 | the Airyscan confocal branches select their entries only when no file name is given | experiment 'Hi-M Airyscan Confocal' saved with a file name | the same entries under either name | not executed | ExperimentConfigurator.NamedCopyIsEmpty | ExperimentConfigurator.SaveConfig |
| hardware/wheels/thorlabs_fast_filter_wheel.py:161-168 | the guard `target < n + 1` lets targets ≤ 0 through to the position dictionary | target 0 raises KeyError | targets outside 1..n return -1 | not executed | FilterWheels.SetPositionAsWrittenZero | FilterWheels.SetPosition |
| logic/lasercontrol_logic.py:151-157 | the assignment `d[key] = value` never raises, so an unknown identifier is added; the handler only catches a KeyError from `apply_voltage` | identifier 'laserX' not in the laser dictionary | report the unknown identifier and change nothing | not executed | LaserControl.UpdateIntensityDictAsWrittenAddsKey | LaserControl.UpdateIntensityDict |
| logic/tasks/hubble_task_RAMM.py:730-735 | `z[n+1] = z[n] + dz[n]`, where dz[n] is the shift into ROI n | fitted foci [0.0, 1.0] give the second ROI at 0.0 | `z[n+1] = z[n] + dz[n+1]` | not executed | Hubble.AbsolutePositionsAsWrittenMissesSecondRoi | Hubble.AbsolutePositions |
| logic/autofocus_logic_camera.py:271-285 | the mask copies the 8-bit camera image, so `im * mask` wraps modulo 256 and a pixel p above the threshold weighs 512 - 2p | pixels 151 and 255 weigh 210 and 2 | weights that grow with brightness: `im * mask` in a wider type | not executed | AutofocusCamera.Uint8BrighterWeighsLess | AutofocusCamera.WeightGrowsWithBrightness |

=== FILE: assoc.dfy ===
/** Python dictionaries with keys of any type, kept as insertion-ordered
    (key, value) entry lists as Python keeps them. */
module Assoc {
  import opened Wrappers

  /** The keys, in insertion order. */
  function Keys<K, V>(d: seq<(K, V)>): (r: seq<K>)
    ensures |r| == |d|
    ensures forall i {:trigger r[i]} :: 0 <= i < |d| ==> r[i] == d[i].0
  {
    seq(|d|, i requires 0 <= i < |d| => d[i].0)
  }

  /** The values, in insertion order: `list(d.values())`. */
  function Values<K, V>(d: seq<(K, V)>): (r: seq<V>)
    ensures |r| == |d|
    ensures forall i {:trigger r[i]} :: 0 <= i < |d| ==> r[i] == d[i].1
  {
    seq(|d|, i requires 0 <= i < |d| => d[i].1)
  }

  /** `d.get(k)`. */
  function Get<K(==), V>(d: seq<(K, V)>, k: K): Option<V>
    decreases |d|
  {
    if |d| == 0 then None else if d[0].0 == k then Some(d[0].1) else Get(d[1..], k)
  }

  /** `d[k] = v`: an existing key keeps its place, a new key goes last. */
  function Set<K(==), V>(d: seq<(K, V)>, k: K, v: V): seq<(K, V)>
    decreases |d|
  {
    if |d| == 0 then [(k, v)]
    else if d[0].0 == k then [(k, v)] + d[1..]
    else [d[0]] + Set(d[1..], k, v)
  }

  /** Every key of `d` with the value `v`. */
  function WithAll<K, V, W>(d: seq<(K, V)>, v: W): (r: seq<(K, W)>)
    ensures |r| == |d|
    ensures forall i {:trigger r[i]} :: 0 <= i < |d| ==> r[i] == (d[i].0, v)
  {
    seq(|d|, i requires 0 <= i < |d| => (d[i].0, v))
  }

  /** A key has a value exactly when it is one of the keys. */
  lemma {:induction false} GetSome<K, V>(d: seq<(K, V)>, k: K)
    ensures Get(d, k).Some? <==> k in Keys(d)
    decreases |d|
  {
    if |d| != 0 {
      assert Keys(d) == [d[0].0] + Keys(d[1..]);
      GetSome(d[1..], k);
    }
  }

  /** After `d[k] = v`, k reads v and every other key reads as before. */
  lemma {:induction false} GetSet<K, V>(d: seq<(K, V)>, k: K, v: V, j: K)
    ensures Get(Set(d, k, v), j) == if j == k then Some(v) else Get(d, j)
    decreases |d|
  {
    if |d| != 0 && d[0].0 != k {
      GetSet(d[1..], k, v, j);
      assert ([d[0]] + Set(d[1..], k, v))[1..] == Set(d[1..], k, v);
    } else if |d| != 0 {
      assert ([(k, v)] + d[1..])[1..] == d[1..];
    }
  }

  /** `d[k] = v` adds k at the end if it is new and keeps the keys otherwise. */
  lemma {:induction false} KeysSet<K, V>(d: seq<(K, V)>, k: K, v: V)
    ensures Keys(Set(d, k, v)) == if k in Keys(d) then Keys(d) else Keys(d) + [k]
    decreases |d|
  {
    if |d| != 0 {
      assert Keys(d) == [d[0].0] + Keys(d[1..]);
      if d[0].0 != k {
        KeysSet(d[1..], k, v);
        assert Keys(Set(d, k, v)) == [d[0].0] + Keys(Set(d[1..], k, v));
        assert k in Keys(d) <==> k in Keys(d[1..]);
      } else {
        assert Keys(Set(d, k, v)) == [k] + Keys(d[1..]);
      }
    }
  }

  /** Every key of `WithAll(d, v)` reads v, and no other key reads. */
  lemma {:induction false} GetWithAll<K, V, W>(d: seq<(K, V)>, v: W, k: K)
    ensures Get(WithAll(d, v), k) == if k in Keys(d) then Some(v) else None
    decreases |d|
  {
    if |d| != 0 {
      assert WithAll(d, v)[1..] == WithAll(d[1..], v);
      assert Keys(d) == [d[0].0] + Keys(d[1..]);
      GetWithAll(d[1..], v, k);
    }
  }
  /** The value the last entry with key k gives, if any. */
  function GetLast<K(==), V>(es: seq<(K, V)>, k: K): (r: Option<V>)
    ensures r.Some? <==> k in Keys(es)
    decreases |es|
  {
    if |es| == 0 then None
    else
      assert Keys(es) == Keys(es[..|es| - 1]) + [es[|es| - 1].0];
      if es[|es| - 1].0 == k then Some(es[|es| - 1].1)
      else GetLast(es[..|es| - 1], k)
  }

  /** The assignments `d[k] = v` for every entry of `es`, in order. */
  function SetAll<K(==), V>(d: seq<(K, V)>, es: seq<(K, V)>): seq<(K, V)>
    decreases |es|
  {
    if |es| == 0 then d
    else Set(SetAll(d, es[..|es| - 1]), es[|es| - 1].0, es[|es| - 1].1)
  }

  /** After a run of assignments the last one to a key decides its value;
      keys never assigned read as before. */
  lemma {:induction false} GetSetAll<K, V>(d: seq<(K, V)>, es: seq<(K, V)>, k: K)
    ensures Get(SetAll(d, es), k) == if k in Keys(es) then GetLast(es, k) else Get(d, k)
    decreases |es|
  {
    if |es| != 0 {
      var front := es[..|es| - 1];
      assert Keys(es) == Keys(front) + [es[|es| - 1].0];
      GetSetAll(d, front, k);
      GetSet(SetAll(d, front), es[|es| - 1].0, es[|es| - 1].1, k);
    }
  }
  /** `GetSet` for every key at once. */
  lemma SetReads<K, V>(d: seq<(K, V)>, k: K, v: V)
    ensures forall j :: Get(Set(d, k, v), j) == if j == k then Some(v) else Get(d, j)
  {
    forall j
      ensures Get(Set(d, k, v), j) == if j == k then Some(v) else Get(d, j)
    {
      GetSet(d, k, v, j);
    }
  }
  /** No key occurs twice. */
  predicate DistinctKeys<K(==), V>(es: seq<(K, V)>) {
    forall i, j :: 0 <= i < j < |es| ==> es[i].0 != es[j].0
  }

  /** With distinct keys the last entry of a key is its only one. */
  lemma {:induction false} GetLastDistinct<K, V>(es: seq<(K, V)>, i: nat)
    requires DistinctKeys(es) && i < |es|
    ensures GetLast(es, es[i].0) == Some(es[i].1)
    decreases |es|
  {
    if i != |es| - 1 {
      var front := es[..|es| - 1];
      assert front[i] == es[i];
      GetLastDistinct(front, i);
    }
  }
  /** The value `GetLast` finds is that of an entry with the key. */
  lemma {:induction false} GetLastEntry<K, V>(es: seq<(K, V)>, k: K) returns (i: nat)
    requires GetLast(es, k).Some?
    ensures i < |es| && es[i] == (k, GetLast(es, k).value)
    decreases |es|
  {
    if es[|es| - 1].0 == k {
      i := |es| - 1;
    } else {
      i := GetLastEntry(es[..|es| - 1], k);
    }
  }
  /** Assigning a key not yet present appends it. */
  lemma {:induction false} SetFresh<K, V>(d: seq<(K, V)>, k: K, v: V)
    requires k !in Keys(d)
    ensures Set(d, k, v) == d + [(k, v)]
    decreases |d|
  {
    if |d| != 0 {
      assert Keys(d)[0] == d[0].0;
      assert Keys(d[1..]) == Keys(d)[1..];
      SetFresh(d[1..], k, v);
      assert Set(d, k, v) == [d[0]] + (d[1..] + [(k, v)]);
      assert d == [d[0]] + d[1..];
    }
  }

  /** Building a dictionary from entries with distinct keys keeps them all,
      in order. */
  lemma {:induction false} SetAllDistinct<K, V>(es: seq<(K, V)>)
    requires DistinctKeys(es)
    ensures SetAll([], es) == es
    decreases |es|
  {
    if |es| != 0 {
      var front := es[..|es| - 1];
      SetAllDistinct(front);
      assert es[|es| - 1].0 !in Keys(front) by {
        assert forall j :: 0 <= j < |front| ==> Keys(front)[j] == es[j].0;
      }
      SetFresh(front, es[|es| - 1].0, es[|es| - 1].1);
      assert front + [es[|es| - 1]] == es;
    }
  }
  /** In a dictionary without repeated keys each entry is found by its key. */
  lemma DistinctGet<K, V>(d: seq<(K, V)>, i: nat)
    requires DistinctKeys(d) && i < |d|
    ensures Get(d, d[i].0) == Some(d[i].1)
  {
    SetAllDistinct(d);
    GetSetAll([], d, d[i].0);
    assert Keys(d)[i] == d[i].0;
    GetLastDistinct(d, i);
  }
}

=== FILE: autofocus.dfy ===
/** The camera based autofocus: the spot is found by thresholding the
    image, its centroid along the reference axis is the signal the PID
    follows, and a window of the last PID outputs decides when the focus
    is stable. The camera read, the PID itself and the linear fit of the
    window are left out: the image, the PID output and the fitted slope
    are parameters. */
module AutofocusCamera {
  import Seqs

  /** The threshold of the spot mask, a constant of the logic module. */
  const Threshold: real := 150.0

  /** The value a masked pixel takes. */
  const MaskOn: real := 254.0

  /** An image of the given number of rows and columns. */
  predicate Rect(im: seq<seq<real>>, rows: nat, cols: nat) {
    |im| == rows && forall i :: 0 <= i < rows ==> |im[i]| == cols
  }

  /** `calculate_threshold_image` on one pixel: pixels above the threshold
      are set to 254, then every pixel not above the threshold is set to 0;
      the second pass also catches the 254s of the first when the threshold
      is 254 or more. */
  function MaskPixel(p: real, threshold: real): (m: real)
    ensures m == MaskOn || m == 0.0
    ensures m == MaskOn <==> threshold < p && threshold < MaskOn
  {
    var first := if p > threshold then MaskOn else p;
    if first <= threshold then 0.0 else first
  }

  /** `calculate_threshold_image`. */
  function ThresholdImage(im: seq<seq<real>>, threshold: real): (r: seq<seq<real>>)
    ensures |r| == |im|
    ensures forall i :: 0 <= i < |im| ==> |r[i]| == |im[i]|
    ensures forall i, j :: 0 <= i < |im| && 0 <= j < |im[i]| ==> r[i][j] == MaskPixel(im[i][j], threshold)
  {
    seq(|im|, i requires 0 <= i < |im| => seq(|im[i]|, j requires 0 <= j < |im[i]| => MaskPixel(im[i][j], threshold)))
  }

  /** Below 254 the threshold gives the intended mask: 254 above it, 0 at
      or below it. */
  lemma MaskPixelBelowMaskOn(p: real, threshold: real)
    requires threshold < MaskOn
    ensures MaskPixel(p, threshold) == if p > threshold then MaskOn else 0.0
  {
  }

  /** From a threshold of 254 on, the two passes leave an empty mask. */
  lemma MaskPixelFromMaskOn(p: real, threshold: real)
    requires MaskOn <= threshold
    ensures MaskPixel(p, threshold) == 0.0
  {
  }

  // ---------------------------------------------------------------------
  // Sums
  // ---------------------------------------------------------------------

  function Sum(s: seq<real>): real
    decreases |s|
  {
    if |s| == 0 then 0.0 else Sum(s[..|s| - 1]) + s[|s| - 1]
  }

  /** `sum(idx * s)` with idx = 0, 1, 2, ... */
  function Moment(s: seq<real>): real
    decreases |s|
  {
    if |s| == 0 then 0.0 else Moment(s[..|s| - 1]) + (|s| - 1) as real * s[|s| - 1]
  }

  /** For non-negative weights the moment lies between 0 and the last index
      times the total weight. */
  lemma {:induction false} MomentBounds(s: seq<real>)
    requires forall i :: 0 <= i < |s| ==> 0.0 <= s[i]
    ensures 0.0 <= Sum(s) && 0.0 <= Moment(s)
    ensures |s| > 0 ==> Moment(s) <= (|s| - 1) as real * Sum(s)
    decreases |s|
  {
    if |s| > 0 {
      var front := s[..|s| - 1];
      MomentBounds(front);
      if |front| > 0 {
        assert Moment(front) <= (|s| - 2) as real * Sum(front);
        assert (|s| - 2) as real * Sum(front) <= (|s| - 1) as real * Sum(front);
      }
    }
  }

  /** The sum of two lists added pointwise. */
  lemma {:induction false} SumAdd(a: seq<real>, b: seq<real>, c: seq<real>)
    requires |a| == |b| == |c|
    requires forall i :: 0 <= i < |c| ==> c[i] == a[i] + b[i]
    ensures Sum(c) == Sum(a) + Sum(b)
    decreases |a|
  {
    if |a| > 0 {
      var n := |a| - 1;
      SumAdd(a[..n], b[..n], c[..n]);
    }
  }

  // ---------------------------------------------------------------------
  // Centroid
  // ---------------------------------------------------------------------

  /** `im * mask`. */
  function Weighted(im: seq<seq<real>>, mask: seq<seq<real>>, rows: nat, cols: nat): (w: seq<seq<real>>)
    requires Rect(im, rows, cols) && Rect(mask, rows, cols)
    ensures Rect(w, rows, cols)
    ensures forall i, j :: 0 <= i < rows && 0 <= j < cols ==> w[i][j] == im[i][j] * mask[i][j]
  {
    seq(rows, i requires 0 <= i < rows => seq(cols, j requires 0 <= j < cols => im[i][j] * mask[i][j]))
  }

  /** `np.sum(w, 1)`: the projection on the Y axis, one sum per row. */
  function RowSums(w: seq<seq<real>>): (r: seq<real>)
    ensures |r| == |w|
    ensures forall i :: 0 <= i < |w| ==> r[i] == Sum(w[i])
  {
    seq(|w|, i requires 0 <= i < |w| => Sum(w[i]))
  }

  /** Column j of a rectangular image. */
  function Column(w: seq<seq<real>>, cols: nat, j: nat): (c: seq<real>)
    requires Rect(w, |w|, cols) && j < cols
    ensures |c| == |w| && forall i :: 0 <= i < |w| ==> c[i] == w[i][j]
  {
    seq(|w|, i requires 0 <= i < |w| => w[i][j])
  }

  /** `np.sum(w, 0)`: the projection on the X axis, one sum per column. */
  function ColSums(w: seq<seq<real>>, cols: nat): (r: seq<real>)
    requires Rect(w, |w|, cols)
    ensures |r| == cols
    ensures forall j :: 0 <= j < cols ==> r[j] == Sum(Column(w, cols, j))
  {
    seq(cols, j requires 0 <= j < cols => Sum(Column(w, cols, j)))
  }

  /** Adding a row adds it to the column sums. */
  lemma ColSumsSnoc(w: seq<seq<real>>, cols: nat, j: nat)
    requires Rect(w, |w|, cols) && |w| > 0 && j < cols
    ensures ColSums(w, cols)[j] == ColSums(w[..|w| - 1], cols)[j] + w[|w| - 1][j]
  {
    var n := |w| - 1;
    var c := Column(w, cols, j);
    assert c[..n] == Column(w[..n], cols, j);
  }

  /** Both projections carry the same total weight, so the division guard
      tests the same quantity twice. */
  lemma {:induction false} ProjectionTotals(w: seq<seq<real>>, cols: nat)
    requires Rect(w, |w|, cols)
    ensures Sum(ColSums(w, cols)) == Sum(RowSums(w))
    decreases |w|
  {
    if |w| > 0 {
      var n := |w| - 1;
      var front := w[..n];
      var last := w[n];
      var cf := ColSums(front, cols);
      var cw := ColSums(w, cols);
      var rf := RowSums(front);
      var rw := RowSums(w);
      assert Sum(cf) == Sum(rf) by {
        ProjectionTotals(front, cols);
      }
      assert Sum(cw) == Sum(cf) + Sum(last) by {
        forall j | 0 <= j < cols ensures cw[j] == cf[j] + last[j] {
          ColSumsSnoc(w, cols, j);
        }
        SumAdd(cf, last, cw);
      }
      assert Sum(rw) == Sum(rf) + Sum(last) by {
        assert rw[..n] == rf;
      }
    } else {
      SumZero(ColSums(w, cols));
    }
  }

  /** `calculate_centroid` from the weight image `im * mask`: the weighted
      mean column and row, or (0, 0) when a projection sums to zero. */
  function CentroidOf(w: seq<seq<real>>, rows: nat, cols: nat): (real, real)
    requires Rect(w, rows, cols)
  {
    var x := ColSums(w, cols);
    var y := RowSums(w);
    if Sum(x) != 0.0 && Sum(y) != 0.0 then (Moment(x) / Sum(x), Moment(y) / Sum(y)) else (0.0, 0.0)
  }

  /** For non-negative weights the centroid is (0, 0) exactly when the
      weights sum to zero, and otherwise lies inside the image. */
  lemma CentroidOfInside(w: seq<seq<real>>, rows: nat, cols: nat)
    requires Rect(w, rows, cols)
    requires forall i, j :: 0 <= i < rows && 0 <= j < cols ==> 0.0 <= w[i][j]
    ensures var c := CentroidOf(w, rows, cols);
      && (Sum(RowSums(w)) == 0.0 ==> c == (0.0, 0.0))
      && (Sum(RowSums(w)) != 0.0 ==>
            0.0 <= c.0 <= (cols - 1) as real && 0.0 <= c.1 <= (rows - 1) as real)
  {
    var x := ColSums(w, cols);
    var y := RowSums(w);
    assert forall j :: 0 <= j < cols ==> 0.0 <= x[j] by {
      forall j | 0 <= j < cols ensures 0.0 <= x[j] {
        MomentBounds(Column(w, cols, j));
      }
    }
    assert forall i :: 0 <= i < rows ==> 0.0 <= y[i] by {
      forall i | 0 <= i < rows ensures 0.0 <= y[i] {
        MomentBounds(w[i]);
      }
    }
    ProjectionTotals(w, cols);
    WeightedMeanBounds(x);
    WeightedMeanBounds(y);
  }

  /** The centroid with the weights meant by `im * mask`: the product of
      pixel and mask, without wrap-around. */
  function Centroid(im: seq<seq<real>>, mask: seq<seq<real>>, rows: nat, cols: nat): (r: (real, real))
    requires Rect(im, rows, cols) && Rect(mask, rows, cols)
  {
    CentroidOf(Weighted(im, mask, rows, cols), rows, cols)
  }

  /** For a non-negative image and mask the centroid is (0, 0) exactly when
      no weight survives the mask, and otherwise lies inside the image. */
  lemma CentroidInside(im: seq<seq<real>>, mask: seq<seq<real>>, rows: nat, cols: nat)
    requires Rect(im, rows, cols) && Rect(mask, rows, cols)
    requires forall i, j :: 0 <= i < rows && 0 <= j < cols ==> 0.0 <= im[i][j] && 0.0 <= mask[i][j]
    ensures var w := Weighted(im, mask, rows, cols);
      var c := Centroid(im, mask, rows, cols);
      && (Sum(RowSums(w)) == 0.0 ==> c == (0.0, 0.0))
      && (Sum(RowSums(w)) != 0.0 ==>
            0.0 <= c.0 <= (cols - 1) as real && 0.0 <= c.1 <= (rows - 1) as real)
  {
    var w := Weighted(im, mask, rows, cols);
    assert forall i, j :: 0 <= i < rows && 0 <= j < cols ==> 0.0 <= w[i][j] by {
      forall i, j | 0 <= i < rows && 0 <= j < cols ensures 0.0 <= w[i][j] {
        assert w[i][j] == im[i][j] * mask[i][j];
      }
    }
    CentroidOfInside(w, rows, cols);
  }

  /** With the meant weights a brighter pixel above the threshold weighs
      more. */
  lemma WeightGrowsWithBrightness(p: real, q: real)
    requires Threshold < p < q
    ensures p * MaskPixel(p, Threshold) < q * MaskPixel(q, Threshold)
  {
    MaskPixelBelowMaskOn(p, Threshold);
    MaskPixelBelowMaskOn(q, Threshold);
  }

  // ---------------------------------------------------------------------
  // The 8-bit weights as written
  // ---------------------------------------------------------------------

  /** An image of unsigned 8-bit pixels, as the camera returns it. */
  predicate Uint8Image(im: seq<seq<int>>, rows: nat, cols: nat) {
    |im| == rows && forall i :: 0 <= i < rows ==> |im[i]| == cols && forall j :: 0 <= j < cols ==> 0 <= im[i][j] < 256
  }

  /** The weight of an 8-bit pixel in `im * mask` as written: the mask is a
      copy of the image, so it has the same 8-bit type, and the product
      wraps modulo 256. */
  function Uint8Weight(p: int): (w: int)
    ensures 0 <= w < 256
  {
    (p * MaskPixel(p as real, Threshold).Floor) % 256
  }

  /** Above the threshold an 8-bit pixel p weighs 512 - 2p, never 0; at or
      below it, 0. */
  lemma Uint8WeightValue(p: int)
    requires 0 <= p < 256
    ensures p as real > Threshold ==> Uint8Weight(p) == 512 - 2 * p
    ensures p as real <= Threshold ==> Uint8Weight(p) == 0
  {
    MaskPixelBelowMaskOn(p as real, Threshold);
    if p as real > Threshold {
      assert p * 254 == (512 - 2 * p) + 256 * (p - 2);
    }
  }

  /** As written, of two 8-bit pixels above the threshold the brighter one
      weighs less: 151 weighs 210 and 255 weighs 2. */
  lemma Uint8BrighterWeighsLess(p: int, q: int)
    requires Threshold < p as real && p < q < 256
    ensures Uint8Weight(q) < Uint8Weight(p)
    ensures Uint8Weight(151) == 210 && Uint8Weight(255) == 2
  {
    Uint8WeightValue(p);
    Uint8WeightValue(q);
    Uint8WeightValue(151);
    Uint8WeightValue(255);
  }

  /** `im * mask` as written on an 8-bit image; `np.sum` then adds the
      weights in a wider integer type, so the projections do not wrap. */
  function WeightedAsWritten(im: seq<seq<int>>, rows: nat, cols: nat): (w: seq<seq<real>>)
    requires Uint8Image(im, rows, cols)
    ensures Rect(w, rows, cols)
    ensures forall i, j :: 0 <= i < rows && 0 <= j < cols ==> w[i][j] == Uint8Weight(im[i][j]) as real
  {
    seq(rows, i requires 0 <= i < rows => seq(cols, j requires 0 <= j < cols => Uint8Weight(im[i][j]) as real))
  }

  /** `calculate_centroid` as written on an 8-bit image and its threshold
      mask. */
  function CentroidAsWritten(im: seq<seq<int>>, rows: nat, cols: nat): (real, real)
    requires Uint8Image(im, rows, cols)
  {
    CentroidOf(WeightedAsWritten(im, rows, cols), rows, cols)
  }

  /** The wrapped weights are still positive exactly above the threshold, so
      the written centroid is (0, 0) exactly when no pixel is above the
      threshold and otherwise still lies inside the image. */
  lemma CentroidAsWrittenInside(im: seq<seq<int>>, rows: nat, cols: nat)
    requires Uint8Image(im, rows, cols)
    ensures var w := WeightedAsWritten(im, rows, cols);
      var c := CentroidAsWritten(im, rows, cols);
      && (Sum(RowSums(w)) == 0.0 <==> forall i, j :: 0 <= i < rows && 0 <= j < cols ==> im[i][j] as real <= Threshold)
      && (Sum(RowSums(w)) == 0.0 ==> c == (0.0, 0.0))
      && (Sum(RowSums(w)) != 0.0 ==>
            0.0 <= c.0 <= (cols - 1) as real && 0.0 <= c.1 <= (rows - 1) as real)
  {
    var w := WeightedAsWritten(im, rows, cols);
    forall i, j | 0 <= i < rows && 0 <= j < cols
      ensures 0.0 <= w[i][j] && (w[i][j] == 0.0 <==> im[i][j] as real <= Threshold)
    {
      Uint8WeightValue(im[i][j]);
    }
    CentroidOfInside(w, rows, cols);
    var y := RowSums(w);
    forall i | 0 <= i < rows ensures 0.0 <= y[i] {
      MomentBounds(w[i]);
    }
    if exists i, j :: 0 <= i < rows && 0 <= j < cols && im[i][j] as real > Threshold {
      var i, j :| 0 <= i < rows && 0 <= j < cols && im[i][j] as real > Threshold;
      SumAtLeastEntry(w[i], j);
      SumAtLeastEntry(y, i);
    } else {
      forall i | 0 <= i < rows ensures y[i] == 0.0 {
        SumZero(w[i]);
      }
      SumZero(y);
    }
  }

  /** The weighted mean index of non-negative weights lies between the
      first and the last index. */
  lemma WeightedMeanBounds(s: seq<real>)
    requires forall i :: 0 <= i < |s| ==> 0.0 <= s[i]
    ensures 0.0 <= Sum(s)
    ensures Sum(s) != 0.0 ==> 0 < |s| && 0.0 <= Moment(s) / Sum(s) <= (|s| - 1) as real
  {
    MomentBounds(s);
    if Sum(s) != 0.0 {
      assert |s| != 0;
      DivBounds(Moment(s), Sum(s), (|s| - 1) as real);
    }
  }

  lemma DivBounds(m: real, s: real, k: real)
    requires 0.0 < s && 0.0 <= m <= k * s
    ensures 0.0 <= m / s <= k
  {
  }

  /** `autofocus_check_signal`: the spot is seen when the mask sums to 50
      or more, which is exactly when some pixel is above the threshold. */
  function CheckSignal(im: seq<seq<real>>, rows: nat, cols: nat): (r: bool)
    requires Rect(im, rows, cols)
    ensures r <==> exists i, j :: 0 <= i < rows && 0 <= j < cols && im[i][j] > Threshold
  {
    MaskSumSeesSpot(im, rows, cols);
    !(Sum(RowSums(ThresholdImage(im, Threshold))) < 50.0)
  }

  /** Every masked pixel is 0 or 254, so the mask sums to 50 or more
      exactly when a pixel is above the threshold. */
  lemma MaskSumSeesSpot(im: seq<seq<real>>, rows: nat, cols: nat)
    requires Rect(im, rows, cols)
    ensures !(Sum(RowSums(ThresholdImage(im, Threshold))) < 50.0) <==>
      exists i, j :: 0 <= i < rows && 0 <= j < cols && im[i][j] > Threshold
  {
    var m := ThresholdImage(im, Threshold);
    if exists i, j :: 0 <= i < rows && 0 <= j < cols && im[i][j] > Threshold {
      var i, j :| 0 <= i < rows && 0 <= j < cols && im[i][j] > Threshold;
      assert m[i][j] == MaskOn;
      forall k, l | 0 <= k < rows && 0 <= l < cols ensures 0.0 <= m[k][l] {
        assert m[k][l] == MaskPixel(im[k][l], Threshold);
      }
      forall k | 0 <= k < rows ensures 0.0 <= RowSums(m)[k] {
        MomentBounds(m[k]);
      }
      SumAtLeastEntry(m[i], j);
      SumAtLeastEntry(RowSums(m), i);
    } else {
      forall i | 0 <= i < rows ensures RowSums(m)[i] == 0.0 {
        SumZero(m[i]);
      }
      SumZero(RowSums(m));
    }
  }

  /** A sum of non-negative numbers is at least each of them. */
  lemma {:induction false} SumAtLeastEntry(s: seq<real>, k: nat)
    requires k < |s| && forall i :: 0 <= i < |s| ==> 0.0 <= s[i]
    ensures s[k] <= Sum(s)
    decreases |s|
  {
    MomentBounds(s[..|s| - 1]);
    if k < |s| - 1 {
      SumAtLeastEntry(s[..|s| - 1], k);
    }
  }

  lemma {:induction false} SumZero(s: seq<real>)
    requires forall i :: 0 <= i < |s| ==> s[i] == 0.0
    ensures Sum(s) == 0.0
    decreases |s|
  {
    if |s| > 0 {
      SumZero(s[..|s| - 1]);
    }
  }

  // ---------------------------------------------------------------------
  // Stabilization
  // ---------------------------------------------------------------------

  /** The PID state kept for the stabilization check. */
  datatype Stabilization = Stabilization(iterations: nat, window: seq<real>, stable: bool)

  /** `init_pid` with the window `on_activate` creates: not stable, no
      iterations, a window of zeros. */
  function InitStabilization(numPointsFit: nat): (s: Stabilization)
    ensures s.iterations == 0 && !s.stable && |s.window| == numPointsFit
    ensures forall i :: 0 <= i < numPointsFit ==> s.window[i] == 0.0
  {
    Stabilization(0, seq(numPointsFit, _ => 0.0), false)
  }

  /** `check_stabilization`: once more outputs were read than the window
      holds, the focus is stable when the fitted slope is below the
      threshold; before that the flag keeps its value. */
  function CheckStabilization(s: Stabilization, numPointsFit: nat, slope: real, stableThreshold: real): (stable: bool)
    ensures s.iterations <= numPointsFit ==> stable == s.stable
    ensures s.iterations > numPointsFit ==> (stable <==> -stableThreshold < slope < stableThreshold)
  {
    if s.iterations > numPointsFit then
      (if slope < 0.0 then -slope else slope) < stableThreshold
    else s.stable
  }

  /** `read_pid_output` with the stabilization check: the output is pushed
      into the window, dropping the oldest, and the flag is checked. */
  function PushOutput(s: Stabilization, numPointsFit: nat, output: real, slope: real, stableThreshold: real): (r: Stabilization)
    ensures r.iterations == s.iterations + 1
    ensures r.iterations <= numPointsFit ==> r.stable == s.stable
    ensures r.iterations > numPointsFit ==> (r.stable <==> -stableThreshold < slope < stableThreshold)
  {
    var pushed := Stabilization(s.iterations + 1, Seqs.Slice(s.window, 1, numPointsFit) + [output], s.stable);
    pushed.(stable := CheckStabilization(pushed, numPointsFit, slope, stableThreshold))
  }

  /** A window of the fit's length keeps its length and holds the newest
      outputs: it is the last `numPointsFit` entries of the old window
      followed by the output. */
  lemma PushKeepsWindow(s: Stabilization, numPointsFit: nat, output: real, slope: real, stableThreshold: real)
    requires |s.window| == numPointsFit && 1 <= numPointsFit
    ensures var r := PushOutput(s, numPointsFit, output, slope, stableThreshold);
      r.window == (s.window + [output])[1..] && |r.window| == numPointsFit
  {
  }

  /** k pushes from the initial state; the outputs are given in order. */
  function Pushes(numPointsFit: nat, outputs: seq<real>, slope: real, stableThreshold: real): Stabilization
    decreases |outputs|
  {
    if |outputs| == 0 then InitStabilization(numPointsFit)
    else PushOutput(Pushes(numPointsFit, outputs[..|outputs| - 1], slope, stableThreshold),
                    numPointsFit, outputs[|outputs| - 1], slope, stableThreshold)
  }

  /** Appending the newest output to a window ending at the previous
      output and dropping the oldest entry slides the window by one. */
  lemma SlideWindow<T>(start: seq<T>, outputs: seq<T>)
    requires 1 <= |start| && 1 <= |outputs|
    ensures var n := |outputs| - 1;
      ((start + outputs[..n])[n..] + [outputs[n]])[1..] == (start + outputs)[n + 1..]
  {
    var n := |outputs| - 1;
    assert start + outputs == (start + outputs[..n]) + [outputs[n]];
  }

  /** After any number of outputs the window is the last `numPointsFit`
      values of the zeros it started with followed by the outputs, and the
      focus is not declared stable before more outputs than the window
      holds were read. */
  lemma {:induction false} PushesWindow(numPointsFit: nat, outputs: seq<real>, slope: real, stableThreshold: real)
    requires 1 <= numPointsFit
    ensures var s := Pushes(numPointsFit, outputs, slope, stableThreshold);
      var all := seq(numPointsFit, _ => 0.0) + outputs;
      && s.iterations == |outputs|
      && s.window == all[|outputs|..]
      && (|outputs| <= numPointsFit ==> !s.stable)
    decreases |outputs|
  {
    if |outputs| > 0 {
      var n := |outputs| - 1;
      var prior := Pushes(numPointsFit, outputs[..n], slope, stableThreshold);
      var s := Pushes(numPointsFit, outputs, slope, stableThreshold);
      PushesWindow(numPointsFit, outputs[..n], slope, stableThreshold);
      assert s == PushOutput(prior, numPointsFit, outputs[n], slope, stableThreshold);
      var all := seq(numPointsFit, _ => 0.0) + outputs;
      assert s.window == all[|outputs|..] by {
        PushKeepsWindow(prior, numPointsFit, outputs[n], slope, stableThreshold);
        SlideWindow(seq(numPointsFit, _ => 0.0), outputs);
      }
    }
  }

  /** `read_pid_output` without the stabilization check: with
      `stop_at_target` the flag says whether the signal is within the
      tolerance of the setpoint, otherwise it is False. */
  function TargetReached(stopAtTarget: bool, setpoint: real, signal: real, tolerance: real): (r: bool)
    ensures r <==> stopAtTarget && setpoint - tolerance < signal < setpoint + tolerance
  {
    if stopAtTarget then (if setpoint - signal < 0.0 then signal - setpoint else setpoint - signal) < tolerance
    else false
  }
}

=== FILE: brightfield.dfy ===
/** The brightfield LED: an intensity reaches the controller only while
    the source is switched on, and switching off sends 0. The controller
    is replaced by the list of intensities sent to it; the stop signal for
    the GUI is left out. */
module Brightfield {

  /** Whether the source is on, and every intensity sent so far. */
  datatype Led = Led(enabled: bool, sent: seq<real>)

  /** The intensity `led_on_max` sends. */
  const MaxIntensity: real := 99.0

  /** `led_control`: the source is on and the intensity is sent. */
  function LedControl(l: Led, intensity: real): (r: Led)
    ensures r.enabled && r.sent == l.sent + [intensity]
  {
    Led(true, l.sent + [intensity])
  }

  /** `led_off`: the source is off and 0 is sent. */
  function LedOff(l: Led): (r: Led)
    ensures !r.enabled && r.sent == l.sent + [0.0]
  {
    Led(false, l.sent + [0.0])
  }

  /** `led_on_max`: the source is on at the maximum intensity. */
  function LedOnMax(l: Led): (r: Led)
    ensures r.enabled && r.sent == l.sent + [MaxIntensity]
  {
    LedControl(l.(enabled := true), MaxIntensity)
  }

  /** `update_intensity`: forwarded only while the source is on. */
  function UpdateIntensity(l: Led, intensity: real): (r: Led)
    ensures l.enabled ==> r == Led(true, l.sent + [intensity])
    ensures !l.enabled ==> r == l
  {
    if l.enabled then LedControl(l, intensity) else l
  }

  /** The calls the rest of the program makes on the LED. */
  datatype Call = Control(intensity: real) | Off | OnMax | Update(intensity: real)

  function Step(l: Led, c: Call): Led {
    match c
    case Control(i) => LedControl(l, i)
    case Off => LedOff(l)
    case OnMax => LedOnMax(l)
    case Update(i) => UpdateIntensity(l, i)
  }

  function Run(l: Led, calls: seq<Call>): Led
    decreases |calls|
  {
    if |calls| == 0 then l else Step(Run(l, calls[..|calls| - 1]), calls[|calls| - 1])
  }

  /** The source is dark when switched off: from activation (which switches
      it off) on, whatever the calls, the last intensity sent while it is
      off is 0, and the sent list only grows. */
  lemma {:induction false} DarkWhenOff(calls: seq<Call>)
    ensures var l := Run(LedOff(Led(false, [])), calls);
      |l.sent| >= 1 && (!l.enabled ==> l.sent[|l.sent| - 1] == 0.0)
    decreases |calls|
  {
    if |calls| != 0 {
      DarkWhenOff(calls[..|calls| - 1]);
    }
  }

  /** An update while off is dropped, so switching back on does not replay
      it: the next intensity sent is the one passed to `led_control`. */
  lemma UpdateWhileOffDropped(l: Led, dropped: real, intensity: real)
    ensures var off := LedOff(l);
      UpdateIntensity(off, dropped) == off
      && LedControl(UpdateIntensity(off, dropped), intensity).sent == l.sent + [0.0, intensity]
  {
  }
}

=== FILE: camera.dfy ===
/** The dummy camera: the flags of live and single acquisition, the movie
    frame counter that `get_progress` advances, the image region and the
    frame transfer switch of the simulated Andor camera. Sleeping and the
    random image data are left out; a single acquisition is seen only
    once it is over. */
module CameraDummy {
  import Numeric

  datatype Camera = Camera(
    live: bool,
    acquiring: bool,
    supportLive: bool,
    nFrames: int,
    progress: int,
    rows: int,
    cols: int,
    frameTransfer: bool,
    exposure: real)

  /** `get_ready_state`: neither in live mode nor acquiring. */
  predicate Ready(c: Camera) {
    !(c.live || c.acquiring)
  }

  /** `get_size`: (width, height), that is (columns, rows). */
  function GetSize(c: Camera): (r: (int, int))
    ensures r.0 == c.cols && r.1 == c.rows
  {
    (c.cols, c.rows)
  }

  /** `set_image`: the region spans the inclusive row and column ranges,
      given in either order; binning is ignored and the result is 0. */
  function SetImage(c: Camera, hbin: int, vbin: int, hstart: int, hend: int, vstart: int, vend: int): (r: (Camera, int))
    ensures r.1 == 0
    ensures r.0 == c.(rows := r.0.rows, cols := r.0.cols)
    ensures 1 <= r.0.rows && 1 <= r.0.cols
    ensures Numeric.MinInt(vstart, vend) + r.0.rows - 1 == (if vstart < vend then vend else vstart)
    ensures Numeric.MinInt(hstart, hend) + r.0.cols - 1 == (if hstart < hend then hend else hstart)
  {
    (c.(rows := Numeric.AbsInt(vend - vstart) + 1, cols := Numeric.AbsInt(hend - hstart) + 1), 0)
  }

  /** The region reads back as (width, height) from the column and row
      ranges, and does not depend on which end is given first. */
  lemma SetImageReadsBack(c: Camera, hstart: int, hend: int, vstart: int, vend: int)
    ensures GetSize(SetImage(c, 1, 1, hstart, hend, vstart, vend).0)
         == (Numeric.AbsInt(hend - hstart) + 1, Numeric.AbsInt(vend - vstart) + 1)
    ensures SetImage(c, 1, 1, hstart, hend, vstart, vend) == SetImage(c, 1, 1, hend, hstart, vend, vstart)
  {
  }

  /** `get_progress`: one more frame; on reaching the number of movie
      frames the counter restarts, live mode ends and the frame count is
      returned. */
  function GetProgress(c: Camera): (r: (Camera, int))
    ensures c.progress + 1 == c.nFrames ==>
      r == (c.(live := false, progress := 0), c.nFrames)
    ensures c.progress + 1 != c.nFrames ==>
      r == (c.(progress := c.progress + 1), c.progress + 1)
  {
    var progress := c.progress + 1;
    if progress == c.nFrames then (c.(live := false, progress := 0), c.nFrames)
    else (c.(progress := progress), progress)
  }

  /** k calls of `get_progress`: the camera afterwards and the values
      returned, in order. */
  function Polls(c: Camera, k: nat): (Camera, seq<int>)
    decreases k
  {
    if k == 0 then (c, [])
    else
      var prior := Polls(c, k - 1);
      var step := GetProgress(prior.0);
      (step.0, prior.1 + [step.1])
  }

  /** During a movie of n frames started from a zero counter, the k-th poll
      returns k; the n-th ends live mode and clears the counter, earlier
      ones leave live mode as it was. */
  lemma {:induction false} PollsCount(c: Camera, k: nat)
    requires c.progress == 0 && 1 <= c.nFrames && k <= c.nFrames
    ensures var p := Polls(c, k);
      && |p.1| == k
      && (forall i :: 0 <= i < k ==> p.1[i] == i + 1)
      && p.0.progress == (if k == c.nFrames then 0 else k)
      && p.0.live == (c.live && k < c.nFrames)
      && p.0 == c.(live := p.0.live, progress := p.0.progress)
    decreases k
  {
    if k != 0 {
      PollsCount(c, k - 1);
    }
  }

  /** `start_single_acquisition`: refused in live mode; otherwise the image
      is taken and the camera is not acquiring afterwards. */
  function StartSingleAcquisition(c: Camera): (r: (Camera, bool))
    ensures r.1 <==> !c.live
    ensures !r.1 ==> r.0 == c
    ensures r.1 ==> r.0 == c.(acquiring := false)
  {
    if c.live then (c, false) else (c.(acquiring := false), true)
  }

  /** `start_live_acquisition`: only on a camera that supports live mode. */
  function StartLiveAcquisition(c: Camera): (r: (Camera, bool))
    ensures r.1 <==> c.supportLive
    ensures r.1 ==> r.0 == c.(live := true, acquiring := false) && !Ready(r.0)
    ensures !r.1 ==> r.0 == c
  {
    if c.supportLive then (c.(live := true, acquiring := false), true) else (c, false)
  }

  /** `stop_acquisition`: live mode and acquisition both end. */
  function StopAcquisition(c: Camera): (r: (Camera, bool))
    ensures r.1 && Ready(r.0)
    ensures r.0 == c.(live := false, acquiring := false)
  {
    (c.(live := false, acquiring := false), true)
  }

  /** `start_movie_acquisition`: only from the ready state; sets the number
      of frames and enters live mode when the camera supports it. */
  function StartMovieAcquisition(c: Camera, nFrames: int): (r: (Camera, bool))
    ensures r.1 <==> Ready(c)
    ensures !r.1 ==> r.0 == c
    ensures r.1 ==> r.0 == c.(live := c.supportLive, nFrames := nFrames)
  {
    if !c.live && !c.acquiring then
      var started := if c.supportLive then c.(live := true, acquiring := false) else c;
      (started.(nFrames := nFrames), true)
    else (c, false)
  }

  /** `finish_movie_acquisition`: the flags are cleared and the number of
      frames goes back to 1. */
  function FinishMovieAcquisition(c: Camera): (r: (Camera, bool))
    ensures r.1 && Ready(r.0) && r.0.nFrames == 1
    ensures r.0 == c.(live := false, acquiring := false, nFrames := 1)
  {
    (c.(live := false, acquiring := false, nFrames := 1), true)
  }

  /** A movie on a ready camera that supports live mode: started, it is no
      longer ready and a second start is refused; after n polls it is ready
      again with the counter back at 0; finishing restores one frame. */
  lemma MovieLifecycle(c: Camera, n: int)
    requires Ready(c) && c.supportLive && c.progress == 0 && 1 <= n
    ensures var started := StartMovieAcquisition(c, n);
      && started.1 && !Ready(started.0)
      && StartMovieAcquisition(started.0, n).1 == false
      && var polled := Polls(started.0, n);
      && Ready(polled.0) && polled.0.progress == 0
      && |polled.1| == n && polled.1[n - 1] == n
      && FinishMovieAcquisition(polled.0).0 == c.(nFrames := 1)
  {
    var started := StartMovieAcquisition(c, n).0;
    PollsCount(started, n);
  }

  /** `_set_frame_transfer`: mode 1 turns frame transfer on, mode 0 off,
      both returning 0; any other mode returns -1 and changes nothing. */
  function SetFrameTransfer(c: Camera, mode: int): (r: (Camera, int))
    ensures r.1 == 0 <==> mode == 0 || mode == 1
    ensures r.1 == 0 ==> r.0 == c.(frameTransfer := mode == 1)
    ensures r.1 != 0 ==> r.1 == -1 && r.0 == c
  {
    if mode == 1 then (c.(frameTransfer := true), 0)
    else if mode == 0 then (c.(frameTransfer := false), 0)
    else (c, -1)
  }

  /** `get_kinetic_time`: the exposure plus the readout time of the
      simulated Andor camera, shorter in frame transfer mode. */
  function GetKineticTime(c: Camera): (r: real)
    ensures c.frameTransfer ==> r == c.exposure + 0.123
    ensures !c.frameTransfer ==> r == c.exposure + 0.7654321
  {
    if c.frameTransfer then c.exposure + 0.123 else c.exposure + 0.7654321
  }

  /** Switching frame transfer on shortens the kinetic time, switching it
      off lengthens it, and an invalid mode leaves it as it was. */
  lemma FrameTransferKineticTime(c: Camera, mode: int)
    ensures mode == 1 ==> GetKineticTime(SetFrameTransfer(c, mode).0) < GetKineticTime(c.(frameTransfer := false))
    ensures mode == 0 ==> GetKineticTime(SetFrameTransfer(c, mode).0) > GetKineticTime(c.(frameTransfer := true))
    ensures mode != 0 && mode != 1 ==> GetKineticTime(SetFrameTransfer(c, mode).0) == GetKineticTime(c)
  {
  }
}

=== FILE: dicts.dfy ===
/** Python dictionaries with integer keys, as the insertion-ordered entry
    lists of Assoc, and the list models that show a dictionary as
    (value, key) rows sorted by key. */
module Dicts {
  import opened Wrappers
  import opened Assoc

  /** A dictionary: its (key, value) entries in insertion order. */
  type Dict = seq<(int, string)>

  predicate Distinct(ks: seq<int>) {
    forall i, j :: 0 <= i < j < |ks| ==> ks[i] != ks[j]
  }

  /** `del d[k]`; the caller checks that k is present. */
  function Del(d: Dict, k: int): Dict
    decreases |d|
  {
    if |d| == 0 then []
    else if d[0].0 == k then d[1..]
    else [d[0]] + Del(d[1..], k)
  }

  /** Deleting k leaves the value of every other key. */
  lemma {:induction false} GetDelOther(d: Dict, k: int, j: int)
    requires j != k
    ensures Get(Del(d, k), j) == Get(d, j)
    decreases |d|
  {
    if |d| != 0 && d[0].0 != k {
      GetDelOther(d[1..], k, j);
      assert ([d[0]] + Del(d[1..], k))[1..] == Del(d[1..], k);
    }
  }

  /** Keys of a dictionary without the first entry are distinct and do not
      include the first key. */
  lemma TailDistinct(d: Dict)
    requires |d| != 0 && Distinct(Keys(d))
    ensures Distinct(Keys(d[1..])) && d[0].0 !in Keys(d[1..])
  {
    var tail := d[1..];
    forall a, b | 0 <= a < b < |tail| ensures Keys(tail)[a] != Keys(tail)[b] {
      assert Keys(d)[a + 1] != Keys(d)[b + 1];
    }
    forall a | 0 <= a < |tail| ensures Keys(tail)[a] != d[0].0 {
      assert Keys(d)[0] != Keys(d)[a + 1];
    }
  }

  /** Deleting k from a dictionary with distinct keys removes it, and leaves
      every other key's value. */
  lemma {:induction false} GetDel(d: Dict, k: int, j: int)
    requires Distinct(Keys(d))
    ensures Get(Del(d, k), j) == if j == k then None else Get(d, j)
    decreases |d|
  {
    if j != k {
      GetDelOther(d, k, j);
    } else if |d| != 0 {
      var tail := d[1..];
      TailDistinct(d);
      if d[0].0 == k {
        GetSome(tail, k);
      } else {
        GetDel(tail, k, j);
        assert ([d[0]] + Del(tail, k))[1..] == Del(tail, k);
      }
    }
  }

  /** Deleting keeps the keys distinct and adds none. */
  lemma {:induction false} DelDistinct(d: Dict, k: int)
    requires Distinct(Keys(d))
    ensures Distinct(Keys(Del(d, k)))
    ensures forall j :: j in Keys(Del(d, k)) ==> j in Keys(d)
    decreases |d|
  {
    if |d| != 0 {
      var tail := d[1..];
      TailDistinct(d);
      assert Keys(d) == [d[0].0] + Keys(tail);
      if d[0].0 != k {
        DelDistinct(tail, k);
        var rest := Keys(Del(tail, k));
        assert Keys(Del(d, k)) == [d[0].0] + rest;
        assert d[0].0 !in rest;
      }
    }
  }

  /** `d[k] = v` keeps the keys distinct. */
  lemma SetDistinct(d: Dict, k: int, v: string)
    requires Distinct(Keys(d))
    ensures Distinct(Keys(Set(d, k, v)))
  {
    KeysSet(d, k, v);
  }

  predicate Increasing(ks: seq<int>) {
    forall i, j :: 0 <= i < j < |ks| ==> ks[i] < ks[j]
  }

  /** Insert `x` into the increasing `s`. */
  function Insert(x: int, s: seq<int>): (r: seq<int>)
    ensures multiset(r) == multiset(s) + multiset{x}
    decreases |s|
  {
    if |s| == 0 then [x]
    else if x <= s[0] then [x] + s
    else
      assert s == [s[0]] + s[1..];
      [s[0]] + Insert(x, s[1..])
  }

  /** Inserting a value above a lower bound of `s` keeps the bound. */
  lemma {:induction false} InsertAbove(b: int, x: int, s: seq<int>)
    requires b < x && forall i :: 0 <= i < |s| ==> b < s[i]
    ensures forall i :: 0 <= i < |Insert(x, s)| ==> b < Insert(x, s)[i]
    decreases |s|
  {
    if |s| != 0 && x > s[0] {
      InsertAbove(b, x, s[1..]);
      assert Insert(x, s) == [s[0]] + Insert(x, s[1..]);
    }
  }

  lemma {:induction false} InsertIncreasing(x: int, s: seq<int>)
    requires Increasing(s) && x !in s
    ensures Increasing(Insert(x, s))
    decreases |s|
  {
    if |s| != 0 && x > s[0] {
      var rest := Insert(x, s[1..]);
      InsertIncreasing(x, s[1..]);
      InsertAbove(s[0], x, s[1..]);
      assert Insert(x, s) == [s[0]] + rest;
    } else if |s| != 0 {
      assert x != s[0];
    }
  }

  /** `sorted(ks)`, by insertion. */
  function Sort(ks: seq<int>): (r: seq<int>)
    ensures multiset(r) == multiset(ks)
    decreases |ks|
  {
    if |ks| == 0 then []
    else
      assert ks == ks[..|ks| - 1] + [ks[|ks| - 1]];
      Insert(ks[|ks| - 1], Sort(ks[..|ks| - 1]))
  }

  /** Sorting distinct keys gives them in strictly increasing order. */
  lemma {:induction false} SortIncreasing(ks: seq<int>)
    requires Distinct(ks)
    ensures Increasing(Sort(ks))
    decreases |ks|
  {
    if |ks| != 0 {
      var prefix := ks[..|ks| - 1];
      var x := ks[|ks| - 1];
      assert Distinct(prefix) by {
        forall a, b | 0 <= a < b < |prefix| ensures prefix[a] != prefix[b] {
          assert prefix[a] == ks[a] && prefix[b] == ks[b];
        }
      }
      SortIncreasing(prefix);
      assert x !in Sort(prefix) by {
        assert x !in multiset(prefix) by {
          forall a | 0 <= a < |prefix| ensures prefix[a] != x {
            assert prefix[a] == ks[a];
          }
        }
      }
      InsertIncreasing(x, Sort(prefix));
    }
  }

  /** `[(d[key], key) for key in sorted(d.keys())]`. */
  function SortedItems(d: Dict): seq<(string, int)> {
    var ks := Sort(Keys(d));
    seq(|ks|, i requires 0 <= i < |ks| => (Get(d, ks[i]).GetOr(""), ks[i]))
  }

  /** The list model of a dictionary with distinct keys is sorted by key,
      has one row per key, and every row shows its key's value. */
  lemma SortedItemsMirror(d: Dict)
    requires Distinct(Keys(d))
    ensures Increasing(Values(SortedItems(d)))
    ensures forall k :: k in Values(SortedItems(d)) <==> Get(d, k).Some?
    ensures forall i :: 0 <= i < |SortedItems(d)| ==>
      Get(d, SortedItems(d)[i].1) == Some(SortedItems(d)[i].0)
  {
    var r := SortedItems(d);
    var ks := Sort(Keys(d));
    assert Values(r) == ks;
    SortIncreasing(Keys(d));
    forall k ensures k in ks <==> Get(d, k).Some? {
      GetSome(d, k);
      assert k in ks <==> k in multiset(Keys(d));
    }
    forall i | 0 <= i < |r| ensures Get(d, r[i].1) == Some(r[i].0) {
      assert r[i].1 == ks[i] && ks[i] in ks;
      GetSome(d, ks[i]);
    }
  }

  /** Python's position for index i into a list of length n: negative
      indices count from the end. */
  function PyIndex(n: nat, i: int): (r: Option<nat>)
    ensures r.Some? <==> 0 <= i + n && i < n
    ensures r.Some? ==> r.value < n && (r.value == i || r.value == n + i)
  {
    if 0 <= i < n then Some(i) else if 0 <= i + n && i < 0 then Some(n + i) else None
  }

  /** `del items[i]`: IndexError when the index is out of range. */
  function DeleteRow<T>(items: seq<T>, i: int): (r: Result<seq<T>>)
    ensures PyIndex(|items|, i).None? <==> r == Err(IndexError)
    ensures r.Ok? ==> |r.value| == |items| - 1
  {
    match PyIndex(|items|, i)
    case None => Err(IndexError)
    case Some(p) => Ok(items[..p] + items[p + 1..])
  }

  /** `items` is the list model of `d`: the keys of `d` are distinct and the
      rows, sorted by key, show exactly the keys of `d` with their values. */
  ghost predicate Mirrors(d: Dict, items: seq<(string, int)>) {
    && Distinct(Keys(d))
    && Increasing(Values(items))
    && (forall k :: k in Values(items) <==> Get(d, k).Some?)
    && (forall i :: 0 <= i < |items| ==> Get(d, items[i].1) == Some(items[i].0))
  }

  /** Rebuilding the list model after `d[k] = v` mirrors the new dictionary. */
  lemma SetMirrors(d: Dict, k: int, v: string)
    requires Distinct(Keys(d))
    ensures Mirrors(Set(d, k, v), SortedItems(Set(d, k, v)))
  {
    SetDistinct(d, k, v);
    SortedItemsMirror(Set(d, k, v));
  }

  /** Removing one element of an increasing sequence keeps it increasing and
      removes exactly that element. */
  lemma RemoveIncreasing(ks: seq<int>, p: nat)
    requires Increasing(ks) && p < |ks|
    ensures Increasing(ks[..p] + ks[p + 1..])
    ensures forall x :: x in ks[..p] + ks[p + 1..] <==> x in ks && x != ks[p]
  {
    var rest := ks[..p] + ks[p + 1..];
    assert forall i :: 0 <= i < |rest| ==> rest[i] == ks[if i < p then i else i + 1];
    forall x ensures x in rest <==> x in ks && x != ks[p] {
      if x in rest {
        var i :| 0 <= i < |rest| && rest[i] == x;
        assert ks[if i < p then i else i + 1] == x;
      }
      if x in ks && x != ks[p] {
        var i2 :| 0 <= i2 < |ks| && ks[i2] == x;
        assert rest[if i2 < p then i2 else i2 - 1] == x;
      }
    }
  }

  lemma RowValuesRemove(items: seq<(string, int)>, p: nat)
    requires p < |items|
    ensures Values(items[..p] + items[p + 1..]) == Values(items)[..p] + Values(items)[p + 1..]
  {
  }

  /** Deleting row p of a mirrored list model together with its key from the
      dictionary keeps the two mirrored. */
  lemma DeleteRowMirrors(d: Dict, items: seq<(string, int)>, p: nat)
    requires Mirrors(d, items) && p < |items|
    ensures Mirrors(Del(d, items[p].1), items[..p] + items[p + 1..])
  {
    var k := items[p].1;
    var rest := items[..p] + items[p + 1..];
    var d2 := Del(d, k);
    DelDistinct(d, k);
    RowValuesRemove(items, p);
    RemoveIncreasing(Values(items), p);
    forall k2 ensures k2 in Values(rest) <==> Get(d2, k2).Some? {
      GetDel(d, k, k2);
    }
    forall i | 0 <= i < |rest| ensures Get(d2, rest[i].1) == Some(rest[i].0) {
      assert rest[i].1 in Values(rest) by { assert Values(rest)[i] == rest[i].1; }
      GetDel(d, k, rest[i].1);
      assert rest[i] == items[if i < p then i else i + 1];
    }
  }

  /** `d[key]` on a dictionary with string keys, given by its items. */
  function Lookup(items: seq<(string, int)>, key: string): (r: Result<int>)
    ensures r.Err? <==> forall i :: 0 <= i < |items| ==> items[i].0 != key
    ensures r.Err? ==> r.error == KeyError
    ensures r.Ok? ==> exists i :: 0 <= i < |items| && items[i] == (key, r.value)
    decreases |items|
  {
    if |items| == 0 then Err(KeyError)
    else if items[0].0 == key then Ok(items[0].1)
    else
      var r := Lookup(items[1..], key);
      assert forall i :: 0 < i < |items| ==> items[i] == items[1..][i - 1];
      r
  }
}

=== FILE: experconfig.dfy ===
/** The experiment configurator logic: the configuration dictionary edited
    from the GUI, its defaults, the imaging sequence lists, and the
    selection of the entries written to a task's configuration file. The
    YAML file itself is returned as its path and its entries. */
module ExperimentConfigurator {
  import opened Wrappers
  import opened Assoc
  import Text

  /** An entry of an imaging sequence: a (lightsource, intensity) pair in
      the default mode, a dictionary with planes and step for a RAMM
      timelapse, and with the filter position as well for a PALM one. */
  datatype ImagingEntry =
    | Channel(lightsource: string, intensity: real)
    | RammStep(lightsource: string, intensity: real, planes: int, zStep: real)
    | PalmStep(lightsource: string, intensity: real, planes: int, zStep: real, filterPos: int)

  /** A value of the configuration dictionary. */
  datatype Value =
    | Bool(b: bool)
    | Number(x: real)
    | Int(n: int)
    | Str(s: string)
    | Sequence(entries: seq<ImagingEntry>)

  /** Which imaging list the GUI edits; the two timelapse flags of the
      source are never set together. */
  datatype Mode = Standard | TimelapseRamm | TimelapsePalm

  datatype Configurator = Configurator(
    config: seq<(string, Value)>,
    mode: Mode,
    sequence: seq<ImagingEntry>,
    rammSequence: seq<ImagingEntry>,
    palmSequence: seq<ImagingEntry>)

  // ---------------------------------------------------------------------
  // Defaults
  // ---------------------------------------------------------------------

  /** The entries `init_default_config_dict` assigns, in its order. */
  function Defaults(imagesPath: string, networkPath: string): seq<(string, Value)> {
    [("dapi", Bool(false)), ("rna", Bool(false)), ("transfer_data", Bool(false)),
     ("exposure", Number(0.05)), ("gain", Int(0)), ("num_frames", Int(1)), ("filter_pos", Int(1)),
     ("save_path", Str(imagesPath)), ("save_network_path", Str(networkPath)), ("file_format", Str("tif")),
     ("num_z_planes", Int(1)), ("centered_focal_plane", Bool(false)), ("dapi_path", Str("")),
     ("num_iterations", Int(0)), ("time_step", Int(0)), ("axial_calibration_path", Str(""))]
  }

  /** `init_default_config_dict`: the default entries are assigned, every
      other entry is kept, and the three imaging lists are emptied. The
      dictionary's 'imaging_sequence' entry is not touched. */
  function InitDefaultConfig(c: Configurator, imagesPath: string, networkPath: string): (r: Configurator)
    ensures r.mode == c.mode && r.sequence == [] && r.rammSequence == [] && r.palmSequence == []
    ensures forall k :: k !in Keys(Defaults(imagesPath, networkPath)) ==> Get(r.config, k) == Get(c.config, k)
  {
    var r := Configurator(SetAll(c.config, Defaults(imagesPath, networkPath)), c.mode, [], [], []);
    assert forall k :: k !in Keys(Defaults(imagesPath, networkPath)) ==> Get(r.config, k) == Get(c.config, k) by {
      forall k | k !in Keys(Defaults(imagesPath, networkPath)) {
        GetSetAll(c.config, Defaults(imagesPath, networkPath), k);
      }
    }
    r
  }

  /** No default is assigned twice. */
  lemma DefaultKeysDistinct(imagesPath: string, networkPath: string)
    ensures DistinctKeys(Defaults(imagesPath, networkPath))
  {
  }

  /** After the defaults every default entry reads its default value. */
  lemma InitDefaultConfigReads(c: Configurator, imagesPath: string, networkPath: string, i: nat)
    requires i < |Defaults(imagesPath, networkPath)|
    ensures var es := Defaults(imagesPath, networkPath);
      Get(InitDefaultConfig(c, imagesPath, networkPath).config, es[i].0) == Some(es[i].1)
  {
    var es := Defaults(imagesPath, networkPath);
    DefaultKeysDistinct(imagesPath, networkPath);
    GetSetAll(c.config, es, es[i].0);
    GetLastDistinct(es, i);
  }

  // ---------------------------------------------------------------------
  // Entry updates
  // ---------------------------------------------------------------------

  /** The checkbox slots (`update_is_dapi`, `update_is_rna`,
      `update_data_transfer`) on the entry `key`: Qt's Checked state (2)
      stores True, Unchecked (0) stores False, and any other state leaves
      the dictionary as it is. */
  function UpdateCheckbox(config: seq<(string, Value)>, key: string, state: int): (r: seq<(string, Value)>)
    ensures state != 0 && state != 2 ==> r == config
    ensures state == 0 || state == 2 ==> Get(r, key) == Some(Bool(state == 2))
    ensures forall k :: k != key ==> Get(r, k) == Get(config, k)
  {
    if state == 2 || state == 0 then
      SetReads(config, key, Bool(state == 2));
      Set(config, key, Bool(state == 2))
    else config
  }

  /** `update_filterpos`: the combobox index counts from 0, the filter
      positions from 1. */
  function UpdateFilterPos(config: seq<(string, Value)>, index: int): (r: seq<(string, Value)>)
    ensures Get(r, "filter_pos") == Some(Int(index + 1))
    ensures forall k :: k != "filter_pos" ==> Get(r, k) == Get(config, k)
  {
    SetReads(config, "filter_pos", Int(index + 1));
    Set(config, "filter_pos", Int(index + 1))
  }

  /** The combobox shows the filter stored in the dictionary: reading the
      entry back and counting from 0 again gives the index. */
  lemma FilterPosRoundTrip(config: seq<(string, Value)>, index: int)
    ensures Get(UpdateFilterPos(config, index), "filter_pos").value.n - 1 == index
  {
  }

  // ---------------------------------------------------------------------
  // The imaging sequence
  // ---------------------------------------------------------------------

  /** The list the current mode edits. */
  function Items(c: Configurator): seq<ImagingEntry> {
    match c.mode
    case TimelapseRamm => c.rammSequence
    case TimelapsePalm => c.palmSequence
    case Standard => c.sequence
  }

  /** The list of the current mode replaced, and the dictionary's
      'imaging_sequence' entry set to it. */
  function WithItems(c: Configurator, items: seq<ImagingEntry>): (r: Configurator)
    ensures Items(r) == items && r.mode == c.mode
    ensures c.mode != Standard ==> r.sequence == c.sequence
    ensures c.mode != TimelapseRamm ==> r.rammSequence == c.rammSequence
    ensures c.mode != TimelapsePalm ==> r.palmSequence == c.palmSequence
    ensures Get(r.config, "imaging_sequence") == Some(Sequence(items))
    ensures forall k :: k != "imaging_sequence" ==> Get(r.config, k) == Get(c.config, k)
  {
    var config := Set(c.config, "imaging_sequence", Sequence(items));
    SetReads(c.config, "imaging_sequence", Sequence(items));
    match c.mode
    case TimelapseRamm => c.(config := config, rammSequence := items)
    case TimelapsePalm => c.(config := config, palmSequence := items)
    case Standard => c.(config := config, sequence := items)
  }

  /** The entry the add slot builds for a mode: a (lightsource, intensity)
      pair in the standard mode; the timelapse modes add the plane count
      and z step, and the PALM mode the filter position too. */
  function NewEntry(mode: Mode, lightsource: string, intensity: real, planes: int, zStep: real, filterPos: int)
    : (e: ImagingEntry)
    ensures e.lightsource == lightsource && e.intensity == intensity
    ensures e.Channel? <==> mode == Standard
    ensures e.RammStep? <==> mode == TimelapseRamm
    ensures e.PalmStep? <==> mode == TimelapsePalm
    ensures !e.Channel? ==> e.planes == planes && e.zStep == zStep
    ensures e.PalmStep? ==> e.filterPos == filterPos
  {
    match mode
    case TimelapseRamm => RammStep(lightsource, intensity, planes, zStep)
    case TimelapsePalm => PalmStep(lightsource, intensity, planes, zStep, filterPos)
    case Standard => Channel(lightsource, intensity)
  }

  /** `add_entry_to_imaging_list`: the entry goes last in the current list. */
  function AddEntry(c: Configurator, lightsource: string, intensity: real, planes: int, zStep: real, filterPos: int)
    : (r: Configurator)
    ensures |Items(r)| == |Items(c)| + 1 && Items(r)[..|Items(c)|] == Items(c)
    ensures Items(r)[|Items(c)|] == NewEntry(c.mode, lightsource, intensity, planes, zStep, filterPos)
    ensures Get(r.config, "imaging_sequence") == Some(Sequence(Items(r)))
  {
    WithItems(c, Items(c) + [NewEntry(c.mode, lightsource, intensity, planes, zStep, filterPos)])
  }

  /** The position a Python index names in a list of length n: a negative
      index counts from the end. */
  function PythonIndex(index: int, n: nat): (i: int)
    ensures 0 <= i < n <==> -(n as int) <= index < n
  {
    if index < 0 then index + n else index
  }

  /** `delete_entry_from_imaging_list`: `del items[row]` with Python's
      indexing, so that a negative row counts from the end (an invalid
      model index has row -1) and a row outside the list raises IndexError. */
  function DeleteEntry(c: Configurator, row: int): (r: Result<Configurator>)
    ensures r.Err? <==> !(-|Items(c)| <= row < |Items(c)|)
    ensures r.Err? ==> r.error == IndexError
    ensures r.Ok? ==> |Items(r.value)| == |Items(c)| - 1
    ensures r.Ok? ==> Get(r.value.config, "imaging_sequence") == Some(Sequence(Items(r.value)))
    ensures r.Ok? ==> forall j :: 0 <= j < |Items(r.value)| ==>
      Items(r.value)[j] == Items(c)[if j < PythonIndex(row, |Items(c)|) then j else j + 1]
  {
    var items := Items(c);
    var i := PythonIndex(row, |items|);
    if i < 0 || i >= |items| then Err(IndexError)
    else Ok(WithItems(c, items[..i] + items[i + 1..]))
  }

  /** Deleting the row just added restores the list, counted from either end. */
  lemma DeleteUndoesAdd(c: Configurator, lightsource: string, intensity: real, planes: int, zStep: real, filterPos: int)
    ensures var added := AddEntry(c, lightsource, intensity, planes, zStep, filterPos);
      && Items(DeleteEntry(added, |Items(c)|).value) == Items(c)
      && Items(DeleteEntry(added, -1).value) == Items(c)
  {
    var added := AddEntry(c, lightsource, intensity, planes, zStep, filterPos);
    assert Items(added)[..|Items(c)|] + Items(added)[|Items(c)| + 1..] == Items(c);
  }

  /** `delete_imaging_list`: the three lists are emptied. The dictionary
      keeps its 'imaging_sequence' entry, which in the source still refers
      to the list object replaced here. */
  function DeleteImagingList(c: Configurator): (r: Configurator)
    ensures r.sequence == [] && r.rammSequence == [] && r.palmSequence == []
    ensures r.config == c.config && r.mode == c.mode
  {
    c.(sequence := [], rammSequence := [], palmSequence := [])
  }

  /** After clearing, the next add starts a new list, and the dictionary
      entry holds only that entry again. */
  lemma AddAfterDeleteImagingList(c: Configurator, lightsource: string, intensity: real, planes: int, zStep: real, filterPos: int)
    ensures var r := AddEntry(DeleteImagingList(c), lightsource, intensity, planes, zStep, filterPos);
      Get(r.config, "imaging_sequence") == Some(Sequence([NewEntry(c.mode, lightsource, intensity, planes, zStep, filterPos)]))
  {
  }

  // ---------------------------------------------------------------------
  // Saving a task configuration
  // ---------------------------------------------------------------------

  /** One branch of `save_to_exp_config_file`: the experiment, its default
      file name and the entries written. `keysOnlyByDefault` marks the
      branches that select the entries only under the default file name. */
  datatype Task = Task(experiment: string, defaultFile: string, keys: seq<string>, keysOnlyByDefault: bool)

  /** The experiments `save_to_exp_config_file` knows, in the order of its
      branches. */
  function Tasks(): seq<Task> {
    [Task("Multicolor imaging PALM", "multicolor_imaging_task_PALM.yml",
          ["sample_name", "filter_pos", "exposure", "gain", "num_frames", "save_path", "imaging_sequence",
           "file_format"], false),
     Task("Multicolor scan PALM", "multicolor_scan_task_PALM.yml",
          ["sample_name", "filter_pos", "exposure", "gain", "num_frames", "save_path", "file_format",
           "imaging_sequence", "num_z_planes", "z_step", "centered_focal_plane"], false),
     Task("Multicolor scan RAMM", "multicolor_scan_task_RAMM.yml",
          ["sample_name", "exposure", "save_path", "file_format", "imaging_sequence", "num_z_planes", "z_step",
           "centered_focal_plane"], false),
     Task("Multicolor scan Airyscan", "multicolor_scan_task_AIRYSCAN.yml",
          ["imaging_sequence", "num_z_planes"], false),
     Task("ROI multicolor scan PALM", "ROI_multicolor_scan_task_PALM.yml",
          ["sample_name", "filter_pos", "exposure", "gain", "num_frames", "save_path", "file_format",
           "imaging_sequence", "num_z_planes", "z_step", "centered_focal_plane", "roi_list_path"], false),
     Task("ROI multicolor scan RAMM", "ROI_multicolor_scan_task_RAMM.yml",
          ["sample_name", "dapi", "rna", "exposure", "save_path", "file_format", "imaging_sequence",
           "num_z_planes", "z_step", "roi_list_path", "centered_focal_plane"], false),
     Task("ROI multicolor scan Airyscan", "ROI_multicolor_scan_task_AIRYSCAN.yml",
          ["sample_name", "dapi", "rna", "save_path", "imaging_sequence", "num_z_planes", "roi_list_path"], false),
     Task("Fluidics RAMM", "fluidics_task_RAMM.yml", ["injections_path"], false),
     Task("Fluidics Airyscan", "fluidics_task_AIRYSCAN.yml", ["injections_path"], false),
     Task("Hi-M RAMM", "hi_m_task_RAMM.yml",
          ["sample_name", "exposure", "save_path", "save_network_path", "transfer_data", "file_format",
           "imaging_sequence", "num_z_planes", "z_step", "centered_focal_plane", "roi_list_path",
           "injections_path", "dapi_path"], false),
     Task("Hi-M Airyscan Lumencor", "hi_m_task_AIRYSCAN.yml",
          ["sample_name", "save_path", "imaging_sequence", "num_z_planes", "roi_list_path", "injections_path",
           "dapi_path"], true),
     Task("Hi-M Airyscan Lumencor Tissue", "hi_m_task_AIRYSCAN_tissue.yml",
          ["sample_name", "save_path", "imaging_sequence", "num_z_planes", "roi_list_path", "injections_path",
           "dapi_path", "zen_ref_images_path", "zen_saving_path"], true),
     Task("Hi-M Airyscan Confocal", "hi_m_task_AIRYSCAN_confocal.yml",
          ["sample_name", "save_path", "roi_list_path", "injections_path", "dapi_path"], true),
     Task("Photobleaching RAMM", "photobleaching_task_RAMM.yml",
          ["imaging_sequence", "roi_list_path", "illumination_time"], false),
     Task("Photobleaching Airyscan", "photobleaching_task_AIRYSCAN.yml",
          ["imaging_sequence", "roi_list_path", "illumination_time"], false),
     Task("Fast timelapse RAMM", "fast_timelapse_task_RAMM.yml",
          ["sample_name", "exposure", "save_path", "file_format", "imaging_sequence", "num_z_planes", "z_step",
           "centered_focal_plane", "roi_list_path", "num_iterations", "axial_calibration_path"], false),
     Task("Hubble RAMM", "hubble_task_RAMM.yml",
          ["sample_name", "exposure", "save_path", "file_format", "imaging_sequence", "num_z_planes", "z_step",
           "centered_focal_plane", "roi_list_path", "axial_calibration_path"], false),
     Task("Timelapse RAMM", "timelapse_task_RAMM.yml",
          ["sample_name", "exposure", "save_path", "file_format", "imaging_sequence", "centered_focal_plane",
           "roi_list_path", "num_iterations", "time_step"], false),
     Task("Timelapse PALM", "timelapse_task_PALM.yml",
          ["sample_name", "exposure", "gain", "save_path", "file_format", "imaging_sequence",
           "centered_focal_plane", "roi_list_path", "num_iterations", "time_step"], false)]
  }

  /** The first branch for an experiment, as the `elif` chain picks it. */
  function FindTask(ts: seq<Task>, experiment: string): (r: Option<Task>)
    ensures r.Some? ==> r.value in ts && r.value.experiment == experiment
    ensures r.None? <==> forall i :: 0 <= i < |ts| ==> ts[i].experiment != experiment
    decreases |ts|
  {
    if |ts| == 0 then None
    else if ts[0].experiment == experiment then Some(ts[0])
    else
      assert forall i :: 1 <= i < |ts| ==> ts[i] == ts[1..][i - 1];
      FindTask(ts[1..], experiment)
  }

  /** `not filename`: no name, or the empty one. */
  predicate NoFileName(filename: Option<string>) {
    filename.None? || filename.value == ""
  }

  /** The entries `(key, config[key])` of present keys, in order. */
  function Entries(config: seq<(string, Value)>, keys: seq<string>): (r: seq<(string, Value)>)
    requires forall i :: 0 <= i < |keys| ==> Get(config, keys[i]).Some?
    ensures Keys(r) == keys
    ensures forall k :: k in keys ==> GetLast(r, k) == Get(config, k)
    decreases |keys|
  {
    if |keys| == 0 then []
    else
      var front := keys[..|keys| - 1];
      var last := keys[|keys| - 1];
      var r := Entries(config, front) + [(last, Get(config, last).value)];
      assert Keys(r) == Keys(Entries(config, front)) + [last];
      assert r[..|r| - 1] == Entries(config, front);
      assert keys == front + [last];
      r
  }

  /** `{key: config[key] for key in keys}`: a missing key raises KeyError. */
  function Extract(config: seq<(string, Value)>, keys: seq<string>): (r: Result<seq<(string, Value)>>)
    ensures r.Err? <==> exists i :: 0 <= i < |keys| && keys[i] !in Keys(config)
    ensures r.Err? ==> r.error == KeyError
    ensures r.Ok? ==> forall k :: Get(r.value, k) == if k in keys then Get(config, k) else None
  {
    if exists i :: 0 <= i < |keys| && keys[i] !in Keys(config) then Err(KeyError)
    else
      assert forall i :: 0 <= i < |keys| ==> Get(config, keys[i]).Some? by {
        forall i | 0 <= i < |keys| { GetSome(config, keys[i]); }
      }
      var es := Entries(config, keys);
      assert forall k :: Get(SetAll([], es), k) == if k in keys then Get(config, k) else None by {
        forall k { GetSetAll([], es, k); }
      }
      Ok(SetAll([], es))
  }

  /** `save_to_exp_config_file` as written, over the branch table `tasks`:
      the three Airyscan Hi-M branches build the entry list only inside
      the `if not filename` block, so under any other file name nothing but
      'experiment' is written. An unknown experiment keeps its file name;
      without one, `os.path.join` raises TypeError. */
  function SaveConfigAsWritten(tasks: seq<Task>, config: seq<(string, Value)>, path: string, experiment: string,
                               filename: Option<string>)
    : (r: Result<(string, seq<(string, Value)>)>)
    ensures FindTask(tasks, experiment).None? ==>
      (r.Err? <==> filename.None?) && (r.Err? ==> r.error == TypeError)
    ensures (FindTask(tasks, experiment).Some? && FindTask(tasks, experiment).value.keysOnlyByDefault
             && !NoFileName(filename)) ==> r == Ok((Text.PathJoin(path, filename.value), [("experiment", Str(experiment))]))
    ensures r.Ok? ==> Get(r.value.1, "experiment") == Some(Str(experiment))
  {
    match FindTask(tasks, experiment)
    case None =>
      if filename.None? then Err(TypeError)
      else Ok((Text.PathJoin(path, filename.value), [("experiment", Str(experiment))]))
    case Some(t) =>
      var name := if NoFileName(filename) then t.defaultFile else filename.value;
      var saved :- if t.keysOnlyByDefault && !NoFileName(filename) then Ok([]) else Extract(config, t.keys);
      GetSet(saved, "experiment", Str(experiment), "experiment");
      Ok((Text.PathJoin(path, name), Set(saved, "experiment", Str(experiment))))
  }

  /** `save_to_exp_config_file` as meant, over the branch table `tasks`
      (`Tasks()` in the source): every branch writes its entries, whatever
      the file name, and a missing entry writes no file. */
  function SaveConfig(tasks: seq<Task>, config: seq<(string, Value)>, path: string, experiment: string,
                      filename: Option<string>)
    : (r: Result<(string, seq<(string, Value)>)>)
    ensures FindTask(tasks, experiment).None? ==>
      (r.Err? <==> filename.None?) && (r.Err? ==> r.error == TypeError)
    ensures FindTask(tasks, experiment).Some? ==> var t := FindTask(tasks, experiment).value;
      && (r.Err? <==> exists i :: 0 <= i < |t.keys| && t.keys[i] !in Keys(config))
      && (r.Err? ==> r.error == KeyError)
      && (r.Ok? ==> r.value.0 == Text.PathJoin(path, if NoFileName(filename) then t.defaultFile else filename.value))
    ensures r.Ok? ==> Get(r.value.1, "experiment") == Some(Str(experiment))
  {
    match FindTask(tasks, experiment)
    case None =>
      if filename.None? then Err(TypeError)
      else Ok((Text.PathJoin(path, filename.value), [("experiment", Str(experiment))]))
    case Some(t) =>
      var name := if NoFileName(filename) then t.defaultFile else filename.value;
      match Extract(config, t.keys)
      case Err(e) => Err(e)
      case Ok(saved) =>
        GetSet(saved, "experiment", Str(experiment), "experiment");
        Ok((Text.PathJoin(path, name), Set(saved, "experiment", Str(experiment))))
  }


  /** The written entries are exactly the branch's keys, with the values of
      the dictionary, and 'experiment'. */
  lemma SaveConfigEntries(tasks: seq<Task>, config: seq<(string, Value)>, path: string, experiment: string,
                          filename: Option<string>, k: string)
    requires FindTask(tasks, experiment).Some?
    requires SaveConfig(tasks, config, path, experiment, filename).Ok?
    requires k != "experiment"
    ensures Get(SaveConfig(tasks, config, path, experiment, filename).value.1, k)
         == if k in FindTask(tasks, experiment).value.keys then Get(config, k) else None
  {
    var t := FindTask(tasks, experiment).value;
    var saved := Extract(config, t.keys).value;
    GetSet(saved, "experiment", Str(experiment), k);
  }

  /** The two agree except on a named copy of a branch that selects its
      entries only under the default name. */
  lemma SaveConfigAgrees(tasks: seq<Task>, config: seq<(string, Value)>, path: string, experiment: string,
                         filename: Option<string>)
    requires FindTask(tasks, experiment).None? || !FindTask(tasks, experiment).value.keysOnlyByDefault
             || NoFileName(filename)
    ensures SaveConfigAsWritten(tasks, config, path, experiment, filename)
         == SaveConfig(tasks, config, path, experiment, filename)
  {
  }

  /** As written, a named copy of such a branch holds nothing but the
      experiment, and is written even when the dictionary lacks the
      entries the default file requires. */
  lemma NamedCopyIsEmpty(tasks: seq<Task>, config: seq<(string, Value)>, path: string, experiment: string,
                         copy: string)
    requires FindTask(tasks, experiment).Some? && FindTask(tasks, experiment).value.keysOnlyByDefault
    requires copy != ""
    ensures SaveConfigAsWritten(tasks, config, path, experiment, Some(copy))
         == Ok((Text.PathJoin(path, copy), [("experiment", Str(experiment))]))
  {
  }

  /** The `elif` chain picks the first branch naming the experiment. */
  lemma {:induction false} FindTaskAt(ts: seq<Task>, experiment: string, i: nat)
    requires i < |ts| && ts[i].experiment == experiment
    requires forall j :: 0 <= j < i ==> ts[j].experiment != experiment
    ensures FindTask(ts, experiment) == Some(ts[i])
    decreases i
  {
    if i > 0 {
      assert forall j :: 0 <= j < i - 1 ==> ts[1..][j] == ts[j + 1];
      FindTaskAt(ts[1..], experiment, i - 1);
    }
  }

  /** The Airyscan confocal branch selects its five entries only under the
      default name. */
  lemma ConfocalKeysOnlyByDefault()
    ensures FindTask(Tasks(), "Hi-M Airyscan Confocal") == Some(Tasks()[12])
    ensures Tasks()[12].keysOnlyByDefault && |Tasks()[12].keys| == 5
  {
    var ts := Tasks();
    assert forall j :: 0 <= j < 12 ==> ts[j].experiment != "Hi-M Airyscan Confocal";
    FindTaskAt(ts, "Hi-M Airyscan Confocal", 12);
  }
}

=== FILE: fits.dfy ===
/** `convert_to_fits_metadata` of the camera logic: a metadata dictionary
    flattened to FITS header cards with keys of at most eight upper-case
    characters, each card keeping the original key as its comment. */
module FitsMetadata {
  import opened Wrappers
  import opened Assoc
  import Text
  import Seqs

  /** A metadata value: a single value or a list of values. */
  datatype Entry<A> = Scalar(v: A) | Items(vs: seq<A>)

  /** A FITS card: the value and the comment naming the original key. */
  type Card<A> = (A, string)

  /** The metadata key with its spaces replaced by underscores. */
  function Underscored(key: string): (r: string)
    ensures |r| == |key| && ' ' !in r
  {
    Text.ReplaceChar(key, ' ', '_')
  }

  /** The header key of a single value: the first eight characters, in
      upper case. */
  function ScalarKey(key: string): string {
    Text.Upper(Text.Take(key, 8))
  }

  /** The header key of the i-th list item: the first seven characters, in
      upper case, and the item number counted from 1. */
  function ItemKey(key: string, i: nat): string {
    Text.Upper(Text.Take(key, 7)) + Text.NatToString(i + 1)
  }

  /** A header key FITS accepts: no space and no lower-case letter. */
  predicate HeaderKey(k: string) {
    forall i :: 0 <= i < |k| ==> k[i] != ' ' && !('a' <= k[i] <= 'z')
  }

  /** The cards one metadata entry gives, in order. */
  function EntryCards<A>(key: string, value: Entry<A>): (r: seq<(string, Card<A>)>)
    ensures value.Scalar? ==> r == [(ScalarKey(key), (value.v, key))]
    ensures value.Items? ==> |r| == |value.vs|
    ensures value.Items? ==> forall i :: 0 <= i < |r| ==>
      r[i] == (ItemKey(key, i), (value.vs[i], key + Text.NatToString(i + 1)))
  {
    match value
    case Scalar(v) => [(ScalarKey(key), (v, key))]
    case Items(vs) => seq(|vs|, i requires 0 <= i < |vs| => (ItemKey(key, i), (vs[i], key + Text.NatToString(i + 1))))
  }

  /** Every card of a key without spaces has a header key, of at most
      eight characters unless it numbers the tenth or a later item. */
  lemma CardKey<A>(key: string, value: Entry<A>, c: nat)
    requires ' ' !in key && c < |EntryCards(key, value)|
    ensures var k := EntryCards(key, value)[c].0;
      HeaderKey(k) && (c < 9 ==> |k| <= 8)
  {
    if value.Scalar? {
      UpperHeaderKey(Text.Take(key, 8));
    } else {
      assert EntryCards(key, value)[c].0 == ItemKey(key, c);
      ItemKeyShape(key, c);
    }
  }

  /** The key of the i-th item is a header key, of at most eight
      characters for the first nine items. */
  lemma ItemKeyShape(key: string, i: nat)
    requires ' ' !in key
    ensures HeaderKey(ItemKey(key, i)) && (i < 9 ==> |ItemKey(key, i)| <= 8)
  {
    var u := Text.Upper(Text.Take(key, 7));
    var d := Text.NatToString(i + 1);
    UpperHeaderKey(Text.Take(key, 7));
    NumeralHeaderKey(i + 1);
    HeaderKeyAppend(u, d);
  }

  lemma HeaderKeyAppend(u: string, d: string)
    requires HeaderKey(u) && HeaderKey(d)
    ensures HeaderKey(u + d)
  {
    forall i | 0 <= i < |u + d|
      ensures (u + d)[i] != ' ' && !('a' <= (u + d)[i] <= 'z')
    {
      if i < |u| { assert (u + d)[i] == u[i]; } else { assert (u + d)[i] == d[i - |u|]; }
    }
  }

  /** Upper-casing a key without spaces gives a header key. */
  lemma UpperHeaderKey(s: string)
    requires ' ' !in s
    ensures HeaderKey(Text.Upper(s))
  {
    forall i | 0 <= i < |s|
      ensures Text.Upper(s)[i] != ' ' && !('a' <= Text.Upper(s)[i] <= 'z')
    {
      assert s[i] != ' ';
    }
  }

  /** An item number is a header key. */
  lemma NumeralHeaderKey(n: nat)
    ensures HeaderKey(Text.NatToString(n))
  {
    var s := Text.NatToString(n);
    forall i | 0 <= i < |s|
      ensures s[i] != ' ' && !('a' <= s[i] <= 'z')
    {
      assert Text.IsDigit(s[i]);
    }
  }

  /** The cards of one metadata entry, its key with spaces replaced. */
  function CardsOf<A>(entry: (string, Entry<A>)): seq<(string, Card<A>)> {
    EntryCards(Underscored(entry.0), entry.1)
  }

  /** The assignments `fits_metadata[fits_key] = fits_value`, entry by
      entry. */
  function Assignments<A>(metadata: seq<(string, Entry<A>)>): seq<(string, Card<A>)> {
    Seqs.FlatMap(CardsOf, metadata)
  }

  /** The header keys of the converted dictionary are those assigned. */
  lemma ConvertedKeyAssigned<A>(metadata: seq<(string, Entry<A>)>, k: string) returns (p: nat)
    requires k in Keys(SetAll([], Assignments(metadata)))
    ensures p < |Assignments(metadata)| && Assignments(metadata)[p].0 == k
  {
    var es := Assignments(metadata);
    GetSome(SetAll([], es), k);
    GetSetAll([], es, k);
    p :| 0 <= p < |es| && Keys(es)[p] == k;
  }

  /** `convert_to_fits_metadata(metadata)`: every key is a header key. */
  function ConvertToFitsMetadata<A>(metadata: seq<(string, Entry<A>)>): (r: seq<(string, Card<A>)>)
    ensures forall k :: k in Keys(r) ==> HeaderKey(k)
  {
    var r := SetAll([], Assignments(metadata));
    assert forall k :: k in Keys(r) ==> HeaderKey(k) by {
      forall k | k in Keys(r) ensures HeaderKey(k) {
        var p := ConvertedKeyAssigned(metadata, k);
        var j, c := Seqs.FlatMapOrigin(CardsOf, metadata, p);
        CardKey(Underscored(metadata[j].0), metadata[j].1, c);
      }
    }
    r
  }

  /** No list of the metadata has more than nine items. */
  predicate ShortLists<A>(metadata: seq<(string, Entry<A>)>) {
    forall j :: 0 <= j < |metadata| && metadata[j].1.Items? ==> |metadata[j].1.vs| <= 9
  }

  /** With lists of at most nine items every header key has at most eight
      characters. */
  lemma ConvertKeysShort<A>(metadata: seq<(string, Entry<A>)>, k: string)
    requires ShortLists(metadata)
    requires k in Keys(ConvertToFitsMetadata(metadata))
    ensures |k| <= 8
  {
    var p := ConvertedKeyAssigned(metadata, k);
    var j, c := Seqs.FlatMapOrigin(CardsOf, metadata, p);
    CardKey(Underscored(metadata[j].0), metadata[j].1, c);
  }

  /** When no two cards share a header key, a single value reads back under
      its key with the original key as comment, and every list item under
      its numbered key. */
  lemma ConvertReads<A>(metadata: seq<(string, Entry<A>)>, j: nat, i: nat)
    requires DistinctKeys(Assignments(metadata))
    requires j < |metadata|
    ensures var key := Underscored(metadata[j].0);
      var fits := ConvertToFitsMetadata(metadata);
      && (metadata[j].1.Scalar? ==> Get(fits, ScalarKey(key)) == Some((metadata[j].1.v, key)))
      && (metadata[j].1.Items? && i < |metadata[j].1.vs| ==>
            Get(fits, ItemKey(key, i)) == Some((metadata[j].1.vs[i], key + Text.NatToString(i + 1))))
  {
    var key := Underscored(metadata[j].0);
    var es := Assignments(metadata);
    var cards := EntryCards(key, metadata[j].1);
    var c := if metadata[j].1.Scalar? then 0 else i;
    if c < |cards| {
      var p := Seqs.FlatMapIndex(CardsOf, metadata, j, c);
      GetLastDistinct(es, p);
      assert es[p].0 in Keys(es);
      GetSetAll([], es, es[p].0);
    }
  }

  /** The cards of two single values, in order. */
  lemma TwoScalarsAssigned<A>(k1: string, a: A, k2: string, b: A)
    ensures Assignments([(k1, Scalar(a)), (k2, Scalar(b))])
         == [(ScalarKey(Underscored(k1)), (a, Underscored(k1))), (ScalarKey(Underscored(k2)), (b, Underscored(k2)))]
  {
    var m := [(k1, Scalar(a)), (k2, Scalar(b))];
    assert m[..1] == [(k1, Scalar(a))];
    assert m[..1][..0] == [];
    assert CardsOf(m[0]) == EntryCards(Underscored(k1), Scalar(a));
    assert CardsOf(m[1]) == EntryCards(Underscored(k2), Scalar(b));
    assert Assignments(m[..1]) == Seqs.FlatMap(CardsOf, m[..1][..0]) + CardsOf(m[0]);
    assert Assignments(m) == Assignments(m[..1]) + CardsOf(m[1]);
  }

  /** Two single values whose keys agree in their first eight characters
      share one card: the later one is kept and the earlier one is lost. */
  lemma ConvertCollision<A>(k1: string, a: A, k2: string, b: A)
    requires ScalarKey(Underscored(k1)) == ScalarKey(Underscored(k2))
    ensures var fits := ConvertToFitsMetadata([(k1, Scalar(a)), (k2, Scalar(b))]);
      && |fits| == 1
      && Get(fits, ScalarKey(Underscored(k2))) == Some((b, Underscored(k2)))
  {
    var key := ScalarKey(Underscored(k2));
    var c1: (string, Card<A>) := (key, (a, Underscored(k1)));
    var c2: (string, Card<A>) := (key, (b, Underscored(k2)));
    TwoScalarsAssigned(k1, a, k2, b);
    var es := [c1, c2];
    assert es[..1] == [c1] && [c1][..0] == [];
    assert SetAll([], [c1]) == Set([], key, c1.1) == [c1];
    assert SetAll([], es) == Set(SetAll([], [c1]), key, c2.1);
    assert Set([c1], key, c2.1) == [c2];
  }
}

=== FILE: flowcontrol.dfy ===
/** The flow control logic: the volume count that integrates the measured
    flowrate until a target volume is injected, and the flag and settings
    of the pressure regulation loop. The worker threads that time the loop
    steps are replaced by the caller running one step at a time; each step
    says whether the next one is scheduled. */
module FlowControl {
  import Numeric

  /** Seconds between two steps of the volume count. */
  const SamplingInterval: real := 1.0

  datatype VolumeCount = VolumeCount(
    measuring: bool,
    total: real,
    time: real,
    target: real,
    reached: bool)

  /** `np.round(x, decimals=3)`. */
  function Round3(x: real): (r: real)
    ensures x - 0.0005 <= r <= x + 0.0005
  {
    Numeric.RoundHalfEven(x * 1000.0) as real / 1000.0
  }

  /** `start_volume_measurement`: the count restarts from 0 and is marked
      running; the reached flag is cleared only for a positive target (it
      keeps its value otherwise). The first step is always scheduled. */
  function StartVolumeMeasurement(v: VolumeCount, target: real): (r: VolumeCount)
    ensures r.measuring && r.total == 0.0 && r.time == 0.0 && r.target == target
    ensures r.reached == if 0.0 < target then false else v.reached
  {
    VolumeCount(true, 0.0, 0.0, target, if 0.0 < target then false else v.reached)
  }

  /** Outcome of one step: the count afterwards, whether the target-reached
      signal fires, and whether another step is scheduled. */
  datatype LoopStep = LoopStep(count: VolumeCount, reachedSignal: bool, again: bool)

  /** `volume_measurement_loop`: the volume injected during the interval
      (flowrate in volume per minute) is added and rounded to three
      decimals; the count stops once the target is reached or when it was
      stopped from outside, and otherwise schedules the next step. */
  function VolumeMeasurementLoop(v: VolumeCount, flowrate: real): (r: LoopStep)
    ensures r.count.total == Round3(v.total + flowrate * SamplingInterval / 60.0)
    ensures r.count.time == v.time + SamplingInterval && r.count.target == v.target
    ensures r.count.reached <==> r.count.total >= v.target || !v.measuring
    ensures r.count.reached ==> !r.count.measuring && r.reachedSignal
    ensures !r.count.reached ==> r.count.measuring && !r.reachedSignal
    ensures r.again <==> !r.count.reached
  {
    var total := Round3(v.total + flowrate * SamplingInterval / 60.0);
    var time := v.time + SamplingInterval;
    if total < v.target && v.measuring then
      LoopStep(VolumeCount(v.measuring, total, time, v.target, false), false, true)
    else
      LoopStep(VolumeCount(false, total, time, v.target, true), true, false)
  }

  /** `stop_volume_measurement`: no further step is scheduled. */
  function StopVolumeMeasurement(v: VolumeCount): (r: VolumeCount)
    ensures !r.measuring && r.reached
    ensures r.total == v.total && r.time == v.time && r.target == v.target
  {
    v.(measuring := false, reached := true)
  }

  /** After a stop from outside, the step that is already running ends the
      count without scheduling another one. */
  lemma StopEndsLoop(v: VolumeCount, flowrate: real)
    ensures !VolumeMeasurementLoop(StopVolumeMeasurement(v), flowrate).again
  {
  }

  /** A count on the 0.001 grid grows by at least 0.001 per step when the
      flowrate adds at least that much per interval: with such a flowrate
      the count cannot stall below the target. */
  lemma LoopProgress(v: VolumeCount, flowrate: real, m: int)
    requires v.total == m as real / 1000.0
    requires flowrate * SamplingInterval / 60.0 >= 0.001
    ensures VolumeMeasurementLoop(v, flowrate).count.total >= v.total + 0.001
  {
    var x := (v.total + flowrate * SamplingInterval / 60.0) * 1000.0;
    assert (m + 1) as real <= x;
    Numeric.RoundHalfEvenMonotone((m + 1) as real, x);
    Numeric.RoundHalfEvenOfInt(m + 1);
  }

  /** A step's rounded count stays on the 0.001 grid. */
  lemma LoopStaysOnGrid(v: VolumeCount, flowrate: real)
    ensures var t := VolumeMeasurementLoop(v, flowrate).count.total;
      t == (t * 1000.0).Floor as real / 1000.0
  {
    var n := Numeric.RoundHalfEven((v.total + flowrate * SamplingInterval / 60.0) * 1000.0);
    assert (n as real / 1000.0) * 1000.0 == n as real;
    assert (n as real).Floor == n;
  }

  // ---------------------------------------------------------------------
  // Pressure regulation
  // ---------------------------------------------------------------------

  /** The settings handed to the PID controller by `init_pid`. */
  datatype Pid = Pid(p: real, i: real, d: real, setpoint: real, outputMin: real, outputMax: real, sampleTime: real)

  datatype Config = Config(p: real, i: real, d: real, outputMin: real, outputMax: real, sampleTime: real)

  /** `init_pid`: gains and sample time from the configuration, output
      limited to the configured pressure range. */
  function InitPid(c: Config, setpoint: real): (r: Pid)
    ensures r.outputMin == c.outputMin && r.outputMax == c.outputMax
    ensures r.setpoint == setpoint && r.sampleTime == c.sampleTime
    ensures (r.p, r.i, r.d) == (c.p, c.i, c.d)
  {
    Pid(c.p, c.i, c.d, setpoint, c.outputMin, c.outputMax, c.sampleTime)
  }

  datatype Regulation = Regulation(regulating: bool, pid: Pid)

  /** `start_pressure_regulation_loop`: regulating, with a fresh PID whose
      setpoint is the target flowrate. */
  function StartRegulation(c: Config, targetFlowrate: real): (r: Regulation)
    ensures r.regulating && r.pid.setpoint == targetFlowrate
  {
    Regulation(true, InitPid(c, targetFlowrate))
  }

  /** `pressure_regulation_loop`: one regulation step; the next one is
      scheduled while the flag is set. */
  function RegulationLoopAgain(r: Regulation): bool {
    r.regulating
  }

  /** `stop_pressure_regulation_loop`: the flag is cleared; the PID keeps
      its settings. */
  function StopRegulation(r: Regulation): (s: Regulation)
    ensures !s.regulating && s.pid == r.pid
  {
    r.(regulating := false)
  }

  /** `stop_pressure_regulation_loop`: the running step is the last one. */
  lemma StopRegulationEndsLoop(r: Regulation)
    ensures !RegulationLoopAgain(StopRegulation(r))
  {
  }

  /** A regulation from start to stop: once started, the loop reschedules
      itself after every step, the PID aiming at the target; once stopped,
      it does not; a new start resumes it with the new target. */
  lemma RegulationLifecycle(c: Config, target: real, nextTarget: real)
    ensures RegulationLoopAgain(StartRegulation(c, target))
    ensures !RegulationLoopAgain(StopRegulation(StartRegulation(c, target)))
    ensures StopRegulation(StartRegulation(c, target)).pid.setpoint == target
    ensures RegulationLoopAgain(StartRegulation(c, nextTarget))
      && StartRegulation(c, nextTarget).pid.setpoint == nextTarget
  {
  }
}

=== FILE: fpga.dfy ===
/** The NI FPGA laser controller: the conversion of an intensity in
    percent to the 16-bit register value, the write to the register of a
    laser channel, and the laser dictionary built from the configuration. */
module NiFpga {
  import opened Wrappers
  import Numeric
  import Text

  /** Largest value of a signed 16-bit register, 2**15 - 1. */
  const RegisterMax := 32767

  /** `convert_value`: the percentage scaled to the register range,
      truncated toward zero as `int` does, and capped at the register
      maximum. */
  function ConvertValue(value: real): (r: int)
    ensures r <= RegisterMax
    ensures 0.0 <= value ==> 0 <= r
    ensures r < RegisterMax ==> r == Numeric.Trunc(value / 100.0 * RegisterMax as real)
    ensures 100.0 <= value ==> r == RegisterMax
  {
    var scaled := Numeric.Trunc(value / 100.0 * RegisterMax as real);
    if scaled < RegisterMax then scaled else RegisterMax
  }

  /** A larger percentage never gives a smaller register value. */
  lemma ConvertValueMonotone(a: real, b: real)
    requires 0.0 <= a <= b
    ensures ConvertValue(a) <= ConvertValue(b)
  {
    var sa := a / 100.0 * RegisterMax as real;
    var sb := b / 100.0 * RegisterMax as real;
    assert sa <= sb;
  }

  /** The four laser registers and the update flag. */
  type LaserRegisters = s: seq<int> | |s| == 4 witness [0, 0, 0, 0]

  datatype Fpga = Fpga(lasers: LaserRegisters, update: bool)

  /** The laser register of a channel: the first of the four configured
      register names it equals, compared in order; reading a register name
      the configuration does not have raises IndexError. */
  function LaserIndex(registers: seq<string>, channel: string, i: nat): (r: Result<Option<nat>>)
    requires i <= 4 && i <= |registers|
    ensures r.Ok? && r.value.Some? ==>
      && i <= r.value.value < 4 && r.value.value < |registers|
      && registers[r.value.value] == channel
      && forall j :: i <= j < r.value.value ==> registers[j] != channel
    ensures r.Ok? && r.value.None? ==> 4 <= |registers| && forall j :: i <= j < 4 ==> registers[j] != channel
    ensures r.Err? ==> r.error == IndexError && |registers| < 4
    decreases 4 - i
  {
    if i == 4 then Ok(None)
    else if i >= |registers| then Err(IndexError)
    else if registers[i] == channel then Ok(Some(i))
    else LaserIndex(registers, channel, i + 1)
  }

  /** `apply_voltage`: a negative voltage counts as 0; the converted value
      goes to the channel's laser register, no register for an unknown
      channel; the update flag is set either way. */
  function ApplyVoltage(f: Fpga, registers: seq<string>, voltage: real, channel: string): (r: Result<Fpga>)
    ensures r.Ok? ==> r.value.update
    ensures r.Ok? ==> forall j :: 0 <= j < 4 ==>
      r.value.lasers[j] == (if j < |registers| && registers[j] == channel
                              && (forall m :: 0 <= m < j ==> registers[m] != channel)
                            then ConvertValue(if voltage < 0.0 then 0.0 else voltage)
                            else f.lasers[j])
    ensures r.Err? <==> |registers| < 4 && forall j :: 0 <= j < |registers| ==> registers[j] != channel
  {
    var value := if voltage < 0.0 then 0.0 else voltage;
    var converted := ConvertValue(value);
    var index :- LaserIndex(registers, channel, 0);
    match index
    case None => Ok(f.(update := true))
    case Some(i) => Ok(Fpga(f.lasers[i := converted], true))
  }

  /** A negative voltage writes the same as 0. */
  lemma ApplyVoltageClamps(f: Fpga, registers: seq<string>, voltage: real, channel: string)
    requires voltage < 0.0
    ensures ApplyVoltage(f, registers, voltage, channel) == ApplyVoltage(f, registers, 0.0, channel)
  {
  }

  /** An entry of the laser dictionary. */
  datatype LaserEntry = LaserEntry(laserLabel: string, wavelength: string, channel: string)

  /** The label of the i-th configured laser, counted from 1. */
  function LaserLabel(i: nat): string {
    "laser" + Text.NatToString(i + 1)
  }

  /** `get_dict`: one entry per configured wavelength, labelled from
      'laser1', with the register of the same index; too few registers
      raise IndexError. */
  function GetDict(wavelengths: seq<string>, registers: seq<string>): (r: Result<seq<(string, LaserEntry)>>)
    ensures r.Ok? <==> |wavelengths| <= |registers|
    ensures r.Err? ==> r.error == IndexError
    ensures r.Ok? ==> |r.value| == |wavelengths|
    ensures r.Ok? ==> forall i {:trigger r.value[i]} :: 0 <= i < |wavelengths| ==>
      r.value[i] == (LaserLabel(i), LaserEntry(LaserLabel(i), wavelengths[i], registers[i]))
  {
    if |registers| < |wavelengths| then Err(IndexError)
    else Ok(seq(|wavelengths|, i requires 0 <= i < |wavelengths| =>
      (LaserLabel(i), LaserEntry(LaserLabel(i), wavelengths[i], registers[i]))))
  }

  /** The labels of the dictionary are distinct, so no entry overwrites
      another. */
  lemma GetDictLabelsDistinct(wavelengths: seq<string>, registers: seq<string>, i: nat, j: nat)
    requires GetDict(wavelengths, registers).Ok?
    requires i < j < |wavelengths|
    ensures GetDict(wavelengths, registers).value[i].0 != GetDict(wavelengths, registers).value[j].0
  {
    Text.NumberedLabelInjective("laser", i + 1, j + 1);
  }
}

=== FILE: gui.dfy ===
/** Two helpers of the basic fluorescence-microscopy GUI: the split of a
    movie into acquisition blocks the camera can hold, and the editor of
    the nested metadata written beside the images. */
module BasicGui {
  import opened Wrappers
  import Numeric
  import Assoc
  import Text

  // ---------------------------------------------------------------------
  // Acquisition blocks
  // ---------------------------------------------------------------------

  /** `calculate_blocks(N, b)`: `N // b` blocks of b images, then one block
      with the remainder if there is one. A block size of 0 raises
      ZeroDivisionError. */
  function CalculateBlocks(n: int, b: int): (r: Result<seq<int>>)
    ensures r.Err? <==> b == 0
    ensures r.Err? ==> r.error == ZeroDivisionError
  {
    if b == 0 then Err(ZeroDivisionError)
    else
      var (full, remainder) := Numeric.FloorDivMod(n, b);
      var blocks := seq(if full < 0 then 0 else full, _ => b);
      Ok(if remainder > 0 then blocks + [remainder] else blocks)
  }

  /** The sum of a list of block sizes. */
  function Total(s: seq<int>): int
    decreases |s|
  {
    if |s| == 0 then 0 else Total(s[..|s| - 1]) + s[|s| - 1]
  }

  /** For a non-negative number of images and a positive block size there
      are `N // b` blocks plus one for a non-zero remainder; all but the
      last have the full size, and the last one is the remainder when
      there is one. */
  lemma CalculateBlocksShape(n: nat, b: nat)
    requires 0 < b
    ensures var r := CalculateBlocks(n, b).value;
      && |r| == n / b + (if n % b > 0 then 1 else 0)
      && (forall i :: 0 <= i < |r| - 1 ==> r[i] == b)
      && (forall i :: 0 <= i < |r| ==> 0 < r[i] <= b)
      && (n % b > 0 ==> r[|r| - 1] == n % b)
  {
    var q, rem := n / b, n % b;
    assert Numeric.FloorDivMod(n, b) == (q, rem);
    assert 0 <= q && 0 <= rem < b;
    var blocks := seq(q, _ => b);
    assert CalculateBlocks(n, b).value == if rem > 0 then blocks + [rem] else blocks;
  }

  /** For a non-negative number of images and a positive block size the
      blocks hold every image once. */
  lemma CalculateBlocksCover(n: nat, b: nat)
    requires 0 < b
    ensures Total(CalculateBlocks(n, b).value) == n
  {
    var blocks := seq(n / b, _ => b);
    TotalOfFull(n / b, b);
    if n % b > 0 {
      assert (blocks + [n % b])[..|blocks|] == blocks;
    }
  }

  /** k full blocks hold k * b images. */
  lemma {:induction false} TotalOfFull(k: nat, b: int)
    ensures Total(seq(k, _ => b)) == k * b
  {
    if k > 0 {
      assert seq(k, _ => b)[..k - 1] == seq(k - 1, _ => b);
      TotalOfFull(k - 1, b);
    }
  }

  // ---------------------------------------------------------------------
  // Metadata
  // ---------------------------------------------------------------------

  /** A node of the metadata tree: a value that is not iterable (a number,
      a boolean, None), a string, a list, or a dictionary with string keys
      and insertion-ordered entries. */
  datatype Meta<A> = Atom(a: A) | Str(s: string) | List(items: seq<Meta<A>>) | Dict(entries: seq<(string, Meta<A>)>)

  datatype Action = SetValue | AppendValue | OtherAction

  /** Python's `key in item` for a list element: a key test on a
      dictionary, a membership test on a list, a substring test on a string;
      a value that is not iterable raises TypeError. */
  function Contains<A>(item: Meta<A>, key: string): (r: Result<bool>)
    ensures r.Err? <==> item.Atom?
    ensures r.Err? ==> r.error == TypeError
  {
    match item
    case Atom(_) => Err(TypeError)
    case Str(s) => Ok(Text.Substring(key, s))
    case List(xs) => Ok(exists j :: 0 <= j < |xs| && xs[j] == Str(key))
    case Dict(entries) => Ok(key in Assoc.Keys(entries))
  }

  /** `key in item` for a list element that is a dictionary. */
  predicate HasKey<A>(m: Meta<A>, key: string) {
    m.Dict? && key in Assoc.Keys(m.entries)
  }

  /** None of the first n elements contains `key`, and none raises. */
  predicate Misses<A>(items: seq<Meta<A>>, key: string, n: nat)
    requires n <= |items|
  {
    forall j :: 0 <= j < n ==> Contains(items[j], key) == Ok(false)
  }

  /** The loop `for item in current: if key in item: … break`: the first
      element containing the key, None when no element does, and TypeError
      when a value that is not iterable comes first. */
  function FirstWithKey<A>(items: seq<Meta<A>>, key: string): (r: Result<Option<nat>>)
    ensures match r
      case Ok(Some(i)) => i < |items| && Contains(items[i], key) == Ok(true) && Misses(items, key, i)
      case Ok(None) => Misses(items, key, |items|)
      case Err(e) => e == TypeError && exists i :: 0 <= i < |items| && items[i].Atom? && Misses(items, key, i)
    decreases |items|
  {
    if |items| == 0 then Ok(None)
    else match Contains(items[0], key)
      case Err(e) => Err(e)
      case Ok(true) => Ok(Some(0))
      case Ok(false) =>
        var rest := FirstWithKey(items[1..], key);
        assert forall j :: 1 <= j < |items| ==> items[1..][j - 1] == items[j];
        match rest
        case Ok(None) => Ok(None)
        case Ok(Some(j)) => Ok(Some(j + 1))
        case Err(e) =>
          var i :| 0 <= i < |items[1..]| && items[1..][i].Atom? && Misses(items[1..], key, i);
          assert items[i + 1].Atom? && Misses(items, key, i + 1);
          Err(e)
  }

  /** At most one element is the first to contain the key or to raise: the
      search ends at it, with TypeError exactly when it is no container. */
  lemma FirstWithKeyAt<A>(items: seq<Meta<A>>, key: string, i: nat)
    requires i < |items| && Misses(items, key, i) && Contains(items[i], key) != Ok(false)
    ensures FirstWithKey(items, key) == if items[i].Atom? then Err(TypeError) else Ok(Some(i))
  {
    match FirstWithKey(items, key)
    case Ok(Some(k)) =>
      assert Contains(items[k], key) == Ok(true);
    case Ok(None) =>
    case Err(_) =>
      var k :| 0 <= k < |items| && items[k].Atom? && Misses(items, key, k);
      assert Contains(items[k], key).Err?;
  }

  /** The value of an entry known to be present. */
  function Entry<A>(m: Meta<A>, key: string): Meta<A>
    requires HasKey(m, key)
  {
    Assoc.GetSome(m.entries, key);
    Assoc.Get(m.entries, key).value
  }

  /** The entry `key` of a dictionary replaced. */
  function Put<A>(m: Meta<A>, key: string, v: Meta<A>): (r: Meta<A>)
    requires m.Dict?
    ensures r.Dict?
  {
    Dict(Assoc.Set(m.entries, key, v))
  }

  /** The action on the target key of `update_metadata`. In a list, the
      first element containing the key is changed; `item[key]` on a string
      or list element found there raises TypeError, and appending to a list
      without a match adds `{key: [value]}`. In a dictionary, `append`
      creates `[value]` for a missing key and extends an existing list; an
      entry that is no list is left alone. A string or other value in place
      of the container raises TypeError for 'set' and 'append'. */
  function Act<A>(current: Meta<A>, key: string, value: Meta<A>, action: Action): (r: Result<Meta<A>>)
    ensures r.Err? ==> r.error == TypeError
    ensures (current.Atom? || current.Str?) ==> (r.Err? <==> action != OtherAction)
    ensures current.Dict? ==> r.Ok? && r.value.Dict?
    ensures current.List? && r.Ok? ==> r.value.List? && |current.items| <= |r.value.items|
  {
    match current
    case Atom(_) => if action == OtherAction then Ok(current) else Err(TypeError)
    case Str(_) => if action == OtherAction then Ok(current) else Err(TypeError)
    case List(items) =>
      var found :- FirstWithKey(items, key);
      (match found
       case Some(i) =>
         var item := items[i];
         if action == OtherAction then Ok(current)
         else if !item.Dict? then Err(TypeError)
         else
           var prior := Entry(item, key);
           if action == SetValue then Ok(List(items[i := Put(item, key, value)]))
           else if prior.List? then Ok(List(items[i := Put(item, key, List(prior.items + [value]))]))
           else Ok(current)
       case None =>
         if action == AppendValue then Ok(List(items + [Dict([(key, List([value]))])])) else Ok(current))
    case Dict(entries) =>
      Ok(match Assoc.Get(entries, key)
        case None =>
          if action == SetValue then Put(current, key, value)
          else if action == AppendValue then Put(current, key, List([value]))
          else current
        case Some(prior) =>
          if action == SetValue then Put(current, key, value)
          else if action == AppendValue && prior.List? then Put(current, key, List(prior.items + [value]))
          else current)
  }

  /** On a list, the action raises TypeError exactly when, before any
      element contains the key, a value that is not iterable comes, or when
      'set' or 'append' meets a string or list element containing it. */
  lemma ActOnList<A>(items: seq<Meta<A>>, key: string, value: Meta<A>, action: Action)
    ensures Act(List(items), key, value, action).Err? <==>
      exists i :: 0 <= i < |items| && Misses(items, key, i) &&
        (items[i].Atom? || (Contains(items[i], key) == Ok(true) && !items[i].Dict? && action != OtherAction))
  {
    if exists i :: 0 <= i < |items| && Misses(items, key, i) &&
        (items[i].Atom? || (Contains(items[i], key) == Ok(true) && !items[i].Dict? && action != OtherAction)) {
      var i :| 0 <= i < |items| && Misses(items, key, i) &&
        (items[i].Atom? || (Contains(items[i], key) == Ok(true) && !items[i].Dict? && action != OtherAction));
      FirstWithKeyAt(items, key, i);
    }
  }

  /** `update_metadata(metadata, key_path, value, action)`: the path is
      followed key by key; in a list the walk enters the first element
      containing the key, raising TypeError when that is no dictionary, and
      otherwise stays on the list; a dictionary without the key raises
      KeyError, a string or other value TypeError; an empty path raises
      IndexError. The change is made in place, so the tree is rebuilt
      along the path. */
  function UpdateMetadata<A>(m: Meta<A>, path: seq<string>, value: Meta<A>, action: Action): (r: Result<Meta<A>>)
    ensures r.Err? ==> r.error in {TypeError, KeyError, IndexError}
    decreases |path|
  {
    if |path| == 0 then Err(IndexError)
    else if |path| == 1 then Act(m, path[0], value, action)
    else
      var key := path[0];
      match m
      case Atom(_) => Err(TypeError)
      case Str(_) => Err(TypeError)
      case List(items) =>
        var found :- FirstWithKey(items, key);
        (match found
         case None => UpdateMetadata(m, path[1..], value, action)
         case Some(i) =>
           if !items[i].Dict? then Err(TypeError)
           else
             var child :- UpdateMetadata(Entry(items[i], key), path[1..], value, action);
             Ok(List(items[i := Put(items[i], key, child)])))
      case Dict(entries) =>
        match Assoc.Get(entries, key)
        case None => Err(KeyError)
        case Some(child) =>
          var updated :- UpdateMetadata(child, path[1..], value, action);
          Ok(Put(m, key, updated))
  }

  /** A number before the dictionary holding the key raises TypeError on
      the way down: `{'a': [1, {'k': {}}]}` with the path a, k, x. A string
      containing the key raises TypeError when it is indexed by it. */
  lemma UpdateMetadataThroughList(v: Meta<int>)
    ensures UpdateMetadata(Dict([("a", List([Atom(1), Dict([("k", Dict([]))])]))]), ["a", "k", "x"], v, SetValue)
      == Err(TypeError)
    ensures UpdateMetadata(Dict([("a", List([Str("kk"), Dict([("k", Dict([]))])]))]), ["a", "k", "x"], v, SetValue)
      == Err(TypeError)
  {
    assert Text.Substring("k", "kk") by {
      assert "kk"[0..1] == "k";
    }
  }

  /** A string not containing the key is passed over: the walk enters the
      dictionary after it. */
  lemma UpdateMetadataSkipsString(v: Meta<int>)
    ensures UpdateMetadata(Dict([("a", List([Str("b"), Dict([("k", Dict([]))])]))]), ["a", "k", "x"], v, SetValue)
      == Ok(Dict([("a", List([Str("b"), Dict([("k", Dict([("x", v)]))])]))]))
  {
    assert !Text.Substring("k", "b") by {
      forall i, j | 0 <= i <= j <= 1 ensures "b"[i..j] != "k" {
        if j - i == 1 {
          assert "b"[i..j][0] == 'b';
        }
      }
    }
    var inner: Meta<int> := Dict([("k", Dict([]))]);
    var items := [Str("b"), inner];
    assert FirstWithKey(items, "k") == Ok(Some(1)) by {
      assert Contains(items[0], "k") == Ok(false);
      assert Assoc.Keys(inner.entries)[0] == "k";
      assert Contains(items[1], "k") == Ok(true);
      FirstWithKeyAt(items, "k", 1);
    }
    assert UpdateMetadata(Dict([]), ["x"], v, SetValue) == Ok(Dict([("x", v)]));
    assert Entry(inner, "k") == Dict([]);
    assert Put(inner, "k", Dict([("x", v)])) == Dict([("k", Dict([("x", v)]))]);
    var list: Meta<int> := List(items);
    assert ["k", "x"][1..] == ["x"];
    assert items[1 := Put(inner, "k", Dict([("x", v)]))] == [Str("b"), Dict([("k", Dict([("x", v)]))])];
    assert UpdateMetadata(list, ["k", "x"], v, SetValue) == Ok(List([Str("b"), Dict([("k", Dict([("x", v)]))])]));
    assert ["a", "k", "x"][1..] == ["k", "x"];
    assert Assoc.Get([("a", list)], "a") == Some(list);
    var updated: Meta<int> := List([Str("b"), Dict([("k", Dict([("x", v)]))])]);
    assert UpdateMetadata(Dict([("a", list)]), ["a", "k", "x"], v, SetValue) == Ok(Put(Dict([("a", list)]), "a", updated));
    assert Assoc.Set([("a", list)], "a", updated) == [("a", updated)];
  }

  /** The node a path of dictionary keys leads to. */
  function Lookup<A>(m: Meta<A>, path: seq<string>): Option<Meta<A>>
    decreases |path|
  {
    if |path| == 0 then Some(m)
    else if m.Dict? then
      match Assoc.Get(m.entries, path[0])
      case None => None
      case Some(child) => Lookup(child, path[1..])
    else None
  }

  /** Below a path of dictionaries, `set` stores the value and `append`
      creates `[value]` or extends the list that is there. */
  lemma {:induction false} UpdateMetadataReads<A>(m: Meta<A>, path: seq<string>, value: Meta<A>, action: Action)
    requires |path| >= 1 && action != OtherAction
    requires var parent := Lookup(m, path[..|path| - 1]); parent.Some? && parent.value.Dict?
    ensures var r := UpdateMetadata(m, path, value, action);
      var before := Lookup(m, path);
      && r.Ok?
      && Lookup(r.value, path) == Some(
           if action == SetValue then value
           else if before.None? then List([value])
           else if before.value.List? then List(before.value.items + [value])
           else before.value)
    decreases |path|
  {
    var key := path[0];
    if |path| == 1 {
      assert path[..0] == [];
      Assoc.GetSet(m.entries, key, value, key);
      Assoc.GetSet(m.entries, key, List([value]), key);
      if Assoc.Get(m.entries, key).Some? && Assoc.Get(m.entries, key).value.List? {
        Assoc.GetSet(m.entries, key, List(Assoc.Get(m.entries, key).value.items + [value]), key);
      }
    } else {
      assert path[..|path| - 1][1..] == path[1..][..|path| - 2];
      var child := Assoc.Get(m.entries, key).value;
      UpdateMetadataReads(child, path[1..], value, action);
      var updated := UpdateMetadata(child, path[1..], value, action).value;
      Assoc.GetSet(m.entries, key, updated, key);
    }
  }
}

=== FILE: him.dfy ===
/** Helpers of the Hi-M acquisition task: the FPGA encoding of the imaging
    sequence, the axial corrections between ROIs, the needle counters of the
    valve sequence, the split of an incubation into abortable waits, the
    autofocus failure counter and the data file path. */
module HiM {
  import opened Wrappers
  import opened ZStack
  import Text
  import opened Dicts
  import Numeric

  /** Number of entries of the FPGA wavelength array. */
  const MaxLaserLines := 10

  /** An entry of the imaging sequence: (light source, intensity). */
  type ImagingLine = (string, int)

  // ---------------------------------------------------------------------
  // format_imaging_sequence
  // ---------------------------------------------------------------------

  /** The FPGA code of a light source: lasers are numbered from 1 in the
      order of the laser dictionary (a wavelength listed twice keeps its
      later number); any other source, the brightfield included, is 0. */
  function LaserCode(wavelengths: seq<string>, source: string): (r: nat)
    ensures r <= |wavelengths|
    ensures r == 0 <==> source !in wavelengths
    ensures r > 0 ==> wavelengths[r - 1] == source
    ensures forall j :: r <= j < |wavelengths| ==> wavelengths[j] != source
    decreases |wavelengths|
  {
    if |wavelengths| == 0 then 0
    else if wavelengths[|wavelengths| - 1] == source then |wavelengths|
    else
      var r := LaserCode(wavelengths[..|wavelengths| - 1], source);
      assert source in wavelengths <==> source in wavelengths[..|wavelengths| - 1];
      r
  }

  /** The FPGA wavelength channels: one code per imaging line, padded with
      zeros up to MaxLaserLines entries. */
  function FpgaChannels(wavelengths: seq<string>, lines: seq<ImagingLine>): (r: seq<nat>)
    ensures |r| == if |lines| < MaxLaserLines then MaxLaserLines else |lines|
    ensures forall i :: 0 <= i < |lines| ==> r[i] == LaserCode(wavelengths, lines[i].0)
    ensures forall i :: |lines| <= i < |r| ==> r[i] == 0
  {
    var codes := seq(|lines|, i requires 0 <= i < |lines| => LaserCode(wavelengths, lines[i].0));
    var padding := if |lines| < MaxLaserLines then MaxLaserLines - |lines| else 0;
    codes + seq(padding, _ => 0)
  }

  /** The intensity the last imaging line for `source` asks for. */
  function LastIntensity(lines: seq<ImagingLine>, source: string): (r: Option<int>)
    ensures r.None? <==> forall i :: 0 <= i < |lines| ==> lines[i].0 != source
    ensures r.Some? ==>
      exists i :: 0 <= i < |lines| && lines[i] == (source, r.value) && (forall j :: i < j < |lines| ==> lines[j].0 != source)
    decreases |lines|
  {
    if |lines| == 0 then None
    else if lines[|lines| - 1].0 == source then Some(lines[|lines| - 1].1)
    else
      var init := lines[..|lines| - 1];
      assert forall i :: 0 <= i < |init| ==> init[i] == lines[i];
      LastIntensity(init, source)
  }

  /** The Celesta intensity dictionary: every laser of the laser dictionary,
      at 0 unless an imaging line asks for it, then at the intensity of the
      last such line. */
  function CelestaIntensities(wavelengths: seq<string>, lines: seq<ImagingLine>): (r: map<string, int>)
    ensures forall w :: w in r <==> w in wavelengths
    ensures forall w :: w in r ==> r[w] == LastIntensity(lines, w).GetOr(0)
  {
    map w | w in wavelengths :: LastIntensity(lines, w).GetOr(0)
  }

  /** The channel list and the intensity dictionary agree: a line has a
      non-zero code exactly when its source is a laser, and that laser's
      intensity is the one of the last line naming it. */
  lemma ChannelsMatchIntensities(wavelengths: seq<string>, lines: seq<ImagingLine>, i: nat)
    requires i < |lines|
    ensures FpgaChannels(wavelengths, lines)[i] != 0 <==> lines[i].0 in CelestaIntensities(wavelengths, lines)
    ensures (lines[i].0 in CelestaIntensities(wavelengths, lines) &&
             forall j :: i < j < |lines| ==> lines[j].0 != lines[i].0) ==>
      CelestaIntensities(wavelengths, lines)[lines[i].0] == lines[i].1
  {
    var source := lines[i].0;
    if source in wavelengths && forall j :: i < j < |lines| ==> lines[j].0 != source {
      var last := LastIntensity(lines, source);
      var k :| 0 <= k < |lines| && lines[k] == (source, last.value) &&
        (forall j :: k < j < |lines| ==> lines[j].0 != source);
      assert k == i;
    }
  }

  // ---------------------------------------------------------------------
  // compute_axial_correction
  // ---------------------------------------------------------------------

  /** The relative objective move on arriving at each ROI: the first ROI is
      reached from the last one, every other ROI from the one before. */
  function AxialCorrection(z: seq<real>): (dz: seq<real>)
    ensures |dz| == |z|
    ensures |z| > 0 ==> dz[0] == z[0] - z[|z| - 1]
    ensures forall n :: 0 < n < |z| ==> dz[n] == z[n] - z[n - 1]
  {
    seq(|z|, n requires 0 <= n < |z| => if n == 0 then z[0] - z[|z| - 1] else z[n] - z[n - 1])
  }

  /** Starting at the last ROI and moving by the corrections of ROIs 0..k in
      turn puts the objective at ROI k. */
  lemma {:induction false} CorrectionsTrack(z: seq<real>, k: nat)
    requires k < |z|
    ensures z[|z| - 1] + Sum(AxialCorrection(z)[..k + 1]) == z[k]
    decreases k
  {
    var dz := AxialCorrection(z);
    if k == 0 {
      assert dz[..1] == [dz[0]];
      assert Sum(dz[..1]) == Sum(dz[..0]) + dz[0];
    } else {
      CorrectionsTrack(z, k - 1);
      assert dz[..k + 1][..k] == dz[..k];
    }
  }

  /** Over a full cycle the corrections cancel out. */
  lemma CorrectionsSumToZero(z: seq<real>)
    ensures Sum(AxialCorrection(z)) == 0.0
  {
    if |z| > 0 {
      CorrectionsTrack(z, |z| - 1);
      assert AxialCorrection(z)[..|z|] == AxialCorrection(z);
    }
  }

  // ---------------------------------------------------------------------
  // set_valves_and_needle
  // ---------------------------------------------------------------------

  /** Valve and needle commands, in the order the task sends them. */
  datatype FluidicsCommand =
    | SetValve(valve: string, position: int)
    | MoveNeedleTo(target: int)

  /** Needle rack position and number of injections made with the needle. */
  datatype Needle = Needle(position: int, injections: int)

  /** `set_valves_and_needle(product, needle_injection, needle_position)`:
      the 8-way valve goes to the product's position; when that is the
      needle valve, the first use only counts, and later uses close the
      syringe valve, move the needle to its current position, and open the
      syringe valve again. */
  function SetValvesAndNeedle(buffers: seq<(string, int)>, product: string, needleValve: int, needle: Needle)
    : (r: Result<(Needle, seq<FluidicsCommand>)>)
    ensures r.Err? <==> Lookup(buffers, product).Err?
  {
    var valve :- Lookup(buffers, product);
    var select := [SetValve("a", valve)];
    var next := Needle(needle.position + 1, needle.injections + 1);
    if needle.injections == 0 && valve == needleValve then Ok((next, select))
    else if needle.injections > 0 && valve == needleValve then
      Ok((next, select + [SetValve("c", 1), MoveNeedleTo(needle.position), SetValve("c", 2)]))
    else Ok((needle, select))
  }

  /** The counters move only for the needle valve, both by one; the needle
      moves only from its second use on, and every call selects the
      product's valve first. */
  lemma NeedleCounters(buffers: seq<(string, int)>, product: string, needleValve: int, needle: Needle)
    requires Lookup(buffers, product).Ok? && needle.injections >= 0
    ensures var (after, commands) := SetValvesAndNeedle(buffers, product, needleValve, needle).value;
      var valve := Lookup(buffers, product).value;
      && commands[0] == SetValve("a", valve)
      && (valve != needleValve ==> after == needle && |commands| == 1)
      && (valve == needleValve ==> after == Needle(needle.position + 1, needle.injections + 1))
      && (MoveNeedleTo(needle.position) in commands <==> valve == needleValve && needle.injections > 0)
      && (forall t :: t != needle.position ==> MoveNeedleTo(t) !in commands)
  {
  }

  // ---------------------------------------------------------------------
  // incubation
  // ---------------------------------------------------------------------

  const IncubationChunk := 30

  function Total(s: seq<int>): int
    decreases |s|
  {
    if |s| == 0 then 0 else Total(s[..|s| - 1]) + s[|s| - 1]
  }

  /** The waits of an incubation of `t` seconds: t // 30 chunks of 30 s,
      then the remainder. The abort flag is read again before every chunk;
      `abortSeenAt` is the index of the first chunk at which it is found set
      (None when it never is during the incubation). Once set, the flag
      stays set for the rest of the task, so that chunk and all later ones
      are skipped. */
  function IncubationWaits(t: int, abortSeenAt: Option<nat>): (r: seq<int>)
    ensures |r| >= 1 && 0 <= r[|r| - 1] < IncubationChunk
    ensures forall i :: 0 <= i < |r| - 1 ==> r[i] == IncubationChunk
  {
    var steps := if t < 0 then 0 else t / IncubationChunk;
    var chunks := if abortSeenAt.Some? && abortSeenAt.value < steps then abortSeenAt.value else steps;
    seq(chunks, _ => IncubationChunk) + [t % IncubationChunk]
  }

  lemma {:induction false} TotalOfChunks(k: nat, rest: int)
    ensures Total(seq(k, _ => IncubationChunk) + [rest]) == IncubationChunk * k + rest
    decreases k
  {
    var s := seq(k, _ => IncubationChunk) + [rest];
    assert s[..|s| - 1] == seq(k, _ => IncubationChunk);
    if k > 0 {
      var c := seq(k - 1, _ => IncubationChunk) + [IncubationChunk];
      assert c == seq(k, _ => IncubationChunk);
      TotalOfChunks(k - 1, IncubationChunk);
    } else {
      assert Total(seq(0, _ => IncubationChunk)) == 0;
    }
  }

  /** Without an abort the waits add up to the incubation time; an abort
      first seen before chunk k leaves the k chunks already waited plus the
      remainder, and one seen before the first chunk only the remainder. */
  lemma IncubationTotal(t: nat, abortSeenAt: Option<nat>)
    ensures abortSeenAt.None? ==> Total(IncubationWaits(t, abortSeenAt)) == t
    ensures abortSeenAt.Some? ==>
      Total(IncubationWaits(t, abortSeenAt))
      == IncubationChunk * Numeric.MinInt(abortSeenAt.value, t / IncubationChunk) + t % IncubationChunk
    ensures abortSeenAt == Some(0) ==> IncubationWaits(t, abortSeenAt) == [t % IncubationChunk]
  {
    var k := if abortSeenAt.None? then t / IncubationChunk
             else Numeric.MinInt(abortSeenAt.value, t / IncubationChunk);
    TotalOfChunks(k, t % IncubationChunk);
    assert seq(0, _ => IncubationChunk) + [t % IncubationChunk] == [t % IncubationChunk];
  }

  // ---------------------------------------------------------------------
  // perform_autofocus
  // ---------------------------------------------------------------------

  /** The failure counter after an autofocus search, and whether the
      experiment is aborted. */
  datatype FocusOutcome = FocusOutcome(failed: int, abort: bool)

  function AfterAutofocus(failed: int, ready: bool): (r: FocusOutcome)
    ensures ready ==> r == FocusOutcome(0, false)
  {
    if !ready && failed == 0 then FocusOutcome(failed + 1, false)
    else if !ready && failed > 0 then FocusOutcome(failed, true)
    else FocusOutcome(0, false)
  }

  /** The counter after a series of searches (true = focus found). */
  function FailuresAfter(found: seq<bool>): int
    decreases |found|
  {
    if |found| == 0 then 0 else AfterAutofocus(FailuresAfter(found[..|found| - 1]), found[|found| - 1]).failed
  }

  /** The counter is 1 right after a failure and 0 otherwise. */
  lemma {:induction false} FailuresAfterLast(found: seq<bool>)
    ensures FailuresAfter(found) == if |found| > 0 && !found[|found| - 1] then 1 else 0
    decreases |found|
  {
    if |found| > 0 {
      FailuresAfterLast(found[..|found| - 1]);
    }
  }

  /** A failed search aborts the experiment exactly when the search before
      it failed too. */
  lemma AbortOnSecondFailure(found: seq<bool>, ready: bool)
    ensures AfterAutofocus(FailuresAfter(found), ready).abort <==>
      !ready && |found| > 0 && !found[|found| - 1]
  {
    FailuresAfterLast(found);
  }

  // ---------------------------------------------------------------------
  // get_complete_path
  // ---------------------------------------------------------------------

  /** The characters `str.strip('ROI_')` removes. */
  const RoiStripChars: set<char> := {'R', 'O', 'I', '_'}

  /** `directory/roi/probe/scan_{prefix}_{probe}_{n}_ROI.{format}` where n is
      the ROI name stripped of the characters of 'ROI_'. */
  function CompletePath(directory: string, roi: string, probe: string, prefix: string, format: string): string {
    var path := Text.PathJoin(Text.PathJoin(directory, roi), probe);
    var roiInverted := Text.Strip(roi, RoiStripChars) + "_ROI";
    Text.PathJoin(path, "scan_" + prefix + "_" + probe + "_" + roiInverted + "." + format)
  }

  /** Stripping the characters of 'ROI_' from 'ROI_' followed by a number
      leaves the number. */
  lemma StripNumberedRoi(digits: string)
    requires |digits| > 0 && Text.AllDigits(digits)
    ensures Text.Strip("ROI_" + digits, RoiStripChars) == digits
  {
    assert forall i :: 0 <= i < |"ROI_"| ==> "ROI_"[i] in RoiStripChars;
    assert Text.IsDigit(digits[0]) && Text.IsDigit(digits[|digits| - 1]);
    Text.StripKnownPrefix("ROI_", digits, RoiStripChars);
  }

  /** For a ROI named ROI_ followed by its number, the file lies in the
      ROI's folder for the probe and its name carries the number followed
      by _ROI. */
  lemma CompletePathOfNumberedRoi(directory: string, digits: string, probe: string, prefix: string, format: string)
    requires |digits| > 0 && Text.AllDigits(digits)
    ensures CompletePath(directory, "ROI_" + digits, probe, prefix, format)
         == Text.PathJoin(Text.PathJoin(Text.PathJoin(directory, "ROI_" + digits), probe),
                          "scan_" + prefix + "_" + probe + "_" + digits + "_ROI." + format)
  {
    StripNumberedRoi(digits);
    assert "scan_" + prefix + "_" + probe + "_" + (digits + "_ROI") + "." + format
        == "scan_" + prefix + "_" + probe + "_" + digits + "_ROI." + format;
  }
}

=== FILE: hubble.dfy ===
/** Helpers of the Hubble acquisition task: the stack start position, the
    absolute focus positions of the ROIs derived from the calibrated axial
    shifts, the FPGA encoding of the imaging sequence, the de-interleaving
    of the acquired frames by ROI and channel, and the file names. */
module Hubble {
  import opened Wrappers
  import opened ZStack
  import opened Dicts
  import Seqs
  import Numeric
  import Text

  // ---------------------------------------------------------------------
  // Axial shifts and absolute positions
  // ---------------------------------------------------------------------

  /** The axial shifts of `fit_surface`: 0 for the first ROI, then the
      difference of the fitted focus to the ROI before. */
  function SurfaceShifts(z: seq<real>): (dz: seq<real>)
    ensures |dz| == |z|
    ensures |z| > 0 ==> dz[0] == 0.0
    ensures forall n :: 0 < n < |z| ==> dz[n] == z[n] - z[n - 1]
  {
    seq(|z|, n requires 0 <= n < |z| => if n > 0 then z[n] - z[n - 1] else 0.0)
  }

  /** `calculate_absolute_z_positions` as written: position n + 1 is
      position n plus shift n. An empty ROI list or a shift list shorter
      than the ROI list raises IndexError. */
  function AbsolutePositionsAsWritten(current: real, dz: seq<real>, rois: nat): (r: Result<seq<real>>)
    ensures r.Ok? <==> 0 < rois && rois - 1 <= |dz|
    ensures r.Err? ==> r.error == IndexError
    ensures r.Ok? ==> |r.value| == rois && r.value[0] == current
    ensures r.Ok? ==> forall n :: 0 <= n < rois - 1 ==> r.value[n + 1] == r.value[n] + dz[n]
  {
    if rois == 0 || |dz| < rois - 1 then Err(IndexError)
    else
      var steps := dz[..rois - 1];
      assert forall n :: 0 <= n < rois - 1 ==> steps[n] == dz[n];
      Ok(Positions(current, steps))
  }

  /** Position n + 1 is position n plus the shift of ROI n + 1, the shift
      measured on arriving at that ROI. */
  function AbsolutePositions(current: real, dz: seq<real>, rois: nat): (r: Result<seq<real>>)
    ensures r.Ok? <==> 0 < rois <= |dz|
    ensures r.Err? ==> r.error == IndexError
    ensures r.Ok? ==> |r.value| == rois && r.value[0] == current
    ensures r.Ok? ==> forall n :: 0 <= n < rois - 1 ==> r.value[n + 1] == r.value[n] + dz[n + 1]
  {
    if rois == 0 || |dz| < rois then Err(IndexError)
    else
      var steps := dz[1..rois];
      assert forall n :: 0 <= n < rois - 1 ==> steps[n] == dz[n + 1];
      Ok(Positions(current, steps))
  }

  /** With the shifts of the surface fit, every ROI is expected at the
      current focus plus its fitted height above the first ROI. */
  lemma {:induction false} AbsolutePositionsFollowSurface(current: real, z: seq<real>, n: nat)
    requires n < |z|
    ensures AbsolutePositions(current, SurfaceShifts(z), |z|).Ok?
    ensures AbsolutePositions(current, SurfaceShifts(z), |z|).value[n] == current + z[n] - z[0]
    decreases n
  {
    if n > 0 {
      AbsolutePositionsFollowSurface(current, z, n - 1);
    }
  }

  /** As written, the shifts are applied one ROI late: the second ROI is
      expected at the focus of the first, and ROI n at the fitted height of
      ROI n - 1. */
  lemma {:induction false} AbsolutePositionsAsWrittenLag(current: real, z: seq<real>, n: nat)
    requires 0 < n < |z|
    ensures AbsolutePositionsAsWritten(current, SurfaceShifts(z), |z|).Ok?
    ensures AbsolutePositionsAsWritten(current, SurfaceShifts(z), |z|).value[n] == current + z[n - 1] - z[0]
    decreases n
  {
    if n > 1 {
      AbsolutePositionsAsWrittenLag(current, z, n - 1);
    }
  }

  /** A concrete case: two ROIs whose fitted focus differs by 1.0. */
  lemma AbsolutePositionsAsWrittenMissesSecondRoi()
    ensures AbsolutePositionsAsWritten(0.0, SurfaceShifts([0.0, 1.0]), 2).value[1] == 0.0
    ensures AbsolutePositions(0.0, SurfaceShifts([0.0, 1.0]), 2).value[1] == 1.0
  {
    AbsolutePositionsAsWrittenLag(0.0, [0.0, 1.0], 1);
    AbsolutePositionsFollowSurface(0.0, [0.0, 1.0], 1);
  }

  // ---------------------------------------------------------------------
  // FPGA encoding of the imaging sequence
  // ---------------------------------------------------------------------

  const BrightfieldName := "Brightfield"
  const HubbleLaserLines := 5

  /** The FPGA code of one light source: the brightfield is 0, any other
      source is read from the light-source dictionary. */
  function SourceCode(lightsources: seq<(string, int)>, source: string): (r: Result<int>)
    ensures source == BrightfieldName ==> r == Ok(0)
    ensures source != BrightfieldName ==> r == Lookup(lightsources, source)
  {
    if source == BrightfieldName then Ok(0) else Lookup(lightsources, source)
  }

  /** The codes of a list of sources, stopping at the first unknown one. */
  function SourceCodes(lightsources: seq<(string, int)>, sources: seq<string>): (r: Result<seq<int>>)
    ensures r.Ok? <==> forall i :: 0 <= i < |sources| ==> SourceCode(lightsources, sources[i]).Ok?
    ensures r.Ok? ==> |r.value| == |sources|
    ensures r.Ok? ==> forall i :: 0 <= i < |sources| ==> r.value[i] == SourceCode(lightsources, sources[i]).value
    ensures r.Err? ==> r.error == KeyError
    decreases |sources|
  {
    if |sources| == 0 then Ok([])
    else
      var first :- SourceCode(lightsources, sources[0]);
      var rest :- SourceCodes(lightsources, sources[1..]);
      assert forall i :: 0 < i < |sources| ==> sources[i] == sources[1..][i - 1];
      Ok([first] + rest)
  }

  /** The wavelength and intensity lists of the FPGA, each padded with
      zeros to five entries. */
  function EncodeSequence(lightsources: seq<(string, int)>, lines: seq<(string, int)>)
    : (r: Result<(seq<int>, seq<int>)>)
    ensures r.Ok? ==> |r.value.0| == |r.value.1| == (if |lines| < HubbleLaserLines then HubbleLaserLines else |lines|)
    ensures r.Ok? ==> forall i :: 0 <= i < |lines| ==>
      SourceCode(lightsources, lines[i].0) == Ok(r.value.0[i]) && r.value.1[i] == lines[i].1
    ensures r.Ok? ==> forall i :: |lines| <= i < |r.value.0| ==> r.value.0[i] == 0 && r.value.1[i] == 0
    ensures r.Err? <==> exists i :: 0 <= i < |lines| && SourceCode(lightsources, lines[i].0).Err?
  {
    var sources := seq(|lines|, i requires 0 <= i < |lines| => lines[i].0);
    var intensities := seq(|lines|, i requires 0 <= i < |lines| => lines[i].1);
    var codes :- SourceCodes(lightsources, sources);
    var w := Seqs.Pad(codes, HubbleLaserLines, 0);
    var p := Seqs.Pad(intensities, HubbleLaserLines, 0);
    assert forall i :: 0 <= i < |lines| ==> w[i] == codes[i] && p[i] == intensities[i];
    Ok((w, p))
  }

  // ---------------------------------------------------------------------
  // save_hubble_data
  // ---------------------------------------------------------------------

  /** The frames of one ROI split by channel: channel c gets every
      lines-th frame from offset c. */
  function RoiChannels<T>(roiData: seq<T>, lines: nat): (r: seq<seq<T>>)
    ensures |r| == lines
  {
    seq(lines, c requires 0 <= c < lines => Seqs.Stride(roiData, c, lines))
  }

  /** The saving loop over the ROIs: each ROI takes the next `block`
      frames; the start frame moves on only inside the channel loop. */
  function SaveFrom<T>(image: seq<T>, rois: nat, block: nat, lines: nat, start: nat): (r: seq<seq<seq<T>>>)
    ensures |r| == rois
    ensures forall k :: 0 <= k < rois ==> |r[k]| == lines
    decreases rois
  {
    if rois == 0 then []
    else
      var next := if lines > 0 then start + block else start;
      [RoiChannels(Seqs.Slice(image, start, start + block), lines)] + SaveFrom(image, rois - 1, block, lines, next)
  }

  /** `save_hubble_data`: a block holds the planes of every channel. */
  function SaveHubbleData<T>(image: seq<T>, rois: nat, planes: nat, lines: nat): (r: seq<seq<seq<T>>>)
    ensures |r| == rois
  {
    SaveFrom(image, rois, planes * lines, lines, 0)
  }

  /** ROI k of the loop is the first ROI of a loop started k blocks
      later. */
  lemma {:induction false} SaveFromShift<T>(image: seq<T>, rois: nat, block: nat, lines: nat, start: nat, k: nat)
    requires lines > 0 && k < rois
    ensures SaveFrom(image, rois, block, lines, start)[k] == SaveFrom(image, rois - k, block, lines, start + k * block)[0]
    decreases k
  {
    Numeric.MulMono(k, 0, block);
    if k > 0 {
      Numeric.MulSucc(k - 1, block);
      SaveFromShift(image, rois - 1, block, lines, start + block, k - 1);
    }
  }

  /** ROI k takes the frames of the k-th block. */
  lemma SaveFromBlock<T>(image: seq<T>, rois: nat, block: nat, lines: nat, start: nat, k: nat)
    requires lines > 0 && k < rois
    ensures SaveFrom(image, rois, block, lines, start)[k]
         == RoiChannels(Seqs.Slice(image, start + k * block, start + k * block + block), lines)
  {
    SaveFromShift(image, rois, block, lines, start, k);
  }

  /** On a complete block every channel holds `planes` frames, and frame j
      of channel c is frame c + j * lines of the block. */
  lemma RoiChannelFrame<T>(roiData: seq<T>, planes: nat, lines: nat, c: nat, j: nat)
    requires lines > 0 && |roiData| == planes * lines && c < lines
    ensures |RoiChannels(roiData, lines)[c]| == planes
    ensures j < planes ==> 0 <= c + j * lines < |roiData|
    ensures j < planes ==> RoiChannels(roiData, lines)[c][j] == roiData[c + j * lines]
  {
    Seqs.StrideLength(roiData, c, lines, planes);
    if j < planes {
      Numeric.MulMono(j, 0, lines);
      Numeric.RowBefore(j, planes, lines, c);
    }
  }

  /** Every frame i of a complete block lands in channel i % lines, as
      that channel's frame i / lines: the channels partition the block. */
  lemma RoiFramePartition<T>(roiData: seq<T>, planes: nat, lines: nat, i: nat)
    requires lines > 0 && |roiData| == planes * lines && i < |roiData|
    ensures |RoiChannels(roiData, lines)[i % lines]| == planes
    ensures i / lines < planes
    ensures RoiChannels(roiData, lines)[i % lines][i / lines] == roiData[i]
  {
    Numeric.DivModBounds(i, planes, lines);
    RoiChannelFrame(roiData, planes, lines, i % lines, i / lines);
  }

  /** On an image holding every frame, ROI k takes frames
      k * planes * lines up to the next block. */
  lemma SavedRoi<T>(image: seq<T>, rois: nat, planes: nat, lines: nat, k: nat)
    requires lines > 0 && rois * (planes * lines) <= |image| && k < rois
    ensures 0 <= k * (planes * lines) && k * (planes * lines) + planes * lines <= |image|
    ensures SaveHubbleData(image, rois, planes, lines)[k]
         == RoiChannels(image[k * (planes * lines)..k * (planes * lines) + planes * lines], lines)
  {
    var block := planes * lines;
    var first := k * block;
    Numeric.MulMono(k, 0, block);
    Numeric.MulSucc(k, block);
    Numeric.MulMono(rois, k + 1, block);
    assert Seqs.Slice(image, first, first + block) == image[first..first + block];
    SaveFromBlock(image, rois, block, lines, 0, k);
  }

  /** On an image holding every frame, ROI k, channel c, plane j is frame
      k * planes * lines + c + j * lines. */
  lemma SavedFrame<T>(image: seq<T>, rois: nat, planes: nat, lines: nat, k: nat, c: nat, j: nat)
    requires lines > 0 && rois * (planes * lines) <= |image|
    requires k < rois && c < lines && j < planes
    ensures |SaveHubbleData(image, rois, planes, lines)[k][c]| == planes
    ensures 0 <= k * (planes * lines) && k * (planes * lines) + c + j * lines < |image|
    ensures SaveHubbleData(image, rois, planes, lines)[k][c][j] == image[k * (planes * lines) + c + j * lines]
  {
    var first := k * (planes * lines);
    SavedRoi(image, rois, planes, lines, k);
    var roiData := image[first..first + planes * lines];
    RoiChannelFrame(roiData, planes, lines, c, j);
    assert roiData[c + j * lines] == image[first + c + j * lines];
  }

  // ---------------------------------------------------------------------
  // get_complete_path
  // ---------------------------------------------------------------------

  /** `hubble_{roi:zfill 3}_ch_{channel:zfill 3}.{format}`. */
  function FileName(roi: string, channel: nat, format: string): string {
    "hubble_" + Text.ZFill(roi, 3) + "_ch_" + Text.ZFill(Text.IntToString(channel), 3) + "." + format
  }

  /** `os.path.join(directory, 'channel_' + str(channel), str(roi))`, never
      empty. */
  function Folder(directory: string, channel: nat, roi: string): (r: string)
    ensures |r| > 0
  {
    var n := Text.IntToString(channel);
    var channelDir := Text.PathJoin(directory, "channel_" + n);
    Text.PathJoin(channelDir, roi)
  }

  /** For a plain directory and ROI name the folder is
      `directory/channel_{channel}/{roi}`. */
  lemma FolderLayout(directory: string, channel: nat, roi: string)
    requires |directory| > 0 && directory[|directory| - 1] != '/'
    requires |roi| > 0 && roi[0] != '/'
    ensures Folder(directory, channel, roi) == directory + "/" + ("channel_" + Text.IntToString(channel)) + "/" + roi
  {
    var n := Text.IntToString(channel);
    var channelDir := Text.PathJoin(directory, "channel_" + n);
    assert channelDir[|channelDir| - 1] == n[|n| - 1];
  }

  /** The file name inside `Folder`: the file always follows a separator,
      and inside a folder that does not end in one the path is the folder,
      '/' and the file name. */
  function CompletePath(directory: string, roi: string, channel: nat, format: string): (r: string)
    ensures |r| > |FileName(roi, channel, format)|
    ensures r[|r| - |FileName(roi, channel, format)|..] == FileName(roi, channel, format)
    ensures r[|r| - |FileName(roi, channel, format)| - 1] == '/'
    ensures Folder(directory, channel, roi)[|Folder(directory, channel, roi)| - 1] != '/' ==>
      r == Folder(directory, channel, roi) + "/" + FileName(roi, channel, format)
  {
    var folder := Folder(directory, channel, roi);
    var f := FileName(roi, channel, format);
    assert f[0] == 'h';
    Text.PathJoinFile(folder, f);
    Text.PathJoin(folder, f)
  }

  /** For a plain directory and ROI name the path is
      `directory/channel_{channel}/{roi}/` followed by the file name. */
  lemma CompletePathLayout(directory: string, roi: string, channel: nat, format: string)
    requires |directory| > 0 && directory[|directory| - 1] != '/'
    requires |roi| > 0 && roi[0] != '/' && roi[|roi| - 1] != '/'
    ensures CompletePath(directory, roi, channel, format)
         == directory + "/" + ("channel_" + Text.IntToString(channel)) + "/" + roi + "/" + FileName(roi, channel, format)
  {
    FolderLayout(directory, channel, roi);
    var folder := Folder(directory, channel, roi);
    assert folder[|folder| - 1] == roi[|roi| - 1];
  }

  /** The file name as its three fields: the ROI head, the channel
      numeral and the extension. */
  lemma FileNameFields(roi: string, channel: nat, format: string)
    ensures FileName(roi, channel, format)
         == ("hubble_" + Text.ZFill(roi, 3) + "_ch_") + Text.ZFill(Text.IntToString(channel), 3) + ("." + format)
  {
  }

  /** Two channels of one ROI never share a file name. */
  lemma FileNamesDistinct(roi: string, c1: nat, c2: nat, format: string)
    ensures FileName(roi, c1, format) == FileName(roi, c2, format) <==> c1 == c2
  {
    if FileName(roi, c1, format) == FileName(roi, c2, format) {
      FileNameFields(roi, c1, format);
      FileNameFields(roi, c2, format);
      Text.NumeralFieldUnique("hubble_" + Text.ZFill(roi, 3) + "_ch_", c1, "." + format, c2, "." + format, 3);
    }
  }
  /** Two channels of one ROI never share a path, whatever the directory
      and the ROI name. */
  lemma CompletePathsDistinct(directory: string, roi: string, c1: nat, c2: nat, format: string)
    ensures CompletePath(directory, roi, c1, format) == CompletePath(directory, roi, c2, format) <==> c1 == c2
  {
    var r := CompletePath(directory, roi, c1, format);
    if r == CompletePath(directory, roi, c2, format) {
      FileNameFields(roi, c1, format);
      FileNameFields(roi, c2, format);
      Text.ZFillNatDigits(c1, 3);
      Text.ZFillNatDigits(c2, 3);
      Text.NumeralSuffixUnique(r, "hubble_" + Text.ZFill(roi, 3) + "_ch_",
        Text.ZFill(Text.IntToString(c1), 3), Text.ZFill(Text.IntToString(c2), 3), "." + format);
      Text.ZFillIntInjective(c1, c2, 3);
    }
  }
}

=== FILE: injections.dfy ===
/** The injections logic: the buffer map (valve number to buffer name), the
    probe map (rack position to probe name), the list models that show both
    sorted by key, the hybridization and photobleaching step lists, the
    consistency check run before saving, and the step numbering of the
    saved file. */
module Injections {
  import opened Wrappers
  import opened Dicts
  import opened Assoc

  const Hybridization := "Hybridization"
  const Photobleaching := "Photobleaching"
  const ProbeName := "Probe"

  /** One row of an injection sequence:
      (procedure, product, volume, flowrate, time). */
  datatype Step = Step(
    procedure: string,
    product: Option<string>,
    volume: Option<int>,
    flowrate: Option<int>,
    time: Option<int>)

  /** A dictionary together with the list model that shows it. */
  datatype Listing = Listing(dict: Dict, items: seq<(string, int)>)

  datatype Injections = Injections(
    probeValve: int,
    buffers: Listing,
    probes: Listing,
    hybridization: seq<Step>,
    photobleaching: seq<Step>)

  /** Both list models mirror their dictionaries and the probe valve always
      has a buffer entry. */
  ghost predicate Valid(st: Injections) {
    && Mirrors(st.buffers.dict, st.buffers.items)
    && Mirrors(st.probes.dict, st.probes.items)
    && Get(st.buffers.dict, st.probeValve).Some?
  }

  // ---------------------------------------------------------------------
  // Dictionaries and their list models
  // ---------------------------------------------------------------------

  /** `d[key] = name`, then the list model rebuilt from the sorted keys. */
  function AddEntry(l: Listing, key: int, name: string): (r: Listing)
    ensures Get(r.dict, key) == Some(name)
    ensures forall k :: k != key ==> Get(r.dict, k) == Get(l.dict, k)
  {
    var d := Set(l.dict, key, name);
    assert forall k :: Get(d, k) == if k == key then Some(name) else Get(l.dict, k) by {
      forall k ensures Get(d, k) == if k == key then Some(name) else Get(l.dict, k) {
        GetSet(l.dict, key, name, k);
      }
    }
    Listing(d, SortedItems(d))
  }

  /** Adding an entry to a dictionary with distinct keys leaves a list model
      that mirrors it. */
  lemma AddEntryMirrors(l: Listing, key: int, name: string)
    requires Distinct(Keys(l.dict))
    ensures Mirrors(AddEntry(l, key, name).dict, AddEntry(l, key, name).items)
  {
    SetMirrors(l.dict, key, name);
  }

  /** The key shown in row `row` of a list model; Python indexing, so a
      negative row counts from the end. */
  function RowKey(l: Listing, row: int): (r: Result<int>)
    ensures r.Err? <==> PyIndex(|l.items|, row).None?
    ensures r.Err? ==> r.error == IndexError
    ensures r.Ok? ==> r.value in Values(l.items)
  {
    match PyIndex(|l.items|, row)
    case None => Err(IndexError)
    case Some(p) =>
      assert Values(l.items)[p] == l.items[p].1;
      Ok(l.items[p].1)
  }

  /** `del d[key]; del items[row]` where key is the row's key. */
  function DeleteEntry(l: Listing, row: int): (r: Result<Listing>)
    ensures PyIndex(|l.items|, row).None? ==> r == Err(IndexError)
    ensures r.Ok? ==> |r.value.items| == |l.items| - 1
    ensures r.Ok? ==> forall k :: k != RowKey(l, row).value ==> Get(r.value.dict, k) == Get(l.dict, k)
  {
    match PyIndex(|l.items|, row)
    case None => Err(IndexError)
    case Some(p) =>
      var key := l.items[p].1;
      if Get(l.dict, key).None? then Err(KeyError)
      else
        assert forall k :: k != key ==> Get(Del(l.dict, key), k) == Get(l.dict, k) by {
          forall k | k != key ensures Get(Del(l.dict, key), k) == Get(l.dict, k) {
            GetDelOther(l.dict, key, k);
          }
        }
        Ok(Listing(Del(l.dict, key), l.items[..p] + l.items[p + 1..]))
  }

  /** On a mirrored listing deleting a row never raises KeyError, removes
      exactly that row's key and keeps the listing mirrored. */
  lemma DeleteEntryMirrors(l: Listing, row: int)
    requires Mirrors(l.dict, l.items) && PyIndex(|l.items|, row).Some?
    ensures DeleteEntry(l, row).Ok?
    ensures Mirrors(DeleteEntry(l, row).value.dict, DeleteEntry(l, row).value.items)
    ensures Get(DeleteEntry(l, row).value.dict, RowKey(l, row).value).None?
  {
    var p := PyIndex(|l.items|, row).value;
    var key := l.items[p].1;
    assert key in Values(l.items) by { assert Values(l.items)[p] == key; }
    DeleteRowMirrors(l.dict, l.items, p);
    GetDel(l.dict, key, key);
  }

  // ---------------------------------------------------------------------
  // Buffers and probes
  // ---------------------------------------------------------------------

  /** `add_buffer(name, valve)`: the valve now holds `name`, replacing any
      earlier buffer on it; no other valve changes. */
  function AddBuffer(st: Injections, name: string, valve: int): (r: Injections)
    ensures Get(r.buffers.dict, valve) == Some(name)
    ensures forall v :: v != valve ==> Get(r.buffers.dict, v) == Get(st.buffers.dict, v)
    ensures r.probes == st.probes && r.probeValve == st.probeValve
    ensures r.hybridization == st.hybridization && r.photobleaching == st.photobleaching
  {
    st.(buffers := AddEntry(st.buffers, valve, name))
  }

  /** `on_activate`: empty maps and lists, then the probe buffer on the probe
      valve. */
  function Activate(probeValve: int): (r: Injections)
    ensures Valid(r)
    ensures forall v :: Get(r.buffers.dict, v) == if v == probeValve then Some(ProbeName) else None
    ensures r.probes.dict == [] && r.hybridization == [] && r.photobleaching == []
  {
    var empty := Injections(probeValve, Listing([], []), Listing([], []), [], []);
    assert Mirrors([], []);
    AddEntryMirrors(empty.buffers, probeValve, ProbeName);
    AddBuffer(empty, ProbeName, probeValve)
  }

  /** `delete_buffer(row)`: the row of the probe valve is kept; any other row
      is removed from the list model and its valve from the map. */
  function DeleteBuffer(st: Injections, row: int): (r: Result<Injections>)
    ensures PyIndex(|st.buffers.items|, row).None? ==> r == Err(IndexError)
    ensures r.Ok? ==> Get(r.value.buffers.dict, st.probeValve) == Get(st.buffers.dict, st.probeValve)
    ensures r.Ok? ==> r.value.probes == st.probes && r.value.probeValve == st.probeValve
    ensures r.Ok? ==> r.value.hybridization == st.hybridization
    ensures r.Ok? ==> r.value.photobleaching == st.photobleaching
  {
    var key :- RowKey(st.buffers, row);
    if key == st.probeValve then Ok(st)
    else
      var l :- DeleteEntry(st.buffers, row);
      Ok(st.(buffers := l))
  }

  /** `delete_all_buffer()`: only the probe buffer on the probe valve is left. */
  function DeleteAllBuffers(st: Injections): (r: Injections)
    ensures forall v :: Get(r.buffers.dict, v) == if v == st.probeValve then Some(ProbeName) else None
    ensures r.buffers.items == [(ProbeName, st.probeValve)]
    ensures r.probes == st.probes && r.probeValve == st.probeValve
    ensures r.hybridization == st.hybridization && r.photobleaching == st.photobleaching
  {
    var r := AddBuffer(st.(buffers := Listing([], [])), ProbeName, st.probeValve);
    assert Sort([st.probeValve]) == [st.probeValve];
    r
  }

  /** `add_probe(name, position)`. */
  function AddProbe(st: Injections, name: string, position: int): (r: Injections)
    ensures Get(r.probes.dict, position) == Some(name)
    ensures forall q :: q != position ==> Get(r.probes.dict, q) == Get(st.probes.dict, q)
    ensures r.buffers == st.buffers && r.probeValve == st.probeValve
    ensures r.hybridization == st.hybridization && r.photobleaching == st.photobleaching
  {
    st.(probes := AddEntry(st.probes, position, name))
  }

  /** `delete_probe(row)`: no position is protected. */
  function DeleteProbe(st: Injections, row: int): (r: Result<Injections>)
    ensures PyIndex(|st.probes.items|, row).None? ==> r == Err(IndexError)
    ensures r.Ok? ==> |r.value.probes.items| == |st.probes.items| - 1
    ensures r.Ok? ==> r.value.buffers == st.buffers && r.value.probeValve == st.probeValve
    ensures r.Ok? ==> r.value.hybridization == st.hybridization
    ensures r.Ok? ==> r.value.photobleaching == st.photobleaching
  {
    var l :- DeleteEntry(st.probes, row);
    Ok(st.(probes := l))
  }

  /** `delete_all_probes()`. */
  function DeleteAllProbes(st: Injections): (r: Injections)
    ensures forall q :: Get(r.probes.dict, q).None?
    ensures |r.probes.items| == 0
    ensures r.buffers == st.buffers && r.probeValve == st.probeValve
    ensures r.hybridization == st.hybridization && r.photobleaching == st.photobleaching
  {
    st.(probes := Listing([], []))
  }

  // ---------------------------------------------------------------------
  // Step lists
  // ---------------------------------------------------------------------

  /** Append `step` to the list its procedure names; any other procedure
      leaves both lists as they are. */
  function AppendStep(st: Injections, step: Step): (r: Injections)
    ensures st.hybridization <= r.hybridization && st.photobleaching <= r.photobleaching
    ensures |r.hybridization| + |r.photobleaching|
         == |st.hybridization| + |st.photobleaching|
            + (if step.procedure in {Hybridization, Photobleaching} then 1 else 0)
    ensures |r.hybridization| > |st.hybridization| ==> step.procedure == Hybridization && r.hybridization[|st.hybridization|] == step
    ensures |r.photobleaching| > |st.photobleaching| ==> step.procedure == Photobleaching && r.photobleaching[|st.photobleaching|] == step
    ensures r.buffers == st.buffers && r.probes == st.probes && r.probeValve == st.probeValve
  {
    if step.procedure == Hybridization then st.(hybridization := st.hybridization + [step])
    else if step.procedure == Photobleaching then st.(photobleaching := st.photobleaching + [step])
    else st
  }

  /** The step list a procedure name selects; any other name selects none. */
  function StepsOf(st: Injections, procedure: string): seq<Step> {
    if procedure == Hybridization then st.hybridization
    else if procedure == Photobleaching then st.photobleaching
    else []
  }

  /** `r` is `st` with one step added at the end of the list `procedure`
      names, the other list, the buffers, the probes and the probe valve
      unchanged; a procedure naming neither list leaves `st` as it is. */
  predicate AddsOneStep(st: Injections, r: Injections, procedure: string) {
    && r.buffers == st.buffers && r.probes == st.probes && r.probeValve == st.probeValve
    && (procedure == Hybridization ==> r.photobleaching == st.photobleaching)
    && (procedure == Photobleaching ==> r.hybridization == st.hybridization)
    && (if procedure == Hybridization || procedure == Photobleaching then
          |StepsOf(r, procedure)| == |StepsOf(st, procedure)| + 1
          && StepsOf(r, procedure)[..|StepsOf(st, procedure)|] == StepsOf(st, procedure)
        else r == st)
  }

  /** The step `AddsOneStep` added. */
  function AddedStep(st: Injections, r: Injections, procedure: string): Step
    requires AddsOneStep(st, r, procedure)
    requires procedure == Hybridization || procedure == Photobleaching
  {
    StepsOf(r, procedure)[|StepsOf(st, procedure)|]
  }

  /** `add_injection_step(procedure, product, volume, flowrate)`: the new step
      carries the product, volume and flow rate and no incubation time. */
  function AddInjectionStep(st: Injections, procedure: string, product: string, volume: int, flowrate: int): (r: Injections)
    ensures AddsOneStep(st, r, procedure)
    ensures procedure == Hybridization || procedure == Photobleaching ==>
      var s := AddedStep(st, r, procedure);
      && s.procedure == procedure && s.product == Some(product)
      && s.volume == Some(volume) && s.flowrate == Some(flowrate) && s.time.None?
  {
    AppendStep(st, Step(procedure, Some(product), Some(volume), Some(flowrate), None))
  }

  /** `add_incubation_step(procedure, time)`: the new step carries only a time. */
  function AddIncubationStep(st: Injections, procedure: string, time: int): (r: Injections)
    ensures AddsOneStep(st, r, procedure)
    ensures procedure == Hybridization || procedure == Photobleaching ==>
      var s := AddedStep(st, r, procedure);
      && s.procedure == procedure && s.product.None?
      && s.volume.None? && s.flowrate.None? && s.time == Some(time)
  {
    AppendStep(st, Step(procedure, None, None, None, Some(time)))
  }

  /** A step found in `r` but not in `st` is the one step `AddsOneStep` added. */
  lemma OnlyNewStepIsAdded(st: Injections, r: Injections, procedure: string, s: Step)
    requires AddsOneStep(st, r, procedure)
    requires s in r.hybridization + r.photobleaching && s !in st.hybridization + st.photobleaching
    ensures procedure == Hybridization || procedure == Photobleaching
    ensures s == AddedStep(st, r, procedure)
  {
    var before := StepsOf(st, procedure);
    var now := StepsOf(r, procedure);
    if procedure == Hybridization || procedure == Photobleaching {
      assert now == before + [now[|before|]];
    }
  }

  /** Injection steps carry a product and no time; incubation steps carry a
      time and no product, whichever list they land in. */
  lemma AddedStepShape(st: Injections, procedure: string, product: string, volume: int, flowrate: int, time: int)
    ensures var r := AddInjectionStep(st, procedure, product, volume, flowrate);
      forall s :: s in r.hybridization + r.photobleaching && s !in st.hybridization + st.photobleaching ==>
        s.product == Some(product) && s.time.None? && s.procedure == procedure
    ensures var r := AddIncubationStep(st, procedure, time);
      forall s :: s in r.hybridization + r.photobleaching && s !in st.hybridization + st.photobleaching ==>
        s.product.None? && s.time == Some(time) && s.procedure == procedure
  {
    var r1 := AddInjectionStep(st, procedure, product, volume, flowrate);
    forall s | s in r1.hybridization + r1.photobleaching && s !in st.hybridization + st.photobleaching
      ensures s.product == Some(product) && s.time.None? && s.procedure == procedure
    {
      OnlyNewStepIsAdded(st, r1, procedure, s);
    }
    var r2 := AddIncubationStep(st, procedure, time);
    forall s | s in r2.hybridization + r2.photobleaching && s !in st.hybridization + st.photobleaching
      ensures s.product.None? && s.time == Some(time) && s.procedure == procedure
    {
      OnlyNewStepIsAdded(st, r2, procedure, s);
    }
  }

  /** `delete_hybr_step(row)`. */
  function DeleteHybridizationStep(st: Injections, row: int): (r: Result<Injections>)
    ensures PyIndex(|st.hybridization|, row).None? <==> r == Err(IndexError)
    ensures r.Ok? ==> |r.value.hybridization| == |st.hybridization| - 1
    ensures r.Ok? ==> r.value.photobleaching == st.photobleaching && r.value.buffers == st.buffers
    ensures r.Ok? ==> r.value.probes == st.probes && r.value.probeValve == st.probeValve
  {
    var steps :- DeleteRow(st.hybridization, row);
    Ok(st.(hybridization := steps))
  }

  /** `delete_photobl_step(row)`. */
  function DeletePhotobleachingStep(st: Injections, row: int): (r: Result<Injections>)
    ensures PyIndex(|st.photobleaching|, row).None? <==> r == Err(IndexError)
    ensures r.Ok? ==> |r.value.photobleaching| == |st.photobleaching| - 1
    ensures r.Ok? ==> r.value.hybridization == st.hybridization && r.value.buffers == st.buffers
    ensures r.Ok? ==> r.value.probes == st.probes && r.value.probeValve == st.probeValve
  {
    var steps :- DeleteRow(st.photobleaching, row);
    Ok(st.(photobleaching := steps))
  }

  /** `delete_hybr_all()` and `delete_photobl_all()`. */
  function ClearSteps(st: Injections, procedure: string): (r: Injections)
    ensures procedure == Hybridization ==> |r.hybridization| == 0 && r.photobleaching == st.photobleaching
    ensures procedure != Hybridization ==> |r.photobleaching| == 0 && r.hybridization == st.hybridization
    ensures r.buffers == st.buffers && r.probes == st.probes && r.probeValve == st.probeValve
  {
    if procedure == Hybridization then st.(hybridization := []) else st.(photobleaching := [])
  }

  // ---------------------------------------------------------------------
  // The invariant
  // ---------------------------------------------------------------------

  /** Every editing operation of the logic. */
  datatype Edit =
    | AddBufferEdit(name: string, valve: int)
    | DeleteBufferEdit(row: int)
    | DeleteAllBuffersEdit
    | AddProbeEdit(probeName: string, position: int)
    | DeleteProbeEdit(probeRow: int)
    | DeleteAllProbesEdit
    | AddInjectionEdit(procedure: string, product: string, volume: int, flowrate: int)
    | AddIncubationEdit(incubationProcedure: string, time: int)
    | DeleteStepEdit(stepProcedure: string, stepRow: int)
    | ClearStepsEdit(clearedProcedure: string)

  function Apply(st: Injections, e: Edit): Result<Injections> {
    match e
    case AddBufferEdit(name, valve) => Ok(AddBuffer(st, name, valve))
    case DeleteBufferEdit(row) => DeleteBuffer(st, row)
    case DeleteAllBuffersEdit => Ok(DeleteAllBuffers(st))
    case AddProbeEdit(name, position) => Ok(AddProbe(st, name, position))
    case DeleteProbeEdit(row) => DeleteProbe(st, row)
    case DeleteAllProbesEdit => Ok(DeleteAllProbes(st))
    case AddInjectionEdit(procedure, product, volume, flowrate) =>
      Ok(AddInjectionStep(st, procedure, product, volume, flowrate))
    case AddIncubationEdit(procedure, time) => Ok(AddIncubationStep(st, procedure, time))
    case DeleteStepEdit(procedure, row) =>
      if procedure == Hybridization then DeleteHybridizationStep(st, row)
      else DeletePhotobleachingStep(st, row)
    case ClearStepsEdit(procedure) => Ok(ClearSteps(st, procedure))
  }

  /** Every edit that does not raise keeps the list models mirroring their
      maps and keeps the probe buffer on the probe valve; on a valid state
      only an out-of-range row raises, and then IndexError. */
  lemma ApplyKeepsValid(st: Injections, e: Edit)
    requires Valid(st)
    ensures Apply(st, e).Ok? ==> Valid(Apply(st, e).value)
    ensures Apply(st, e).Err? ==> Apply(st, e).error == IndexError
  {
    match e
    case AddBufferEdit(name, valve) =>
      AddEntryMirrors(st.buffers, valve, name);
    case DeleteBufferEdit(row) =>
      if PyIndex(|st.buffers.items|, row).Some? {
        DeleteEntryMirrors(st.buffers, row);
      }
    case DeleteAllBuffersEdit =>
      AddEntryMirrors(Listing([], []), st.probeValve, ProbeName);
    case AddProbeEdit(name, position) =>
      AddEntryMirrors(st.probes, position, name);
    case DeleteProbeEdit(row) =>
      if PyIndex(|st.probes.items|, row).Some? {
        DeleteEntryMirrors(st.probes, row);
      }
    case DeleteAllProbesEdit =>
      assert Mirrors([], []);
    case AddInjectionEdit(_, _, _, _) =>
    case AddIncubationEdit(_, _) =>
    case DeleteStepEdit(_, _) =>
    case ClearStepsEdit(_) =>
  }

  /** On a valid state, deleting any buffer row other than the probe valve's
      removes that valve from the map. */
  lemma DeleteBufferRemoves(st: Injections, row: int)
    requires Valid(st) && PyIndex(|st.buffers.items|, row).Some?
    ensures DeleteBuffer(st, row).Ok?
    ensures RowKey(st.buffers, row).value != st.probeValve <==>
      Get(DeleteBuffer(st, row).value.buffers.dict, RowKey(st.buffers, row).value).None?
  {
    DeleteEntryMirrors(st.buffers, row);
  }

  // ---------------------------------------------------------------------
  // Consistency check
  // ---------------------------------------------------------------------

  /** Python's `\w` on a string pattern: the ASCII letters, digits and
      underscore, and the non-ASCII characters in `wordExtra`, the letters,
      digits and connector punctuation of the Unicode database. */
  predicate IsWordChar(c: char, wordExtra: set<char>) {
    || ('a' <= c <= 'z') || ('A' <= c <= 'Z') || ('0' <= c <= '9') || c == '_'
    || (128 <= c as int && c in wordExtra)
  }

  /** Start of the run of word characters that ends just before `i`. */
  function RunStart(s: string, i: nat, wordExtra: set<char>): (r: nat)
    requires i <= |s|
    ensures r <= i
    ensures forall j :: r <= j < i ==> IsWordChar(s[j], wordExtra)
    ensures r > 0 ==> !IsWordChar(s[r - 1], wordExtra)
    decreases i
  {
    if i > 0 && IsWordChar(s[i - 1], wordExtra) then RunStart(s, i - 1, wordExtra) else i
  }

  /** A colon that directly follows a word character. */
  predicate TaggedColon(s: string, i: int, wordExtra: set<char>) {
    0 < i < |s| && s[i] == ':' && IsWordChar(s[i - 1], wordExtra)
  }

  /** The first tagged colon at or after `from`. */
  function FirstTaggedColon(s: string, from: nat, wordExtra: set<char>): (r: Option<nat>)
    ensures r.Some? ==> from <= r.value && TaggedColon(s, r.value, wordExtra)
    ensures r.Some? ==> forall i :: from <= i < r.value ==> !TaggedColon(s, i, wordExtra)
    ensures r.None? ==> forall i :: from <= i < |s| ==> !TaggedColon(s, i, wordExtra)
    decreases |s| - from
  {
    if from >= |s| then None
    else if TaggedColon(s, from, wordExtra) then Some(from)
    else FirstTaggedColon(s, from + 1, wordExtra)
  }

  /** `re.findall('\w+:', s)[0]` when there is a match: the leftmost match
      is the run of word characters before the first colon that follows a
      word character, with that colon. */
  function ColonTag(s: string, wordExtra: set<char>): (r: Option<string>)
    ensures r.Some? ==> |r.value| >= 2 && r.value[|r.value| - 1] == ':'
  {
    match FirstTaggedColon(s, 0, wordExtra)
    case None => None
    case Some(i) => Some(s[RunStart(s, i, wordExtra)..i + 1])
  }

  /** A tag is a non-empty run of word characters and a colon, taken from the
      product, and there is one exactly when some colon follows a word
      character. */
  lemma ColonTagShape(s: string, wordExtra: set<char>)
    ensures ColonTag(s, wordExtra).None? <==> forall i :: 0 <= i < |s| ==> !TaggedColon(s, i, wordExtra)
    ensures ColonTag(s, wordExtra).Some? ==>
      var t := ColonTag(s, wordExtra).value;
      && |t| >= 2 && t[|t| - 1] == ':'
      && (forall j :: 0 <= j < |t| - 1 ==> IsWordChar(t[j], wordExtra))
      && exists a :: 0 <= a <= |s| && t <= s[a..]
  {
    match FirstTaggedColon(s, 0, wordExtra)
    case None =>
    case Some(i) =>
      var a := RunStart(s, i, wordExtra);
      var t := s[a..i + 1];
      assert ColonTag(s, wordExtra) == Some(t);
      assert TaggedColon(s, i, wordExtra);
      forall j | 0 <= j < |t| - 1 ensures IsWordChar(t[j], wordExtra) {
        assert t[j] == s[a + j];
      }
      assert t == s[a..][..|t|];
  }

  /** A letter outside ASCII counts as a word character: "é:" is a tag
      exactly when 'é' is among the Unicode word characters. */
  lemma UnicodeLetterTags()
    ensures ColonTag("é:", {'é'}) == Some("é:")
    ensures ColonTag("é:", {}) == None
  {
    assert FirstTaggedColon("é:", 0, {'é'}) == Some(1) by {
      assert !TaggedColon("é:", 0, {'é'}) && TaggedColon("é:", 1, {'é'});
    }
    assert RunStart("é:", 1, {'é'}) == 0;
    assert "é:"[0..2] == "é:";
    assert !TaggedColon("é:", 0, {}) && !TaggedColon("é:", 1, {});
  }

  /** The buffer name the check looks for: the tag when there is one, the
      product otherwise. */
  function BufferName(product: string, wordExtra: set<char>): (r: string)
    ensures |r| == 0 <==> |product| == 0
  {
    match ColonTag(product, wordExtra)
    case Some(t) => ColonTagShape(product, wordExtra); t
    case None => product
  }

  /** Some buffer starts with `p`. */
  predicate AnyStartsWith(p: string, buffers: seq<string>) {
    exists b :: b in buffers && p <= b
  }

  /** `list(filter(re.compile(name + '*').match, buffers))` is non-empty: the
      last character of `name` may repeat any number of times, so a buffer
      matches when it starts with the rest of `name`. An empty `name` gives
      the pattern `*`, which does not compile. */
  function AnyBufferMatches(name: string, buffers: seq<string>): (r: Result<bool>)
    ensures r.Err? <==> |name| == 0
    ensures r.Err? ==> r.error == RegexError
    ensures r.Ok? ==> (r.value <==> AnyStartsWith(name[..|name| - 1], buffers))
  {
    if |name| == 0 then Err(RegexError)
    else Ok(exists b :: b in buffers && name[..|name| - 1] <= b)
  }

  /** A step passes the check: it is an incubation, or its buffer name is
      found in the buffer list. */
  predicate Accepted(step: Step, buffers: seq<string>, wordExtra: set<char>) {
    step.product.Some? ==>
      var name := BufferName(step.product.value, wordExtra);
      |name| > 0 && AnyStartsWith(name[..|name| - 1], buffers)
  }

  /** One loop of `check_injection_sequence_consistency`: steps are checked
      in order and the loop stops at the first step whose buffer is not
      found. */
  function CheckSteps(steps: seq<Step>, buffers: seq<string>, wordExtra: set<char>): (r: Result<bool>)
    ensures r.Err? ==> r.error == RegexError
    decreases |steps|
  {
    if |steps| == 0 then Ok(true)
    else match steps[0].product
      case None => CheckSteps(steps[1..], buffers, wordExtra)
      case Some(p) =>
        var found :- AnyBufferMatches(BufferName(p, wordExtra), buffers);
        if !found then Ok(false) else CheckSteps(steps[1..], buffers, wordExtra)
  }

  /** The loop accepts exactly when every step is accepted, and it raises
      only for an empty product met before any step it rejects. */
  lemma {:induction false} CheckStepsSpec(steps: seq<Step>, buffers: seq<string>, wordExtra: set<char>)
    ensures CheckSteps(steps, buffers, wordExtra) == Ok(true) <==> forall i :: 0 <= i < |steps| ==> Accepted(steps[i], buffers, wordExtra)
    ensures CheckSteps(steps, buffers, wordExtra).Err? ==>
      CheckSteps(steps, buffers, wordExtra).error == RegexError
      && exists i :: 0 <= i < |steps| && steps[i].product == Some("")
    decreases |steps|
  {
    if |steps| != 0 {
      CheckStepsSpec(steps[1..], buffers, wordExtra);
      assert forall i :: 0 < i < |steps| ==> steps[i] == steps[1..][i - 1];
      if CheckSteps(steps, buffers, wordExtra).Err? && steps[0].product != Some("") {
        var i :| 0 <= i < |steps[1..]| && steps[1..][i].product == Some("");
        assert steps[i + 1].product == Some("");
      }
      if forall i :: 0 < i < |steps| ==> Accepted(steps[i], buffers, wordExtra) {
        assert forall i :: 0 <= i < |steps[1..]| ==> Accepted(steps[1..][i], buffers, wordExtra) by {
          forall i | 0 <= i < |steps[1..]| ensures Accepted(steps[1..][i], buffers, wordExtra) {
            assert steps[1..][i] == steps[i + 1];
          }
        }
      }
    }
  }

  /** `check_injection_sequence_consistency()`: false without probes, false
      when a step's buffer is not in the buffer map; both loops run even
      when there are no probes or the first loop has failed. */
  function Consistency(st: Injections, wordExtra: set<char>): (r: Result<bool>)
    ensures r.Ok? && r.value ==> |st.probes.dict| > 0
  {
    var buffers := Values(st.buffers.dict);
    var hybridizationOk :- CheckSteps(st.hybridization, buffers, wordExtra);
    var photobleachingOk :- CheckSteps(st.photobleaching, buffers, wordExtra);
    Ok(|st.probes.dict| > 0 && hybridizationOk && photobleachingOk)
  }

  /** The check passes exactly when there is a probe and every step of both
      lists names a buffer of the map. */
  lemma ConsistencySpec(st: Injections, wordExtra: set<char>)
    ensures Consistency(st, wordExtra) == Ok(true) <==>
      && |st.probes.dict| > 0
      && (forall i :: 0 <= i < |st.hybridization| ==> Accepted(st.hybridization[i], Values(st.buffers.dict), wordExtra))
      && (forall i :: 0 <= i < |st.photobleaching| ==> Accepted(st.photobleaching[i], Values(st.buffers.dict), wordExtra))
  {
    CheckStepsSpec(st.hybridization, Values(st.buffers.dict), wordExtra);
    CheckStepsSpec(st.photobleaching, Values(st.buffers.dict), wordExtra);
  }

  /** The last character of a product name is optional when it is looked up:
      a step asking for "Wash" passes when only "Wasabi" is defined. */
  lemma LastCharacterIsOptional(wordExtra: set<char>)
    ensures Accepted(Step(Hybridization, Some("Wash"), Some(1), Some(1), None), ["Wasabi"], wordExtra)
  {
    assert ColonTag("Wash", wordExtra).None? by {
      ColonTagShape("Wash", wordExtra);
    }
    assert "Was" <= "Wasabi";
    assert "Wasabi" in ["Wasabi"];
  }

  // ---------------------------------------------------------------------
  // Saving
  // ---------------------------------------------------------------------

  /** `name` is everything of `s` before its first colon. */
  predicate NameBeforeColon(name: string, s: string) {
    name <= s && ':' !in name && (|name| < |s| ==> s[|name|] == ':')
  }

  /** `str.split(s, ':')[0]`. */
  function BeforeColon(s: string): (r: string)
    ensures NameBeforeColon(r, s)
    decreases |s|
  {
    if |s| == 0 || s[0] == ':' then "" else [s[0]] + BeforeColon(s[1..])
  }

  /** A product written as name ':' valve is saved as the name alone. */
  lemma {:induction false} BeforeColonOfTagged(name: string, valve: string)
    requires ':' !in name
    ensures BeforeColon(name + ":" + valve) == name
    decreases |name|
  {
    if |name| != 0 {
      assert (name + ":" + valve)[1..] == name[1..] + ":" + valve;
      BeforeColonOfTagged(name[1..], valve);
      assert [name[0]] + name[1..] == name;
    } else {
      assert (name + ":" + valve)[0] == ':';
    }
  }

  /** Saving a saved product again changes nothing. */
  lemma BeforeColonIdempotent(s: string)
    ensures BeforeColon(BeforeColon(s)) == BeforeColon(s)
  {
    var r := BeforeColon(s);
    BeforeColonOfTagged(r, "");
    assert BeforeColon(r + ":") == r;
    BeforeColonNoColon(r);
  }

  lemma {:induction false} BeforeColonNoColon(s: string)
    requires ':' !in s
    ensures BeforeColon(s) == s
    decreases |s|
  {
    if |s| != 0 {
      assert ':' !in s[1..] by { assert forall j :: 0 <= j < |s[1..]| ==> s[1..][j] == s[j + 1]; }
      BeforeColonNoColon(s[1..]);
      assert [s[0]] + s[1..] == s;
    }
  }

  /** One entry of the saved file, as `make_dict_entry` builds it. */
  datatype SavedStep = SavedStep(
    stepNumber: nat,
    procedure: string,
    product: Option<string>,
    volume: Option<int>,
    flowrate: Option<int>,
    time: Option<int>)

  datatype SavedFile = SavedFile(
    buffer: Dict,
    probes: Dict,
    hybridizationList: seq<SavedStep>,
    photobleachingList: seq<SavedStep>)

  function SaveProduct(product: Option<string>): Option<string> {
    match product
    case None => None
    case Some(p) => Some(BeforeColon(p))
  }

  /** The entries of one step list, numbered from 1. */
  function SaveSteps(steps: seq<Step>): (r: seq<SavedStep>)
    ensures |r| == |steps|
    ensures forall i {:trigger r[i]} :: 0 <= i < |steps| ==>
      && r[i].stepNumber == i + 1
      && r[i].procedure == steps[i].procedure
      && r[i].volume == steps[i].volume
      && r[i].flowrate == steps[i].flowrate
      && r[i].time == steps[i].time
      && (r[i].product.Some? <==> steps[i].product.Some?)
      && (r[i].product.Some? ==> NameBeforeColon(r[i].product.value, steps[i].product.value))
  {
    seq(|steps|, i requires 0 <= i < |steps| =>
      SavedStep(i + 1, steps[i].procedure, SaveProduct(steps[i].product),
                steps[i].volume, steps[i].flowrate, steps[i].time))
  }

  /** `save_injections`: the file contents, or None when the consistency
      check fails; an error of the check propagates. */
  function SaveInjections(st: Injections, wordExtra: set<char>): (r: Result<Option<SavedFile>>)
    ensures r.Ok? && r.value.Some? ==> Consistency(st, wordExtra) == Ok(true)
    ensures r.Ok? && r.value.None? ==> Consistency(st, wordExtra) == Ok(false)
    ensures r.Err? <==> Consistency(st, wordExtra).Err?
    ensures r.Ok? && r.value.Some? ==>
      && r.value.value.buffer == st.buffers.dict
      && r.value.value.probes == st.probes.dict
      && |r.value.value.hybridizationList| == |st.hybridization|
      && |r.value.value.photobleachingList| == |st.photobleaching|
  {
    var consistent :- Consistency(st, wordExtra);
    if consistent then
      Ok(Some(SavedFile(st.buffers.dict, st.probes.dict,
                        SaveSteps(st.hybridization), SaveSteps(st.photobleaching))))
    else Ok(None)
  }
}

=== FILE: laser.dfy ===
/** The laser control logic: the intensity dictionary kept beside the
    laser dictionary of the controller, switching the output on and off,
    and the interlock of the filter wheel logic, which moves the wheel only
    while the lasers are off. Controller writes are returned as a list
    instead of being sent. */
module LaserControl {
  import opened Wrappers
  import opened Assoc

  /** An entry of the controller's laser dictionary. */
  datatype LaserInfo = LaserInfo(wavelength: string, channel: string, rangeMax: real)

  datatype ControllerType = Daq | Fpga | OtherController

  /** One `apply_voltage(value, channel)` call on the controller. */
  datatype Write = Write(value: real, channel: string)

  datatype Laser = Laser(
    controller: ControllerType,
    lasers: seq<(string, LaserInfo)>,
    intensities: seq<(string, real)>,
    enabled: bool)

  /** Every laser has an intensity. */
  predicate Covered(l: Laser) {
    forall i :: 0 <= i < |l.lasers| ==> l.lasers[i].0 in Keys(l.intensities)
  }

  /** `init_intensity_dict`: one entry per laser, all set to `value`. */
  function InitIntensityDict(lasers: seq<(string, LaserInfo)>, value: real): (r: seq<(string, real)>)
    ensures Keys(r) == Keys(lasers)
  {
    WithAll(lasers, value)
  }

  /** Every laser reads the initial value and no other key reads. */
  lemma InitIntensityDictReads(lasers: seq<(string, LaserInfo)>, value: real, k: string)
    ensures Get(InitIntensityDict(lasers, value), k) == if k in Keys(lasers) then Some(value) else None
  {
    GetWithAll(lasers, value, k);
  }

  /** `on_activate`: output off and every intensity 0. */
  function Activate(controller: ControllerType, lasers: seq<(string, LaserInfo)>): (l: Laser)
    ensures !l.enabled && Covered(l)
  {
    var l := Laser(controller, lasers, InitIntensityDict(lasers, 0.0), false);
    assert forall i :: 0 <= i < |lasers| ==> lasers[i].0 == Keys(l.intensities)[i];
    l
  }

  /** `reset_intensity_dict`: the same keys, all 0. */
  function ResetIntensityDict(d: seq<(string, real)>): (r: seq<(string, real)>)
    ensures Keys(r) == Keys(d)
  {
    WithAll(d, 0.0)
  }

  /** After a reset every key reads 0, and no key is added. */
  lemma ResetIntensityDictReads(d: seq<(string, real)>, k: string)
    ensures Get(ResetIntensityDict(d), k) == if k in Keys(d) then Some(0.0) else None
  {
    GetWithAll(d, 0.0, k);
  }

  /** The controller writes of `apply_voltage`, laser by laser. A laser
      without intensity raises KeyError; the writes sent to the lasers
      before it stay sent. A DAQ gets the intensity as a percentage of the
      voltage range, an FPGA the percentage itself. */
  function Writes(controller: ControllerType, lasers: seq<(string, LaserInfo)>, intensities: seq<(string, real)>)
    : (r: Partial<seq<Write>>)
    requires controller != OtherController
    ensures |r.done| <= |lasers|
    ensures forall i {:trigger r.done[i]} :: 0 <= i < |r.done| ==>
      && Get(intensities, lasers[i].0).Some?
      && r.done[i].channel == lasers[i].1.channel
      && r.done[i].value == (if controller == Daq
                             then Get(intensities, lasers[i].0).value * lasers[i].1.rangeMax / 100.0
                             else Get(intensities, lasers[i].0).value)
    ensures r.raised.Some? <==> exists i :: 0 <= i < |lasers| && Get(intensities, lasers[i].0).None?
    ensures r.raised.None? ==> |r.done| == |lasers|
    ensures r.raised.Some? ==>
      r.raised.value == KeyError && |r.done| < |lasers| && Get(intensities, lasers[|r.done|].0).None?
    decreases |lasers|
  {
    if |lasers| == 0 then Partial([], None)
    else
      match Get(intensities, lasers[0].0)
      case None => Partial([], Some(KeyError))
      case Some(v) =>
        var info := lasers[0].1;
        var w := Write(if controller == Daq then v * info.rangeMax / 100.0 else v, info.channel);
        var rest := Writes(controller, lasers[1..], intensities);
        var done := [w] + rest.done;
        forall i | 1 <= i < |done|
          ensures done[i] == rest.done[i - 1] && lasers[i] == lasers[1..][i - 1]
        {
        }
        assert rest.raised.Some? ==> lasers[|done|] == lasers[1..][|rest.done|];
        assert (exists i :: 0 <= i < |lasers| && Get(intensities, lasers[i].0).None?) ==> rest.raised.Some? by {
          if exists i :: 0 <= i < |lasers| && Get(intensities, lasers[i].0).None? {
            var i :| 0 <= i < |lasers| && Get(intensities, lasers[i].0).None?;
            assert lasers[1..][i - 1] == lasers[i];
          }
        }
        Partial(done, rest.raised)
  }

  /** `apply_voltage`: the output is marked on first, then every laser gets
      its intensity; a controller type that is neither DAQ nor FPGA gets no
      write. A KeyError keeps the flag and the writes made before it. */
  function ApplyVoltage(l: Laser): (r: Partial<(Laser, seq<Write>)>)
    ensures r.done.0 == l.(enabled := true)
    ensures l.controller == OtherController ==> r.done.1 == [] && r.raised.None?
    ensures l.controller != OtherController ==> Writes(l.controller, l.lasers, l.intensities) == Partial(r.done.1, r.raised)
    ensures r.raised.Some? ==> r.raised.value == KeyError
  {
    if l.controller == OtherController then Partial((l.(enabled := true), []), None)
    else
      var w := Writes(l.controller, l.lasers, l.intensities);
      Partial((l.(enabled := true), w.done), w.raised)
  }

  /** With every laser covered, `apply_voltage` never fails. */
  lemma ApplyVoltageCovered(l: Laser)
    requires Covered(l)
    ensures ApplyVoltage(l).raised.None?
  {
    forall i | 0 <= i < |l.lasers|
      ensures Get(l.intensities, l.lasers[i].0).Some?
    {
      GetSome(l.intensities, l.lasers[i].0);
    }
  }

  /** Writes of 0 to every laser channel. */
  function ZeroWrites(lasers: seq<(string, LaserInfo)>): (r: seq<Write>)
    ensures |r| == |lasers|
    ensures forall i {:trigger r[i]} :: 0 <= i < |lasers| ==> r[i] == Write(0.0, lasers[i].1.channel)
  {
    seq(|lasers|, i requires 0 <= i < |lasers| => Write(0.0, lasers[i].1.channel))
  }

  /** `voltage_off`: the output is marked off, every channel gets 0 and the
      intensities are kept so that the output can be restarted. */
  function VoltageOff(l: Laser): (r: (Laser, seq<Write>))
    ensures r.0 == l.(enabled := false)
    ensures |r.1| == |l.lasers|
    ensures forall i :: 0 <= i < |l.lasers| ==> r.1[i].value == 0.0 && r.1[i].channel == l.lasers[i].1.channel
  {
    (l.(enabled := false), ZeroWrites(l.lasers))
  }

  /** `stop_laser_output`: acts only while the output is on; the flag says
      whether the stop signal is emitted. */
  function StopLaserOutput(l: Laser): (r: (Laser, seq<Write>, bool))
    ensures !r.0.enabled && r.0.intensities == l.intensities
    ensures r.2 <==> l.enabled
    ensures !l.enabled ==> r.0 == l && r.1 == []
  {
    if l.enabled then
      var (off, writes) := VoltageOff(l);
      (off, writes, true)
    else (l, [], false)
  }

  /** `update_intensity_dict` as written: the assignment `d[key] = value`
      cannot raise KeyError, so an unknown key is added to the intensity
      dictionary. While the output is on the intensities are applied again;
      the handler catches a KeyError of that step, and the writes sent
      before it stay sent. */
  function UpdateIntensityDictAsWritten(l: Laser, key: string, value: real): (r: (Laser, seq<Write>))
    ensures Get(r.0.intensities, key) == Some(value)
    ensures forall k :: k != key ==> Get(r.0.intensities, k) == Get(l.intensities, k)
    ensures r.0.lasers == l.lasers && r.0.enabled == l.enabled
    ensures !l.enabled ==> r.1 == []
  {
    var stored := l.(intensities := Set(l.intensities, key, value));
    assert forall k :: Get(stored.intensities, k) == if k == key then Some(value) else Get(l.intensities, k) by {
      forall k { GetSet(l.intensities, key, value, k); }
    }
    if !stored.enabled then (stored, [])
    else ApplyVoltage(stored).done
  }

  /** `update_intensity_dict` as meant: an identifier that is not in the
      dictionary is reported and changes nothing. */
  function UpdateIntensityDict(l: Laser, key: string, value: real): (r: (Laser, seq<Write>))
    ensures key !in Keys(l.intensities) ==> r == (l, [])
    ensures Keys(r.0.intensities) == Keys(l.intensities)
    ensures r.0.lasers == l.lasers && r.0.controller == l.controller && r.0.enabled == l.enabled
    ensures key in Keys(l.intensities) ==> Get(r.0.intensities, key) == Some(value)
  {
    if key !in Keys(l.intensities) then (l, [])
    else
      var stored := l.(intensities := Set(l.intensities, key, value));
      assert Keys(stored.intensities) == Keys(l.intensities) by {
        KeysSet(l.intensities, key, value);
      }
      assert Get(stored.intensities, key) == Some(value) by {
        GetSet(l.intensities, key, value, key);
      }
      if !stored.enabled then (stored, [])
      else ApplyVoltage(stored).done
  }

  /** The stored value is re-applied exactly when the output is on, and
      every other key keeps its value. */
  lemma UpdateIntensityDictApplies(l: Laser, key: string, value: real, other: string)
    requires Covered(l) && key in Keys(l.intensities)
    ensures var r := UpdateIntensityDict(l, key, value);
      && Covered(r.0)
      && (other != key ==> Get(r.0.intensities, other) == Get(l.intensities, other))
      && (!l.enabled ==> r.1 == [])
      && (l.enabled && l.controller != OtherController ==>
            Writes(l.controller, l.lasers, r.0.intensities) == Partial(r.1, None))
  {
    var stored := Set(l.intensities, key, value);
    KeysSet(l.intensities, key, value);
    GetSet(l.intensities, key, value, other);
    var s := l.(intensities := stored);
    assert Covered(s);
    ApplyVoltageCovered(s);
  }

  /** As written, an unknown identifier is added: the intensity dictionary
      gains a key that is no laser. */
  lemma UpdateIntensityDictAsWrittenAddsKey(l: Laser, key: string, value: real)
    requires key !in Keys(l.intensities)
    ensures Keys(UpdateIntensityDictAsWritten(l, key, value).0.intensities) == Keys(l.intensities) + [key]
  {
    KeysSet(l.intensities, key, value);
  }

  /** On a known identifier the two agree. */
  lemma UpdateIntensityDictAgrees(l: Laser, key: string, value: real)
    requires key in Keys(l.intensities)
    ensures UpdateIntensityDictAsWritten(l, key, value) == UpdateIntensityDict(l, key, value)
  {
  }

  // ---------------------------------------------------------------------
  // The filter wheel interlock
  // ---------------------------------------------------------------------

  /** Outcome of `set_position` of the filter wheel logic: the laser state
      afterwards, whether the wheel was commanded, and the position the
      new-setting signal carries, if it fires. */
  datatype FilterOutcome = FilterOutcome(laser: Laser, commanded: bool, signal: Option<int>)

  /** `set_position` of the filter wheel logic. `wheelError` is what the
      wheel returns when commanded (0 on success). */
  function SetFilterPosition(l: Laser, position: int, wheelError: int): (r: FilterOutcome)
    ensures r.commanded <==> !l.enabled
    ensures l.enabled ==> r.laser == l && r.signal == None
    ensures !l.enabled ==> r.laser == l.(intensities := ResetIntensityDict(l.intensities))
    ensures r.signal.Some? <==> !l.enabled && wheelError == 0
    ensures r.signal.Some? ==> r.signal.value == position
  {
    if !l.enabled then
      var reset := l.(intensities := ResetIntensityDict(l.intensities));
      FilterOutcome(reset, true, if wheelError == 0 then Some(position) else None)
    else FilterOutcome(l, false, None)
  }

  /** Whenever the wheel moves, every laser intensity already reads 0 and
      the output is off. */
  lemma FilterMovesOnlyDark(l: Laser, position: int, wheelError: int, k: string)
    requires SetFilterPosition(l, position, wheelError).commanded
    ensures var after := SetFilterPosition(l, position, wheelError).laser;
      && !after.enabled
      && Keys(after.intensities) == Keys(l.intensities)
      && (k in Keys(l.intensities) ==> Get(after.intensities, k) == Some(0.0))
  {
    ResetIntensityDictReads(l.intensities, k);
  }
}

=== FILE: nanodrive.dfy ===
/** The guards of the Mad City Labs NanoDrive piezo: one axis 'Z', moves
    that stay within the configured range (and, for relative moves, within
    the maximal step), and a negative reading taken as an error code. The
    DLL is replaced by the reading it returns and whether a write
    succeeds. */
module NanoDrive {
  import opened Wrappers
  import Numeric
  import Text

  /** The one axis the controller has. */
  const AxisLabel := "Z"

  /** The configured range and maximal step, in micrometres. */
  datatype Config = Config(posMin: real, posMax: real, maxStep: real)

  /** An entry of the constraints dictionary. */
  datatype Axis = Axis(axisLabel: string, unit: string, posMin: real, posMax: real, maxStep: real)

  /** `get_constraints`: the single axis 'Z' in micrometres with the
      configured range and step. */
  function GetConstraints(c: Config): (r: seq<(string, Axis)>)
    ensures |r| == 1 && r[0].0 == AxisLabel && r[0].1.axisLabel == AxisLabel && r[0].1.unit == "um"
    ensures r[0].1.posMin == c.posMin && r[0].1.posMax == c.posMax && r[0].1.maxStep == c.maxStep
  {
    [(AxisLabel, Axis(AxisLabel, "um", c.posMin, c.posMax, c.maxStep))]
  }

  /** An axis name matches the label 'Z' when it is 'Z' or empty. */
  lemma SubstringOfLabel(a: string)
    ensures Text.Substring(a, AxisLabel) <==> a == "" || a == AxisLabel
  {
    if a == "" {
      assert AxisLabel[0..0] == a;
    } else if a == AxisLabel {
      assert AxisLabel[0..1] == a;
    }
  }

  /** `get_pos` for a list of axes: the first one matching the label gives
      the position, unless the reading is an error code; None when none
      gives one. */
  function GetPosOf(reading: real, axes: seq<string>): (r: Option<seq<(string, real)>>)
    ensures r.Some? ==> r.value == [(AxisLabel, reading)]
    decreases |axes|
  {
    if |axes| == 0 then None
    else if Text.Substring(axes[0], AxisLabel) && 0.0 <= reading then Some([(AxisLabel, reading)])
    else GetPosOf(reading, axes[1..])
  }

  /** `get_pos`: with no (or an empty) list of axes the position of 'Z';
      None when the reading is negative. */
  function GetPos(reading: real, paramList: Option<seq<string>>): (r: Option<seq<(string, real)>>)
    ensures r.Some? ==> r.value == [(AxisLabel, reading)]
    ensures (paramList.None? || paramList.value == []) ==> (r.Some? <==> 0.0 <= reading)
  {
    if paramList.None? || paramList.value == [] then
      if reading < 0.0 then None else Some([(AxisLabel, reading)])
    else GetPosOf(reading, paramList.value)
  }

  /** A list query gives no position for a negative reading, and the
      position for a valid one when the list names 'Z'. */
  lemma {:induction false} GetPosOfError(reading: real, axes: seq<string>)
    ensures reading < 0.0 ==> GetPosOf(reading, axes).None?
    ensures 0.0 <= reading && AxisLabel in axes ==> GetPosOf(reading, axes) == Some([(AxisLabel, reading)])
    decreases |axes|
  {
    if |axes| > 0 {
      SubstringOfLabel(axes[0]);
      if axes[0] != AxisLabel {
        assert AxisLabel in axes ==> AxisLabel in axes[1..];
      }
      GetPosOfError(reading, axes[1..]);
    }
  }

  /** A negative reading is never a position, whatever the query; a valid
      one is returned for the default query and for a list naming 'Z'. */
  lemma GetPosError(reading: real, axes: seq<string>)
    ensures reading < 0.0 ==> GetPos(reading, Some(axes)).None? && GetPos(reading, None).None?
    ensures 0.0 <= reading && AxisLabel in axes ==> GetPos(reading, Some(axes)) == Some([(AxisLabel, reading)])
  {
    GetPosOfError(reading, axes);
  }

  /** `np.round(x, decimals=4)`. */
  function Round4(x: real): (r: real)
    ensures x - 0.00005 <= r <= x + 0.00005
  {
    Numeric.RoundHalfEven(x * 10000.0) as real / 10000.0
  }

  /** Outcome of a move: the position written to the piezo, if any, and the
      value returned — True or False after a write, None when the guard
      refuses (the method falls through). */
  datatype Move = Move(written: Option<real>, returned: Option<bool>)

  /** `move_rel`: the step, rounded to four decimals, is written when the
      axis is 'Z', the step is at most the maximal step and the new position
      stays in range. A negative reading leaves `get_pos` returning None, on
      which the method fails with AttributeError. */
  function MoveRel(c: Config, reading: real, axis: string, step: real, writeOk: bool): (r: Result<Move>)
    ensures r.Err? <==> reading < 0.0
    ensures r.Err? ==> r.error == AttributeError
    ensures r.Ok? ==> (r.value.written.Some? <==> r.value.returned.Some?)
    ensures r.Ok? && r.value.written.Some? ==> r.value.returned == Some(writeOk)
    ensures r.Ok? && r.value.written.Some? ==> r.value.written.value == reading + Round4(step)
  {
    match GetPos(reading, None)
    case None => Err(AttributeError)
    case Some(pos) =>
      var position := pos[0].1;
      var s := Round4(step);
      if axis == AxisLabel && Numeric.Abs(s) <= c.maxStep && c.posMin <= position + s <= c.posMax then
        Ok(Move(Some(position + s), Some(writeOk)))
      else Ok(Move(None, None))
  }

  /** A relative move never leaves the range and never jumps by more than
      the maximal step; it is refused for any other axis. */
  lemma MoveRelSafe(c: Config, reading: real, axis: string, step: real, writeOk: bool)
    requires 0.0 <= reading
    ensures var r := MoveRel(c, reading, axis, step, writeOk).value;
      && (r.written.Some? ==> c.posMin <= r.written.value <= c.posMax
                               && Numeric.Abs(r.written.value - reading) <= c.maxStep)
      && (axis != AxisLabel ==> r == Move(None, None))
      && (r.written.Some? <==> axis == AxisLabel && Numeric.Abs(Round4(step)) <= c.maxStep
                               && c.posMin <= reading + Round4(step) <= c.posMax)
      && (r.written.Some? ==> r.written.value == reading + Round4(step) && r.returned == Some(writeOk))
  {
  }

  /** `move_abs`: the target, rounded to four decimals, is written when the
      axis is 'Z' and the target is in range. The position is read first,
      so a negative reading fails with AttributeError although it is not
      used. */
  function MoveAbs(c: Config, reading: real, axis: string, target: real, writeOk: bool): (r: Result<Move>)
    ensures r.Err? <==> reading < 0.0
    ensures r.Err? ==> r.error == AttributeError
    ensures r.Ok? ==> (r.value.written.Some? <==> r.value.returned.Some?)
  {
    match GetPos(reading, None)
    case None => Err(AttributeError)
    case Some(_) =>
      var t := Round4(target);
      if axis == AxisLabel && c.posMin <= t <= c.posMax then Ok(Move(Some(t), Some(writeOk)))
      else Ok(Move(None, None))
  }

  /** An absolute move writes only positions in range, and writes exactly
      the rounded target whenever it is in range on axis 'Z'. */
  lemma MoveAbsSafe(c: Config, reading: real, axis: string, target: real, writeOk: bool)
    requires 0.0 <= reading
    ensures var r := MoveAbs(c, reading, axis, target, writeOk).value;
      && (r.written.Some? ==> c.posMin <= r.written.value <= c.posMax)
      && (r.written.Some? <==> axis == AxisLabel && c.posMin <= Round4(target) <= c.posMax)
      && (r.written.Some? ==> r.written.value == Round4(target) && r.returned == Some(writeOk))
  {
  }
}

=== FILE: numeric.dfy ===
/** Numeric helpers that make Python's integer conversions explicit. */
module Numeric {

  /** Python's `int(x)` on a float: truncation toward zero (not the floor). */
  function Trunc(x: real): (r: int)
    ensures 0.0 <= x ==> 0 <= r && r as real <= x < r as real + 1.0
    ensures x < 0.0 ==> r <= 0 && r as real - 1.0 < x <= r as real
  {
    if 0.0 <= x then x.Floor else -((-x).Floor)
  }

  /** Rounding to the nearest integer with ties to the even one, as numpy's
      `round` does. */
  function RoundHalfEven(x: real): (r: int)
    ensures r as real - 0.5 <= x <= r as real + 0.5
  {
    var f := x.Floor;
    var d := x - f as real;
    if d < 0.5 then f
    else if d > 0.5 then f + 1
    else if f % 2 == 0 then f else f + 1
  }

  /** Rounding never reverses an order. */
  lemma RoundHalfEvenMonotone(x: real, y: real)
    requires x <= y
    ensures RoundHalfEven(x) <= RoundHalfEven(y)
  {
    if x.Floor == y.Floor {
      var f := x.Floor;
      assert x - f as real <= y - f as real;
    }
  }

  /** An integer rounds to itself. */
  lemma RoundHalfEvenOfInt(n: int)
    ensures RoundHalfEven(n as real) == n
  {
    assert (n as real).Floor == n;
  }

  /** Python's `a // b` and `a % b`: the quotient rounded toward minus
      infinity and the remainder with the sign of the divisor. */
  function FloorDivMod(a: int, b: int): (r: (int, int))
    requires b != 0
    ensures a == r.0 * b + r.1
    ensures 0 < b ==> 0 <= r.1 < b
    ensures b < 0 ==> b < r.1 <= 0
  {
    if 0 < b then (a / b, a % b) else ((-a) / (-b), -((-a) % (-b)))
  }

  /** Python's `abs` on a float. */
  function Abs(x: real): (r: real)
    ensures 0.0 <= r
    ensures r == x || r == -x
  {
    if x < 0.0 then -x else x
  }

  /** Python's built-in `max` on two floats. */
  function Max(a: real, b: real): (r: real)
    ensures a <= r && b <= r
    ensures r == a || r == b
  {
    if a < b then b else a
  }

  /** Python's built-in `min` on two integers. */
  function MinInt(a: int, b: int): (r: int)
    ensures r <= a && r <= b
    ensures r == a || r == b
  {
    if a < b then a else b
  }

  /** Python's `abs` on an integer. */
  function AbsInt(x: int): (r: nat)
    ensures r == x || r == -x
  {
    if x < 0 then -x else x
  }

  /** Index width * h + x of a row-major layout is row h, column x. */
  lemma DivModOfRow(width: nat, h: nat, x: nat)
    requires x < width
    ensures (width * h + x) / width == h && (width * h + x) % width == x
  {
    var k := width * h + x;
    var q := k / width;
    var r := k % width;
    assert q * width + r == h * width + x;
    assert (q - h) * width == x - r;
    if q > h {
      MulAtLeast(q - h, width);
    } else if q < h {
      MulAtLeast(h - q, width);
    }
  }

  lemma MulAtLeast(a: int, b: nat)
    requires 1 <= a
    ensures b <= a * b
  {
  }

  /** Row c, column i of a row-major layout with rows of w lies before row h. */
  lemma RowBefore(c: nat, h: nat, w: nat, i: nat)
    requires c < h && i < w
    ensures c * w + i < h * w
  {
    assert c * w + w <= h * w by {
      MulAtLeast(h - c, w);
      assert (h - c) * w == h * w - c * w;
    }
  }

  lemma MulMono(a: int, b: int, w: nat)
    requires b <= a
    ensures b * w <= a * w
  {
    assert a * w - b * w == (a - b) * w;
  }

  /** Multiplying by the same non-negative factor keeps a strict order only
      if the factors were ordered. */
  lemma MulCancelLess(a: int, b: int, w: nat)
    ensures a * w < b * w ==> a < b
  {
    if b <= a {
      MulMono(a, b, w);
    }
  }

  /** Quotient and remainder of an index k below n rows of w. */
  lemma DivModBounds(k: nat, n: nat, w: nat)
    requires k < n * w
    ensures w > 0 && k == (k / w) * w + k % w && k / w < n
  {
    assert w != 0;
    MulCancelLess(k / w, n, w);
  }

  lemma MulSucc(a: int, b: int)
    ensures (a + 1) * b == a * b + b
  {
  }
}

=== FILE: odor.dfy ===
/** The permission rule of the odor circuit: the second mass flow
    controller may run only when the valve pairs of the odors are
    consistent and at most one odor path, or else the mixing valve, is
    open. Valve states are the strings '0' (closed) and '1' (open) of the
    status dictionary. */
module OdorCircuit {
  import opened Wrappers
  import opened Assoc

  /** An odor with the valves at the inlet and outlet of its vial. */
  datatype OdorPair = OdorPair(odor: string, inValve: string, outValve: string)

  /** The valve status dictionary. */
  type Status = seq<(string, string)>

  /** `valves_status[key]`. */
  function Lookup(status: Status, key: string): (r: Result<string>)
    ensures r.Err? <==> Get(status, key).None?
    ensures r.Err? ==> r.error == KeyError
    ensures r.Ok? ==> r.value == Get(status, key).value
  {
    match Get(status, key)
    case None => Err(KeyError)
    case Some(s) => Ok(s)
  }

  /** Both valves of the pair are open. */
  predicate IsOpen(status: Status, p: OdorPair) {
    Get(status, p.inValve) == Some("1") && Get(status, p.outValve) == Some("1")
  }

  /** One valve of the pair is open and the other closed. */
  predicate Mismatch(status: Status, p: OdorPair) {
    var i := Get(status, p.inValve);
    var o := Get(status, p.outValve);
    (i == Some("1") && o == Some("0")) || (o == Some("1") && i == Some("0"))
  }

  /** Every valve of the pairs is in the status dictionary. */
  predicate Present(status: Status, pairs: seq<OdorPair>) {
    forall j :: 0 <= j < |pairs| ==> pairs[j].inValve in Keys(status) && pairs[j].outValve in Keys(status)
  }

  /** The odors whose two valves are open, in order. */
  function OpenOdors(pairs: seq<OdorPair>, status: Status): (r: seq<string>)
    ensures |r| <= |pairs|
    decreases |pairs|
  {
    if |pairs| == 0 then []
    else (if IsOpen(status, pairs[0]) then [pairs[0].odor] else []) + OpenOdors(pairs[1..], status)
  }

  /** Outcome of the loop over the pairs: refused at a mismatched pair, or
      the odors found open. */
  datatype Scan = Refused | Counted(open: seq<string>)

  /** The loop of `check_valves`: both valves of a pair are read (KeyError
      if one is missing); a mismatched pair returns at once, an open pair is
      counted, any other pair is passed over. */
  function ScanPairs(pairs: seq<OdorPair>, status: Status): (r: Result<Scan>)
    ensures r.Err? ==> r.error == KeyError
    decreases |pairs|
  {
    if |pairs| == 0 then Ok(Counted([]))
    else
      var p := pairs[0];
      var i :- Lookup(status, p.inValve);
      var o :- Lookup(status, p.outValve);
      if i == "1" && o == "1" then
        var rest :- ScanPairs(pairs[1..], status);
        Ok(if rest.Refused? then Refused else Counted([p.odor] + rest.open))
      else if (i == "1" && o == "0") || (o == "1" && i == "0") then Ok(Refused)
      else ScanPairs(pairs[1..], status)
  }

  /** With every valve present the loop raises nothing; it refuses exactly
      when some pair is mismatched, and otherwise counts the open odors. */
  lemma {:induction false} ScanPairsMeaning(pairs: seq<OdorPair>, status: Status)
    requires Present(status, pairs)
    ensures ScanPairs(pairs, status).Ok?
    ensures ScanPairs(pairs, status).value.Refused? <==> exists j :: 0 <= j < |pairs| && Mismatch(status, pairs[j])
    ensures ScanPairs(pairs, status).value.Counted? ==> ScanPairs(pairs, status).value.open == OpenOdors(pairs, status)
    decreases |pairs|
  {
    if |pairs| != 0 {
      var p := pairs[0];
      GetSome(status, p.inValve);
      GetSome(status, p.outValve);
      assert Present(status, pairs[1..]) by {
        forall j | 0 <= j < |pairs[1..]|
          ensures pairs[1..][j].inValve in Keys(status) && pairs[1..][j].outValve in Keys(status)
        {
          assert pairs[1..][j] == pairs[j + 1];
        }
      }
      ScanPairsMeaning(pairs[1..], status);
      assert (exists j :: 0 <= j < |pairs| && Mismatch(status, pairs[j]))
         <==> Mismatch(status, p) || exists j :: 0 <= j < |pairs[1..]| && Mismatch(status, pairs[1..][j])
      by {
        if exists j :: 0 <= j < |pairs| && Mismatch(status, pairs[j]) {
          var j :| 0 <= j < |pairs| && Mismatch(status, pairs[j]);
          if j != 0 {
            assert pairs[1..][j - 1] == pairs[j];
          }
        }
        if exists j :: 0 <= j < |pairs[1..]| && Mismatch(status, pairs[1..][j]) {
          var j :| 0 <= j < |pairs[1..]| && Mismatch(status, pairs[1..][j]);
          assert pairs[j + 1] == pairs[1..][j];
        }
      }
    }
  }

  /** The key of the mixing valve. */
  const MixingValve := "mixing_valve"

  /** `check_valves`: 1 permits the mass flow controller, 0 refuses it.
      A mismatched pair or more than one open pair refuses; one open pair
      permits; with no open pair the mixing valve decides. A mixing valve
      in neither state falls through every branch and gives None. */
  function CheckValves(pairs: seq<OdorPair>, status: Status): (r: Result<Option<int>>)
    ensures r.Err? ==> r.error == KeyError
    ensures r.Ok? && r.value.Some? ==> r.value.value == 0 || r.value.value == 1
  {
    var scan :- ScanPairs(pairs, status);
    if scan.Refused? || |scan.open| > 1 then Ok(Some(0))
    else
      var mixing :- Lookup(status, MixingValve);
      if |scan.open| == 1 && mixing == "1" then Ok(Some(1))
      else if |scan.open| == 1 && mixing == "0" then Ok(Some(1))
      else if |scan.open| == 0 && mixing == "1" then Ok(Some(1))
      else if |scan.open| == 0 && mixing == "0" then Ok(Some(0))
      else Ok(None)
  }

  /** The permission in terms of the valve states alone: refused for a
      mismatched pair or several open pairs, granted for one open pair
      whatever the mixing valve's state ('0' or '1'), and with no open pair
      granted exactly when the mixing valve is open. */
  lemma CheckValvesPermission(pairs: seq<OdorPair>, status: Status)
    requires Present(status, pairs) && Get(status, MixingValve).Some?
    ensures var mixing := Get(status, MixingValve).value;
      var open := |OpenOdors(pairs, status)|;
      CheckValves(pairs, status) == Ok(
        if (exists j :: 0 <= j < |pairs| && Mismatch(status, pairs[j])) || open > 1 then Some(0)
        else if mixing != "0" && mixing != "1" then None
        else if open == 1 then Some(1)
        else if mixing == "1" then Some(1)
        else Some(0))
  {
    ScanPairsMeaning(pairs, status);
    GetSome(status, MixingValve);
  }

  /** The odor pairs of the circuit, in the dictionary's order. */
  function OdorPairs(): seq<OdorPair> {
    [ OdorPair("odor_1", "valve_odor_1_in", "valve_odor_1_out"),
      OdorPair("odor_2", "valve_odor_2_in", "valve_odor_2_out"),
      OdorPair("odor_3", "valve_odor_3_in", "valve_odor_3_out"),
      OdorPair("odor_4", "valve_odor_4_in", "valve_odor_4_out") ]
  }

  /** The valves `clear` closes, in its order. */
  function OdorValves(): seq<string> {
    [ "valve_odor_1_in", "valve_odor_1_out", "valve_odor_2_in", "valve_odor_2_out",
      "valve_odor_3_in", "valve_odor_3_out", "valve_odor_4_in", "valve_odor_4_out" ]
  }

  /** The assignments of `clear`. */
  function Closing(valves: seq<string>): (r: seq<(string, string)>)
    ensures Keys(r) == valves
    ensures forall j {:trigger r[j]} :: 0 <= j < |valves| ==> r[j] == (valves[j], "0")
  {
    seq(|valves|, j requires 0 <= j < |valves| => (valves[j], "0"))
  }

  /** `clear`: every odor valve is closed; every other entry (the mixing
      and final valves) is unchanged. */
  function Clear(status: Status): (r: Status)
    ensures forall k :: Get(r, k) == if k in OdorValves() then Some("0") else Get(status, k)
  {
    var es := Closing(OdorValves());
    forall k
      ensures Get(SetAll(status, es), k) == if k in OdorValves() then Some("0") else Get(status, k)
    {
      GetSetAll(status, es, k);
      if k in OdorValves() {
        var j := GetLastEntry(es, k);
      }
    }
    SetAll(status, es)
  }

  /** After `clear` no odor path is open, so the mixing valve alone decides
      the permission. */
  lemma CheckValvesAfterClear(status: Status)
    requires Get(status, MixingValve).Some?
    ensures var mixing := Get(status, MixingValve).value;
      CheckValves(OdorPairs(), Clear(status))
        == Ok(if mixing == "1" then Some(1) else if mixing == "0" then Some(0) else None)
  {
    var c := Clear(status);
    var pairs := OdorPairs();
    assert Get(c, MixingValve) == Get(status, MixingValve) by {
      assert MixingValve !in OdorValves();
    }
    assert Present(c, pairs) && forall j :: 0 <= j < |pairs| ==>
      Get(c, pairs[j].inValve) == Some("0") && Get(c, pairs[j].outValve) == Some("0") by {
      ClearedPairs(status);
    }
    CheckValvesAllClosed(pairs, c);
  }

  /** With both valves of every odor closed the mixing valve alone
      decides. */
  lemma CheckValvesAllClosed(pairs: seq<OdorPair>, status: Status)
    requires Present(status, pairs) && Get(status, MixingValve).Some?
    requires forall j :: 0 <= j < |pairs| ==>
      Get(status, pairs[j].inValve) == Some("0") && Get(status, pairs[j].outValve) == Some("0")
    ensures var mixing := Get(status, MixingValve).value;
      CheckValves(pairs, status) == Ok(if mixing == "1" then Some(1) else if mixing == "0" then Some(0) else None)
  {
    NoneOpen(pairs, status);
    assert !exists j :: 0 <= j < |pairs| && Mismatch(status, pairs[j]);
    CheckValvesPermission(pairs, status);
  }

  /** After `clear` every valve of every pair is present and closed. */
  lemma ClearedPairs(status: Status)
    ensures var c := Clear(status);
      forall j :: 0 <= j < |OdorPairs()| ==>
        && Get(c, OdorPairs()[j].inValve) == Some("0") && Get(c, OdorPairs()[j].outValve) == Some("0")
        && OdorPairs()[j].inValve in Keys(c) && OdorPairs()[j].outValve in Keys(c)
  {
    var c := Clear(status);
    var pairs := OdorPairs();
    forall j | 0 <= j < |pairs|
      ensures Get(c, pairs[j].inValve) == Some("0") && Get(c, pairs[j].outValve) == Some("0")
      ensures pairs[j].inValve in Keys(c) && pairs[j].outValve in Keys(c)
    {
      assert pairs[j].inValve == OdorValves()[2 * j] && pairs[j].outValve == OdorValves()[2 * j + 1];
      GetSome(c, pairs[j].inValve);
      GetSome(c, pairs[j].outValve);
    }
  }

  /** Closed pairs are never open. */
  lemma {:induction false} NoneOpen(pairs: seq<OdorPair>, status: Status)
    requires forall j :: 0 <= j < |pairs| ==> Get(status, pairs[j].inValve) == Some("0")
    ensures OpenOdors(pairs, status) == []
    decreases |pairs|
  {
    if |pairs| != 0 {
      assert forall j :: 0 <= j < |pairs[1..]| ==> pairs[1..][j] == pairs[j + 1];
      NoneOpen(pairs[1..], status);
    }
  }
}

=== FILE: palm.dfy ===
/** Helpers of the multicolour ROI scan task: the check that every laser
    of the imaging sequence passes the filter in the beam path, and the
    step decision of the ROI loop. */
module Palm {
  import opened Wrappers
  import Assoc
  import Text
  import NiFpga

  /** The labels of the lasers a filter blocks: 'laser{i+1}' for every
      False entry of its list, in order. */
  function ForbiddenLasers(allowed: seq<bool>): (r: seq<string>)
    ensures forall i :: 0 <= i < |allowed| && !allowed[i] ==> NiFpga.LaserLabel(i) in r
    ensures forall name :: name in r ==> exists i :: 0 <= i < |allowed| && !allowed[i] && name == NiFpga.LaserLabel(i)
    decreases |allowed|
  {
    if |allowed| == 0 then []
    else
      var last := |allowed| - 1;
      var front := ForbiddenLasers(allowed[..last]);
      assert forall i :: 0 <= i < last ==> allowed[..last][i] == allowed[i];
      if allowed[last] then front else front + [NiFpga.LaserLabel(last)]
  }

  /** `control_user_parameters`: the entry 'filter{position}' of the filter
      dictionary (KeyError if there is none) lists which lasers pass; the
      sequence is allowed unless one of its lasers is blocked. */
  function LasersAllowed(filters: seq<(string, seq<bool>)>, position: nat, sequence: seq<string>): (r: Result<bool>)
    ensures r.Err? <==> Assoc.Get(filters, "filter" + Text.NatToString(position)).None?
    ensures r.Err? ==> r.error == KeyError
    ensures r.Ok? ==> var allowed := Assoc.Get(filters, "filter" + Text.NatToString(position)).value;
      (r.value <==> forall j, i :: 0 <= j < |sequence| && 0 <= i < |allowed| && !allowed[i]
                                   ==> sequence[j] != NiFpga.LaserLabel(i))
  {
    match Assoc.Get(filters, "filter" + Text.NatToString(position))
    case None => Err(KeyError)
    case Some(allowed) =>
      var forbidden := ForbiddenLasers(allowed);
      Ok(forall name :: name in forbidden ==> name !in sequence)
  }

  /** A sequence without lasers is allowed behind any configured filter. */
  lemma EmptySequenceAllowed(filters: seq<(string, seq<bool>)>, position: nat)
    requires Assoc.Get(filters, "filter" + Text.NatToString(position)).Some?
    ensures LasersAllowed(filters, position, []) == Ok(true)
  {
  }

  /** Outcome of one `runTaskStep`: the ROI counter afterwards, whether a
      ROI was acquired, and whether the task goes on. */
  datatype Step = Step(counter: nat, acquired: bool, continues: bool)

  /** `runTaskStep`: a blocked laser or an uncalibrated autofocus skips the
      step and ends the task; otherwise the ROI at the counter is acquired
      and the task goes on while ROIs remain. Reading the ROI name at a
      counter past the end of the list (an empty list, say) raises
      IndexError. */
  function RunTaskStep(lasersAllowed: bool, autofocusOk: bool, counter: nat, rois: nat): (r: Result<Step>)
    ensures r.Err? <==> lasersAllowed && autofocusOk && rois <= counter
    ensures r.Err? ==> r.error == IndexError
    ensures r.Ok? ==> (r.value.acquired <==> lasersAllowed && autofocusOk)
    ensures r.Ok? && !r.value.acquired ==> r.value == Step(counter, false, false)
    ensures r.Ok? && r.value.acquired ==> r.value.counter == counter + 1 && (r.value.continues <==> counter + 1 < rois)
  {
    if !lasersAllowed || !autofocusOk then Ok(Step(counter, false, false))
    else if rois <= counter then Err(IndexError)
    else Ok(Step(counter + 1, true, counter + 1 < rois))
  }

  /** ROIs acquired by the steps run from a counter value on, or the error
      that ends the run. */
  function AcquiredFrom(lasersAllowed: bool, autofocusOk: bool, counter: nat, rois: nat): (r: Result<nat>)
    ensures r.Err? ==> r.error == IndexError
    ensures !(lasersAllowed && autofocusOk) ==> r == Ok(0)
    decreases if rois > counter then rois - counter else 0
  {
    var s :- RunTaskStep(lasersAllowed, autofocusOk, counter, rois);
    var rest :- if s.continues then AcquiredFrom(lasersAllowed, autofocusOk, s.counter, rois) else Ok(0);
    Ok((if s.acquired then 1 else 0) + rest)
  }

  /** A task whose checks pass acquires every remaining ROI once, and fails
      with IndexError when no ROI remains (an empty list from the start);
      a task whose checks fail acquires none. */
  lemma {:induction false} AcquiredCount(lasersAllowed: bool, autofocusOk: bool, counter: nat, rois: nat)
    ensures AcquiredFrom(lasersAllowed, autofocusOk, counter, rois)
         == if !(lasersAllowed && autofocusOk) then Ok(0)
            else if counter < rois then Ok(rois - counter)
            else Err(IndexError)
    decreases if rois > counter then rois - counter else 0
  {
    if lasersAllowed && autofocusOk && counter + 1 < rois {
      AcquiredCount(lasersAllowed, autofocusOk, counter + 1, rois);
    }
  }
}

=== FILE: positioning.dfy ===
/** The probe grids of the fluidics stage and the three-phase safe stage move
    (z to the safety height, then x/y, then z) of the positioning logic. */
module Positioning {
  import opened Wrappers
  import Numeric
  import Seqs

  /** The `grid` configuration option. */
  datatype GridType = Cartesian | Polar | OtherGrid

  /** A grid point (x, y) or (r, phi), in grid steps. */
  type Coord = (int, int)

  // ---------------------------------------------------------------------
  // Cartesian grid: the even and odd column lists, stably sorted by x
  // ---------------------------------------------------------------------

  /** The points of column x: y ascending on even columns, descending on odd ones. */
  function Column(x: int, ny: nat): seq<Coord> {
    seq(ny, i requires 0 <= i < ny => (x, if x % 2 == 0 then i else ny - 1 - i))
  }

  /** `list_even` (parity 0) and `list_odd` (parity 1): the columns x < nx of
      that parity, in ascending x. */
  function ParityColumns(nx: nat, ny: nat, parity: nat): seq<Coord>
    decreases nx
  {
    if nx == 0 then []
    else ParityColumns(nx - 1, ny, parity) + (if (nx - 1) % 2 == parity then Column(nx - 1, ny) else [])
  }

  function FirstIs(x: int): Coord -> bool {
    (c: Coord) => c.0 == x
  }

  /** The entries of `s` with first component x, in their order in `s`. */
  function WithFirst(s: seq<Coord>, x: int): seq<Coord> {
    Seqs.Filter(FirstIs(x), s)
  }

  /** `sorted(s, key=sort_first)` for entries whose first component lies in
      range(nx): Python's sort is stable, so the result is the group with
      first component 0, then the group with 1, and so on, each group in its
      original order. */
  function StableSortByFirst(s: seq<Coord>, nx: nat): seq<Coord>
    decreases nx
  {
    if nx == 0 then [] else StableSortByFirst(s, nx - 1) + WithFirst(s, nx - 1)
  }

  /** `coords_list` of the cartesian branch. */
  function CartesianCoords(nx: nat, ny: nat): seq<Coord> {
    StableSortByFirst(ParityColumns(nx, ny, 0) + ParityColumns(nx, ny, 1), nx)
  }

  /** The columns 0 .. n - 1 one after the other. */
  function Columns(n: nat, ny: nat): (r: seq<Coord>)
    ensures |r| == n * ny
    decreases n
  {
    if n == 0 then [] else Columns(n - 1, ny) + Column(n - 1, ny)
  }

  /** Picking the entries with first component x out of column c. */
  lemma ColumnWithFirst(c: int, ny: nat, x: int)
    ensures WithFirst(Column(c, ny), x) == if c == x then Column(c, ny) else []
  {
    var col := Column(c, ny);
    if c == x {
      assert forall i :: 0 <= i < |col| ==> FirstIs(x)(col[i]);
      Seqs.FilterAll(FirstIs(x), col);
    } else {
      assert forall i :: 0 <= i < |col| ==> !FirstIs(x)(col[i]);
      Seqs.FilterNone(FirstIs(x), col);
    }
  }

  /** Picking column x out of one parity list gives that column when x has
      the parity and is in range, and nothing otherwise. */
  lemma {:induction false} ParityColumnsWithFirst(n: nat, ny: nat, parity: nat, x: int)
    ensures WithFirst(ParityColumns(n, ny, parity), x) ==
      if 0 <= x < n && x % 2 == parity then Column(x, ny) else []
    decreases n
  {
    if n > 0 {
      var before := ParityColumns(n - 1, ny, parity);
      var added: seq<Coord> := if (n - 1) % 2 == parity then Column(n - 1, ny) else [];
      var picked := WithFirst(before, x);
      var addedX: seq<Coord> := if x == n - 1 && x % 2 == parity then Column(x, ny) else [];
      assert WithFirst(ParityColumns(n, ny, parity), x) == picked + WithFirst(added, x) by {
        assert ParityColumns(n, ny, parity) == before + added;
        Seqs.FilterAppend(FirstIs(x), before, added);
      }
      assert WithFirst(added, x) == addedX by {
        if (n - 1) % 2 == parity {
          ColumnWithFirst(n - 1, ny, x);
        } else {
          assert added == [];
        }
      }
      var earlier := 0 <= x < n - 1 && x % 2 == parity;
      assert picked == if earlier then Column(x, ny) else [] by {
        ParityColumnsWithFirst(n - 1, ny, parity, x);
      }
      if x == n - 1 && x % 2 == parity {
        assert !earlier;
        Seqs.EmptyAppend(addedX);
      } else {
        assert addedX == [];
        Seqs.AppendEmpty(picked, addedX);
      }
    }
  }

  /** The group of x in `list_even + list_odd` is column x. */
  lemma AllColumnsWithFirst(nx: nat, ny: nat, x: nat)
    requires x < nx
    ensures WithFirst(ParityColumns(nx, ny, 0) + ParityColumns(nx, ny, 1), x) == Column(x, ny)
  {
    Seqs.FilterAppend(FirstIs(x), ParityColumns(nx, ny, 0), ParityColumns(nx, ny, 1));
    ParityColumnsWithFirst(nx, ny, 0, x);
    ParityColumnsWithFirst(nx, ny, 1, x);
    if x % 2 == 0 {
      Seqs.AppendEmpty(Column(x, ny), WithFirst(ParityColumns(nx, ny, 1), x));
    } else {
      Seqs.EmptyAppend(Column(x, ny));
    }
  }

  /** The sorted list is the columns in ascending x. */
  lemma {:induction false} SortedIsColumns(nx: nat, ny: nat, n: nat)
    requires n <= nx
    ensures StableSortByFirst(ParityColumns(nx, ny, 0) + ParityColumns(nx, ny, 1), n) == Columns(n, ny)
    decreases n
  {
    if n > 0 {
      SortedIsColumns(nx, ny, n - 1);
      AllColumnsWithFirst(nx, ny, n - 1);
    }
  }

  /** Entry i of column c is at index c * ny + i of the column-by-column list. */
  lemma {:induction false} ColumnsAt(n: nat, ny: nat, c: nat, i: nat)
    requires c < n && i < ny
    ensures c * ny + i < |Columns(n, ny)|
    ensures Columns(n, ny)[c * ny + i] == Column(c, ny)[i]
    decreases n
  {
    var h := n - 1;
    var before := Columns(h, ny);
    assert |before| == h * ny;
    assert Columns(n, ny) == before + Column(h, ny);
    if c < h {
      assert c * ny + i < h * ny by {
        Numeric.RowBefore(c, h, ny, i);
      }
      assert Columns(n, ny)[c * ny + i] == before[c * ny + i] by {
        Seqs.AppendIndex(before, Column(h, ny), c * ny + i);
      }
      ColumnsAt(h, ny, c, i);
    } else {
      Seqs.AppendIndex(before, Column(h, ny), c * ny + i);
    }
  }

  /** Entry k of the column-by-column list is in column k / ny, read upward
      on even columns and downward on odd ones. */
  lemma ColumnsPoint(n: nat, ny: nat, k: nat)
    requires k < n * ny
    ensures Columns(n, ny)[k] == (k / ny, if (k / ny) % 2 == 0 then k % ny else ny - 1 - k % ny)
  {
    var c := k / ny;
    var i := k % ny;
    assert k == c * ny + i && c < n by {
      Numeric.DivModBounds(k, n, ny);
    }
    ColumnsAt(n, ny, c, i);
  }

  // ---------------------------------------------------------------------
  // Polar grid: r varies fastest
  // ---------------------------------------------------------------------

  /** The points r = 0 .. nr - 1 at angle index phi. */
  function PolarRing(phi: int, nr: nat): seq<Coord> {
    seq(nr, r requires 0 <= r < nr => (r, phi))
  }

  /** `[(x, y) for y in range(nphi) for x in range(nr)]`. */
  function PolarCoords(nr: nat, nphi: nat): (r: seq<Coord>)
    ensures |r| == nphi * nr
    decreases nphi
  {
    if nphi == 0 then [] else PolarCoords(nr, nphi - 1) + PolarRing(nphi - 1, nr)
  }

  /** Entry k of the polar list is (k % nr, k / nr). */
  lemma {:induction false} PolarPoint(nr: nat, nphi: nat, k: nat)
    requires k < nphi * nr
    ensures PolarCoords(nr, nphi)[k] == (k % nr, k / nr)
    decreases nphi
  {
    var before := (nphi - 1) * nr;
    assert nphi * nr == before + nr;
    Seqs.AppendIndex(PolarCoords(nr, nphi - 1), PolarRing(nphi - 1, nr), k);
    if k < before {
      PolarPoint(nr, nphi - 1, k);
    } else {
      assert before == nr * (nphi - 1);
      Numeric.DivModOfRow(nr, nphi - 1, k - before);
    }
  }

  // ---------------------------------------------------------------------
  // map_probe_number_to_grid_coordinates
  // ---------------------------------------------------------------------

  const CartesianSide := 10
  const PolarRadii := 3
  const PolarAngles := 36

  /** Entry p of `s`, counting from 1. */
  function Numbered(s: seq<Coord>, p: int): Coord
    requires 1 <= p <= |s|
  {
    s[p - 1]
  }

  /** `{key + 1: s[key] for key in range(len(s))}`. */
  function NumberedMap(s: seq<Coord>): (m: map<int, Coord>)
    ensures forall p :: p in m <==> 1 <= p <= |s|
  {
    map p | 1 <= p <= |s| :: Numbered(s, p)
  }

  /** The probe map of a grid of the given shape: a by b columns for the
      cartesian grid, a radii by b angles for the polar one. */
  function GridOfShape(grid: GridType, a: nat, b: nat): map<int, Coord> {
    match grid
    case Cartesian => NumberedMap(CartesianCoords(a, b))
    case Polar => NumberedMap(PolarCoords(a, b))
    case OtherGrid => map[]
  }

  /** `map_probe_number_to_grid_coordinates`: probe number (from 1) to grid
      point, 10 x 10 cartesian or 3 radii x 36 angles polar; an unknown grid
      type gives no probes. */
  function ProbeGrid(grid: GridType): map<int, Coord> {
    match grid
    case Cartesian => GridOfShape(grid, CartesianSide, CartesianSide)
    case Polar => GridOfShape(grid, PolarRadii, PolarAngles)
    case OtherGrid => map[]
  }

  /** A cartesian grid of nx columns of ny holds probes 1 .. nx * ny; probe p
      sits in column (p - 1) / ny, with y ascending in even columns and
      descending in odd ones. */
  lemma CartesianGridEntry(nx: nat, ny: nat, p: int)
    ensures p in GridOfShape(Cartesian, nx, ny) <==> 1 <= p <= nx * ny
    ensures 1 <= p <= nx * ny ==>
      GridOfShape(Cartesian, nx, ny)[p] ==
        ((p - 1) / ny, if ((p - 1) / ny) % 2 == 0 then (p - 1) % ny else ny - 1 - (p - 1) % ny)
  {
    SortedIsColumns(nx, ny, nx);
    if 1 <= p <= nx * ny {
      ColumnsPoint(nx, ny, p - 1);
    }
  }

  /** A polar grid of nr radii and nphi angles holds probes 1 .. nr * nphi;
      probe p is ((p - 1) % nr, (p - 1) / nr), the radius varying fastest. */
  lemma PolarGridEntry(nr: nat, nphi: nat, p: int)
    ensures p in GridOfShape(Polar, nr, nphi) <==> 1 <= p <= nphi * nr
    ensures 1 <= p <= nphi * nr ==> GridOfShape(Polar, nr, nphi)[p] == ((p - 1) % nr, (p - 1) / nr)
  {
    if 1 <= p <= nphi * nr {
      PolarPoint(nr, nphi, p - 1);
    }
  }

  // ---------------------------------------------------------------------
  // Metric probe positions (map_xy_position_to_probe_number)
  // ---------------------------------------------------------------------

  /** Probe spacing: `delta_x`, `delta_y` for the cartesian grid and
      `delta_r`, `delta_phi` for the polar grid. */
  datatype Spacing = Spacing(dx: real, dy: real, dr: real, dphi: real)

  datatype Origin = Origin(x: real, y: real, z: real)

  /** The in-plane stage position of grid point c; the cartesian grid is
      sheared by -0.11 in x per y step and -0.055 in y per x step. */
  function ProbeXY(grid: GridType, c: Coord, o: Origin, s: Spacing): (real, real) {
    match grid
    case Polar => (c.0 as real * s.dr + o.x, c.1 as real * s.dphi + o.y)
    case _ =>
      (c.0 as real * s.dx + o.x + c.1 as real * -0.11,
       c.1 as real * s.dy + o.y + c.0 as real * -0.055)
  }

  /** Probe number to in-plane position, for every probe of the grid. */
  function ProbePositions(grid: GridType, probes: map<int, Coord>, o: Origin, s: Spacing): (m: map<int, (real, real)>)
    ensures forall p :: p in m <==> p in probes && !grid.OtherGrid?
    ensures forall p :: p in m ==> m[p] == ProbeXY(grid, probes[p], o, s)
  {
    if grid.OtherGrid? then map[] else map p | p in probes :: ProbeXY(grid, probes[p], o, s)
  }

  lemma OriginOfGrid(grid: GridType, o: Origin, s: Spacing)
    ensures ProbeXY(grid, (0, 0), o, s) == (o.x, o.y)
  {
    var r := ProbeXY(grid, (0, 0), o, s);
    assert r.0 == o.x;
    assert r.1 == o.y;
  }

  /** The origin is the position of probe 1, on both grids of any
      non-empty shape. */
  lemma FirstProbeAtOrigin(grid: GridType, a: nat, b: nat, o: Origin, s: Spacing)
    requires !grid.OtherGrid? && a > 0 && b > 0
    ensures 1 in ProbePositions(grid, GridOfShape(grid, a, b), o, s)
    ensures ProbePositions(grid, GridOfShape(grid, a, b), o, s)[1] == (o.x, o.y)
  {
    var probes := GridOfShape(grid, a, b);
    assert 1 in probes && probes[1] == (0, 0) by {
      if grid.Cartesian? {
        CartesianGridEntry(a, b, 1);
      } else {
        PolarGridEntry(a, b, 1);
      }
    }
    OriginOfGrid(grid, o, s);
  }

  // ---------------------------------------------------------------------
  // The stage move state machine
  // ---------------------------------------------------------------------

  /** A command sent to the three-axis stage. */
  datatype StageCommand = MoveZ(z: real) | MoveXY(x: real, y: real) | AbortStage

  /** The signals that report a finished move. */
  datatype MoveSignal = StageMoved | StageMovedToTarget(target: int)

  /** Which monitoring loop the pending worker will call next. */
  datatype Phase = Idle | WaitXY(x: real, y: real, z: real) | WaitZ(z: real)

  /** A reading of the stage position (`get_position`). */
  datatype StagePos = StagePos(x: real, y: real, z: real)

  datatype Positioner = Positioner(
    grid: GridType,
    probes: map<int, Coord>,
    spacing: Spacing,
    zSafety: real,
    origin: Option<Origin>,
    positions: map<int, (real, real)>,
    moving: bool,
    moveStage: bool,
    goToTarget: bool,
    targetPosition: int,
    phase: Phase,
    commands: seq<StageCommand>,
    signals: seq<MoveSignal>)

  /** The state after activation: the probe grid is computed, there is no
      origin and no move in progress. */
  function Activate(grid: GridType, spacing: Spacing, zSafety: real): Positioner {
    Positioner(grid, ProbeGrid(grid), spacing, zSafety, None, map[], false, false, false, 0, Idle, [], [])
  }

  /** `set_origin`: records the origin and computes the probe positions. */
  function SetOrigin(st: Positioner, o: Origin): (r: Positioner)
    ensures r.origin == Some(o)
    ensures forall p :: p in r.positions <==> p in st.probes && !st.grid.OtherGrid?
    ensures r.moving == st.moving && r.commands == st.commands
  {
    st.(origin := Some(o), positions := ProbePositions(st.grid, st.probes, o, st.spacing))
  }

  /** `start_move_stage`: a position of the wrong length sends nothing.
      Otherwise z goes to the safety height, then the x/y move starts; a z
      target beyond the safety height is replaced by the safety height. */
  function StartMoveStage(st: Positioner, position: seq<real>): (r: Positioner)
    ensures |position| != 3 ==> r == st
    ensures |position| == 3 ==>
      && r.moving && r.moveStage
      && r.commands == st.commands + [MoveZ(st.zSafety), MoveXY(position[0], position[1])]
      && r.phase.WaitXY? && r.phase.x == position[0] && r.phase.y == position[1]
      && r.phase.z <= st.zSafety
      && (position[2] <= st.zSafety ==> r.phase.z == position[2])
  {
    if |position| != 3 then st
    else
      var z := if position[2] > st.zSafety then st.zSafety else position[2];
      st.(moveStage := true, moving := true,
          commands := st.commands + [MoveZ(st.zSafety), MoveXY(position[0], position[1])],
          phase := WaitXY(position[0], position[1], z))
  }

  /** `start_move_to_target`: without an origin nothing happens.  Otherwise
      the flags are set first; an unknown probe number then raises KeyError
      with the flags left set and nothing sent.  The z target is the
      origin's z, not clamped. */
  function StartMoveToTarget(st: Positioner, target: int): (r: Partial<Positioner>)
    ensures st.origin.None? ==> r == Partial(st, None)
    ensures st.origin.Some? ==>
      && r.done.moving && r.done.goToTarget && r.done.targetPosition == target
      && r.done.origin == st.origin && r.done.positions == st.positions
    ensures st.origin.Some? && target !in st.positions ==>
      && r.raised == Some(KeyError)
      && r.done.commands == st.commands && r.done.phase == st.phase
    ensures st.origin.Some? && target in st.positions ==>
      && r.raised.None?
      && r.done.commands == st.commands + [MoveZ(st.zSafety), MoveXY(st.positions[target].0, st.positions[target].1)]
      && r.done.phase == WaitXY(st.positions[target].0, st.positions[target].1, st.origin.value.z)
  {
    if st.origin.None? then Partial(st, None)
    else
      var flagged := st.(goToTarget := true, targetPosition := target, moving := true);
      if target !in st.positions then Partial(flagged, Some(KeyError))
      else
        var xy := st.positions[target];
        Partial(flagged.(commands := st.commands + [MoveZ(st.zSafety), MoveXY(xy.0, xy.1)],
                         phase := WaitXY(xy.0, xy.1, st.origin.value.z)), None)
  }

  /** The x/y tolerance of `move_xy_stage_loop`. */
  const XYTolerance: real := 0.005
  /** The z tolerance of `move_z_stage_loop`. */
  const ZTolerance: real := 0.002

  predicate XYReached(pos: StagePos, x: real, y: real) {
    !(Numeric.Abs(pos.x - x) > XYTolerance || Numeric.Abs(pos.y - y) > XYTolerance)
  }

  /** `move_xy_stage_loop`: after an abort the loop stops; while x or y is
      off by more than the tolerance it polls again; otherwise the z move
      starts (`start_move_z_stage`). */
  function XYStep(st: Positioner, pos: StagePos): (r: Positioner)
    requires st.phase.WaitXY?
    ensures !st.moving ==> r.commands == st.commands && r.phase.Idle?
    ensures st.moving && !XYReached(pos, st.phase.x, st.phase.y) ==> r == st
    ensures st.moving && XYReached(pos, st.phase.x, st.phase.y) ==>
      r.commands == st.commands + [MoveZ(st.phase.z)] && r.phase == WaitZ(st.phase.z)
    ensures r.moving == st.moving && r.signals == st.signals
  {
    if !st.moving then st.(phase := Idle)
    else if !XYReached(pos, st.phase.x, st.phase.y) then st
    else st.(commands := st.commands + [MoveZ(st.phase.z)], phase := WaitZ(st.phase.z))
  }

  /** The z test as the move loop writes it, `abs(z_pos - target > 0.002)`:
      `abs` is applied to the comparison, so it is 1 exactly when the stage
      is more than the tolerance ABOVE the target. */
  function ZNotReachedAsWritten(z: real, target: real): bool {
    var cmp: int := if z - target > ZTolerance then 1 else 0;
    Numeric.AbsInt(cmp) != 0
  }

  /** The intended test, `abs(z_pos - target) > 0.002`. */
  function ZNotReached(z: real, target: real): bool {
    Numeric.Abs(z - target) > ZTolerance
  }

  /** The as-written test only looks at one side of the target. */
  lemma ZTestAsWrittenOneSided(z: real, target: real)
    ensures ZNotReachedAsWritten(z, target) <==> z > target + ZTolerance
    ensures ZNotReached(z, target) <==> (z > target + ZTolerance || z < target - ZTolerance)
  {
  }

  /** A stage 1 unit below its z target counts as arrived for the
      as-written test but not for the intended one. */
  lemma ZBelowTargetCountsAsReached()
    ensures !ZNotReachedAsWritten(0.0, 1.0)
    ensures ZNotReached(0.0, 1.0)
  {
  }

  /** `move_z_stage_loop` with the given "not reached" verdict: after an
      abort the loop stops; while not reached it polls again; otherwise the
      move ends and the signal of the method that started it is sent. */
  function ZStepWith(st: Positioner, notReached: bool): (r: Positioner)
    requires st.phase.WaitZ?
    ensures r.commands == st.commands
    ensures !st.moving || notReached ==> r.signals == st.signals && r.moving == st.moving
    ensures st.moving && !notReached ==>
      && !r.moving && r.phase.Idle? && !r.moveStage
      && (st.moveStage ==> r.signals == st.signals + [StageMoved] && r.goToTarget == st.goToTarget)
      && (!st.moveStage && st.goToTarget ==>
            r.signals == st.signals + [StageMovedToTarget(st.targetPosition)] && !r.goToTarget)
      && (!st.moveStage && !st.goToTarget ==> r.signals == st.signals)
  {
    if !st.moving then st.(phase := Idle)
    else if notReached then st
    else
      var done := st.(moving := false, phase := Idle);
      if st.moveStage then done.(signals := st.signals + [StageMoved], moveStage := false)
      else if st.goToTarget then
        done.(signals := st.signals + [StageMovedToTarget(st.targetPosition)], goToTarget := false)
      else done
  }

  /** The z loop as written: a running move ends exactly when the stage is
      not above the tolerance band of its z target, however far below it
      is. */
  function ZStepAsWritten(st: Positioner, pos: StagePos): (r: Positioner)
    requires st.phase.WaitZ?
    ensures st.moving ==> (!r.moving <==> pos.z <= st.phase.z + ZTolerance)
  {
    ZTestAsWrittenOneSided(pos.z, st.phase.z);
    ZStepWith(st, ZNotReachedAsWritten(pos.z, st.phase.z))
  }

  /** The z loop with the intended two-sided test: the move only ends
      within the tolerance of the z target. */
  function ZStep(st: Positioner, pos: StagePos): (r: Positioner)
    requires st.phase.WaitZ?
    ensures st.moving ==> (!r.moving <==> Numeric.Abs(pos.z - st.phase.z) <= ZTolerance)
  {
    ZStepWith(st, ZNotReached(pos.z, st.phase.z))
  }

  /** The as-written loop ends a move with the stage still far below its
      target; the intended one keeps polling. */
  lemma ZStepAsWrittenStopsEarly(st: Positioner)
    requires st.phase == WaitZ(1.0) && st.moving
    ensures !ZStepAsWritten(st, StagePos(0.0, 0.0, 0.0)).moving
    ensures ZStep(st, StagePos(0.0, 0.0, 0.0)).moving
  {
    ZBelowTargetCountsAsReached();
  }

  /** One call of the pending monitoring loop with a fresh position reading. */
  function Poll(st: Positioner, pos: StagePos): Positioner {
    match st.phase
    case Idle => st
    case WaitXY(_, _, _) => XYStep(st, pos)
    case WaitZ(_) => ZStep(st, pos)
  }

  /** The loops driven by a sequence of readings. */
  function Run(st: Positioner, readings: seq<StagePos>): Positioner
    decreases |readings|
  {
    if |readings| == 0 then st else Poll(Run(st, readings[..|readings| - 1]), readings[|readings| - 1])
  }

  /** `abort_movement`: stops the stage and clears every flag. */
  function AbortMovement(st: Positioner): (r: Positioner)
    ensures !r.moving && !r.moveStage && !r.goToTarget
    ensures r.commands == st.commands + [AbortStage]
    ensures r.signals == st.signals && r.phase == st.phase
  {
    st.(moving := false, commands := st.commands + [AbortStage], moveStage := false, goToTarget := false)
  }

  /** Once stopped, the loops send no command and no signal, whatever the
      stage reports. */
  lemma {:induction false} StoppedStaysQuiet(st: Positioner, readings: seq<StagePos>)
    requires !st.moving
    ensures Run(st, readings).commands == st.commands
    ensures Run(st, readings).signals == st.signals
    ensures !Run(st, readings).moving
    decreases |readings|
  {
    if |readings| > 0 {
      StoppedStaysQuiet(st, readings[..|readings| - 1]);
    }
  }

  /** The command log during a move: the z-to-safety and x/y commands, then
      at most the final z move, which is only sent once a reading was
      within the x/y tolerance. */
  predicate MoveLog(st: Positioner, base: seq<StageCommand>, x: real, y: real, z: real, readings: seq<StagePos>) {
    || (st.commands == base && (st.phase == WaitXY(x, y, z) || st.phase.Idle?))
    || (&& st.commands == base + [MoveZ(z)]
        && (st.phase == WaitZ(z) || st.phase.Idle?)
        && exists i :: 0 <= i < |readings| && XYReached(readings[i], x, y))
  }

  lemma {:induction false} RunKeepsMoveLog(st: Positioner, base: seq<StageCommand>, x: real, y: real, z: real,
                                           readings: seq<StagePos>)
    requires st.commands == base && st.phase == WaitXY(x, y, z)
    ensures MoveLog(Run(st, readings), base, x, y, z, readings)
    decreases |readings|
  {
    if |readings| > 0 {
      var prefix := readings[..|readings| - 1];
      var last := readings[|readings| - 1];
      RunKeepsMoveLog(st, base, x, y, z, prefix);
      var before := Run(st, prefix);
      if before.commands == base + [MoveZ(z)] {
        var i :| 0 <= i < |prefix| && XYReached(prefix[i], x, y);
        assert readings[i] == prefix[i];
      } else if before.phase == WaitXY(x, y, z) && before.moving && XYReached(last, x, y) {
        assert readings[|readings| - 1] == last;
      }
    }
  }

  /** The move order of `start_move_stage`: z to the safety height first,
      then x/y, and the final z move (never beyond the safety height) only
      after a reading shows x/y within 0.005 of the target. */
  lemma MoveStageOrder(st: Positioner, position: seq<real>, readings: seq<StagePos>)
    requires |position| == 3
    ensures var z := StartMoveStage(st, position).phase.z;
      && z <= st.zSafety
      && MoveLog(Run(StartMoveStage(st, position), readings),
                 st.commands + [MoveZ(st.zSafety), MoveXY(position[0], position[1])],
                 position[0], position[1], z, readings)
  {
    var s1 := StartMoveStage(st, position);
    RunKeepsMoveLog(s1, s1.commands, position[0], position[1], s1.phase.z, readings);
  }

  /** After `abort_movement`, however the stage moves, nothing else is sent. */
  lemma AbortIsFinal(st: Positioner, readings: seq<StagePos>)
    ensures Run(AbortMovement(st), readings).commands == st.commands + [AbortStage]
    ensures Run(AbortMovement(st), readings).signals == st.signals
  {
    StoppedStaysQuiet(AbortMovement(st), readings);
  }
}

=== FILE: roi.dfy ===
/** Regions of interest (ROIs): the `RegionOfInterest` record, the ordered
    `RegionOfInterestList` with its generic `ROI_nnn` naming, and the
    `RoiLogic` operations on the active ROI and on serpentine mosaics.

    A Python dict keeps insertion order; the ROI dictionary of a list is
    therefore modelled as a sequence of ROIs with pairwise distinct names,
    in insertion order.  The list origin is always (0, 0, 0), so positions
    are stored and returned unchanged. */
module Roi {
  import opened Wrappers
  import opened Text
  import Numeric
  import Seqs

  datatype Vec3 = Vec3(x: real, y: real, z: real)

  /** An argument that Python code checks with `isinstance(name, str)`:
      a string, `None`, or an object of some other type. */
  datatype NameArg = Str(s: string) | NoneArg | OtherType

  datatype RegionOfInterest = RegionOfInterest(name: string, position: Vec3)

  /** `RegionOfInterestList`; the creation time and camera image are not modelled. */
  datatype RoiList = RoiList(name: string, rois: seq<RegionOfInterest>)

  /** The dictionary form of a ROI: `{'name': ..., 'position': (...)}`. */
  datatype RoiDict = RoiDict(name: string, position: seq<real>)

  /** The dictionary form of a ROI list; `name == ""` stands for a missing or
      empty 'name' entry, `rois == None` for a missing 'rois' entry. */
  datatype RoiListDict = RoiListDict(name: string, rois: Option<seq<RoiDict>>)

  const RoiPrefix := "ROI_"

  /** The characters removed by `last.strip('ROI_')`. */
  const StripChars: set<char> := {'R', 'O', 'I', '_'}

  // ------------------------------------------------------------------
  // Names and lookup
  // ------------------------------------------------------------------

  function Names(rois: seq<RegionOfInterest>): (ns: seq<string>)
    ensures |ns| == |rois|
    ensures forall i :: 0 <= i < |rois| ==> ns[i] == rois[i].name
  {
    seq(|rois|, i requires 0 <= i < |rois| => rois[i].name)
  }

  predicate UniqueNames(rois: seq<RegionOfInterest>) {
    forall i, j :: 0 <= i < j < |rois| ==> rois[i].name != rois[j].name
  }

  /** Index of the ROI called `name`, if any. */
  function Find(rois: seq<RegionOfInterest>, name: string): (r: Option<nat>)
    ensures r.Some? ==> r.value < |rois| && rois[r.value].name == name
    ensures r.Some? ==> forall i :: 0 <= i < r.value ==> rois[i].name != name
    ensures r.None? <==> name !in Names(rois)
  {
    if rois == [] then None
    else if rois[0].name == name then Some(0)
    else match Find(rois[1..], name)
      case None => None
      case Some(k) => Some(k + 1)
  }

  /** `self._rois[roi.name] = roi`: overwrite in place when the key exists,
      append otherwise. */
  function Put(rois: seq<RegionOfInterest>, roi: RegionOfInterest): (r: seq<RegionOfInterest>)
    ensures roi.name !in Names(rois) ==> r == rois + [roi]
    ensures roi.name in Names(rois) ==>
      |r| == |rois| && Find(rois, roi.name).Some? && r == rois[Find(rois, roi.name).value := roi]
  {
    match Find(rois, roi.name)
    case None => rois + [roi]
    case Some(k) => rois[k := roi]
  }

  /** A ROI put into the list is found under its name, and the names are
      those before, with the new name appended if it was not there. */
  lemma FindPut(rois: seq<RegionOfInterest>, roi: RegionOfInterest)
    ensures var r := Put(rois, roi);
      && Find(r, roi.name).Some? && r[Find(r, roi.name).value] == roi
      && Names(r) == if roi.name in Names(rois) then Names(rois) else Names(rois) + [roi.name]
  {
    var r := Put(rois, roi);
    if roi.name in Names(rois) {
      var k := Find(rois, roi.name).value;
      assert Names(r) == Names(rois);
      assert Names(r)[k] == roi.name;
      assert forall i :: 0 <= i < k ==> r[i].name != roi.name;
    } else {
      assert Names(r) == Names(rois) + [roi.name];
      assert Names(r)[|rois|] == roi.name;
      assert forall i :: 0 <= i < |rois| ==> r[i].name == Names(rois)[i];
    }
  }

  /** `del self._rois[name]`. */
  function Remove(rois: seq<RegionOfInterest>, name: string): (r: seq<RegionOfInterest>)
    ensures |r| <= |rois|
    ensures forall i :: 0 <= i < |r| ==> r[i].name != name
  {
    if rois == [] then []
    else if rois[0].name == name then Remove(rois[1..], name)
    else [rois[0]] + Remove(rois[1..], name)
  }

  // ------------------------------------------------------------------
  // RegionOfInterest
  // ------------------------------------------------------------------

  /** The `position` setter: an iterable of length 3, else ValueError. */
  function SetPosition(pos: seq<real>): (r: Result<Vec3>)
    ensures r.Ok? <==> |pos| == 3
    ensures r.Ok? ==> r.value.x == pos[0] && r.value.y == pos[1] && r.value.z == pos[2]
    ensures r.Err? ==> r.error == ValueError
  {
    if |pos| != 3 then Err(ValueError) else Ok(Vec3(pos[0], pos[1], pos[2]))
  }

  /** `RegionOfInterest(position, name)`.  The position setter runs first;
      the name setter with an empty name falls into its generic-name branch,
      which reads a `_rois` attribute that a single ROI does not have. */
  function NewRegionOfInterest(pos: seq<real>, name: string): (r: Result<RegionOfInterest>)
    ensures r.Ok? <==> |pos| == 3 && name != ""
    ensures |pos| != 3 ==> r == Err(ValueError)
    ensures |pos| == 3 && name == "" ==> r == Err(AttributeError)
    ensures r.Ok? ==> r.value.name == name && [r.value.position.x, r.value.position.y, r.value.position.z] == pos
  {
    var p :- SetPosition(pos);
    if name == "" then Err(AttributeError) else Ok(RegionOfInterest(name, p))
  }

  /** `RegionOfInterest.to_dict`. */
  function RoiToDict(roi: RegionOfInterest): RoiDict {
    RoiDict(roi.name, [roi.position.x, roi.position.y, roi.position.z])
  }

  /** `RegionOfInterest.from_dict`: `cls(**dict_repr)`. */
  function RoiFromDict(d: RoiDict): Result<RegionOfInterest> {
    NewRegionOfInterest(d.position, d.name)
  }

  /** A named ROI survives the trip through its dictionary form. */
  lemma RoiDictRoundTrip(roi: RegionOfInterest)
    requires roi.name != ""
    ensures RoiFromDict(RoiToDict(roi)) == Ok(roi)
  {
  }

  // ------------------------------------------------------------------
  // Generic names
  // ------------------------------------------------------------------

  /** The generic name for number `n`: 'ROI_' + str(n).zfill(3). */
  function RoiName(n: int): string {
    RoiPrefix + ZFill(IntToString(n), 3)
  }

  /** `int(name.strip('ROI_'))`, or None where `int` raises ValueError. */
  function NameNumber(name: string): Option<int> {
    ParseInt(Strip(name, StripChars))
  }

  /** The number a generic name was built from is read back from it. */
  lemma NameNumberOfRoiName(n: int)
    ensures NameNumber(RoiName(n)) == Some(n)
  {
    var t := ZFill(IntToString(n), 3);
    ZFillIntEnds(n, 3);
    StripKnownPrefix(RoiPrefix, t, StripChars);
    ParseIntOfZFill(n, 3);
  }

  /** A padded numeral starts with a sign or a digit and ends with a digit. */
  lemma ZFillIntEnds(n: int, width: nat)
    ensures var t := ZFill(IntToString(n), width);
      1 <= |t| && (t[0] == '-' || IsDigit(t[0])) && IsDigit(t[|t| - 1])
  {
    var s := IntToString(n);
    if n < 0 {
      assert s[|s| - 1] == NatToString(-n)[|NatToString(-n)| - 1];
    }
  }

  lemma RoiNameInjective(m: int, n: int)
    ensures RoiName(m) == RoiName(n) <==> m == n
  {
    if RoiName(m) == RoiName(n) {
      NameNumberOfRoiName(m);
      NameNumberOfRoiName(n);
    }
  }

  /** The name `RegionOfInterestList.add_roi` gives to a new position: one
      more than the number in the LAST inserted key, or `int(first_digit)`
      for an empty list.  ValueError when the last key holds no number. */
  function GenericName(rois: seq<RegionOfInterest>, firstDigit: real): (r: Result<string>)
    ensures r.Err? <==> rois != [] && NameNumber(rois[|rois| - 1].name).None?
    ensures r.Err? ==> r.error == ValueError
  {
    var lastNumber: int :-
      if |rois| == 0 then Ok(Numeric.Trunc(firstDigit) - 1)
      else match NameNumber(rois[|rois| - 1].name)
        case None => Err(ValueError)
        case Some(n) => Ok(n);
    Ok(RoiName(lastNumber + 1))
  }

  /** The number read back from a generic name is `int(first_digit)` on an
      empty list and one more than the last key's number otherwise. */
  lemma GenericNameNumber(rois: seq<RegionOfInterest>, firstDigit: real)
    requires GenericName(rois, firstDigit).Ok?
    ensures NameNumber(GenericName(rois, firstDigit).value)
         == Some(if rois == [] then Numeric.Trunc(firstDigit) else NameNumber(rois[|rois| - 1].name).value + 1)
  {
    GenericNameSpec(rois, firstDigit);
    if rois == [] {
      NameNumberOfRoiName(Numeric.Trunc(firstDigit));
    } else {
      NameNumberOfRoiName(NameNumber(rois[|rois| - 1].name).value + 1);
    }
  }

  /** An empty list starts at `int(first_digit)`; otherwise the name follows
      the number read from the last key, and an unreadable last key raises
      ValueError. */
  lemma GenericNameSpec(rois: seq<RegionOfInterest>, firstDigit: real)
    ensures rois == [] ==> GenericName(rois, firstDigit) == Ok(RoiName(Numeric.Trunc(firstDigit)))
    ensures rois != [] && NameNumber(rois[|rois| - 1].name).None? ==> GenericName(rois, firstDigit) == Err(ValueError)
    ensures rois != [] && NameNumber(rois[|rois| - 1].name).Some? ==>
      GenericName(rois, firstDigit) == Ok(RoiName(NameNumber(rois[|rois| - 1].name).value + 1))
  {
    if |rois| != 0 {
      var last := NameNumber(rois[|rois| - 1].name);
      if last.Some? {
        assert GenericName(rois, firstDigit) == Ok(RoiName(last.value + 1));
      } else {
        assert GenericName(rois, firstDigit) == Err(ValueError);
      }
    }
  }

  /** `RegionOfInterestList.add_roi` with a position: the ROI is stored
      under the generic name, appended when the name is new and replacing
      the ROI of that name otherwise. */
  function AddRoi(l: RoiList, position: Vec3, firstDigit: real): (r: Result<RoiList>)
    ensures r.Err? <==> GenericName(l.rois, firstDigit).Err?
    ensures r.Err? ==> r.error == ValueError
    ensures r.Ok? ==> var roi := RegionOfInterest(GenericName(l.rois, firstDigit).value, position);
      && r.value.name == l.name
      && Find(r.value.rois, roi.name).Some? && r.value.rois[Find(r.value.rois, roi.name).value] == roi
      && Names(r.value.rois) == if roi.name in Names(l.rois) then Names(l.rois) else Names(l.rois) + [roi.name]
  {
    var name :- GenericName(l.rois, firstDigit);
    FindPut(l.rois, RegionOfInterest(name, position));
    Ok(l.(rois := Put(l.rois, RegionOfInterest(name, position))))
  }

  /** `RegionOfInterestList.add_roi` with a `RegionOfInterest` instance:
      stored under its own name. */
  function AddRoiInstance(l: RoiList, roi: RegionOfInterest): RoiList {
    l.(rois := Put(l.rois, roi))
  }

  /** The generic names for a sequence of numbers. */
  function GenericNames(nums: seq<int>): seq<string> {
    Seqs.Map(RoiName, nums)
  }

  predicate Increasing(nums: seq<int>) {
    forall i, j :: 0 <= i < j < |nums| ==> nums[i] < nums[j]
  }

  /** The ROIs carry the generic names for `nums`, which strictly increase in
      insertion order, as in every list built by `add_roi` from an empty one. */
  predicate NumberedBy(rois: seq<RegionOfInterest>, nums: seq<int>) {
    Names(rois) == GenericNames(nums) && Increasing(nums)
  }

  /** The number the next generic name gets. */
  function NextNumber(nums: seq<int>, firstDigit: real): int {
    if |nums| == 0 then Numeric.Trunc(firstDigit) else nums[|nums| - 1] + 1
  }

  /** A number above all others gives a name none of theirs equals. */
  lemma GenericNamesFresh(nums: seq<int>, n: int)
    requires forall i :: 0 <= i < |nums| ==> nums[i] < n
    ensures RoiName(n) !in GenericNames(nums)
  {
    forall i | 0 <= i < |nums| ensures GenericNames(nums)[i] != RoiName(n) {
      RoiNameInjective(nums[i], n);
    }
  }

  lemma NamesAppend(rois: seq<RegionOfInterest>, roi: RegionOfInterest)
    ensures Names(rois + [roi]) == Names(rois) + [roi.name]
  {
  }

  /** The last name of a numbered list reads back as the last number. */
  lemma LastNameNumber(rois: seq<RegionOfInterest>, nums: seq<int>)
    requires NumberedBy(rois, nums) && rois != []
    ensures NameNumber(rois[|rois| - 1].name) == Some(nums[|nums| - 1])
  {
    assert rois[|rois| - 1].name == Names(rois)[|rois| - 1];
    NameNumberOfRoiName(nums[|nums| - 1]);
  }

  /** On a numbered list the generic name is the one for the next number,
      and that name is new. */
  lemma GenericNameNumbered(rois: seq<RegionOfInterest>, nums: seq<int>, firstDigit: real)
    requires NumberedBy(rois, nums)
    ensures GenericName(rois, firstDigit) == Ok(RoiName(NextNumber(nums, firstDigit)))
    ensures RoiName(NextNumber(nums, firstDigit)) !in Names(rois)
  {
    GenericNameSpec(rois, firstDigit);
    if rois != [] {
      LastNameNumber(rois, nums);
    }
    GenericNamesFresh(nums, NextNumber(nums, firstDigit));
  }

  /** Adding under a name that is new appends the ROI at the end. */
  lemma AddRoiAppends(l: RoiList, position: Vec3, firstDigit: real, name: string)
    requires GenericName(l.rois, firstDigit) == Ok(name) && name !in Names(l.rois)
    ensures AddRoi(l, position, firstDigit) == Ok(l.(rois := l.rois + [RegionOfInterest(name, position)]))
  {
  }

  /** Appending the name of a number above the last keeps a list numbered. */
  lemma NumberedAppend(rois: seq<RegionOfInterest>, nums: seq<int>, roi: RegionOfInterest, n: int)
    requires NumberedBy(rois, nums) && roi.name == RoiName(n)
    requires nums == [] || nums[|nums| - 1] < n
    ensures NumberedBy(rois + [roi], nums + [n])
  {
    assert Names(rois + [roi]) == GenericNames(nums + [n]) by {
      NamesAppend(rois, roi);
      Seqs.MapAppend(RoiName, nums, [n]);
      Seqs.MapSingle(RoiName, n);
    }
    assert Increasing(nums + [n]) by {
      forall i, j | 0 <= i < j < |nums| + 1
        ensures (nums + [n])[i] < (nums + [n])[j]
      {
        if j == |nums| {
          assert nums[i] <= nums[|nums| - 1];
        }
      }
    }
  }

  /** On a numbered list, the new name carries the number after the last
      one, is fresh, and the list stays numbered; the count of ROIs plays
      no part, so the numbers of deleted ROIs are not refilled. */
  lemma AddRoiFresh(l: RoiList, nums: seq<int>, position: Vec3, firstDigit: real)
    requires NumberedBy(l.rois, nums)
    ensures var n := NextNumber(nums, firstDigit);
      && RoiName(n) !in Names(l.rois)
      && AddRoi(l, position, firstDigit) == Ok(l.(rois := l.rois + [RegionOfInterest(RoiName(n), position)]))
      && NumberedBy(l.rois + [RegionOfInterest(RoiName(n), position)], nums + [n])
  {
    var n := NextNumber(nums, firstDigit);
    GenericNameNumbered(l.rois, nums, firstDigit);
    AddRoiAppends(l, position, firstDigit, RoiName(n));
    NumberedAppend(l.rois, nums, RegionOfInterest(RoiName(n), position), n);
  }

  lemma NumberedUnique(rois: seq<RegionOfInterest>, nums: seq<int>)
    requires NumberedBy(rois, nums)
    ensures UniqueNames(rois)
  {
    forall i, j | 0 <= i < j < |rois|
      ensures rois[i].name != rois[j].name
    {
      assert rois[i].name == Names(rois)[i] && rois[j].name == Names(rois)[j];
      RoiNameInjective(nums[i], nums[j]);
    }
  }

  /** In a list with distinct names, removing the name at `k` removes exactly
      that entry. */
  lemma {:induction false} RemoveUniqueAt(rois: seq<RegionOfInterest>, k: nat)
    requires UniqueNames(rois) && k < |rois|
    ensures Remove(rois, rois[k].name) == rois[..k] + rois[k + 1..]
  {
    if k == 0 {
      RemoveAbsent(rois[1..], rois[0].name);
      assert rois[..0] + rois[1..] == rois[1..];
    } else {
      RemoveUniqueAt(rois[1..], k - 1);
      assert rois[1..][k - 1] == rois[k];
      assert rois[..k] + rois[k + 1..] == [rois[0]] + (rois[1..][..k - 1] + rois[1..][k..]);
    }
  }

  /** Removing a name keeps only names that were there. */
  lemma {:induction false} RemoveKeepsOthers(rois: seq<RegionOfInterest>, name: string)
    ensures forall i :: 0 <= i < |Remove(rois, name)| ==> Remove(rois, name)[i].name in Names(rois)
  {
    if rois != [] {
      RemoveKeepsOthers(rois[1..], name);
      assert Names(rois[1..]) == Names(rois)[1..];
    }
  }

  lemma {:induction false} RemoveAbsent(rois: seq<RegionOfInterest>, name: string)
    requires name !in Names(rois)
    ensures Remove(rois, name) == rois
  {
    if rois != [] {
      assert Names(rois[1..]) == Names(rois)[1..];
      RemoveAbsent(rois[1..], name);
    }
  }

  /** Removing entry `k` of a numbered list leaves a list numbered by the
      remaining numbers. */
  lemma RemoveNumbered(rois: seq<RegionOfInterest>, nums: seq<int>, k: nat)
    requires NumberedBy(rois, nums) && k < |rois|
    ensures Remove(rois, rois[k].name) == rois[..k] + rois[k + 1..]
    ensures NumberedBy(rois[..k] + rois[k + 1..], nums[..k] + nums[k + 1..])
  {
    NumberedUnique(rois, nums);
    RemoveUniqueAt(rois, k);
    NamesDrop(rois, k);
    Seqs.MapDrop(RoiName, nums, k);
    IncreasingDrop(nums, k);
  }

  lemma NamesDrop(rois: seq<RegionOfInterest>, k: nat)
    requires k < |rois|
    ensures Names(rois[..k] + rois[k + 1..]) == Names(rois)[..k] + Names(rois)[k + 1..]
  {
    var r := rois[..k] + rois[k + 1..];
    var ns := Names(rois);
    forall i | 0 <= i < |r|
      ensures Names(r)[i] == (ns[..k] + ns[k + 1..])[i]
    {
      var j := if i < k then i else i + 1;
      assert r[i] == rois[j];
    }
  }

  lemma IncreasingDrop(nums: seq<int>, k: nat)
    requires Increasing(nums) && k < |nums|
    ensures Increasing(nums[..k] + nums[k + 1..])
  {
    var m := nums[..k] + nums[k + 1..];
    assert forall i :: 0 <= i < |m| ==> m[i] == (if i < k then nums[i] else nums[i + 1]);
  }

  /** Numbers are not refilled: after deleting any ROI but the last, the
      next name continues from the last number, and the deleted name does
      not come back. */
  lemma DeletedNumberNotRefilled(l: RoiList, nums: seq<int>, k: nat, position: Vec3, firstDigit: real)
    requires NumberedBy(l.rois, nums) && k + 1 < |l.rois|
    ensures var l' := l.(rois := Remove(l.rois, l.rois[k].name));
      && AddRoi(l', position, firstDigit) ==
           Ok(l'.(rois := l'.rois + [RegionOfInterest(RoiName(nums[|nums| - 1] + 1), position)]))
      && l.rois[k].name != RoiName(nums[|nums| - 1] + 1)
  {
    var last := nums[|nums| - 1];
    var m := nums[..k] + nums[k + 1..];
    assert NextNumber(m, firstDigit) == last + 1 by {
      Seqs.AppendIndex(nums[..k], nums[k + 1..], |nums| - 2);
    }
    var l' := l.(rois := l.rois[..k] + l.rois[k + 1..]);
    assert Remove(l.rois, l.rois[k].name) == l'.rois && NumberedBy(l'.rois, m) by {
      RemoveNumbered(l.rois, nums, k);
    }
    assert AddRoi(l', position, firstDigit) ==
           Ok(l'.(rois := l'.rois + [RegionOfInterest(RoiName(last + 1), position)])) by {
      AddRoiFresh(l', m, position, firstDigit);
    }
    assert l.rois[k].name != RoiName(last + 1) by {
      NumberedNameDiffers(l.rois, nums, k, last + 1);
    }
  }

  /** In a numbered list, entry `k` does not carry the name of a number other than its own. */
  lemma NumberedNameDiffers(rois: seq<RegionOfInterest>, nums: seq<int>, k: nat, n: int)
    requires NumberedBy(rois, nums) && k < |rois| && nums[k] != n
    ensures rois[k].name != RoiName(n)
  {
    assert rois[k].name == RoiName(nums[k]) by {
      assert rois[k].name == Names(rois)[k];
    }
    RoiNameInjective(nums[k], n);
  }

  /** Deleting the LAST ROI of a consecutively numbered list hands its name
      to the next ROI: the generic name is derived from the key inserted last. */
  lemma DeletingLastReusesName(l: RoiList, nums: seq<int>, position: Vec3, firstDigit: real)
    requires NumberedBy(l.rois, nums) && |l.rois| >= 2
    requires nums[|nums| - 1] == nums[|nums| - 2] + 1
    ensures var last := l.rois[|l.rois| - 1].name;
      var l' := l.(rois := Remove(l.rois, last));
      AddRoi(l', position, firstDigit) == Ok(l.(rois := l.rois[..|l.rois| - 1] + [RegionOfInterest(last, position)]))
  {
    var k := |l.rois| - 1;
    RemoveNumbered(l.rois, nums, k);
    assert l.rois[..k] + l.rois[k + 1..] == l.rois[..k];
    assert nums[..k] + nums[k + 1..] == nums[..k];
    AddRoiFresh(l.(rois := l.rois[..k]), nums[..k], position, firstDigit);
  }

  // ------------------------------------------------------------------
  // Lookup, deletion and the dictionary form of a list
  // ------------------------------------------------------------------

  /** `RegionOfInterestList.get_roi_position`: TypeError for a non-str name,
      KeyError for an unknown one, else the stored position plus the origin. */
  function GetRoiPosition(l: RoiList, name: NameArg): (r: Result<Vec3>)
    ensures !name.Str? ==> r == Err(TypeError)
    ensures name.Str? && name.s !in Names(l.rois) ==> r == Err(KeyError)
    ensures name.Str? && name.s in Names(l.rois) ==>
      r.Ok? && exists i :: 0 <= i < |l.rois| && l.rois[i].name == name.s && l.rois[i].position == r.value
  {
    if !name.Str? then Err(TypeError)
    else match Find(l.rois, name.s)
      case None => Err(KeyError)
      case Some(k) => Ok(l.rois[k].position)
  }

  /** `RegionOfInterestList.delete_roi`. */
  function DeleteRoi(l: RoiList, name: NameArg): (r: Result<RoiList>)
    ensures !name.Str? ==> r == Err(TypeError)
    ensures name.Str? && name.s !in Names(l.rois) ==> r == Err(KeyError)
    ensures name.Str? && name.s in Names(l.rois) ==> r == Ok(l.(rois := Remove(l.rois, name.s)))
  {
    if !name.Str? then Err(TypeError)
    else if name.s !in Names(l.rois) then Err(KeyError)
    else Ok(l.(rois := Remove(l.rois, name.s)))
  }

  /** On a list with distinct names, deleting removes exactly the named ROI
      and keeps the others in order. */
  lemma DeleteRoiExact(l: RoiList, k: nat)
    requires UniqueNames(l.rois) && k < |l.rois|
    ensures DeleteRoi(l, Str(l.rois[k].name)) == Ok(l.(rois := l.rois[..k] + l.rois[k + 1..]))
  {
    RemoveUniqueAt(l.rois, k);
  }

  /** `RegionOfInterestList.to_dict` (creation time and camera image left out). */
  function ListToDict(l: RoiList): (d: RoiListDict)
    ensures d.name == l.name && d.rois.Some? && |d.rois.value| == |l.rois|
  {
    RoiListDict(l.name, Some(RoisToDicts(l.rois)))
  }

  function RoisToDicts(rois: seq<RegionOfInterest>): (ds: seq<RoiDict>)
    ensures |ds| == |rois|
    ensures forall i :: 0 <= i < |rois| ==> ds[i] == RoiToDict(rois[i])
  {
    if rois == [] then [] else [RoiToDict(rois[0])] + RoisToDicts(rois[1..])
  }

  /** The name setter of a list: a non-empty string is kept, an empty or
      missing one is replaced by the name derived from the creation time. */
  function ListName(name: string, timeName: string): string {
    if name != "" then name else timeName
  }

  /** `RegionOfInterestList.from_dict`: the ROIs are built from their
      dictionaries (the first failure is raised) and added one by one. */
  function ListFromDict(d: RoiListDict, timeName: string): Result<RoiList> {
    match d.rois
    case None => Ok(RoiList(ListName(d.name, timeName), []))
    case Some(ds) =>
      var rois :- BuildRois(ds);
      Ok(RoiList(ListName(d.name, timeName), AddAll([], rois)))
  }

  function BuildRois(ds: seq<RoiDict>): (r: Result<seq<RegionOfInterest>>)
    ensures r.Ok? ==> |r.value| == |ds|
  {
    if ds == [] then Ok([])
    else
      var first :- RoiFromDict(ds[0]);
      var rest :- BuildRois(ds[1..]);
      Ok([first] + rest)
  }

  /** `for roi in rois: self.add_roi(roi)`. */
  function AddAll(acc: seq<RegionOfInterest>, rois: seq<RegionOfInterest>): seq<RegionOfInterest>
    decreases |rois|
  {
    if rois == [] then acc else AddAll(Put(acc, rois[0]), rois[1..])
  }

  /** A list with a name and distinct, non-empty ROI names is rebuilt exactly
      from its dictionary form. */
  lemma ListDictRoundTrip(l: RoiList, timeName: string)
    requires l.name != "" && UniqueNames(l.rois)
    requires forall i :: 0 <= i < |l.rois| ==> l.rois[i].name != ""
    ensures ListFromDict(ListToDict(l), timeName) == Ok(l)
  {
    BuildRoisRoundTrip(l.rois);
    assert [] + l.rois == l.rois;
    AddAllUnique([], l.rois);
  }

  lemma {:induction false} BuildRoisRoundTrip(rois: seq<RegionOfInterest>)
    requires forall i :: 0 <= i < |rois| ==> rois[i].name != ""
    ensures BuildRois(RoisToDicts(rois)) == Ok(rois)
  {
    if rois != [] {
      assert RoisToDicts(rois)[1..] == RoisToDicts(rois[1..]);
      BuildRoisRoundTrip(rois[1..]);
      RoiDictRoundTrip(rois[0]);
      assert [rois[0]] + rois[1..] == rois;
    }
  }

  /** Adding ROIs whose names are new and distinct appends them in order. */
  lemma {:induction false} AddAllUnique(acc: seq<RegionOfInterest>, rois: seq<RegionOfInterest>)
    requires UniqueNames(acc + rois)
    ensures AddAll(acc, rois) == acc + rois
    decreases |rois|
  {
    if rois != [] {
      assert (acc + rois)[|acc|] == rois[0];
      assert rois[0].name !in Names(acc) by {
        forall i | 0 <= i < |acc| ensures acc[i].name != rois[0].name {
          assert (acc + rois)[i] == acc[i];
        }
      }
      assert acc + rois == (acc + [rois[0]]) + rois[1..];
      AddAllUnique(acc + [rois[0]], rois[1..]);
    }
  }

  // ------------------------------------------------------------------
  // RoiLogic
  // ------------------------------------------------------------------

  /** The state `RoiLogic` keeps: the current list, the active ROI name and
      the starting digit for generic names (stored as a float). */
  datatype RoiLogicState = RoiLogicState(list: RoiList, active: Option<string>, firstDigit: real)

  /** `RoiLogic.set_active_roi`: a non-str, non-None argument and an unknown
      name are logged and change nothing; None or '' clear the active ROI. */
  function SetActiveRoi(st: RoiLogicState, name: NameArg): (r: RoiLogicState)
    ensures r.list == st.list && r.firstDigit == st.firstDigit
    ensures name.NoneArg? || name == Str("") ==> r.active == None
    ensures name.Str? && name.s != "" && name.s in Names(st.list.rois) ==> r.active == Some(name.s)
    ensures name.OtherType? || (name.Str? && name.s != "" && name.s !in Names(st.list.rois)) ==> r == st
  {
    match name
    case OtherType => st
    case NoneArg => st.(active := None)
    case Str(s) =>
      if s == "" then st.(active := None)
      else if s in Names(st.list.rois) then st.(active := Some(s))
      else st
  }

  /** `RoiLogic.add_roi`: the list adds the position under a generic name;
      the new name is recovered as the one name not present before and
      becomes active. When the generic name already exists, the list has
      already replaced that ROI when popping from the empty difference
      raises KeyError; a ValueError of the name leaves everything as it
      was. */
  function LogicAddRoi(st: RoiLogicState, position: Vec3): (r: Partial<RoiLogicState>)
    ensures r.done.firstDigit == st.firstDigit && r.done.list.name == st.list.name
    ensures r.raised.None? ==> r.done.active.Some? && r.done.active.value in Names(r.done.list.rois)
    ensures r.raised.None? ==> r.done.active.value !in Names(st.list.rois)
    ensures GenericName(st.list.rois, st.firstDigit).Err? ==> r == Partial(st, Some(ValueError))
    ensures GenericName(st.list.rois, st.firstDigit).Ok? ==>
      var name := GenericName(st.list.rois, st.firstDigit).value;
      && (r.raised.Some? <==> name in Names(st.list.rois))
      && (r.raised.Some? ==> r.raised.value == KeyError && r.done.active == st.active
                              && Names(r.done.list.rois) == Names(st.list.rois)
                              && r.done.list.rois[Find(r.done.list.rois, name).value] == RegionOfInterest(name, position))
  {
    match AddRoi(st.list, position, st.firstDigit)
    case Err(e) => Partial(st, Some(e))
    case Ok(l) =>
      var name := GenericName(st.list.rois, st.firstDigit).value;
      if name in Names(st.list.rois) then Partial(st.(list := l), Some(KeyError))
      else Partial(SetActiveRoi(st.(list := l), Str(name)), None)
  }

  /** On a numbered list the logic's add always succeeds, appends the new
      ROI under the next generic name and makes it the active one. */
  lemma LogicAddRoiNumbered(st: RoiLogicState, nums: seq<int>, position: Vec3)
    requires NumberedBy(st.list.rois, nums)
    ensures var n := NextNumber(nums, st.firstDigit);
      var rois' := st.list.rois + [RegionOfInterest(RoiName(n), position)];
      LogicAddRoi(st, position) == Partial(st.(list := st.list.(rois := rois'), active := Some(RoiName(n))), None)
    ensures NumberedBy(LogicAddRoi(st, position).done.list.rois, nums + [NextNumber(nums, st.firstDigit)])
  {
    var n := NextNumber(nums, st.firstDigit);
    var roi := RegionOfInterest(RoiName(n), position);
    assert GenericName(st.list.rois, st.firstDigit) == Ok(roi.name) && roi.name !in Names(st.list.rois) by {
      GenericNameNumbered(st.list.rois, nums, st.firstDigit);
    }
    var l := st.list.(rois := st.list.rois + [roi]);
    assert Put(st.list.rois, roi) == l.rois;
    assert roi.name in Names(l.rois) by {
      NamesAppend(st.list.rois, roi);
    }
    NumberedAppend(st.list.rois, nums, roi, n);
  }

  /** `RoiLogic.delete_roi`: nothing happens on an empty list or when no name
      is given and no ROI is active; deleting the active ROI makes the first
      remaining ROI active, or none when the list becomes empty. */
  function LogicDeleteRoi(st: RoiLogicState, name: NameArg): (r: Result<RoiLogicState>)
    ensures st.list.rois == [] ==> r == Ok(st)
    ensures st.list.rois != [] && name.NoneArg? && st.active.None? ==> r == Ok(st)
  {
    if st.list.rois == [] then Ok(st)
    else if name.NoneArg? && st.active.None? then Ok(st)
    else
      var target := if name.NoneArg? then Str(st.active.value) else name;
      var l :- DeleteRoi(st.list, target);
      var st' := st.(list := l);
      if st.active.Some? && target == Str(st.active.value) then
        if l.rois != [] then Ok(SetActiveRoi(st', Str(l.rois[0].name)))
        else Ok(SetActiveRoi(st', NoneArg))
      else Ok(st')
  }

  /** Deleting the active ROI of a list with distinct names removes it and
      hands the active role to the first remaining ROI, or to nobody. */
  lemma LogicDeleteActive(st: RoiLogicState, k: nat)
    requires UniqueNames(st.list.rois) && k < |st.list.rois|
    requires st.active == Some(st.list.rois[k].name) && st.list.rois[k].name != ""
    requires forall i :: 0 <= i < |st.list.rois| ==> st.list.rois[i].name != ""
    ensures var rest := st.list.rois[..k] + st.list.rois[k + 1..];
      && LogicDeleteRoi(st, NoneArg) == LogicDeleteRoi(st, Str(st.list.rois[k].name))
      && LogicDeleteRoi(st, NoneArg).Ok?
      && LogicDeleteRoi(st, NoneArg).value.list.rois == rest
      && LogicDeleteRoi(st, NoneArg).value.active == (if rest == [] then None else Some(rest[0].name))
  {
    var rois := st.list.rois;
    RemoveUniqueAt(rois, k);
    var rest := rois[..k] + rois[k + 1..];
    if rest != [] {
      assert rest[0] in rois;
      assert rest[0].name in Names(rest);
    }
  }

  /** Deleting a ROI other than the active one keeps the active ROI. */
  lemma LogicDeleteOther(st: RoiLogicState, k: nat)
    requires UniqueNames(st.list.rois) && k < |st.list.rois|
    requires st.active != Some(st.list.rois[k].name)
    ensures LogicDeleteRoi(st, Str(st.list.rois[k].name)) ==
      Ok(st.(list := st.list.(rois := st.list.rois[..k] + st.list.rois[k + 1..])))
  {
    RemoveUniqueAt(st.list.rois, k);
  }

  /** `RoiLogic.delete_all_roi`: the list keeps its name, loses every ROI,
      and no ROI is active. */
  function LogicDeleteAllRoi(st: RoiLogicState): (r: RoiLogicState)
    ensures r.list.name == st.list.name && r.list.rois == [] && r.active == None
    ensures r.firstDigit == st.firstDigit
  {
    st.(list := st.list.(rois := DeleteEach(st.list.rois, Names(st.list.rois))), active := None)
  }

  /** Deleting every listed name one after the other. */
  function DeleteEach(rois: seq<RegionOfInterest>, names: seq<string>): (r: seq<RegionOfInterest>)
    requires forall i :: 0 <= i < |rois| ==> rois[i].name in names
    ensures r == []
    decreases |names|
  {
    if names == [] then rois
    else
      var rest := Remove(rois, names[0]);
      RemoveKeepsOthers(rois, names[0]);
      assert forall i :: 0 <= i < |rest| ==> rest[i].name in names[1..] by {
        forall i | 0 <= i < |rest| ensures rest[i].name in names[1..] {
          assert rest[i].name in Names(rois);
          assert rest[i].name != names[0];
        }
      }
      DeleteEach(rest, names[1..])
  }

  // ------------------------------------------------------------------
  // Serpentine mosaic
  // ------------------------------------------------------------------

  datatype GridPoint = GridPoint(x: int, y: int, z: int)

  /** Row `y` of a serpentine grid: x ascending on even rows, descending on
      odd rows, z always 0. */
  function Row(width: nat, y: nat): (row: seq<GridPoint>)
    ensures |row| == width
    ensures forall x :: 0 <= x < width ==>
      row[x] == GridPoint(if y % 2 == 0 then x else width - 1 - x, y, 0)
  {
    seq(width, x requires 0 <= x < width => GridPoint(if y % 2 == 0 then x else width - 1 - x, y, 0))
  }

  /** `make_serpentine_grid`: the source builds the even-row and odd-row
      point lists and sorts them stably by y, which puts the rows one after
      the other; the model builds that sorted result directly, row by row.
      A negative size behaves like Python's empty `range`. */
  function SerpentineGrid(width: int, height: int): seq<GridPoint> {
    if width <= 0 || height <= 0 then [] else Rows(width, height)
  }

  function Rows(width: nat, height: nat): (g: seq<GridPoint>)
    ensures |g| == width * height
    decreases height
  {
    if height == 0 then [] else Rows(width, height - 1) + Row(width, height - 1)
  }

  /** The k-th grid point lies in row k / width at column k % width, read
      left to right on even rows and right to left on odd rows. */
  lemma {:induction false} SerpentineGridPoint(width: nat, height: nat, k: nat)
    requires k < width * height
    ensures |Rows(width, height)| == width * height
    ensures Rows(width, height)[k] ==
      GridPoint(if (k / width) % 2 == 0 then k % width else width - 1 - k % width, k / width, 0)
  {
    var h := height - 1;
    var before := width * h;
    assert width * height == before + width;
    if k < before {
      Seqs.AppendIndex(Rows(width, h), Row(width, h), k);
      SerpentineGridPoint(width, h, k);
    } else {
      LastRowPoint(width, h, k - before);
    }
  }

  /** Point `x` of the row added last sits at index width * h + x. */
  lemma LastRowPoint(width: nat, h: nat, x: nat)
    requires x < width
    ensures var k := width * h + x;
      && k < |Rows(width, h + 1)|
      && Rows(width, h + 1)[k] ==
           GridPoint(if (k / width) % 2 == 0 then k % width else width - 1 - k % width, k / width, 0)
  {
    var k := width * h + x;
    Seqs.AppendIndex(Rows(width, h), Row(width, h), k);
    Numeric.DivModOfRow(width, h, x);
  }

  /** Every point of the first `height` rows lies below row `height`. */
  lemma {:induction false} RowsBelow(width: nat, height: nat)
    ensures forall k :: 0 <= k < |Rows(width, height)| ==> 0 <= Rows(width, height)[k].y < height
    decreases height
  {
    if height > 0 {
      var prior := Rows(width, height - 1);
      RowsBelow(width, height - 1);
      forall k | 0 <= k < |Rows(width, height)| ensures 0 <= Rows(width, height)[k].y < height {
        Seqs.AppendIndex(prior, Row(width, height - 1), k);
      }
    }
  }

  /** The grid is ordered by y, as the stable sort by y leaves it. */
  lemma {:induction false} RowsSortedByY(width: nat, height: nat)
    ensures forall i, j :: 0 <= i <= j < |Rows(width, height)| ==> Rows(width, height)[i].y <= Rows(width, height)[j].y
    decreases height
  {
    if height > 0 {
      var prior := Rows(width, height - 1);
      var g := Rows(width, height);
      RowsSortedByY(width, height - 1);
      RowsBelow(width, height - 1);
      forall i, j | 0 <= i <= j < |g| ensures g[i].y <= g[j].y {
        Seqs.AppendIndex(prior, Row(width, height - 1), i);
        Seqs.AppendIndex(prior, Row(width, height - 1), j);
      }
    }
  }

  /** `make_serpentine_grid` returns its points sorted by y. */
  lemma SerpentineGridSortedByY(width: int, height: int)
    ensures var g := SerpentineGrid(width, height);
      forall i, j :: 0 <= i <= j < |g| ==> g[i].y <= g[j].y
  {
    if width > 0 && height > 0 {
      RowsSortedByY(width, height);
    }
  }

  /** Every grid has width * height points. */
  lemma SerpentineGridSize(width: int, height: int)
    ensures |SerpentineGrid(width, height)| == if width <= 0 || height <= 0 then 0 else width * height
  {
  }

  /** The ROI centre of grid point `p`: the grid is scaled by the ROI width
      and shifted so that the mosaic is centred on (xc, yc) at height z. */
  function MosaicCenter(p: GridPoint, roiWidth: real, width: int, height: int, xc: real, yc: real, z: real): Vec3 {
    var xStart := xc - roiWidth * ((width - 1) as real) / 2.0;
    var yStart := yc - roiWidth * ((height - 1) as real) / 2.0;
    Vec3(p.x as real * roiWidth + xStart, p.y as real * roiWidth + yStart, p.z as real * roiWidth + z)
  }

  /** `RoiLogic.add_mosaic`: optionally start a new list (named from the
      creation time), then add one ROI per grid point.  An exception stops
      the loop and is only logged; the ROIs added so far stay. */
  function AddMosaic(st: RoiLogicState, roiWidth: real, width: int, height: int,
                     xc: real, yc: real, z: real, add: bool, timeName: string): RoiLogicState
  {
    var st0 := if add then st else st.(list := RoiList(timeName, []), active := None);
    var centers := MosaicCenters(SerpentineGrid(width, height), roiWidth, width, height, xc, yc, z);
    AddCenters(st0, centers)
  }

  function MosaicCenters(grid: seq<GridPoint>, roiWidth: real, width: int, height: int,
                         xc: real, yc: real, z: real): (cs: seq<Vec3>)
    ensures |cs| == |grid|
    ensures forall i :: 0 <= i < |grid| ==> cs[i] == MosaicCenter(grid[i], roiWidth, width, height, xc, yc, z)
  {
    seq(|grid|, i requires 0 <= i < |grid| => MosaicCenter(grid[i], roiWidth, width, height, xc, yc, z))
  }

  function AddCenters(st: RoiLogicState, centers: seq<Vec3>): RoiLogicState
    decreases |centers|
  {
    if centers == [] then st
    else
      var added := LogicAddRoi(st, centers[0]);
      if added.raised.Some? then added.done else AddCenters(added.done, centers[1..])
  }

  /** `count` consecutive integers from `start`. */
  function Consecutive(start: int, count: nat): (r: seq<int>)
    ensures |r| == count
    ensures forall i :: 0 <= i < count ==> r[i] == start + i
  {
    seq(count, i requires 0 <= i < count => start + i)
  }

  lemma ConsecutiveCons(n: int, count: nat)
    ensures [n] + Consecutive(n + 1, count) == Consecutive(n, count + 1)
  {
  }

  /** ROIs with the given names at the given centres, pairwise. */
  function Placed(names: seq<string>, centers: seq<Vec3>): (rs: seq<RegionOfInterest>)
    requires |names| == |centers|
    ensures |rs| == |centers|
    ensures forall i {:trigger rs[i]} :: 0 <= i < |rs| ==> rs[i] == RegionOfInterest(names[i], centers[i])
  {
    seq(|centers|, i requires 0 <= i < |centers| => RegionOfInterest(names[i], centers[i]))
  }

  lemma PlacedNames(names: seq<string>, centers: seq<Vec3>)
    requires |names| == |centers|
    ensures Names(Placed(names, centers)) == names
  {
    var rs := Placed(names, centers);
    forall i | 0 <= i < |rs| ensures Names(rs)[i] == names[i] {
      assert rs[i] == RegionOfInterest(names[i], centers[i]);
    }
  }

  lemma PlacedCons(name: string, names: seq<string>, centers: seq<Vec3>)
    requires |centers| == |names| + 1
    ensures Placed([name] + names, centers) == [RegionOfInterest(name, centers[0])] + Placed(names, centers[1..])
  {
    var l := Placed([name] + names, centers);
    var r := [RegionOfInterest(name, centers[0])] + Placed(names, centers[1..]);
    forall i | 0 <= i < |l| ensures l[i] == r[i] {
      if i > 0 {
        assert ([name] + names)[i] == names[i - 1] && centers[i] == centers[1..][i - 1];
        assert r[i] == Placed(names, centers[1..])[i - 1];
      }
    }
  }

  /** The ROIs for `centers` under the generic names from `n` on. */
  function NewRois(n: int, centers: seq<Vec3>): (rs: seq<RegionOfInterest>)
    ensures |rs| == |centers|
  {
    Placed(GenericNames(Consecutive(n, |centers|)), centers)
  }

  lemma NewRoisCons(n: int, centers: seq<Vec3>)
    requires centers != []
    ensures NewRois(n, centers) == [RegionOfInterest(RoiName(n), centers[0])] + NewRois(n + 1, centers[1..])
  {
    var run := Consecutive(n + 1, |centers| - 1);
    ConsecutiveCons(n, |centers| - 1);
    Seqs.MapAppend(RoiName, [n], run);
    Seqs.MapSingle(RoiName, n);
    PlacedCons(RoiName(n), GenericNames(run), centers);
  }

  /** The `k`-th new ROI is centre `k` under the name for `n + k`. */
  lemma NewRoisAt(n: int, centers: seq<Vec3>, k: nat)
    requires k < |centers|
    ensures NewRois(n, centers)[k] == RegionOfInterest(RoiName(n + k), centers[k])
  {
    assert Consecutive(n, |centers|)[k] == n + k;
  }

  lemma NamesConcat(a: seq<RegionOfInterest>, b: seq<RegionOfInterest>)
    ensures Names(a + b) == Names(a) + Names(b)
  {
    var l := Names(a + b);
    var r := Names(a) + Names(b);
    forall i | 0 <= i < |l| ensures l[i] == r[i] {
      if i < |a| {
        assert (a + b)[i] == a[i];
      } else {
        assert (a + b)[i] == b[i - |a|];
      }
    }
  }

  /** A run of consecutive numbers after the last one keeps the numbers increasing. */
  lemma IncreasingRun(nums: seq<int>, n: int, count: nat)
    requires Increasing(nums) && (|nums| == 0 || nums[|nums| - 1] < n)
    ensures Increasing(nums + Consecutive(n, count))
  {
    var all := nums + Consecutive(n, count);
    forall i, j | 0 <= i < j < |all| ensures all[i] < all[j] {
      if j < |nums| {
        assert all[i] == nums[i] && all[j] == nums[j];
      } else if i < |nums| {
        assert all[i] == nums[i] <= nums[|nums| - 1];
        assert all[j] == n + (j - |nums|);
      } else {
        assert all[i] == n + (i - |nums|) && all[j] == n + (j - |nums|);
      }
    }
  }

  /** The state after adding `centers` to a numbered list whose next number is `n`. */
  function AfterCenters(st: RoiLogicState, n: int, centers: seq<Vec3>): RoiLogicState {
    st.(list := st.list.(rois := st.list.rois + NewRois(n, centers)),
        active := if centers == [] then st.active else Some(RoiName(n + |centers| - 1)))
  }

  /** On a numbered list, the centres are added in order under consecutive
      generic names from the next number on, the last one becoming active. */
  lemma {:induction false} AddCentersNumbered(st: RoiLogicState, nums: seq<int>, centers: seq<Vec3>)
    requires NumberedBy(st.list.rois, nums)
    ensures AddCenters(st, centers) == AfterCenters(st, NextNumber(nums, st.firstDigit), centers)
    ensures NumberedBy(AfterCenters(st, NextNumber(nums, st.firstDigit), centers).list.rois,
                       nums + Consecutive(NextNumber(nums, st.firstDigit), |centers|))
    decreases |centers|
  {
    var n := NextNumber(nums, st.firstDigit);
    if centers == [] {
      Seqs.AppendEmpty(st.list.rois, NewRois(n, centers));
    } else {
      var st' := st.(list := st.list.(rois := st.list.rois + [RegionOfInterest(RoiName(n), centers[0])]),
                     active := Some(RoiName(n)));
      assert LogicAddRoi(st, centers[0]) == Partial(st', None) && NumberedBy(st'.list.rois, nums + [n]) by {
        LogicAddRoiNumbered(st, nums, centers[0]);
      }
      assert NextNumber(nums + [n], st'.firstDigit) == n + 1;
      AddCentersNumbered(st', nums + [n], centers[1..]);
      AfterCentersCons(st, n, centers, st');
      AddCentersFirst(st, centers, st');
    }
    AfterCentersNumbered(st, nums, n, centers);
  }

  /** Appending the ROIs for `centers` from the next number on keeps a list
      numbered, by the consecutive run of numbers. */
  lemma AfterCentersNumbered(st: RoiLogicState, nums: seq<int>, n: int, centers: seq<Vec3>)
    requires NumberedBy(st.list.rois, nums) && n == NextNumber(nums, st.firstDigit)
    ensures NumberedBy(AfterCenters(st, n, centers).list.rois, nums + Consecutive(n, |centers|))
  {
    var run := Consecutive(n, |centers|);
    NamesConcat(st.list.rois, NewRois(n, centers));
    PlacedNames(GenericNames(run), centers);
    Seqs.MapAppend(RoiName, nums, run);
    IncreasingRun(nums, n, |centers|);
  }

  /** Adding a list of centres starts with the first one. */
  lemma AddCentersFirst(st: RoiLogicState, centers: seq<Vec3>, st': RoiLogicState)
    requires centers != [] && LogicAddRoi(st, centers[0]) == Partial(st', None)
    ensures AddCenters(st, centers) == AddCenters(st', centers[1..])
  {
  }

  /** Adding the first centre and then the rest ends in the same state as
      adding them all at once. */
  lemma AfterCentersCons(st: RoiLogicState, n: int, centers: seq<Vec3>, st': RoiLogicState)
    requires centers != []
    requires st' == st.(list := st.list.(rois := st.list.rois + [RegionOfInterest(RoiName(n), centers[0])]),
                        active := Some(RoiName(n)))
    ensures AfterCenters(st', n + 1, centers[1..]) == AfterCenters(st, n, centers)
  {
    var after := AfterCenters(st', n + 1, centers[1..]);
    var whole := AfterCenters(st, n, centers);
    NewRoisCons(n, centers);
    Seqs.AppendAssoc(st.list.rois, [RegionOfInterest(RoiName(n), centers[0])], NewRois(n + 1, centers[1..]));
    AfterCentersActive(st, n, centers, st');
  }

  lemma AfterCentersActive(st: RoiLogicState, n: int, centers: seq<Vec3>, st': RoiLogicState)
    requires centers != [] && st'.active == Some(RoiName(n))
    ensures AfterCenters(st', n + 1, centers[1..]).active == AfterCenters(st, n, centers).active
  {
    if |centers| == 1 {
      assert centers[1..] == [];
    } else {
      assert n + 1 + |centers[1..]| - 1 == n + |centers| - 1;
    }
  }

  /** A new mosaic is the centres of the serpentine grid added to an empty
      list named after the time stamp. */
  lemma MosaicFromEmpty(st: RoiLogicState, roiWidth: real, width: nat, height: nat,
                        xc: real, yc: real, z: real, timeName: string)
    ensures var centers := MosaicCenters(SerpentineGrid(width, height), roiWidth, width, height, xc, yc, z);
      AddMosaic(st, roiWidth, width, height, xc, yc, z, false, timeName)
        == AfterCenters(st.(list := RoiList(timeName, []), active := None), Numeric.Trunc(st.firstDigit), centers)
  {
    var st0 := st.(list := RoiList(timeName, []), active := None);
    assert NumberedBy(st0.list.rois, []);
    AddCentersNumbered(st0, [], MosaicCenters(SerpentineGrid(width, height), roiWidth, width, height, xc, yc, z));
  }

  /** A new mosaic replaces the list with width * height ROIs named from the
      starting digit on, placed at the scaled serpentine grid points in scan
      order. */
  lemma NewMosaic(st: RoiLogicState, roiWidth: real, width: nat, height: nat,
                  xc: real, yc: real, z: real, timeName: string, k: nat)
    requires 0 < width && 0 < height && k < width * height
    ensures var r := AddMosaic(st, roiWidth, width, height, xc, yc, z, false, timeName);
      && r.list.name == timeName
      && |r.list.rois| == width * height
      && r.list.rois[k].name == RoiName(Numeric.Trunc(st.firstDigit) + k)
      && r.list.rois[k].position == MosaicCenter(
           GridPoint(if (k / width) % 2 == 0 then k % width else width - 1 - k % width, k / width, 0),
           roiWidth, width, height, xc, yc, z)
  {
    var centers := MosaicCenters(SerpentineGrid(width, height), roiWidth, width, height, xc, yc, z);
    var n0 := Numeric.Trunc(st.firstDigit);
    var r := AddMosaic(st, roiWidth, width, height, xc, yc, z, false, timeName);
    assert r.list == RoiList(timeName, [] + NewRois(n0, centers)) by {
      MosaicFromEmpty(st, roiWidth, width, height, xc, yc, z, timeName);
    }
    Seqs.EmptyAppend(NewRois(n0, centers));
    assert |centers| == width * height && centers[k] == MosaicCenter(
           GridPoint(if (k / width) % 2 == 0 then k % width else width - 1 - k % width, k / width, 0),
           roiWidth, width, height, xc, yc, z) by {
      SerpentineGridPoint(width, height, k);
    }
    NewRoisAt(n0, centers, k);
  }

  /** After a new mosaic the last ROI of the scan is the active one. */
  lemma NewMosaicActive(st: RoiLogicState, roiWidth: real, width: nat, height: nat,
                        xc: real, yc: real, z: real, timeName: string)
    requires 0 < width && 0 < height
    ensures AddMosaic(st, roiWidth, width, height, xc, yc, z, false, timeName).active
      == Some(RoiName(Numeric.Trunc(st.firstDigit) + width * height - 1))
  {
    var centers := MosaicCenters(SerpentineGrid(width, height), roiWidth, width, height, xc, yc, z);
    MosaicFromEmpty(st, roiWidth, width, height, xc, yc, z, timeName);
    var size := width * height;
    assert |centers| == size by {
      SerpentineGridSize(width, height);
    }
    assert size > 0;
  }
}

=== FILE: seqs.dfy ===
/** Generic facts about sequences.  They are stated over arbitrary element
    types, so that proofs using them never look inside the elements. */
module Seqs {
  import Numeric

  /** The image of a sequence under `f`, element by element. */
  function Map<A, B>(f: A -> B, s: seq<A>): (r: seq<B>)
    ensures |r| == |s|
    ensures forall i {:trigger r[i]} :: 0 <= i < |s| ==> r[i] == f(s[i])
  {
    seq(|s|, i requires 0 <= i < |s| => f(s[i]))
  }

  lemma MapAppend<A, B>(f: A -> B, a: seq<A>, b: seq<A>)
    ensures Map(f, a + b) == Map(f, a) + Map(f, b)
  {
    var l := Map(f, a + b);
    var r := Map(f, a) + Map(f, b);
    forall i | 0 <= i < |l| ensures l[i] == r[i] {
      if i < |a| {
        assert (a + b)[i] == a[i];
      } else {
        assert (a + b)[i] == b[i - |a|];
      }
    }
  }

  lemma MapSingle<A, B>(f: A -> B, x: A)
    ensures Map(f, [x]) == [f(x)]
  {
  }

  /** Dropping entry `k` commutes with `Map`. */
  lemma MapDrop<A, B>(f: A -> B, s: seq<A>, k: nat)
    requires k < |s|
    ensures Map(f, s[..k] + s[k + 1..]) == Map(f, s)[..k] + Map(f, s)[k + 1..]
  {
    var t := s[..k] + s[k + 1..];
    var m := Map(f, s);
    forall i | 0 <= i < |t| ensures Map(f, t)[i] == (m[..k] + m[k + 1..])[i] {
      if i < k {
        assert t[i] == s[i];
      } else {
        assert t[i] == s[i + 1];
      }
    }
  }

  lemma AppendAssoc<T>(a: seq<T>, b: seq<T>, c: seq<T>)
    ensures (a + b) + c == a + (b + c)
  {
  }

  lemma AppendEmpty<T>(a: seq<T>, b: seq<T>)
    requires |b| == 0
    ensures a + b == a
  {
  }

  /** The prefix of `a + b` of length `|a|` is `a`. */
  lemma TakeAppend<T>(a: seq<T>, b: seq<T>)
    ensures (a + b)[..|a|] == a
  {
  }

  /** Dropping the last element of `a + b`, for a non-empty `b`, drops it from `b`. */
  lemma DropLastAppend<T>(a: seq<T>, b: seq<T>)
    requires |b| > 0
    ensures (a + b)[..|a + b| - 1] == a + b[..|b| - 1]
  {
  }

  lemma ConsIndex<T>(x: T, s: seq<T>, k: nat)
    requires 0 < k <= |s|
    ensures ([x] + s)[k] == s[k - 1]
  {
  }

  lemma AppendIndex<T>(a: seq<T>, b: seq<T>, i: nat)
    requires i < |a| + |b|
    ensures (a + b)[i] == if i < |a| then a[i] else b[i - |a|]
  {
  }

  lemma EmptyAppend<T>(b: seq<T>)
    ensures [] + b == b
  {
  }

  /** The elements of `s` satisfying `p`, in their original order. */
  function Filter<T>(p: T -> bool, s: seq<T>): (r: seq<T>)
    ensures |r| <= |s|
    ensures forall i {:trigger r[i]} :: 0 <= i < |r| ==> p(r[i])
  {
    if |s| == 0 then [] else (if p(s[0]) then [s[0]] else []) + Filter(p, s[1..])
  }

  lemma {:induction false} FilterAppend<T>(p: T -> bool, a: seq<T>, b: seq<T>)
    ensures Filter(p, a + b) == Filter(p, a) + Filter(p, b)
    decreases |a|
  {
    if |a| == 0 {
      assert a + b == b;
    } else {
      assert (a + b)[0] == a[0];
      assert (a + b)[1..] == a[1..] + b;
      FilterAppend(p, a[1..], b);
      var h: seq<T> := if p(a[0]) then [a[0]] else [];
      AppendAssoc(h, Filter(p, a[1..]), Filter(p, b));
    }
  }

  /** Filtering keeps everything when every element qualifies. */
  lemma {:induction false} FilterAll<T>(p: T -> bool, s: seq<T>)
    requires forall i :: 0 <= i < |s| ==> p(s[i])
    ensures Filter(p, s) == s
    decreases |s|
  {
    if |s| != 0 {
      FilterAll(p, s[1..]);
      assert [s[0]] + s[1..] == s;
    }
  }

  /** Filtering keeps nothing when no element qualifies. */
  lemma {:induction false} FilterNone<T>(p: T -> bool, s: seq<T>)
    requires forall i :: 0 <= i < |s| ==> !p(s[i])
    ensures Filter(p, s) == []
    decreases |s|
  {
    if |s| != 0 {
      FilterNone(p, s[1..]);
    }
  }

  /** `s[a:b]` for non-negative bounds: bounds past the end are clamped, as
      Python and numpy slicing does. */
  function Slice<T>(s: seq<T>, a: nat, b: nat): (r: seq<T>)
    ensures b <= |s| && a <= b ==> r == s[a..b]
    ensures |s| <= a || b <= a ==> |r| == 0
  {
    var hi := if b < |s| then b else |s|;
    if a < hi then s[a..hi] else []
  }

  /** `s[start::step]`: every step-th element from `start` on. */
  function Stride<T>(s: seq<T>, start: nat, step: nat): (r: seq<T>)
    requires step > 0
    ensures forall j {:trigger r[j]} :: 0 <= j < |r| ==> start + j * step < |s| && r[j] == s[start + j * step]
    ensures start + |r| * step >= |s|
    ensures |r| > 0 ==> start + (|r| - 1) * step < |s|
    decreases |s| - start
  {
    if start >= |s| then []
    else
      var rest := Stride(s, start + step, step);
      var r := [s[start]] + rest;
      forall j | 0 <= j < |r| ensures start + j * step < |s| && r[j] == s[start + j * step] {
        if j > 0 {
          Numeric.MulSucc(j - 1, step);
          assert r[j] == rest[j - 1];
        }
      }
      Numeric.MulSucc(|rest|, step);
      r
  }

  /** Every step-th element of `step * count` elements, from an offset below
      `step`, gives exactly `count` elements. */
  lemma StrideLength<T>(s: seq<T>, start: nat, step: nat, count: nat)
    requires step > 0 && start < step && |s| == count * step
    ensures |Stride(s, start, step)| == count
  {
    var r := Stride(s, start, step);
    var n := |r|;
    if count > 0 {
      Numeric.MulSucc(count - 1, step);
      assert (count - 1) * step < n * step;
      Numeric.MulCancelLess(count - 1, n, step);
      Numeric.MulCancelLess(n - 1, count, step);
    }
  }

  /** `s` extended with copies of `x` up to `n` elements, as the lists that
      must have a fixed number of entries are padded. */
  function Pad<T>(s: seq<T>, n: nat, x: T): (r: seq<T>)
    ensures |r| == if |s| < n then n else |s|
    ensures r[..|s|] == s
    ensures forall i {:trigger r[i]} :: |s| <= i < |r| ==> r[i] == x
  {
    s + seq(if |s| < n then n - |s| else 0, _ => x)
  }

  /** The elements of all the pieces, in order. */
  function Concat<T>(ss: seq<seq<T>>): seq<T>
    decreases |ss|
  {
    if |ss| == 0 then [] else ss[0] + Concat(ss[1..])
  }

  /** Two adjacent slices of `s` make up the slice spanning both. */
  lemma SliceJoin<T>(s: seq<T>, a: nat, b: nat, c: nat)
    requires a <= b <= c <= |s|
    ensures s[a..b] + s[b..c] == s[a..c]
  {
  }
  /** The pieces `f` gives for the elements of `xs`, joined in order. */
  function FlatMap<A, B>(f: A -> seq<B>, xs: seq<A>): seq<B>
    decreases |xs|
  {
    if |xs| == 0 then [] else FlatMap(f, xs[..|xs| - 1]) + f(xs[|xs| - 1])
  }

  /** Each element of the joined pieces comes from the piece of some element. */
  lemma {:induction false} FlatMapOrigin<A, B>(f: A -> seq<B>, xs: seq<A>, p: nat) returns (j: nat, c: nat)
    requires p < |FlatMap(f, xs)|
    ensures j < |xs| && c < |f(xs[j])| && FlatMap(f, xs)[p] == f(xs[j])[c]
    decreases |xs|
  {
    var n := |xs|;
    var front := FlatMap(f, xs[..n - 1]);
    AppendIndex(front, f(xs[n - 1]), p);
    if p < |front| {
      j, c := FlatMapOrigin(f, xs[..n - 1], p);
      assert xs[..n - 1][j] == xs[j];
    } else {
      j, c := n - 1, p - |front|;
    }
  }

  /** Each element of each piece is among the joined pieces. */
  lemma {:induction false} FlatMapIndex<A, B>(f: A -> seq<B>, xs: seq<A>, j: nat, c: nat) returns (p: nat)
    requires j < |xs| && c < |f(xs[j])|
    ensures p < |FlatMap(f, xs)| && FlatMap(f, xs)[p] == f(xs[j])[c]
    decreases |xs|
  {
    var n := |xs|;
    var front := FlatMap(f, xs[..n - 1]);
    if j < n - 1 {
      assert xs[..n - 1][j] == xs[j];
      p := FlatMapIndex(f, xs[..n - 1], j, c);
    } else {
      p := |front| + c;
    }
    AppendIndex(front, f(xs[n - 1]), p);
  }
}

=== FILE: shutter.dfy ===
/** The IR security shutter: it may be opened only while the camera is not
    acquiring, and the camera closes it before every acquisition. The DAQ
    line is replaced by the list of levels written to it (1 open, 0
    closed); the half-second wait before an acquisition is left out. */
module LaserShutter {

  /** Whether a shutter is configured, and whether an acquisition runs. */
  datatype Shutter = Shutter(configured: bool, acquisitionRunning: bool)

  /** `close_shutter`: a configured shutter is written 0 once; without a
      shutter nothing is written. Closing never writes the open level. */
  function CloseShutter(s: Shutter): (writes: seq<int>)
    ensures |writes| == if s.configured then 1 else 0
    ensures forall i :: 0 <= i < |writes| ==> writes[i] == 0
  {
    if s.configured then [0] else []
  }

  /** `open_shutter`: a configured shutter opens unless an acquisition runs,
      which aborts; without a shutter nothing happens. The result is the
      levels written and the abort flag. */
  function OpenShutter(s: Shutter): (r: (seq<int>, bool))
    ensures r.0 == [1] <==> s.configured && !s.acquisitionRunning
    ensures r.0 != [1] ==> r.0 == []
    ensures r.1 <==> s.configured && s.acquisitionRunning
  {
    if s.configured && !s.acquisitionRunning then ([1], false)
    else if s.configured && s.acquisitionRunning then ([], true)
    else ([], false)
  }

  /** `camera_security`: before an acquisition the shutter is closed and
      the acquisition marked running; afterwards the mark is cleared. */
  function CameraSecurity(s: Shutter, acquiring: bool): (r: (Shutter, seq<int>))
    ensures r.0.configured == s.configured && r.0.acquisitionRunning == acquiring
    ensures acquiring ==> r.1 == CloseShutter(s)
    ensures !acquiring ==> r.1 == []
  {
    if acquiring then (s.(acquisitionRunning := true), CloseShutter(s))
    else (s.(acquisitionRunning := false), [])
  }

  /** The calls the rest of the program makes on the shutter. */
  datatype Call = Open | Close | Security(acquiring: bool)

  function Step(s: Shutter, c: Call): (Shutter, seq<int>) {
    match c
    case Open => (s, OpenShutter(s).0)
    case Close => (s, CloseShutter(s))
    case Security(acquiring) => CameraSecurity(s, acquiring)
  }

  /** A run of calls: the state afterwards and every level written. */
  function Run(s: Shutter, calls: seq<Call>): (Shutter, seq<int>)
    decreases |calls|
  {
    if |calls| == 0 then (s, [])
    else
      var prior := Run(s, calls[..|calls| - 1]);
      var step := Step(prior.0, calls[|calls| - 1]);
      (step.0, prior.1 + step.1)
  }

  /** The level the shutter was last written, if any. */
  function LastLevel(writes: seq<int>, initial: int): int {
    if |writes| == 0 then initial else writes[|writes| - 1]
  }

  /** Whatever the order of calls, a configured shutter is closed whenever
      an acquisition is running, provided it was closed or no acquisition
      ran at the start. */
  lemma {:induction false} ClosedWhileAcquiring(s: Shutter, calls: seq<Call>, initial: int)
    requires s.configured
    requires s.acquisitionRunning ==> initial == 0
    ensures var r := Run(s, calls);
      r.0.configured && (r.0.acquisitionRunning ==> LastLevel(r.1, initial) == 0)
    decreases |calls|
  {
    if |calls| != 0 {
      var prior := Run(s, calls[..|calls| - 1]);
      ClosedWhileAcquiring(s, calls[..|calls| - 1], initial);
      var step := Step(prior.0, calls[|calls| - 1]);
      assert LastLevel(prior.1 + step.1, initial) == if |step.1| == 0 then LastLevel(prior.1, initial) else step.1[|step.1| - 1];
    }
  }

  /** During an acquisition the shutter cannot be opened: the request
      aborts and writes nothing. */
  lemma NoOpeningDuringAcquisition(s: Shutter)
    requires s.configured
    ensures var secured := CameraSecurity(s, true);
      secured.1 == [0] && OpenShutter(secured.0) == ([], true)
      && OpenShutter(CameraSecurity(secured.0, false).0) == ([1], false)
  {
  }
}

=== FILE: text.dfy ===
/** Python string helpers used to build ROI names, file names and FITS keys:
    `str(int)`, `str.zfill`, `int(str)`, `str.strip` and `str.upper`,
    restricted to the characters the modelled code produces. */
module Text {
  import opened Wrappers
  import Seqs

  predicate IsDigit(c: char) {
    '0' <= c <= '9'
  }

  predicate AllDigits(s: string) {
    forall i :: 0 <= i < |s| ==> IsDigit(s[i])
  }

  function DigitChar(d: nat): (c: char)
    requires d < 10
    ensures IsDigit(c)
  {
    (('0' as int) + d) as char
  }

  function DigitValue(c: char): (d: nat)
    requires IsDigit(c)
    ensures d < 10 && DigitChar(d) == c
  {
    (c as int) - ('0' as int)
  }

  /** `str(n)` for a non-negative integer: the shortest decimal numeral. */
  function NatToString(n: nat): (s: string)
    ensures 1 <= |s| && AllDigits(s)
    ensures s[0] == '0' <==> n == 0
    ensures n < 10 <==> |s| == 1
  {
    if n < 10 then [DigitChar(n)] else NatToString(n / 10) + [DigitChar(n % 10)]
  }

  /** `int(s)` for a string of decimal digits, leading zeros allowed. */
  function DigitsValue(s: string): nat
    requires AllDigits(s)
  {
    if s == [] then 0 else DigitsValue(s[..|s| - 1]) * 10 + DigitValue(s[|s| - 1])
  }

  /** Reading back a decimal numeral gives the number it was written from. */
  lemma {:induction false} DigitsValueOfNatToString(n: nat)
    ensures DigitsValue(NatToString(n)) == n
  {
    var s := NatToString(n);
    if n >= 10 {
      DigitsValueOfNatToString(n / 10);
      assert s[..|s| - 1] == NatToString(n / 10);
    }
  }

  /** `str` is injective on non-negative integers. */
  lemma NatToStringInjective(m: nat, n: nat)
    ensures NatToString(m) == NatToString(n) <==> m == n
  {
    if NatToString(m) == NatToString(n) {
      DigitsValueOfNatToString(m);
      DigitsValueOfNatToString(n);
    }
  }

  /** `k` copies of the character '0'. */
  function Zeros(k: nat): (z: string)
    ensures |z| == k && AllDigits(z)
    ensures forall i :: 0 <= i < k ==> z[i] == '0'
  {
    if k == 0 then [] else Zeros(k - 1) + ['0']
  }

  /** Leading zeros do not change the value of a numeral. */
  lemma {:induction false} DigitsValueLeadingZeros(k: nat, s: string)
    requires AllDigits(s)
    ensures AllDigits(Zeros(k) + s)
    ensures DigitsValue(Zeros(k) + s) == DigitsValue(s)
  {
    var t := Zeros(k) + s;
    assert AllDigits(t);
    if t != [] {
      var init := t[..|t| - 1];
      assert DigitsValue(t) == DigitsValue(init) * 10 + DigitValue(t[|t| - 1]);
      if s == [] {
        Seqs.AppendEmpty(Zeros(k), s);
        Seqs.TakeAppend(Zeros(k - 1), ['0']);
        Seqs.AppendEmpty(Zeros(k - 1), []);
        DigitsValueLeadingZeros(k - 1, []);
        assert DigitsValue(init) == 0 && t[|t| - 1] == '0';
      } else {
        Seqs.DropLastAppend(Zeros(k), s);
        DigitsValueLeadingZeros(k, s[..|s| - 1]);
        assert DigitsValue(init) == DigitsValue(s[..|s| - 1]) && t[|t| - 1] == s[|s| - 1];
      }
    }
  }

  /** Python's `s.zfill(width)`: left-pad with '0' to `width` characters,
      keeping a leading sign in front of the padding. */
  function ZFill(s: string, width: nat): (r: string)
    ensures |r| == if |s| < width then width else |s|
  {
    if |s| >= width then s
    else if |s| > 0 && (s[0] == '-' || s[0] == '+') then [s[0]] + Zeros(width - |s|) + s[1..]
    else Zeros(width - |s|) + s
  }

  /** `str(i)` for any integer. */
  function IntToString(i: int): (s: string)
    ensures 1 <= |s|
    ensures 0 <= i ==> s == NatToString(i)
    ensures i < 0 ==> s == "-" + NatToString(-i)
  {
    if i < 0 then "-" + NatToString(-i) else NatToString(i)
  }

  /** `int(s)` on an optionally signed decimal numeral; `None` where Python
      raises ValueError.  (Surrounding blanks and '_' separators, which Python
      also accepts, are not modelled.) */
  function ParseInt(s: string): (r: Option<int>)
    ensures r.Some? ==> 1 <= |s|
    ensures AllDigits(s) && 1 <= |s| ==> r == Some(DigitsValue(s))
  {
    if |s| > 1 && (s[0] == '-' || s[0] == '+') && AllDigits(s[1..]) then
      var v: int := DigitsValue(s[1..]);
      Some(if s[0] == '-' then -v else v)
    else if |s| > 0 && AllDigits(s) then Some(DigitsValue(s))
    else None
  }

  /** The zero-padded numerals of the model read back as the number they
      encode, whatever the padding width. */
  lemma ParseIntOfZFill(i: int, width: nat)
    ensures ParseInt(ZFill(IntToString(i), width)) == Some(i)
  {
    if i < 0 {
      ParseIntOfZFillNegative(i, width);
    } else {
      var s := NatToString(i);
      DigitsValueOfNatToString(i);
      if |s| < width {
        DigitsValueLeadingZeros(width - |s|, s);
        var t := Zeros(width - |s|) + s;
        assert ZFill(s, width) == t;
        assert IsDigit(t[0]);
      }
    }
  }

  lemma ParseIntOfZFillNegative(i: int, width: nat)
    requires i < 0
    ensures ParseInt(ZFill(IntToString(i), width)) == Some(i)
  {
    var z := ZFillNegativeDigits(i, width);
    ParseIntOfMinusDigits(z);
  }

  /** A padded negative numeral is '-' followed by digits worth `-i`. */
  lemma ZFillNegativeDigits(i: int, width: nat) returns (z: string)
    requires i < 0
    ensures 1 <= |z| && AllDigits(z) && DigitsValue(z) == -i
    ensures ZFill(IntToString(i), width) == "-" + z
  {
    var d := NatToString(-i);
    DigitsValueOfNatToString(-i);
    var s := "-" + d;
    assert s[0] == '-' && s[1..] == d;
    if |s| < width {
      var zeros := Zeros(width - |s|);
      z := zeros + d;
      DigitsValueLeadingZeros(width - |s|, d);
      assert ZFill(s, width) == [s[0]] + zeros + s[1..];
      Seqs.AppendAssoc("-", zeros, d);
    } else {
      z := d;
    }
  }

  lemma ParseIntOfMinusDigits(z: string)
    requires 1 <= |z| && AllDigits(z)
    ensures ParseInt("-" + z) == Some(0 - DigitsValue(z) as int)
  {
    assert ("-" + z)[1..] == z;
  }

  /** Zero-padded numerals of distinct integers are distinct. */
  lemma ZFillIntInjective(i: int, j: int, width: nat)
    ensures ZFill(IntToString(i), width) == ZFill(IntToString(j), width) <==> i == j
  {
    ParseIntOfZFill(i, width);
    ParseIntOfZFill(j, width);
  }

  /** Labels built as a fixed prefix followed by `str(n)` are distinct for
      distinct n. */
  lemma NumberedLabelInjective(prefix: string, m: nat, n: nat)
    ensures prefix + NatToString(m) == prefix + NatToString(n) <==> m == n
  {
    if prefix + NatToString(m) == prefix + NatToString(n) {
      assert (prefix + NatToString(m))[|prefix|..] == NatToString(m);
      assert (prefix + NatToString(n))[|prefix|..] == NatToString(n);
      NatToStringInjective(m, n);
    }
  }

  /** `s.lstrip(chars)`. */
  function StripLeft(s: string, chars: set<char>): (r: string)
    ensures |r| <= |s| && r == s[|s| - |r|..]
    ensures r == [] || r[0] !in chars
    ensures forall i :: 0 <= i < |s| - |r| ==> s[i] in chars
  {
    if |s| > 0 && s[0] in chars then StripLeft(s[1..], chars) else s
  }

  /** `s.rstrip(chars)`. */
  function StripRight(s: string, chars: set<char>): (r: string)
    ensures |r| <= |s| && r == s[..|r|]
    ensures r == [] || r[|r| - 1] !in chars
    ensures forall i :: |r| <= i < |s| ==> s[i] in chars
  {
    if |s| > 0 && s[|s| - 1] in chars then StripRight(s[..|s| - 1], chars) else s
  }

  /** `s.strip(chars)`: removes characters of the set from both ends. */
  function Strip(s: string, chars: set<char>): string {
    StripRight(StripLeft(s, chars), chars)
  }

  /** Stripping a prefix made only of strip characters, from a string whose
      remaining ends are not strip characters, yields the remainder. */
  lemma {:induction false} StripKnownPrefix(p: string, t: string, chars: set<char>)
    requires forall i :: 0 <= i < |p| ==> p[i] in chars
    requires t == [] || (t[0] !in chars && t[|t| - 1] !in chars)
    ensures Strip(p + t, chars) == t
  {
    StripLeftPrefix(p, t, chars);
  }

  lemma {:induction false} StripLeftPrefix(p: string, t: string, chars: set<char>)
    requires forall i :: 0 <= i < |p| ==> p[i] in chars
    requires t == [] || t[0] !in chars
    ensures StripLeft(p + t, chars) == t
  {
    if p != [] {
      assert (p + t)[1..] == p[1..] + t;
      StripLeftPrefix(p[1..], t, chars);
    }
  }

  /** ASCII `str.upper`: lower-case Latin letters become upper case. */
  function UpperChar(c: char): (u: char)
    ensures 'a' <= c <= 'z' ==> u as int == c as int - 32
    ensures !('a' <= c <= 'z') ==> u == c
  {
    if 'a' <= c <= 'z' then (c as int - 32) as char else c
  }

  function Upper(s: string): (r: string)
    ensures |r| == |s|
    ensures forall i :: 0 <= i < |s| ==> r[i] == UpperChar(s[i])
  {
    if s == [] then [] else [UpperChar(s[0])] + Upper(s[1..])
  }

  /** `s.replace(from, to)` for single characters. */
  function ReplaceChar(s: string, from: char, to: char): (r: string)
    ensures |r| == |s|
    ensures forall i :: 0 <= i < |s| ==> r[i] == (if s[i] == from then to else s[i])
  {
    if s == [] then [] else [if s[0] == from then to else s[0]] + ReplaceChar(s[1..], from, to)
  }

  /** `s[:n]`: at most the first `n` characters. */
  function Take(s: string, n: nat): (r: string)
    ensures |r| == if |s| < n then |s| else n
    ensures r == s[..|r|]
  {
    if |s| < n then s else s[..n]
  }

  /** A digit string followed by a non-digit separator is determined by the
      whole string: `a + x == b + y` with both `a`, `b` digits and `x`, `y`
      starting with a non-digit forces `a == b` and `x == y`. */
  lemma DigitsSplitUnique(a: string, x: string, b: string, y: string)
    requires AllDigits(a) && AllDigits(b)
    requires |x| > 0 && !IsDigit(x[0]) && |y| > 0 && !IsDigit(y[0])
    requires a + x == b + y
    ensures a == b && x == y
  {
    if |a| < |b| {
      ShorterDigitsPrefix(a, x, b, y);
    } else if |b| < |a| {
      ShorterDigitsPrefix(b, y, a, x);
    } else {
      assert a == (a + x)[..|a|];
      assert b == (b + y)[..|b|];
      assert x == (a + x)[|a|..];
      assert y == (b + y)[|b|..];
    }
  }

  /** Of two splittings of one string, the shorter digit prefix is followed by a digit. */
  lemma ShorterDigitsPrefix(a: string, x: string, b: string, y: string)
    requires AllDigits(b)
    requires |x| > 0 && |a| < |b|
    requires a + x == b + y
    ensures IsDigit(x[0])
  {
    assert (a + x)[|a|] == x[0];
  }

  /** A zero-padded numeral of a non-negative integer is a non-empty run of
      digits. */
  lemma ZFillNatDigits(n: nat, width: nat)
    ensures 1 <= |ZFill(IntToString(n), width)| && AllDigits(ZFill(IntToString(n), width))
  {
    var s := NatToString(n);
    if |s| < width {
      assert ZFill(s, width) == Zeros(width - |s|) + s;
    }
  }

  /** In names built as head + padded numeral + tail, where the tail starts
      with a non-digit, the numeral and the tail are determined by the name. */
  lemma NumeralFieldUnique(head: string, m: nat, tailM: string, n: nat, tailN: string, width: nat)
    requires |tailM| > 0 && !IsDigit(tailM[0]) && |tailN| > 0 && !IsDigit(tailN[0])
    requires head + ZFill(IntToString(m), width) + tailM == head + ZFill(IntToString(n), width) + tailN
    ensures m == n && tailM == tailN
  {
    var zm := ZFill(IntToString(m), width);
    var zn := ZFill(IntToString(n), width);
    assert (head + zm + tailM)[|head|..] == zm + tailM;
    assert (head + zn + tailN)[|head|..] == zn + tailN;
    ZFillNatDigits(m, width);
    ZFillNatDigits(n, width);
    DigitsSplitUnique(zm, tailM, zn, tailN);
    ZFillIntInjective(m, n, width);
  }

  /** In p + z with z all digits and p ending in a non-digit, the digits
      start right after p. */
  lemma DigitRunStart(u: string, p: string, z: string)
    requires AllDigits(z) && |p| > 0 && !IsDigit(p[|p| - 1])
    requires u == p + z
    ensures forall i :: |p| <= i < |u| ==> IsDigit(u[i])
    ensures !IsDigit(u[|p| - 1])
  {
    assert forall i :: |p| <= i < |u| ==> u[i] == z[i - |p|];
  }

  /** Two splittings of one string, each ending in a run of digits right
      after a non-digit, end in the same run. */
  lemma DigitsSuffixUnique(u: string, p1: string, z1: string, p2: string, z2: string)
    requires AllDigits(z1) && AllDigits(z2)
    requires |p1| > 0 && !IsDigit(p1[|p1| - 1]) && |p2| > 0 && !IsDigit(p2[|p2| - 1])
    requires u == p1 + z1 && u == p2 + z2
    ensures z1 == z2
  {
    DigitRunStart(u, p1, z1);
    DigitRunStart(u, p2, z2);
    assert |p1| == |p2|;
    assert z1 == u[|p1|..];
    assert z2 == u[|p2|..];
  }

  /** A string ending in head + numeral + tail, for one head and tail,
      ends in only one numeral when the head ends in a non-digit. */
  lemma NumeralSuffixUnique(r: string, head: string, m: string, n: string, tail: string)
    requires |head| > 0 && !IsDigit(head[|head| - 1]) && AllDigits(m) && AllDigits(n)
    requires |r| >= |head + m + tail| && r[|r| - |head + m + tail|..] == head + m + tail
    requires |r| >= |head + n + tail| && r[|r| - |head + n + tail|..] == head + n + tail
    ensures m == n
  {
    var u := r[..|r| - |tail|];
    var pm := r[..|r| - |head + m + tail|] + head;
    var pn := r[..|r| - |head + n + tail|] + head;
    assert r == r[..|r| - |head + m + tail|] + (head + m + tail);
    assert r == r[..|r| - |head + n + tail|] + (head + n + tail);
    assert u == pm + m;
    assert u == pn + n;
    DigitsSuffixUnique(u, pm, m, pn, n);
  }

  /** Python's `a in s` on strings: a occurs in s. */
  predicate Substring(a: string, s: string) {
    exists i, j :: 0 <= i <= j <= |s| && s[i..j] == a
  }

  /** Joining a non-empty folder with a relative name puts a separator
      right before the name, and exactly one when the folder does not end
      in one. */
  lemma PathJoinFile(a: string, b: string)
    requires |a| > 0 && |b| > 0 && b[0] != '/'
    ensures |PathJoin(a, b)| > |b| && PathJoin(a, b)[|PathJoin(a, b)| - |b| - 1] == '/'
    ensures PathJoin(a, b)[|PathJoin(a, b)| - |b|..] == b
    ensures a[|a| - 1] != '/' ==> PathJoin(a, b) == a + "/" + b
  {
  }

  /** `os.path.join(a, b)` with the POSIX separator. */
  function PathJoin(a: string, b: string): (r: string)
    ensures |b| > 0 && b[0] == '/' ==> r == b
    ensures |r| >= |b| && r[|r| - |b|..] == b
    ensures |a| > 0 && a[|a| - 1] != '/' && (|b| == 0 || b[0] != '/') ==>
      |r| == |a| + 1 + |b| && r[..|a| + 1] == a + "/"
    ensures |a| > 0 && (|b| == 0 || b[0] != '/') ==> |r| > |b| && r[|r| - |b| - 1] == '/'
  {
    if |b| > 0 && b[0] == '/' then b
    else if |a| == 0 || a[|a| - 1] == '/' then a + b
    else a + "/" + b
  }
}

=== FILE: timelapse.dfy ===
/** Helpers of the timelapse acquisition task: the number of frames of a
    cycle, the cutting of the acquired frames into one block per ROI and
    channel, the writers a block is saved with, the file names and the
    iteration counter. */
module Timelapse {
  import opened Wrappers
  import Seqs
  import Numeric
  import Text

  // ---------------------------------------------------------------------
  // Frames of one cycle
  // ---------------------------------------------------------------------

  /** Planes over the whole imaging sequence, summed from the first channel. */
  function TotalPlanes(planes: seq<nat>): nat
    decreases |planes|
  {
    if |planes| == 0 then 0 else planes[0] + TotalPlanes(planes[1..])
  }

  /** Frames the camera is prepared for: every ROI takes every plane of
      every channel. */
  function FramesPerCycle(rois: nat, planes: seq<nat>): nat {
    rois * TotalPlanes(planes)
  }

  /** The channel loop of one ROI: channel c takes the next planes[c]
      frames. */
  function ChannelBlocks<T>(image: seq<T>, planes: seq<nat>, start: nat): (r: seq<seq<T>>)
    ensures |r| == |planes|
    decreases |planes|
  {
    if |planes| == 0 then []
    else [Seqs.Slice(image, start, start + planes[0])] + ChannelBlocks(image, planes[1..], start + planes[0])
  }

  /** The ROI loop: each ROI runs the channel loop from where the ROI
      before stopped. */
  function RoiBlocks<T>(image: seq<T>, rois: nat, planes: seq<nat>, start: nat): (r: seq<seq<seq<T>>>)
    ensures |r| == rois
    ensures forall k :: 0 <= k < rois ==> |r[k]| == |planes|
    decreases rois
  {
    if rois == 0 then []
    else [ChannelBlocks(image, planes, start)] + RoiBlocks(image, rois - 1, planes, start + TotalPlanes(planes))
  }

  /** The saving step of a cycle: one block per ROI and channel. */
  function SaveTimelapseData<T>(image: seq<T>, rois: nat, planes: seq<nat>): (r: seq<seq<seq<T>>>)
    ensures |r| == rois
  {
    RoiBlocks(image, rois, planes, 0)
  }

  /** The frames of all saved blocks, in saving order. */
  function SavedFrames<T>(r: seq<seq<seq<T>>>): seq<T>
    decreases |r|
  {
    if |r| == 0 then [] else Seqs.Concat(r[0]) + SavedFrames(r[1..])
  }

  /** On enough frames the channel blocks of a ROI are consecutive, channel
      c holds planes[c] frames, and together they are exactly the ROI's
      frames. */
  lemma {:induction false} ChannelBlocksCover<T>(image: seq<T>, planes: seq<nat>, start: nat)
    requires start + TotalPlanes(planes) <= |image|
    ensures forall c :: 0 <= c < |planes| ==> |ChannelBlocks(image, planes, start)[c]| == planes[c]
    ensures Seqs.Concat(ChannelBlocks(image, planes, start)) == image[start..start + TotalPlanes(planes)]
    decreases |planes|
  {
    if |planes| > 0 {
      var p := planes[0];
      var r := ChannelBlocks(image, planes, start);
      var rest := ChannelBlocks(image, planes[1..], start + p);
      ChannelBlocksCover(image, planes[1..], start + p);
      assert Seqs.Slice(image, start, start + p) == image[start..start + p];
      assert r == [image[start..start + p]] + rest;
      assert r[1..] == rest;
      forall c | 0 <= c < |planes|
        ensures |r[c]| == planes[c]
      {
        if c > 0 {
          assert r[c] == rest[c - 1];
        }
      }
      Seqs.SliceJoin(image, start, start + p, start + TotalPlanes(planes));
    }
  }

  /** ROI k runs its channel loop k cycles of TotalPlanes frames after the
      start. */
  lemma {:induction false} RoiBlockAt<T>(image: seq<T>, rois: nat, planes: seq<nat>, start: nat, k: nat)
    requires k < rois
    ensures RoiBlocks(image, rois, planes, start)[k] == ChannelBlocks(image, planes, start + k * TotalPlanes(planes))
    decreases k
  {
    var total := TotalPlanes(planes);
    Numeric.MulMono(k, 0, total);
    if k > 0 {
      Numeric.MulSucc(k - 1, total);
      RoiBlockAt(image, rois - 1, planes, start + total, k - 1);
    }
  }

  /** On enough frames the ROI blocks are consecutive and together are
      exactly the frames from `start` on, one ROI after the other. */
  lemma {:induction false} RoiBlocksCover<T>(image: seq<T>, rois: nat, planes: seq<nat>, start: nat)
    requires start + rois * TotalPlanes(planes) <= |image|
    ensures SavedFrames(RoiBlocks(image, rois, planes, start)) == image[start..start + rois * TotalPlanes(planes)]
    decreases rois
  {
    if rois > 0 {
      var total := TotalPlanes(planes);
      var end := start + rois * total;
      assert start + total + (rois - 1) * total == end && start + total <= end by {
        Numeric.MulSucc(rois - 1, total);
        Numeric.MulMono(rois - 1, 0, total);
      }
      var r := RoiBlocks(image, rois, planes, start);
      var rest := RoiBlocks(image, rois - 1, planes, start + total);
      RoiBlocksCover(image, rois - 1, planes, start + total);
      ChannelBlocksCover(image, planes, start);
      assert r[0] == ChannelBlocks(image, planes, start);
      assert r[1..] == rest;
      JoinFrames(r, image, start, start + total, end);
    } else {
      assert rois * TotalPlanes(planes) == 0;
    }
  }

  /** The frames of the first ROI followed by those of the rest. */
  lemma JoinFrames<T>(r: seq<seq<seq<T>>>, image: seq<T>, a: nat, b: nat, c: nat)
    requires |r| > 0 && a <= b <= c <= |image|
    requires Seqs.Concat(r[0]) == image[a..b] && SavedFrames(r[1..]) == image[b..c]
    ensures SavedFrames(r) == image[a..c]
  {
    Seqs.SliceJoin(image, a, b, c);
  }

  /** On the frames of one cycle, the saved blocks are the whole image
      with nothing left over, in acquisition order, and the block of ROI k
      and channel c holds planes[c] frames. */
  lemma SaveCoversCycle<T>(image: seq<T>, rois: nat, planes: seq<nat>, k: nat, c: nat)
    requires |image| == FramesPerCycle(rois, planes)
    ensures SavedFrames(SaveTimelapseData(image, rois, planes)) == image
    ensures k < rois && c < |planes| ==> |SaveTimelapseData(image, rois, planes)[k][c]| == planes[c]
  {
    RoiBlocksCover(image, rois, planes, 0);
    if k < rois && c < |planes| {
      var total := TotalPlanes(planes);
      RoiBlockAt(image, rois, planes, 0, k);
      Numeric.MulMono(k, 0, total);
      Numeric.MulSucc(k, total);
      Numeric.MulMono(rois, k + 1, total);
      ChannelBlocksCover(image, planes, k * total);
    }
  }

  // ---------------------------------------------------------------------
  // Writers
  // ---------------------------------------------------------------------

  datatype Writer = Fits | Npy | Tiff

  /** The writers called for one block as the saving loop is written: a
      test for 'fits' followed by an independent test for 'npy' whose else
      branch writes tiff. */
  function SaveCallsAsWritten(format: string): (r: seq<Writer>)
    ensures |r| == 2 <==> format == "fits"
    ensures 1 <= |r| <= 2 && r[|r| - 1] != Fits
  {
    (if format == "fits" then [Fits] else []) + (if format == "npy" then [Npy] else [Tiff])
  }

  /** The writers of one block as the formats are meant to be exclusive:
      fits, npy, or tiff as the default. */
  function SaveCalls(format: string): (r: seq<Writer>)
    ensures |r| == 1
    ensures r[0] == Fits <==> format == "fits"
    ensures r[0] == Npy <==> format == "npy"
    ensures r[0] == Tiff <==> format != "fits" && format != "npy"
  {
    if format == "fits" then [Fits] else if format == "npy" then [Npy] else [Tiff]
  }

  /** The two agree on every format except 'fits'. */
  lemma SaveCallsAgree(format: string)
    ensures SaveCallsAsWritten(format) == SaveCalls(format) <==> format != "fits"
  {
    if format == "fits" {
      assert |SaveCallsAsWritten(format)| == 2;
    }
  }

  /** A fits block is also written as tiff, to the same path. */
  lemma FitsAlsoSavedAsTiff()
    ensures SaveCallsAsWritten("fits") == [Fits, Tiff]
    ensures SaveCalls("fits") == [Fits]
  {
  }

  // ---------------------------------------------------------------------
  // get_complete_path
  // ---------------------------------------------------------------------

  /** `TL_{prefix}_roi_{roi:zfill 3}_ch_{channel:zfill 3}_step_{step:zfill 3}.{format}`. */
  function FileName(prefix: string, roi: string, channel: nat, step: nat, format: string): string {
    "TL_" + prefix + "_roi_" + Text.ZFill(roi, 3) + "_ch_" + Text.ZFill(Text.IntToString(channel), 3)
      + "_step_" + Text.ZFill(Text.IntToString(step), 3) + "." + format
  }

  /** The file name inside the data directory. */
  function CompletePath(directory: string, prefix: string, step: nat, roi: string, channel: nat, format: string): (r: string)
    ensures |r| >= |FileName(prefix, roi, channel, step, format)|
    ensures r[|r| - |FileName(prefix, roi, channel, step, format)|..] == FileName(prefix, roi, channel, step, format)
  {
    Text.PathJoin(directory, FileName(prefix, roi, channel, step, format))
  }

  /** The head before the step numeral. */
  function StepTail(step: nat, format: string): string {
    "_step_" + Text.ZFill(Text.IntToString(step), 3) + ("." + format)
  }

  /** The file name as its fields: the ROI head, the channel numeral and
      the step tail. */
  lemma FileNameFields(prefix: string, roi: string, channel: nat, step: nat, format: string)
    ensures FileName(prefix, roi, channel, step, format)
         == ("TL_" + prefix + "_roi_" + Text.ZFill(roi, 3) + "_ch_") + Text.ZFill(Text.IntToString(channel), 3)
            + StepTail(step, format)
  {
  }

  /** Within one ROI, different channels or different steps never share a
      file name. */
  lemma FileNamesDistinct(prefix: string, roi: string, c1: nat, s1: nat, c2: nat, s2: nat, format: string)
    ensures FileName(prefix, roi, c1, s1, format) == FileName(prefix, roi, c2, s2, format) <==> c1 == c2 && s1 == s2
  {
    if FileName(prefix, roi, c1, s1, format) == FileName(prefix, roi, c2, s2, format) {
      var head := "TL_" + prefix + "_roi_" + Text.ZFill(roi, 3) + "_ch_";
      FileNameFields(prefix, roi, c1, s1, format);
      FileNameFields(prefix, roi, c2, s2, format);
      Text.NumeralFieldUnique(head, c1, StepTail(s1, format), c2, StepTail(s2, format), 3);
      Text.NumeralFieldUnique("_step_", s1, "." + format, s2, "." + format, 3);
    }
  }

  // ---------------------------------------------------------------------
  // Iterations
  // ---------------------------------------------------------------------

  /** End of `runTaskStep`: the counter moves on, and the task goes on
      while it is below the number of iterations. */
  function RunStep(counter: nat, iterations: int): (r: (nat, bool))
    ensures r.0 == counter + 1
  {
    (counter + 1, counter + 1 < iterations)
  }

  /** The guard at the top of `runTaskStep`: a step runs only when the
      autofocus was initialised and no abort has been seen yet.  The abort
      is first seen by the step whose counter is `abortSeenAt`, and the
      flag stays set from then on. */
  predicate PassesGuard(counter: nat, autofocusOk: bool, abortSeenAt: Option<nat>) {
    autofocusOk && (abortSeenAt.None? || counter < abortSeenAt.value)
  }

  /** Cycles run from a counter value on: a step stopped by the guard runs
      nothing, and every other step decides whether another one follows. */
  function CyclesFrom(counter: nat, iterations: int, autofocusOk: bool, abortSeenAt: Option<nat>): nat
    decreases if iterations > counter then iterations - counter else 0
  {
    if !PassesGuard(counter, autofocusOk, abortSeenAt) then 0
    else
      var (next, more) := RunStep(counter, iterations);
      if more then 1 + CyclesFrom(next, iterations, autofocusOk, abortSeenAt) else 1
  }

  /** From counter on, the task runs up to the number of iterations, and
      always at least the step already started; the guard stops the run at
      once, and an abort cuts it to the steps before the one that sees it. */
  lemma {:induction false} CyclesFromCount(counter: nat, iterations: int, autofocusOk: bool, abortSeenAt: Option<nat>)
    ensures CyclesFrom(counter, iterations, autofocusOk, abortSeenAt)
         == var planned := if counter + 1 < iterations then iterations - counter else 1;
            if !PassesGuard(counter, autofocusOk, abortSeenAt) then 0
            else if abortSeenAt.None? then planned
            else Numeric.MinInt(planned, abortSeenAt.value - counter)
    decreases if iterations > counter then iterations - counter else 0
  {
    if PassesGuard(counter, autofocusOk, abortSeenAt) && counter + 1 < iterations {
      CyclesFromCount(counter + 1, iterations, autofocusOk, abortSeenAt);
    }
  }

  /** A task started with counter 0 runs `num_iterations` cycles (one when
      that number is below 1), none when the autofocus was not initialised,
      and only the cycles before the one that sees an abort. */
  lemma CyclesRun(iterations: int, autofocusOk: bool, abortSeenAt: Option<nat>)
    ensures !autofocusOk ==> CyclesFrom(0, iterations, autofocusOk, abortSeenAt) == 0
    ensures autofocusOk && abortSeenAt.None? ==>
      CyclesFrom(0, iterations, autofocusOk, abortSeenAt) == if iterations >= 1 then iterations else 1
    ensures autofocusOk && abortSeenAt.Some? ==>
      CyclesFrom(0, iterations, autofocusOk, abortSeenAt)
      == Numeric.MinInt(if iterations >= 1 then iterations else 1, abortSeenAt.value)
  {
    CyclesFromCount(0, iterations, autofocusOk, abortSeenAt);
  }
}

=== FILE: valves.dfy ===
/** The valve positioners of the fluidics: the Hamilton MVP daisychain,
    which turns each valve the shorter way round, and the dummy that keeps
    the positions in a dictionary. The serial link is left out: a position
    the Hamilton reports is a parameter and a command is returned as the
    text that would be written. */
module Valves {
  import opened Wrappers
  import opened Assoc
  import Text
  import Numeric

  /** The configured valves: the first `numValves` entries of the three
      lists, in daisychain order. */
  datatype ValveConfig = ValveConfig(numValves: nat, ids: seq<string>, names: seq<string>, outputs: seq<int>)

  /** An entry of the valve dictionary. */
  datatype ValveEntry = ValveEntry(id: string, name: string, numberOutputs: int)

  /** The configuration lists cover the number of valves. */
  predicate Covers(cfg: ValveConfig) {
    cfg.numValves <= |cfg.ids| && cfg.numValves <= |cfg.names| && cfg.numValves <= |cfg.outputs|
  }

  /** The entries in configuration order. */
  function ValveEntries(cfg: ValveConfig): (r: seq<(string, ValveEntry)>)
    requires Covers(cfg)
    ensures |r| == cfg.numValves
    ensures forall i {:trigger r[i]} :: 0 <= i < cfg.numValves ==>
      r[i] == (cfg.ids[i], ValveEntry(cfg.ids[i], cfg.names[i], cfg.outputs[i]))
  {
    seq(cfg.numValves, i requires 0 <= i < cfg.numValves =>
      (cfg.ids[i], ValveEntry(cfg.ids[i], cfg.names[i], cfg.outputs[i])))
  }

  /** `get_valve_dict`: keyed by daisychain ID, with the name and number of
      outputs of the valve; a list shorter than the number of valves raises
      IndexError. */
  function GetValveDict(cfg: ValveConfig): (r: Result<seq<(string, ValveEntry)>>)
    ensures r.Err? <==> !Covers(cfg)
    ensures r.Err? ==> r.error == IndexError
  {
    if !Covers(cfg) then Err(IndexError) else Ok(SetAll([], ValveEntries(cfg)))
  }

  /** The dictionary holds exactly the configured IDs. */
  lemma GetValveDictKeys(cfg: ValveConfig, id: string)
    requires Covers(cfg)
    ensures Get(GetValveDict(cfg).value, id).Some? <==> id in cfg.ids[..cfg.numValves]
  {
    var es := ValveEntries(cfg);
    GetSetAll([], es, id);
    assert Keys(es) == cfg.ids[..cfg.numValves];
  }

  /** The dictionary holds exactly the configured IDs, each with the entry
      of a valve of that ID (the last one when IDs repeat, the only one
      when they are distinct). */
  lemma GetValveDictReads(cfg: ValveConfig, id: string) returns (i: nat)
    requires Covers(cfg)
    ensures var d := GetValveDict(cfg).value;
      && (Get(d, id).Some? <==> id in cfg.ids[..cfg.numValves])
      && (Get(d, id).Some? ==>
            i < cfg.numValves && cfg.ids[i] == id
            && Get(d, id).value == ValveEntry(id, cfg.names[i], cfg.outputs[i]))
  {
    var es := ValveEntries(cfg);
    GetSetAll([], es, id);
    GetValveDictKeys(cfg, id);
    assert Keys(es) == cfg.ids[..cfg.numValves];
    if id in Keys(es) {
      i := GetLastEntry(es, id);
    } else {
      i := 0;
    }
  }

  /** The valve dictionary reads entry i when the IDs are distinct. */
  lemma GetValveDictDistinct(cfg: ValveConfig, i: nat)
    requires Covers(cfg) && i < cfg.numValves
    requires forall j, k :: 0 <= j < k < cfg.numValves ==> cfg.ids[j] != cfg.ids[k]
    ensures Get(GetValveDict(cfg).value, cfg.ids[i]) == Some(ValveEntry(cfg.ids[i], cfg.names[i], cfg.outputs[i]))
  {
    var es := ValveEntries(cfg);
    assert DistinctKeys(es);
    assert Keys(es)[i] == es[i].0;
    GetSetAll([], es, cfg.ids[i]);
    GetLastDistinct(es, i);
  }

  /** The number of outputs of a known valve, as `set_valve_position` looks
      it up: IndexError from the dictionary, KeyError for an ID beyond the
      number of valves. */
  function MaxPosition(cfg: ValveConfig, address: string): (r: Result<int>)
    ensures r.Err? <==> !Covers(cfg) || address !in cfg.ids[..cfg.numValves]
  {
    var d :- GetValveDict(cfg);
    GetValveDictKeys(cfg, address);
    match Get(d, address)
    case None => Err(KeyError)
    case Some(e) => Ok(e.numberOutputs)
  }

  // ---------------------------------------------------------------------
  // Hamilton MVP
  // ---------------------------------------------------------------------

  /** The turning-direction condition of `set_valve_position`: backwards
      for a short step down or a long step up (`max_pos / 2` is true
      division). */
  predicate TurnBackwards(start: int, target: int, maxPos: int) {
    (start > target && 2 * Numeric.AbsInt(target - start) < maxPos)
    || (start < target && 2 * Numeric.AbsInt(target - start) > maxPos)
  }

  /** The command moving `address` to `target`: 'LP1' turns one way, 'LP0'
      the other; the command is executed ('R') and terminated by a carriage
      return. */
  function MoveCommand(address: string, target: int, backwards: bool): (c: string)
    ensures |c| >= |address| + 5 && c[..|address|] == address
    ensures c[|address|..|address| + 3] == if backwards then "LP1" else "LP0"
    ensures c[|c| - 2] == 'R' && c[|c| - 1] == 13 as char
  {
    address + (if backwards then "LP1" else "LP0") + Text.IntToString(target) + "R\r"
  }

  /** `set_valve_position` of the Hamilton valve: an unknown address or a
      target above the number of outputs sends nothing; otherwise the move
      command with the direction from the position read at `start`. */
  function HamiltonSetPosition(cfg: ValveConfig, address: string, target: int, start: int): (r: Result<Option<string>>)
    ensures address !in cfg.ids ==> r == Ok(None)
    ensures address in cfg.ids && MaxPosition(cfg, address).Err? ==> r.Err?
    ensures address in cfg.ids && MaxPosition(cfg, address).Ok? ==>
      && r.Ok?
      && (r.value.Some? <==> target <= MaxPosition(cfg, address).value)
      && (r.value.Some? ==>
            r.value.value == MoveCommand(address, target, TurnBackwards(start, target, MaxPosition(cfg, address).value)))
  {
    if address !in cfg.ids then Ok(None)
    else
      var maxPos :- MaxPosition(cfg, address);
      if target > maxPos then Ok(None)
      else Ok(Some(MoveCommand(address, target, TurnBackwards(start, target, maxPos))))
  }

  /** On a valve with positions 1..n placed round a circle, 'LP1' is sent
      exactly when going backwards from start to target is the shorter way
      (strictly less than half a turn); the backward distance is the
      difference taken round the circle. */
  lemma TurnBackwardsIsShorter(start: int, target: int, maxPos: int)
    requires 1 <= start <= maxPos && 1 <= target <= maxPos
    ensures TurnBackwards(start, target, maxPos) <==>
      var back := if target <= start then start - target else start - target + maxPos;
      0 < back && 2 * back < maxPos
  {
  }

  // ---------------------------------------------------------------------
  // Dummy valve
  // ---------------------------------------------------------------------

  /** `set_valve_position` of the dummy: the target is stored for a known
      address whose number of outputs it does not exceed. */
  function DummySetPosition(cfg: ValveConfig, positions: seq<(string, int)>, address: string, target: int)
    : (r: Result<seq<(string, int)>>)
    ensures address !in cfg.ids ==> r == Ok(positions)
    ensures address in cfg.ids ==> (r.Err? <==> MaxPosition(cfg, address).Err?)
    ensures r.Ok? && address in cfg.ids && target <= MaxPosition(cfg, address).value ==>
      r.value == Set(positions, address, target)
    ensures r.Ok? && address in cfg.ids && target > MaxPosition(cfg, address).value ==> r.value == positions
  {
    if address !in cfg.ids then Ok(positions)
    else
      var maxPos :- MaxPosition(cfg, address);
      if target > maxPos then Ok(positions) else Ok(Set(positions, address, target))
  }

  /** `get_valve_position` of the dummy: None for an unknown address,
      KeyError for a known one never set. */
  function DummyGetPosition(cfg: ValveConfig, positions: seq<(string, int)>, address: string): (r: Result<Option<int>>)
    ensures address !in cfg.ids ==> r == Ok(None)
    ensures address in cfg.ids ==> (r.Err? <==> Get(positions, address).None?)
    ensures address in cfg.ids && r.Ok? ==> r.value == Get(positions, address)
  {
    if address !in cfg.ids then Ok(None)
    else match Get(positions, address)
      case None => Err(KeyError)
      case Some(p) => Ok(Some(p))
  }

  /** The dummy reads back the last position it stored. */
  lemma DummyReadsLastSet(cfg: ValveConfig, positions: seq<(string, int)>, address: string, target: int)
    requires Covers(cfg) && address in cfg.ids[..cfg.numValves]
    requires target <= MaxPosition(cfg, address).value
    ensures var after := DummySetPosition(cfg, positions, address, target);
      after.Ok? && DummyGetPosition(cfg, after.value, address) == Ok(Some(target))
  {
    assert address in cfg.ids;
    GetSet(positions, address, target, address);
  }

  /** The initial position of every valve. */
  const InitPosition := 1

  /** `on_activate` of the dummy from valve i on: each valve is set to the
      initial position, in daisychain order. */
  function DummyActivateFrom(cfg: ValveConfig, positions: seq<(string, int)>, i: nat): (r: Result<seq<(string, int)>>)
    decreases if i < cfg.numValves then cfg.numValves - i else 0
  {
    if i >= cfg.numValves then Ok(positions)
    else if i >= |cfg.ids| then Err(IndexError)
    else
      var next :- DummySetPosition(cfg, positions, cfg.ids[i], InitPosition);
      DummyActivateFrom(cfg, next, i + 1)
  }

  /** `on_activate` of the dummy. */
  function DummyActivate(cfg: ValveConfig): Result<seq<(string, int)>> {
    DummyActivateFrom(cfg, [], 0)
  }

  /** With every valve having at least one output, activation succeeds and
      puts every valve at position 1. */
  lemma {:induction false} DummyActivateFromReads(cfg: ValveConfig, positions: seq<(string, int)>, i: nat, k: nat)
    requires Covers(cfg) && i <= cfg.numValves
    requires forall j :: 0 <= j < cfg.numValves ==> cfg.outputs[j] >= InitPosition
    requires forall j :: 0 <= j < i ==> Get(positions, cfg.ids[j]) == Some(InitPosition)
    requires k < cfg.numValves
    ensures DummyActivateFrom(cfg, positions, i).Ok?
    ensures Get(DummyActivateFrom(cfg, positions, i).value, cfg.ids[k]) == Some(InitPosition)
    decreases cfg.numValves - i
  {
    if i < cfg.numValves {
      var id := cfg.ids[i];
      assert id in cfg.ids[..cfg.numValves] by { assert cfg.ids[..cfg.numValves][i] == id; }
      var m := GetValveDictReads(cfg, id);
      var next := Set(positions, id, InitPosition);
      assert DummySetPosition(cfg, positions, id, InitPosition) == Ok(next);
      forall j | 0 <= j < i + 1
        ensures Get(next, cfg.ids[j]) == Some(InitPosition)
      {
        GetSet(positions, id, InitPosition, cfg.ids[j]);
      }
      DummyActivateFromReads(cfg, next, i + 1, k);
    }
  }

  /** After activation every configured valve reads position 1. */
  lemma DummyActivateReads(cfg: ValveConfig, k: nat)
    requires Covers(cfg) && k < cfg.numValves
    requires forall j :: 0 <= j < cfg.numValves ==> cfg.outputs[j] >= InitPosition
    ensures DummyActivate(cfg).Ok?
    ensures Get(DummyActivate(cfg).value, cfg.ids[k]) == Some(InitPosition)
  {
    DummyActivateFromReads(cfg, [], 0, k);
  }

  /** `get_status` of the dummy: every valve reports 'Y' (idle). */
  function DummyStatus(ids: seq<string>): (r: seq<(string, string)>)
    ensures forall k :: Get(r, k) == if k in ids then Some("Y") else None
  {
    var es := seq(|ids|, i requires 0 <= i < |ids| => (ids[i], "Y"));
    assert Keys(es) == ids;
    forall k
      ensures Get(SetAll([], es), k) == if k in ids then Some("Y") else None
    {
      GetSetAll([], es, k);
      if k in ids {
        var i := GetLastEntry(es, k);
      }
    }
    SetAll([], es)
  }
}

=== FILE: wheels.dfy ===
/** The filter wheels: the Thorlabs fast wheel, which maps each position
    to a motor angle and reads the position back from the rounded angle,
    and the dummy wheel, which stores the position. Both build the same
    filter dictionary. The motor is replaced by the angle it is sent to
    and the angle it reports. */
module FilterWheels {
  import opened Wrappers
  import opened Assoc
  import Text
  import Numeric

  // ---------------------------------------------------------------------
  // Thorlabs fast filter wheel
  // ---------------------------------------------------------------------

  /** The motor angle of position i + 1 on a wheel of n filters: `-360/n * i`
      with true division. */
  function Angle(n: nat, i: nat): real
    requires 0 < n
  {
    -(360.0 / n as real) * i as real
  }

  /** The assignments of `init_position_dict`, in loop order. */
  function PositionEntries(n: nat): (r: seq<(int, real)>)
    ensures |r| == n
    ensures forall i {:trigger r[i]} :: 0 <= i < n ==> r[i] == (i + 1, Angle(n, i))
  {
    seq(n, i requires 0 <= i < n => (i + 1, Angle(n, i)))
  }

  /** Position p of 1..n is found at the angle of p - 1, and no other key
      is present. */
  lemma PositionEntriesReads(n: nat, p: int)
    ensures Get(PositionEntries(n), p) == if 1 <= p <= n then Some(Angle(n, p - 1)) else None
  {
    var es := PositionEntries(n);
    GetSome(es, p);
    if 1 <= p <= n {
      DistinctGet(es, p - 1);
    } else {
      assert p !in Keys(es) by {
        assert forall i :: 0 <= i < n ==> Keys(es)[i] == i + 1;
      }
    }
  }

  /** `init_position_dict`: the positions 1..n in order, position p at the
      angle of p - 1. */
  function InitPositionDict(n: nat): (r: seq<(int, real)>)
    ensures |r| == n
    ensures forall i {:trigger r[i]} :: 0 <= i < n ==> r[i] == (i + 1, Angle(n, i))
    ensures forall p :: Get(r, p) == if 1 <= p <= n then Some(Angle(n, p - 1)) else None
  {
    var es := PositionEntries(n);
    SetAllDistinct(es);
    forall p
      ensures Get(es, p) == if 1 <= p <= n then Some(Angle(n, p - 1)) else None
    {
      PositionEntriesReads(n, p);
    }
    SetAll([], es)
  }

  /** The inverse dictionary `dict([(value, key) for key, value in items])`
      as its list of assignments. */
  function Swapped(d: seq<(int, real)>): (r: seq<(real, int)>)
    ensures |r| == |d|
    ensures forall i {:trigger r[i]} :: 0 <= i < |d| ==> r[i] == (d[i].1, d[i].0)
  {
    seq(|d|, i requires 0 <= i < |d| => (d[i].1, d[i].0))
  }

  /** The inverse dictionary holds a key at an angle exactly when some
      entry has that angle, and then the key of such an entry. */
  lemma SwappedReads(d: seq<(int, real)>, angle: real)
    ensures var found := Get(SetAll([], Swapped(d)), angle);
      && (found.Some? <==> exists i :: 0 <= i < |d| && d[i].1 == angle)
      && (found.Some? ==> exists i :: 0 <= i < |d| && d[i] == (found.value, angle))
  {
    var es := Swapped(d);
    GetSetAll([], es, angle);
    assert forall i :: 0 <= i < |es| ==> Keys(es)[i] == d[i].1;
    if angle in Keys(es) {
      var j := GetLastEntry(es, angle);
      assert d[j] == (GetLast(es, angle).value, angle);
    }
  }

  /** `get_position`: the position whose angle equals the motor angle
      rounded to a whole degree, or 0 when there is none. */
  function GetPosition(positionDict: seq<(int, real)>, motorAngle: real): (r: int)
    ensures r != 0 ==> exists i :: 0 <= i < |positionDict| && positionDict[i] == (r, Numeric.RoundHalfEven(motorAngle) as real)
    ensures (forall i :: 0 <= i < |positionDict| ==> positionDict[i].0 != 0) ==>
      (r == 0 <==> forall i :: 0 <= i < |positionDict| ==> positionDict[i].1 != Numeric.RoundHalfEven(motorAngle) as real)
  {
    var rounded := Numeric.RoundHalfEven(motorAngle) as real;
    SwappedReads(positionDict, rounded);
    match Get(SetAll([], Swapped(positionDict)), rounded)
    case None => 0
    case Some(p) => p
  }

  /** On the wheel's own dictionary the position read is 0 exactly when the
      rounded angle is none of the positions' angles, and otherwise a
      position in 1..n at that angle. */
  lemma GetPositionOfWheel(n: nat, motorAngle: real)
    ensures var r := GetPosition(InitPositionDict(n), motorAngle);
      var rounded := Numeric.RoundHalfEven(motorAngle) as real;
      && (r == 0 <==> forall i :: 0 <= i < n ==> Angle(n, i) != rounded)
      && (r != 0 ==> 1 <= r <= n && Angle(n, r - 1) == rounded)
  {
    var d := InitPositionDict(n);
    var rounded := Numeric.RoundHalfEven(motorAngle) as real;
    var r := GetPosition(d, motorAngle);
    assert forall i :: 0 <= i < |d| ==> d[i].0 != 0;
    if r == 0 {
      forall i | 0 <= i < n ensures Angle(n, i) != rounded {
        assert d[i].1 == Angle(n, i);
      }
    } else {
      var i :| 0 <= i < |d| && d[i] == (r, rounded);
      assert r == i + 1 && Angle(n, i) == rounded;
    }
  }

  /** Distinct positions sit at distinct angles. */
  lemma AngleInjective(n: nat, i: nat, j: nat)
    requires 0 < n
    ensures Angle(n, i) == Angle(n, j) <==> i == j
  {
    var c := 360.0 / n as real;
    assert 0.0 < c;
    if i < j {
      assert c * i as real < c * j as real;
    } else if j < i {
      assert c * j as real < c * i as real;
    }
  }

  /** When n divides 360 every angle is a whole number of degrees, so a
      motor standing at the angle of a position reads that position back. */
  lemma GetPositionAtAngle(n: nat, p: int)
    requires 0 < n && 360 % n == 0 && 1 <= p <= n
    ensures GetPosition(InitPositionDict(n), Angle(n, p - 1)) == p
  {
    var k := 360 / n;
    assert k * n == 360;
    assert 360.0 / n as real == k as real by {
      assert (k as real) * (n as real) == 360.0;
    }
    var a := Angle(n, p - 1);
    assert a == (-(k * (p - 1))) as real;
    Numeric.RoundHalfEvenOfInt(-(k * (p - 1)));
    GetPositionOfWheel(n, a);
    var r := GetPosition(InitPositionDict(n), a);
    AngleInjective(n, r - 1, p - 1);
  }

  /** `set_position` of the Thorlabs wheel as written: every target below
      n + 1 is looked up in the position dictionary, so a target of 0 or
      less raises KeyError instead of returning the error code. The result
      is the error code and the angle the motor is sent to. */
  function SetPositionAsWritten(positionDict: seq<(int, real)>, n: nat, target: int): (r: Result<(int, Option<real>)>)
    ensures target >= n + 1 ==> r == Ok((-1, None))
    ensures target < n + 1 ==> (r.Err? <==> Get(positionDict, target).None?)
    ensures target < n + 1 && r.Ok? ==> r.value == (0, Get(positionDict, target))
  {
    if target < n + 1 then
      match Get(positionDict, target)
      case None => Err(KeyError)
      case Some(angle) => Ok((0, Some(angle)))
    else Ok((-1, None))
  }

  /** The guard lets a target of 0 through to the dictionary, which has no
      such key. */
  lemma SetPositionAsWrittenZero(n: nat)
    ensures SetPositionAsWritten(InitPositionDict(n), n, 0) == Err(KeyError)
  {
  }

  /** `set_position` with the range 1..n the error code announces: a target
      outside it returns -1 without moving. */
  function SetPosition(positionDict: seq<(int, real)>, n: nat, target: int): (r: Result<(int, Option<real>)>)
    ensures !(1 <= target <= n) ==> r == Ok((-1, None))
    ensures 1 <= target <= n ==> (r.Err? <==> Get(positionDict, target).None?)
    ensures 1 <= target <= n && r.Ok? ==> r.value == (0, Get(positionDict, target))
  {
    if 1 <= target <= n then SetPositionAsWritten(positionDict, n, target) else Ok((-1, None))
  }

  /** On the wheel's own dictionary the corrected `set_position` never
      raises: a position of 1..n moves to its angle and returns 0, anything
      else returns -1. It agrees with the code as written on every target
      from 1 up. */
  lemma SetPositionOfWheel(n: nat, target: int)
    ensures SetPosition(InitPositionDict(n), n, target)
         == if 1 <= target <= n then Ok((0, Some(Angle(n, target - 1)))) else Ok((-1, None))
    ensures 1 <= target ==> SetPosition(InitPositionDict(n), n, target) == SetPositionAsWritten(InitPositionDict(n), n, target)
  {
  }

  /** Setting a position and reading the motor angle back gives the
      position again, when n divides 360. */
  lemma SetThenGetPosition(n: nat, target: int)
    requires 0 < n && 360 % n == 0 && 1 <= target <= n
    ensures var r := SetPosition(InitPositionDict(n), n, target);
      r.Ok? && r.value.0 == 0 && r.value.1.Some?
      && GetPosition(InitPositionDict(n), r.value.1.value) == target
  {
    SetPositionOfWheel(n, target);
    GetPositionAtAngle(n, target);
  }

  // ---------------------------------------------------------------------
  // Dummy filter wheel
  // ---------------------------------------------------------------------

  /** `set_position` of the dummy: a target in 1..n is stored and returns 0;
      any other keeps the position and returns -1. The result is the
      position afterwards and the error code. */
  function DummySetPosition(position: int, n: int, target: int): (r: (int, int))
    ensures r.1 == 0 || r.1 == -1
    ensures r.1 == 0 <==> 1 <= target <= n
    ensures r.0 == if r.1 == 0 then target else position
  {
    if 1 <= target < n + 1 then (target, 0) else (position, -1)
  }

  /** The dummy and the corrected Thorlabs wheel return the same error code
      for every target. */
  lemma WheelsAgree(position: int, n: nat, target: int)
    ensures SetPosition(InitPositionDict(n), n, target).Ok?
    ensures SetPosition(InitPositionDict(n), n, target).value.0 == DummySetPosition(position, n, target).1
  {
    SetPositionOfWheel(n, target);
  }

  // ---------------------------------------------------------------------
  // Filter dictionary
  // ---------------------------------------------------------------------

  /** An entry of the filter dictionary. */
  datatype Filter = Filter(tag: string, name: string, position: int, lasers: seq<bool>)

  /** The label of the i-th filter, counted from 'filter1'. */
  function FilterLabel(i: nat): string {
    "filter" + Text.NatToString(i + 1)
  }

  /** The assignments of `get_filter_dict`, one per filter name. */
  function FilterEntries(names: seq<string>, positions: seq<int>, lasers: seq<seq<bool>>): (r: seq<(string, Filter)>)
    requires |names| <= |positions| && |names| <= |lasers|
    ensures |r| == |names|
    ensures forall i {:trigger r[i]} :: 0 <= i < |names| ==>
      r[i] == (FilterLabel(i), Filter(FilterLabel(i), names[i], positions[i], lasers[i]))
  {
    seq(|names|, i requires 0 <= i < |names| =>
      (FilterLabel(i), Filter(FilterLabel(i), names[i], positions[i], lasers[i])))
  }

  /** `get_filter_dict` of either wheel: one entry per filter name, labelled
      from 'filter1', with the position and laser list of the same index;
      shorter position or laser lists raise IndexError. */
  function GetFilterDict(names: seq<string>, positions: seq<int>, lasers: seq<seq<bool>>): (r: Result<seq<(string, Filter)>>)
    ensures r.Err? <==> |positions| < |names| || |lasers| < |names|
    ensures r.Err? ==> r.error == IndexError
    ensures r.Ok? ==> |r.value| == |names|
    ensures r.Ok? ==> forall i {:trigger r.value[i]} :: 0 <= i < |names| ==>
      r.value[i] == (FilterLabel(i), Filter(FilterLabel(i), names[i], positions[i], lasers[i]))
  {
    if |positions| < |names| || |lasers| < |names| then Err(IndexError)
    else
      var es := FilterEntries(names, positions, lasers);
      forall i, j | 0 <= i < j < |es| ensures es[i].0 != es[j].0 {
        Text.NumberedLabelInjective("filter", i + 1, j + 1);
      }
      SetAllDistinct(es);
      Ok(SetAll([], es))
  }

  /** Looking up 'filter{p}' gives the p-th configured filter, for exactly
      the positions 1..number of names. */
  lemma GetFilterDictReads(names: seq<string>, positions: seq<int>, lasers: seq<seq<bool>>, p: nat)
    requires |names| <= |positions| && |names| <= |lasers|
    ensures Get(GetFilterDict(names, positions, lasers).value, "filter" + Text.NatToString(p))
         == if 1 <= p <= |names| then Some(Filter(FilterLabel(p - 1), names[p - 1], positions[p - 1], lasers[p - 1])) else None
  {
    var d := GetFilterDict(names, positions, lasers).value;
    var key := "filter" + Text.NatToString(p);
    GetSome(d, key);
    forall i | 0 <= i < |d| ensures Keys(d)[i] == key <==> i + 1 == p {
      Text.NumberedLabelInjective("filter", i + 1, p);
    }
    if 1 <= p <= |names| {
      assert DistinctKeys(d) by {
        forall i, j | 0 <= i < j < |d| ensures d[i].0 != d[j].0 {
          Text.NumberedLabelInjective("filter", i + 1, j + 1);
        }
      }
      DistinctGet(d, p - 1);
    } else {
      assert key !in Keys(d);
    }
  }
}

=== FILE: wrappers.dfy ===
/** Failure-compatible result types shared by every module of the model.

    The Python code signals failures either by raising an exception or by
    returning a sentinel (`None`, `-1`, `False`).  Exceptions are modelled by
    `Result` carrying the Python exception class that would be raised;
    sentinels are kept as the plain values the source returns.
 */
module Wrappers {

  /** `None` or a value, as Python's optional values. */
  datatype Option<+T> = None | Some(value: T) {

    /** The value, or `default` when there is none. */
    function GetOr(default: T): T {
      match this
      case Some(v) => v
      case None => default
    }
  }

  /** The Python exception classes raised by the modelled code. */
  datatype PyError =
    | TypeError
    | KeyError
    | ValueError
    | IndexError
    | AttributeError
    | RegexError    // `re.error`, raised when a pattern does not compile
    | ZeroDivisionError

  /** The value an operation returns, or the exception it raises. */
  datatype Result<+R> = Ok(value: R) | Err(error: PyError) {

    predicate IsFailure() {
      Err?
    }

    function PropagateFailure<U>(): Result<U>
      requires Err?
    {
      Err(error)
    }

    function Extract(): R
      requires Ok?
    {
      value
    }
  }

  /** The effects an operation made, and the exception that ended it, if
      any: what Python did before raising stays done. */
  datatype Partial<+T> = Partial(done: T, raised: Option<PyError>)
}

=== FILE: zstack.dfy ===
/** The z-stack arithmetic shared by the acquisition tasks: where a stack
    starts so that the focal plane is central, and positions reached by
    adding axial steps one after another. */
module ZStack {

  /** `calculate_start_position`: a centered stack starts half the planes
      below the current position (the focal plane is the middle plane for
      an odd count and the first plane of the upper half for an even count);
      otherwise the stack starts at the current position. */
  function StartPosition(current: real, planes: int, step: real, centered: bool): (r: real)
    ensures !centered ==> r == current
    ensures centered ==> r + (planes / 2) as real * step == current
  {
    if !centered then current
    else if planes % 2 == 0 then
      assert planes == 2 * (planes / 2);
      current - planes as real / 2.0 * step
    else
      assert planes - 1 == 2 * (planes / 2);
      assert (planes - 1) as real / 2.0 == (planes / 2) as real;
      current - (planes - 1) as real / 2.0 * step
  }

  /** `calculate_start_position` of the Hubble and timelapse tasks: the
      position of the first plane and the position to return to afterwards. */
  function StartAndReturn(current: real, centered: bool, planes: int, step: real): (r: (real, real))
    ensures r.1 == current
    ensures !centered ==> r.0 == current
    ensures centered ==> r.0 + (planes / 2) as real * step == current
  {
    (StartPosition(current, planes, step, centered), current)
  }

  /** Plane `i` of a stack starting at `start`. */
  function Plane(start: real, step: real, i: int): real {
    start + i as real * step
  }

  /** In a centered stack the current position is the plane with index
      planes / 2; as many planes lie below it as above it for an odd count,
      and one more below than above for an even count. */
  lemma CenteredStack(current: real, planes: nat, step: real)
    requires planes >= 1
    ensures var focal := planes / 2;
      && Plane(StartPosition(current, planes, step, true), step, focal) == current
      && 0 <= focal < planes
      && var below := focal;
         var above := planes - 1 - focal;
         (planes % 2 == 1 ==> below == above) && (planes % 2 == 0 ==> below == above + 1)
  {
  }

  /** Sum of a sequence of reals, accumulated from the front as `sum` does. */
  function Sum(s: seq<real>): real
    decreases |s|
  {
    if |s| == 0 then 0.0 else Sum(s[..|s| - 1]) + s[|s| - 1]
  }

  /** Positions reached from `start` by the given steps: the first is
      `start`, each next one adds the step at the same index. */
  function Positions(start: real, steps: seq<real>): (z: seq<real>)
    ensures |z| == |steps| + 1 && z[0] == start
    ensures forall i :: 0 <= i < |steps| ==> z[i + 1] == z[i] + steps[i]
    decreases |steps|
  {
    if |steps| == 0 then [start]
    else
      var prev := Positions(start, steps[..|steps| - 1]);
      assert forall i :: 0 <= i < |steps| - 1 ==> steps[..|steps| - 1][i] == steps[i];
      prev + [prev[|steps| - 1] + steps[|steps| - 1]]
  }

  /** The position after i steps is the start plus the sum of those steps. */
  lemma {:induction false} PositionsAreSums(start: real, steps: seq<real>, i: nat)
    requires i <= |steps|
    ensures Positions(start, steps)[i] == start + Sum(steps[..i])
    decreases i
  {
    if i > 0 {
      PositionsAreSums(start, steps, i - 1);
      assert steps[..i][..i - 1] == steps[..i - 1];
    }
  }
}
